=== FILE: README.md ===
# Timetable planning model and its validation engine

A Dafny model of the core of the Tellurian timetable importers:

- the timetable domain model: stations, station tracks, station calls, trains, timetables, track stretches, stretch passings, timetable stretches, layouts, train parts, vehicle schedules, driver duties and schedules;
- the diagnostic types `Maybe`, `Message` and `ImportResult`;
- the validation engine: `GetValidationErrors` on a schedule, on a timetable and on a train, with `ValidationOptions`;
- the pure helpers the spreadsheet importer uses to read cell text: train number and category, the case-insensitive string tests, the call search in its three versions, the track lookup, blank-row detection and the worksheet configuration.

## How the source is represented

- **The object graph is an arena.** Stations, tracks, calls and trains hold back references (a call knows its train and track, a track its station, a station its layout). Here they all live in one `Graph.World` and refer to each other by index.
  - An index is the object's identity, playing the part of a C# reference.
  - `Equals` is the key equality each class defines, mostly case-insensitive.
  - Constructors and `Add` methods are functions that return the updated world.
- **Well-formedness has three levels.**
  - `Valid`: every index is in range.
  - `Placed`: also, every track has been added to a station.
  - `Built`: every call has also been added to a train.
  Each operation requires the level whose references it follows. Where the source would follow a null back reference and throw `NullReferenceException` (a call not yet added to a train, a track not yet added to a station), the model requires the higher level instead of modelling the exception; the members concerned are listed under "Left out".
- **Exceptions become results.** A thrown exception is `Results.Throws(fault)`, where the fault names the .NET exception type; `null` is `Results.None`.
- **Time** is a whole number of minutes.
  - `CompareTo` casts the minute difference to `int`; this is modelled as saturating.
  - Its lifted operators are spelled out case by case, including the null cases.
- **Distances and speeds are `real`.** The speed ratio is exact rather than a double.
- **Text comparison.** Case-insensitive comparison is one function, `Text.EqIgnoreCase`. It folds ASCII and Latin-1 letters.
- **Message wording is abstract.** Resource texts are `Resources.Format(key, args)`, the key followed by the argument texts, and the engine's findings are a `Findings.Finding` datatype of message kind and arguments.
- **The validation engine is kept as written**, except for the null references listed under "Left out". In particular:
  - every message has severity Information;
  - the track reference and time sequence checks run whatever the options say;
  - the station track occupancy test cannot fire for calls that arrive no later than they depart;
  - the speed loop stops before the last leg;
  - a train with a single call passes the time sequence check;
  - a negative track count on a stretch makes the stretch check index out of range, unless the 32-bit loop bound `passings.Length - me.TracksCount` wraps round, in which case the loop does not run;
  - `.Distinct()` on the stretch messages drops only messages that are the same value, because it looks them up by the case-sensitive `GetHashCode`;
  - two stretches between the stations of a checked leg make the speed check throw from `SingleOrDefault`.

  The engine's results carry these two faults.
- **Duplicated helpers.** The string and guard helpers exist in two libraries: `Importers.Model/Model/Extensions.cs` and `Models.Planning/Model/Extensions.cs`. Their definitions agree, and the `Text` and `Guards` modules model both. The rows below cite the first.

## Model

| member | source | states |
|---|---|---|
| Text.EqIgnoreCaseIsEquivalence | Importers.Model/Model/Extensions.cs:18 | ordinal case-insensitive equality is reflexive, symmetric and transitive, and only relates strings of the same length |
| Text.EqIgnoreCaseIgnoresAsciiCase | Importers.Model/Model/Extensions.cs:18 | "Sth" and "STH" are equal ignoring case although they differ, so the relation is coarser than `==` |
| Text.HasTextWitness | Importers.Model/Model/Extensions.cs:8 | a text has text exactly when it is non-null and holds a character that is not white space; "" and blanks have none |
| Text.TextOrEmpty | Importers.Model/Model/Extensions.cs:10 | a text with text is returned as it is; null, empty and blank all give "" |
| Text.TextOrDefault | Importers.Model/Model/Extensions.cs:12-13 | a text with text is returned as it is; otherwise the default is returned |
| Text.TextOrException | Importers.Model/Model/Extensions.cs:15-16 | succeeds exactly when the text has text, returning it; otherwise throws ArgumentNullException |
| Text.EqualsIgnoreCaseProperties | Importers.Model/Model/Extensions.cs:18 | the nullable comparison is symmetric, is false whenever either side is null, and on two texts is case-insensitive equality |
| Text.Join | Importers.Model/Model/Maybe.cs:14 | `string.Join` lays the parts end to end with the separator between each two |
| Text.Split | Models.Planning/Model/Time.cs:58 | at least one piece, and no piece holds the separator |
| Text.SplitJoinRoundTrip | Models.Planning/Model/Time.cs:58 | joining the pieces with the separator gives the string back |
| Text.Int32TryParse | Importers.Xpln/Importers/Extensions/StringExtensions.cs:72 | a value exactly when the text is non-null and parses, and then the parsed value |
| Text.SeparatedAt | Importers.Model/Model/Maybe.cs:14 | in the joined layout part i is piece 2i and every piece between two parts is the separator |
| Guards.ValueOrException | Importers.Model/Model/Extensions.cs:24-25 | a non-null value is returned unchanged; null throws ArgumentNullException |
| Guards.IfNotEqualsThrow | Importers.Model/Model/Extensions.cs:30-33 | passes exactly when the first value is non-null and equals the second; otherwise throws ArgumentOutOfRangeException |
| Guards.IfTrueThrows | Importers.Model/Model/Extensions.cs:38-39 | passes exactly when the condition is false; otherwise throws ArgumentOutOfRangeException |
| Seqs.FilterAppend | Importers.Model/Model/ValidationExtensions.cs:66 | `Where` keeps the order: filtering two sequences laid end to end gives the two filtered sequences laid end to end |
| Seqs.FlattenConcatenates | Importers.Model/Model/Layout.cs:33 | `SelectMany` lays the inner sequences end to end: each one sits, unchanged, right after the ones before it, and nothing else is added |
| Seqs.DistinctKeepsFirstOccurrences | Importers.Model/Model/ValidationExtensions.cs:60 | for a reflexive equality, `Distinct` keeps exactly the elements that are equal to no element kept before them, in order, and every element is equal to a kept one |
| Seqs.Dedup | Importers.Model/Model/ValidationExtensions.cs:27 | `Distinct` with the default equality: each value once, at its first occurrence, in order |
| Times.FromDayHourMinute | Models.Planning/Model/Time.cs:15 | the time is d days, h hours and m minutes: (24·d + h)·60 + m minutes |
| Times.FromHourAndMinute | Models.Planning/Model/Time.cs:14 | equals FromDayHourMinute(0, h, m); for an hour 0-23 and a minute 0-59 the hour and minute components give them back |
| Times.Hours | Models.Planning/Model/Time.cs:50 | the hours component lies strictly between -24 and 24 and has the sign of the span |
| Times.MinutePart | Models.Planning/Model/Time.cs:49 | the minutes component lies strictly between -60 and 60 and has the sign of the span |
| Times.Decompose | Models.Planning/Model/Time.cs:15 | the days, hours and minutes components of any time rebuild that time through FromDayHourMinute |
| Times.SaturateInt32 | Models.Planning/Model/Time.cs:32 | the `(int)` cast of the minute difference stays in the 32-bit range, is the identity inside it, and keeps sign and zero |
| Times.CompareTo | Models.Planning/Model/Time.cs:32 | a null argument gives int.MinValue; otherwise the result is negative, zero or positive as the time is earlier, equal or later |
| Times.OperatorsFollowOrder | Models.Planning/Model/Time.cs:34-39 | with both operands present, each of the six operators agrees with the order of the minute counts |
| Times.OperatorsOnNull | Models.Planning/Model/Time.cs:34-39 | a null right operand makes `<` and `<=` true and `>`, `>=` and `==` false; a null left operand makes every operator false except `!=` |
| Times.EqualsAndHashAgree | Models.Planning/Model/Time.cs:41-43 | equal times hash equally, and Equals coincides with `==` on present times and with identity of the span |
| Times.Subtract | Models.Planning/Model/Time.cs:51 | the signed difference: adding the subtrahend back gives the minuend |
| Times.AddMinutes | Models.Planning/Model/Time.cs:52 | AddMinutes(t, m) minus t is exactly m minutes |
| Times.AddDays | Models.Planning/Model/Time.cs:53 | adding d days adds d·1440 minutes, and keeps the hour and minute components when the sign of the span is unchanged |
| Times.ArithmeticRoundTrips | Models.Planning/Model/Time.cs:51-52 | Subtract is antisymmetric; adding then subtracting the same minutes, or adding a difference, gives back the time |
| Times.HHMM | Models.Planning/Model/Time.cs:49 | five characters "hh:mm" whose two digit fields are the size of the hours and minutes components |
| Times.ParseDays | Models.Planning/Model/Time.cs:55-66 | null or blank throws ArgumentNullException; without ':' the decimal-days parse is used; with ':' the two first pieces are parsed as hours and minutes |
| Times.HHMMRoundTrip | Models.Planning/Model/Time.cs:55-66 | a time of day printed with HHMM parses back to the same time |
| Times.HHMMExamples | Models.Planning/Model/Time.cs:49 | 7:05 prints as "07:05", and one day and twelve hours prints as "12:00" (days dropped) |
| Maybes.NoValue | Importers.Model/Model/Maybe.cs:10 | `Maybe.None` holds no value and carries the generic no-value text |
| Maybes.NoneWithReason | Importers.Model/Model/Maybe.cs:11 | no value, and the message is the reason given |
| Maybes.FromValue | Importers.Model/Model/Maybe.cs:12 | has a value exactly when the argument is non-null; the message is empty |
| Maybes.FromValueAndMessage | Importers.Model/Model/Maybe.cs:16 | keeps both the (possibly null) value and the message as given |
| Maybes.FromMessages | Importers.Model/Model/Maybe.cs:14 | no value; the message is the messages laid end to end with ", " between each two: one message is kept as it is and no messages give "" |
| Maybes.FromThreeMessages | Importers.Model/Model/Maybe.cs:14 | the messages "a", "b" and "c" give "a, b, c" |
| Maybes.FromValues | Importers.Model/Model/Maybe.cs:18 | has a value exactly when the sequence is non-null and non-empty, and then it is the FIRST element with an empty message; otherwise the message is kept |
| Maybes.Value | Importers.Model/Model/Maybe.cs:21 | returns the stored value when there is one; otherwise throws InvalidOperationException |
| Maybes.EqualsProperties | Importers.Model/Model/Maybe.cs:26-28 | an empty Maybe equals nothing, not even itself; two values are equal as the value type says, and equal Maybes hash alike |
| Maybes.ToString | Importers.Model/Model/Maybe.cs:33-34 | the value's text when there is a value, otherwise the message |
| Messages.Ord | Importers.Model/Model/Message.cs:31-38 | the enum's underlying values: None is 0, Information 1, Warning 2, Error 3 and System 4, and no other value occurs |
| Messages.SeverityOrder | Importers.Model/Model/Message.cs:31-38 | None(0) < Information < Warning < Error < System(4), and the underlying value identifies the severity |
| Messages.Information | Importers.Model/Model/Message.cs:7-8 | keeps the text; severity 1 |
| Messages.Warning | Importers.Model/Model/Message.cs:9-11 | keeps the text; severity 2 |
| Messages.Error | Importers.Model/Model/Message.cs:12-13 | keeps the text; severity 3 |
| Messages.SystemMessage | Importers.Model/Model/Message.cs:14 | keeps the text; severity 4 |
| Messages.Copy | Importers.Model/Model/Message.cs:15 | keeps the text; severity 0 (None) |
| Messages.HashAsWrittenDisagreesWithEquals | Importers.Model/Model/Message.cs:26-28 | "Sth" and "STH" messages are Equal, yet the hash is combined from the two different texts |
| Messages.HashAgreesWithEquals | Importers.Model/Model/Message.cs:26-28 | two messages are equal exactly when their severities and case-folded texts agree, so a hash of those would agree with Equals |
| Messages.ToString | Importers.Model/Model/Message.cs:22-24 | severity None gives the bare text; any other gives the severity's name, ": " and the text |
| Messages.StoppingErrorPredicates | Importers.Model/Model/Message.cs:42-43 | a list below Error has no stopping errors by both predicates; a list with one Error and one Information satisfies both HasStoppingErrors and HasNoStoppingErrors |
| Messages.ContainsProperties | Importers.Model/Model/Message.cs:44 | an empty list contains nothing, and every non-empty list contains "" |
| ImportResults.Success | Importers.Interfaces/Importers.Interfaces/ImportResult.cs:8-14 | a success that is not a failure, holding exactly the items and messages given |
| ImportResults.SuccessItem | Importers.Interfaces/Importers.Interfaces/ImportResult.cs:9 | a success without messages whose Item is the item |
| ImportResults.SuccessItemWithMessage | Importers.Interfaces/Importers.Interfaces/ImportResult.cs:10 | a success with the one item and the one message |
| ImportResults.Failure | Importers.Interfaces/Importers.Interfaces/ImportResult.cs:15-16 | a failure with no items and the messages given; its Item throws InvalidOperationException |
| ImportResults.SuccessIfNoMessagesOtherwiseFailure | Importers.Interfaces/Importers.Interfaces/ImportResult.cs:17 | no items; a success exactly when there are no messages |
| ImportResults.Item | Importers.Interfaces/Importers.Interfaces/ImportResult.cs:26 | the first item when there is one; otherwise InvalidOperationException |
| Graph.StationOf | Models.Planning/Model/StationCall.cs:15 | a call's station is the station of its track |
| Graph.TrainOf | Models.Planning/Model/StationCall.cs:12 | in a built world the train a call was added to exists and is the call's train |
| Graph.HashCodesAgreeWithEquals | Importers.Model/Model/Station.cs:31-32 | station equality holds exactly when the case-insensitive signature hashes agree, train equality exactly when the number and external-id hashes agree, and equal tracks, calls and stretches hash alike |
| Graph.CallEqualsNeedsTrain | Models.Planning/Model/StationCall.cs:34-39 | a call without a train equals no call, not even itself; with a train it equals itself; equality is symmetric |
| Graph.StretchEqualityIsDirectional | Importers.Model/Model/TrackStretch.cs:51-53 | a stretch between differently signed stations does not equal its reverse, although both hash alike |
| Stations.NewStation | Importers.Model/Model/Station.cs:19-25 | succeeds exactly when name and signature both have text, else ArgumentNullException; the new station has '_' replaced by ' ' in the name, no tracks and no layout, and nothing else changes |
| Stations.NewTrack | Models.Planning/Model/StationTrack.cs:16-22 | a new track with the given number and flags, in no station and without calls |
| Stations.NewDefaultTrack | Models.Planning/Model/StationTrack.cs:14 | the same as the three-argument constructor with both flags true |
| Stations.EqualTracksPrintAlike | Models.Planning/Model/StationTrack.cs:50-52 | two tracks are equal exactly when their texts are equal ignoring case and their stations are equal |
| Stations.AddTrack | Importers.Model/Model/Station.cs:51-58 | the track's station becomes this station and the track is appended to the station's tracks; nothing else changes |
| Stations.AddTrackHasNoDuplicateCheck | Importers.Model/Model/Station.cs:51-58 | adding the same track twice lists it twice |
| Stations.Indexer | Importers.Model/Model/Station.cs:30 | the single track whose number matches exactly; InvalidOperationException both when none and when several do |
| Stations.TrackOf | Importers.Model/Model/Station.cs:44-46 | throws exactly when two tracks have the number; otherwise has a value exactly when a track matches exactly, the one the indexer finds, and always carries the "no track number" text |
| Stations.Calls | Importers.Model/Model/Station.cs:42-43 | the calls of the station's tracks laid end to end, track by track in track order, each track's calls in their own order; a call is listed exactly when it is in one of the tracks |
| Stations.CallTrains | Importers.Model/Model/Station.cs:39-40 | the train (or null) of each call, position by position in the order the station lists its calls |
| Stations.Trains | Importers.Model/Model/Station.cs:39-40 | each call's train kept at its first occurrence in call order and dropped when equal to a train kept before it: every listed train is a call's train, every call's train is listed or equal to a listed one, and no two listed trains are equal |
| Layouts.AddStation | Importers.Model/Model/Layout.cs:35-45 | unless an equal station (same signature ignoring case) is there, the station is appended and its layout set to this one; afterwards the layout has the station, and adding an equal station changes nothing |
| Layouts.StationNamed | Importers.Model/Model/Layout.cs:29-31 | throws InvalidOperationException exactly when two stations match the text by signature or name ignoring case; otherwise has a value exactly when one station matches, that station, with the "no station with that name or signature" text |
| Layouts.TracksOfStations | Importers.Model/Model/Layout.cs:33 | one entry per station, holding that station's tracks |
| Layouts.StationTracks | Importers.Model/Model/Layout.cs:33 | the tracks of the layout's stations laid end to end, station by station in station order; a track is listed exactly when it belongs to one of the stations |
| Layouts.HasTrackOfStation | Importers.Model/Model/Layout.cs:25 | every track of every station of the layout is a track the layout has |
| Layouts.RoundHalfEven | Importers.Model/Model/TrackStretch.cs:10 | `Math.Round(x, 0)` is within one half of x, and a tie goes to the even integer |
| Layouts.NewTrackStretch | Importers.Model/Model/TrackStretch.cs:12-22 | succeeds exactly when the start has a layout and the end is in the same layout, keeping every argument and the start's layout; a start without a layout gives NullReferenceException, an end elsewhere ArgumentOutOfRangeException |
| Layouts.NewTrackStretchWithDefaults | Importers.Model/Model/TrackStretch.cs:10-11 | fails exactly as the full constructor does; on success the stretch joins the given start and end in the start's layout, keeps the distance and track count, runs at speed 100, and its time is the distance rounded to the nearest minute with ties to the even one |
| Layouts.AddStretch | Importers.Model/Model/Layout.cs:47-56 | appended unless an equal stretch is there; afterwards the layout has it, and adding it again changes nothing |
| Layouts.AddStretchBetweenNames | Importers.Model/Model/Layout.cs:58-65 | each name must match exactly one station of the layout (InvalidOperationException otherwise, the from-name first); when both do, a stretch the constructor accepts joins the two matches with the default speed, is added and returned, and a constructor fault is passed on unchanged |
| Layouts.AddStretchBetweenStations | Importers.Model/Model/Layout.cs:92-99 | with both stations found by name or signature, a stretch the constructor accepts is added and returned as the value, and a constructor fault is passed on unchanged; with either missing nothing changes, no value is returned and the message is "From <from> to <to>", each side the station found or its not-found text |
| Layouts.StretchBetween | Importers.Model/Model/Layout.cs:101-105 | no layout finds nothing; otherwise throws exactly when two stretches join the stations in either direction, and has a value exactly when one does, that stretch, always with the "more than one stretch" text |
| Layouts.StretchBetweenIsSymmetric | Importers.Model/Model/Layout.cs:101-105 | swapping the two stations finds the same stretch, or throws just the same |
| Layouts.Between | Importers.Model/Model/Layout.cs:116-121 | exactly the layout's stretches whose start matches the first text and whose end matches the second, by name or signature ignoring case |
| Layouts.StretchBetweenNames | Importers.Model/Model/Layout.cs:107-114 | throws exactly when the two directions together give two or more stretches; otherwise no value exactly when no stretch runs either way, and a found stretch runs between the texts |
| Layouts.StretchBetweenNamesIsSymmetric | Importers.Model/Model/Layout.cs:107-114 | swapping the two texts finds the same stretch, or throws just the same |
| Layouts.TimetableStretchNumbered | Importers.Model/Model/Layout.cs:72-76 | throws exactly when two timetable stretches have the number ignoring case; otherwise has a value exactly when one has it, with an empty message |
| Layouts.AddTimetableStretch | Importers.Model/Model/Layout.cs:77-87 | appended unless one with the same number ignoring case is there; afterwards the layout has the number, and adding again changes nothing |
| Calls.NewCall | Models.Planning/Model/StationCall.cs:25-32 | the new call is the next call of the world, with the given track and times, neither arrival nor departure, and without a train; it is appended to its track's calls and nothing else changes |
| Calls.NewCallIsAlwaysAppended | Models.Planning/Model/StationCall.cs:25-32 | a new call is listed on its track after every call already there and equals no call, because its train is not yet set when the track checks for duplicates |
| Calls.SortTime | Models.Planning/Model/StationCall.cs:23 | the sort time is one of the call's two times |
| Calls.CompareTo | Models.Planning/Model/StationCall.cs:46-47 | a null other gives 1; otherwise the sign of the result is the order of the two sort times |
| Calls.OperatorsAsWrittenMisorder | Models.Planning/Model/StationCall.cs:49-52 | for sort times 10:00 and 10:05 the written `<` and `>` are both false, `<=` is false and `>=` true |
| Calls.OperatorsFollowSortTime | Models.Planning/Model/StationCall.cs:46-52 | the corrected operators order calls by sort time, `<` is the converse of `>`, and a null operand is handled as the lifted comparison does |
| Calls.OperatorsAsWrittenVersusIntended | Models.Planning/Model/StationCall.cs:49-52 | as written, `<=` is the intended `>=` and `>=` the intended `<=`; `<` holds only for sort times exactly one minute apart |
| Trains.NewTrain | Models.Planning/Model/Train.cs:16-32 | succeeds exactly when the number, and an external id if given, have text (ArgumentNullException otherwise); the new train is appended with an empty category, no calls, and an empty external id when none is given |
| Trains.CallAt | Models.Planning/Model/Train.cs:45 | the call at the index for an index inside the calls, ArgumentOutOfRangeException otherwise |
| Trains.TrainTextSplits | Models.Planning/Model/Train.cs:57 | the text is category, space, number: split at the space it gives both back when neither holds a space |
| Trains.AddCall | Models.Planning/Model/Train.cs:66-76 | unless an equal call is already in the train, the call's train becomes this train and the call is appended; otherwise nothing changes |
| Trains.AddCallAppendsNewCall | Models.Planning/Model/Train.cs:66-76 | a call not yet in any train equals none of the train's calls, so it is appended; afterwards the train has it and adding it again changes nothing |
| Trains.TrainLayout | Models.Planning/Model/Train.cs:47 | the layout of the first call's station; a train without calls throws ArgumentOutOfRangeException |
| Trains.TrainTracks | Models.Planning/Model/Train.cs:46 | the tracks of the calls in order of arrival, each kept at its first occurrence and dropped when equal to a track kept before it; every call's track is listed or equal to a listed one, and no two listed tracks are equal |
| Trains.ByArrival | Models.Planning/Model/Train.cs:46 | the same calls, each as often as given, ordered by arrival |
| Trains.TrackEqualsReflexive | Models.Planning/Model/StationTrack.cs:50 | once every track is at a station, every track equals itself, so `Distinct` keeps each track's first occurrence |
| Trains.WithFixedFirstAndLastCall | Models.Planning/Model/Train.cs:78-83 | throws InvalidOperationException for a train without calls; otherwise the first call is no arrival and the last no departure, no call becomes a stop, and every other call and entity is unchanged |
| Trains.RemoveFirst | Models.Planning/Model/Train.cs:89 | `List.Remove`: the first matching element is removed and the others keep their order; without a match the list is unchanged |
| Trains.WithFixedSingleCallTrain | Models.Planning/Model/Train.cs:84-97 | a train with one call gets two new calls on that track, one at the old arrival and one at the old departure, both belonging to the train; the old call leaves the track; any other train is left as it is |
| Trains.WithFixedSingleCallTrainIsIdempotent | Models.Planning/Model/Train.cs:84-97 | repairing a repaired train changes nothing |
| Timetables.Add | Models.Planning/Model/Timetable.cs:37-47 | the train is appended unless an equal train (number and external id ignoring case) is there; afterwards the timetable has it, and name and layout are kept |
| Timetables.NewTimetableFacts | Models.Planning/Model/Timetable.cs:14-21 | a new timetable prints as its name, holds no train so no external id is found in it, and lists its layout's stations |
| Timetables.StationsOfTimetable | Models.Planning/Model/Timetable.cs:31-32 | a null timetable has no stations; a timetable lists its layout's stations, and adding a train does not change them |
| Timetables.AddIsIdempotent | Models.Planning/Model/Timetable.cs:37-47 | adding the same train twice is adding it once |
| Timetables.TrainByExternalId | Models.Planning/Model/Timetable.cs:34-35 | has a value exactly when a train's external id equals the text exactly, and then it is the first such train; otherwise the "Train with external id '…' not found." message |
| Timetables.FilterFindsFirst | Models.Planning/Model/Timetable.cs:34-35 | the first element a `Where` keeps is the first element accepted |
| Timetables.Arrivals | Models.Planning/Model/Timetable.cs:27 | the arrival of each of the train's calls, in call order |
| Timetables.ExtremeAsWritten | Models.Planning/Model/Timetable.cs:26-29 | `Min`/`Max` over `Time` values as written succeed only on exactly one element; no elements throw InvalidOperationException and two or more ArgumentException |
| Timetables.HoursAsWrittenNeedOneCall | Models.Planning/Model/Timetable.cs:26-29 | as written, StartHour and EndHour succeed exactly for a null timetable or one train with one call; two trains of one call each, or a first train with two calls, throw ArgumentException |
| Timetables.Earliest | Models.Planning/Model/Timetable.cs:27 | one of the times, and no later than any of them |
| Timetables.Latest | Models.Planning/Model/Timetable.cs:29 | one of the times, and no earlier than any of them |
| Timetables.TrainExtremes | Models.Planning/Model/Timetable.cs:27-29 | per train, one of its arrivals that is the earliest (or the latest) of them |
| Timetables.EarliestArrival | Models.Planning/Model/Timetable.cs:27 | succeeds exactly when there are trains and all have calls (InvalidOperationException otherwise), giving an arrival of some call no later than any call's arrival |
| Timetables.LatestArrival | Models.Planning/Model/Timetable.cs:29 | succeeds exactly when there are trains and all have calls, giving an arrival of some call no earlier than any call's arrival |
| Timetables.ExtremeIsArrival | Models.Planning/Model/Timetable.cs:27-29 | an extreme chosen among the per-train extremes is the arrival of some call |
| Timetables.StartHour | Models.Planning/Model/Timetable.cs:26-27 | corrected: 0 for a null timetable; otherwise succeeds exactly when there are trains and all have calls, and is the hours of the earliest arrival |
| Timetables.EndHour | Models.Planning/Model/Timetable.cs:28-29 | corrected: 24 for a null timetable; otherwise succeeds exactly when there are trains and all have calls, and is one more than the hours of the latest arrival |
| Timetables.HoursAsWrittenVersusIntended | Models.Planning/Model/Timetable.cs:26-29 | where the code as written gives an hour it is the corrected one; with two trains that have calls the code throws ArgumentException while the corrected hours exist |
| TimetableStretches.NewTimetableStretch | Models.Planning/Model/TimetableStretch.cs:18-28 | succeeds exactly when the number has text (ArgumentNullException otherwise), keeping number and description, with no track stretches |
| TimetableStretches.Starts | Models.Planning/Model/TimetableStretch.cs:53-54 | the start of the first stretch; InvalidOperationException exactly when there is no stretch |
| TimetableStretches.Ends | Models.Planning/Model/TimetableStretch.cs:56-57 | the end of the last stretch; InvalidOperationException exactly when there is no stretch |
| TimetableStretches.Stations | Models.Planning/Model/TimetableStretch.cs:37 | one station more than there are stretches: each stretch's start, then the end; the first is Starts and the last is Ends; no stretch throws InvalidOperationException |
| TimetableStretches.AddLast | Models.Planning/Model/TimetableStretch.cs:67-75 | the stretch is appended and becomes the route's end, while the start is kept (or is the stretch's start for the first one) |
| TimetableStretches.GetDescription | Models.Planning/Model/TimetableStretch.cs:49 | a description with text is returned; otherwise "start - end" by station names; a route without stretches throws InvalidOperationException even with a description |
| TimetableStretches.ToString | Models.Planning/Model/TimetableStretch.cs:42 | "number: description", failing exactly when the description does |
| TimetableStretches.GetStation | Models.Planning/Model/TimetableStretch.cs:51-52 | throws InvalidOperationException exactly when there is no stretch or two of the route's stations equal the station; otherwise has a value exactly when one does, that station |
| TimetableStretches.DistanceToStationAsWritten | Models.Planning/Model/TimetableStretch.cs:59-65 | as written: throws exactly when GetStation does, and is null exactly when the station is not on the route |
| TimetableStretches.DistanceToStation | Models.Planning/Model/TimetableStretch.cs:59-65 | corrected: throws and is null exactly as the written one; otherwise the summed distance of the stretches before a place of the route holding the station |
| TimetableStretches.FindsStationOnRoute | Models.Planning/Model/TimetableStretch.cs:51-52 | on a connected route without repeated stations, the station at place k is found, and first at place k |
| TimetableStretches.DistanceAtPlace | Models.Planning/Model/TimetableStretch.cs:59-65 | on such a route the corrected distance to the station at place k is the length of the first k stretches |
| TimetableStretches.DistanceAlongRoute | Models.Planning/Model/TimetableStretch.cs:59-65 | on such a route the corrected distance to the station after stretch k is the length of the first k stretches plus stretch k's own distance |
| TimetableStretches.DistanceAtEnds | Models.Planning/Model/TimetableStretch.cs:59-65 | on such a route the start lies at 0 and the end at the route's whole length |
| TimetableStretches.SumDistancesOfPrefix | Models.Planning/Model/TimetableStretch.cs:64 | each stretch adds its distance to the sum of those before it |
| TimetableStretches.DistanceToStationAsWrittenCountsLaterStretches | Models.Planning/Model/TimetableStretch.cs:63-64 | on A-B-C-D with stretches of length 1, the code as written puts B at 2, because C-D is counted too; the corrected distance is 1 |
| TimetableStretches.AsWrittenOnThreeStretches | Models.Planning/Model/TimetableStretch.cs:63-64 | on A-B-C-D, the written distance to B is 2 |
| TimetableStretches.IntendedOnThreeStretches | Models.Planning/Model/TimetableStretch.cs:59-65 | on A-B-C-D, the corrected distance to B is 1 |
| Passings.NewStretchPassing | Importers.Model/Model/StretchPassing.cs:12-17 | succeeds exactly when both calls are non-null (ArgumentNullException otherwise), keeping both calls and the direction, with no train |
| Passings.TrainPassings | Importers.Model/Model/TrackStretch.cs:65-71 | every passing found refers to calls of the world and is a forward (odd) or backward (even) run between two consecutive calls of the train, and every such run is found |
| Passings.CommonTrains | Importers.Model/Model/TrackStretch.cs:61 | `Intersect`: the trains of the first list equal to some train of the second; distinct input stays distinct |
| Passings.StretchTrains | Importers.Model/Model/TrackStretch.cs:61 | the trains of the stretch are non-null trains of the world, no two of them equal |
| Passings.StretchTrainsAreCommon | Importers.Model/Model/TrackStretch.cs:61 | a train is listed exactly when it calls at the start station and equals a train calling at the end station |
| Passings.EachTrainPassings | Importers.Model/Model/TrackStretch.cs:63-71 | one sequence per train, the i-th holding the passings of the i-th train, all referring to calls of the world |
| Passings.PassingsOfTrains | Importers.Model/Model/TrackStretch.cs:63-71 | the passings of each train laid end to end in train order, each train's passings unchanged and nothing added; every one refers to calls of the world |
| Passings.GetStretchPassings | Importers.Model/Model/TrackStretch.cs:59-73 | every passing of the stretch refers to calls of the world |
| Passings.StretchPassingIsLegRun | Importers.Model/Model/TrackStretch.cs:59-73 | every listed passing is a run between consecutive calls, from start to end or end to start, of a train calling at both ends |
| Passings.PassingOfTrainsIsLegRun | Importers.Model/Model/TrackStretch.cs:63-71 | every passing of a list of trains is a run between consecutive calls of one of them |
| Passings.LegRunIsStretchPassing | Importers.Model/Model/TrackStretch.cs:59-73 | every such run of a train calling at both ends is listed |
| Parts.NewTrainPart | Importers.Model/Model/TrainPart.cs:16-21 | a null call throws ArgumentNullException; otherwise succeeds exactly when both calls belong to equal trains, ArgumentOutOfRangeException when not |
| Parts.PartHashAgreesWithEquals | Importers.Model/Model/TrainPart.cs:27-28 | equal parts hash alike, and part equality is symmetric |
| Parts.AsTrainPart | Importers.Model/Model/TrainPart.cs:34-42 | a null train throws ArgumentNullException; indices outside 0 <= from < to < count throw ArgumentOutOfRangeException; otherwise the part between the two calls, subject to the constructor's same-train check |
| Parts.AsTrainPartOfOwnCalls | Importers.Model/Model/TrainPart.cs:34-42 | for a train that owns its calls, a part exists exactly for indices 0 <= from < to < count |
| Parts.IsOverlapping | Importers.Model/Model/TrainPart.cs:44-47 | true exactly when some other part arrives after this one departs and departs before it arrives |
| Parts.OverlapIsSymmetric | Importers.Model/Model/TrainPart.cs:44-47 | one part overlaps another exactly when the other overlaps it, and nothing overlaps an empty list |
| Parts.AddPart | Importers.Model/Model/VehicleSchedule.cs:32-41 | a null part throws ArgumentNullException; otherwise appended unless an equal part is there, so schedules without equal parts keep none |
| Parts.NewScheduleTakesFirstPart | Importers.Model/Model/VehicleSchedule.cs:12-16 | a new loco or trainset schedule has no parts, so the first part added is its only one |
| Parts.AddPartIsIdempotent | Importers.Model/Model/VehicleSchedule.cs:32-41 | adding a part of two train-owned calls twice is adding it once; a part whose first call has no train is appended every time |
| Parts.NewDriverDuty | Importers.Model/Model/DriverDuty.cs:12-17 | succeeds exactly when the identity has text (ArgumentNullException otherwise), with no parts |
| Parts.DutyEqualsAgreesWithHash | Importers.Model/Model/DriverDuty.cs:36-38 | duties are equal exactly when their case-folded identities agree; equality is reflexive, symmetric and transitive, and false against null |
| Parts.AddToDuty | Importers.Model/Model/DriverDuty.cs:50-61 | a part already there is returned and nothing changes; an overlapping part is refused with the "overlaps existing parts" message; any other part is appended and returned; a duty without overlaps keeps none |
| Parts.AddLocoSchedule | Importers.Model/Model/Schedule.cs:28-37 | null throws ArgumentNullException; otherwise the loco schedule is appended unless already listed, and nothing else changes |
| Parts.AddTrainsetSchedule | Importers.Model/Model/Schedule.cs:39-48 | null throws ArgumentNullException; otherwise the trainset schedule is appended unless already listed, and nothing else changes |
| Parts.AddDriverDuty | Importers.Model/Model/Schedule.cs:50-60 | null throws ArgumentNullException; otherwise appended unless an equal duty is listed; afterwards the schedule has it, and distinct duties stay distinct |
| Occupancy.FindLocoSchedule | Importers.Model/Model/ValidationExtensions.cs:241-252 | null exactly when no loco schedule has a part containing the call; otherwise the first schedule, in list order, that has one |
| Occupancy.SameLocoNeedsCarryingSchedule | Importers.Model/Model/ValidationExtensions.cs:234-239 | a call that no loco schedule contains shares a loco with no call, in either order |
| Occupancy.ConflictsWithMe | Importers.Model/Model/ValidationExtensions.cs:66-67 | the pairs (me, r) for exactly the remaining calls r that conflict with me, in the order of the remaining calls: equal track, unequal train, r arriving after me departs and departing before me arrives, no shared loco |
| Occupancy.ConflictsWithMeFrom | Importers.Model/Model/ValidationExtensions.cs:66-67 | the `Where` from a position on: the pairs (me, r) for the conflicting remaining calls from that position, in order |
| Occupancy.ConflictPairs | Importers.Model/Model/ValidationExtensions.cs:63-70 | each call's conflicts with the calls after it, laid end to end in call order; a pair is listed exactly when it is a conflicting pair of positions i < j of the calls |
| Occupancy.ConflictRowsCons | Importers.Model/Model/ValidationExtensions.cs:67-68 | the rows of the calls are the first call's row followed by the rows of the calls after it, matching the recursion on `remaining` |
| Occupancy.ConflictsArePaired | Importers.Model/Model/ValidationExtensions.cs:63-70 | every conflict of two positions i < j is among the examined pairs |
| Occupancy.TrackConflictPairs | Importers.Model/Model/ValidationExtensions.cs:56-61 | nothing below two calls; otherwise the examined conflicting pairs, each kept at its first occurrence and dropped when equal to a pair kept before it: every listed pair is a conflicting pair i < j of the track's calls, every such pair is listed or equal to a listed one, and no two listed pairs are equal |
| Occupancy.PairEqualsReflexive | Importers.Model/Model/ValidationExtensions.cs:60 | once every call has a train, every pair of calls equals itself under the value-tuple equality |
| Occupancy.DistinctPairsKeepFirst | Importers.Model/Model/ValidationExtensions.cs:60 | dropping equal pairs of calls keeps each pair at its first occurrence |
| Occupancy.ConflictFindings | Importers.Model/Model/ValidationExtensions.cs:54 | one conflict message per pair, in order |
| Occupancy.TrackFindings | Importers.Model/Model/ValidationExtensions.cs:52-54 | one conflict message for each conflicting pair that remains after dropping equal pairs |
| Occupancy.WellFormedCallsNeverConflict | Importers.Model/Model/ValidationExtensions.cs:66 | two calls that each arrive no later than they depart never conflict, whatever their trains and locos |
| Occupancy.WellFormedHasNoConflictsWithMe | Importers.Model/Model/ValidationExtensions.cs:63-67 | with such calls, a call conflicts with none of the remaining calls |
| Occupancy.WellFormedHasNoConflictPairs | Importers.Model/Model/ValidationExtensions.cs:63-70 | with such calls, the recursive search finds no pair at all |
| Occupancy.WellFormedTrackReportsNothing | Importers.Model/Model/ValidationExtensions.cs:52-61 | a track whose calls all arrive no later than they depart gets no message |
| Occupancy.InvertedCallConflicts | Importers.Model/Model/ValidationExtensions.cs:66 | for calls of different trains on equal tracks, with the later call in no loco schedule, a conflict is exactly the later call's stay lying strictly inside the earlier call's inverted window |
| Occupancy.CallConflicts | Importers.Model/Model/ValidationExtensions.cs:72-87 | the flag is set exactly when a list is returned, which is then non-empty and holds exactly the overlapping calls of `withCalls`; a track without calls reports nothing, and on a track with other than two calls a clear flag means no call overlaps |
| Occupancy.TwoCallTrackNeverConflicts | Importers.Model/Model/ValidationExtensions.cs:75-79 | a track whose two calls are both on it always gives (false, null), because both calls' stations are the track's station |
| Occupancy.OverlapsCallMeansOverlap | Importers.Model/Model/ValidationExtensions.cs:80-83 | for calls that arrive no later than they depart, an overlap by this condition means the two stays share an instant, and a stay strictly containing the other does not count |
| Findings.Info | Importers.Model/Model/Message.cs:7-8 | each finding becomes an information message carrying it, one to one and in order |
| Findings.InfoAppend | Importers.Model/Model/ValidationExtensions.cs:12-13 | turning findings into messages distributes over concatenation, so appending to the result list and converting commute |
| Checks.TrainTrackFindings | Importers.Model/Model/ValidationExtensions.cs:39-44 | one finding per track of the train that the layout lacks, in the train's track order, and none for tracks it has |
| Checks.TrainReports | Importers.Model/Model/ValidationExtensions.cs:36-44 | every finding for the k-th train names a track of that train missing from the layout |
| Checks.TrainMissing | Importers.Model/Model/ValidationExtensions.cs:36-44 | every missing track of the k-th train is reported for it |
| Checks.TrainsTrackFindingIsMissing | Importers.Model/Model/ValidationExtensions.cs:36-46 | every finding over all trains reports a track of some train that the layout lacks |
| Checks.MissingTrackIsReported | Importers.Model/Model/ValidationExtensions.cs:36-46 | every track of some train that the layout lacks is reported |
| Checks.TrainsTrackFindingsReport | Importers.Model/Model/ValidationExtensions.cs:36-46 | a finding is produced exactly when some train refers to a track the layout does not have (both directions) |
| Checks.EnsureStationHasTrack | Importers.Model/Model/ValidationExtensions.cs:33-47 | each train's messages laid end to end in train order; the findings are exactly the reports of a train track missing from the layout |
| Checks.TrackOfTrainInLayout | Importers.Model/Model/ValidationExtensions.cs:42 | a track used by a train whose calls all are at tracks of the layout is a track of the layout |
| Checks.TrainInLayoutMissesNothing | Importers.Model/Model/ValidationExtensions.cs:39-44 | a train calling only at the layout's tracks yields no finding |
| Checks.TrainsInLayoutReportNothing | Importers.Model/Model/ValidationExtensions.cs:36-46 | trains calling only at the layout's tracks yield no finding at all |
| Checks.Legs | Importers.Model/Model/ValidationExtensions.cs:198-201 | the consecutive pairs of calls: none for fewer than two calls, else one fewer than the calls, the i-th pairing calls i and i+1 |
| Checks.SequenceConflicts | Importers.Model/Model/ValidationExtensions.cs:196-211 | exactly the consecutive pairs whose times are out of sequence, in order |
| Checks.TrainConflicts | Importers.Model/Model/ValidationExtensions.cs:181-212 | the train's conflicts are its out-of-sequence consecutive pairs; the two-call same-station branch applies the same four comparisons to the same single pair |
| Checks.TimeSequenceFindings | Importers.Model/Model/ValidationExtensions.cs:165-179 | a train without calls gets exactly one too-few-calls finding; otherwise one conflicting-calls finding per out-of-sequence pair, in order |
| Checks.TimeSequences | Importers.Model/Model/ValidationExtensions.cs:24 | the time sequence messages of each train laid end to end, in train order |
| Checks.TrainWithoutCallsIsReported | Importers.Model/Model/ValidationExtensions.cs:165-171 | every train of the timetable without calls is reported as having too few calls |
| Checks.SingleCallIsInSequence | Importers.Model/Model/ValidationExtensions.cs:168-178 | a train with a single call is not reported, although the message text asks for two calls |
| Checks.OutOfSequenceOfWellFormedCalls | Importers.Model/Model/ValidationExtensions.cs:204-207 | when each call arrives no later than it departs, a pair is out of sequence exactly when the first departs after the second arrives |
| Checks.CallFindings | Importers.Model/Model/ValidationExtensions.cs:91-99 | one finding per call that arrives after it departs, in order, and none for the others |
| Checks.StationCalls | Importers.Model/Model/ValidationExtensions.cs:26 | the stations' calls laid end to end in station order; a call is gathered exactly when it is a call of one of the stations |
| Checks.LateCallIsReported | Importers.Model/Model/ValidationExtensions.cs:91-99 | every call of a station arriving after its departure is reported |
| Checks.PartsOverlapIsOverlapping | Importers.Model/Model/ValidationExtensions.cs:227 | the overlap test of the loco schedule check is the train part's own overlap test, and it is symmetric |
| Checks.OverlapsInRow | Importers.Model/Model/ValidationExtensions.cs:223-228 | the inner loop yields exactly the overlapping pairs (i, j) with j from the start index, in increasing order |
| Checks.OverlapsFrom | Importers.Model/Model/ValidationExtensions.cs:221-229 | the two loops yield exactly the overlapping pairs i < j from the start row, in lexicographic order |
| Checks.OverlapFindings | Importers.Model/Model/ValidationExtensions.cs:225-227 | one finding per given pair, the k-th naming the k-th pair of parts |
| Checks.OverlappingPartsFindings | Importers.Model/Model/ValidationExtensions.cs:217-231 | one finding per overlapping pair of parts i < j that the loops yield |
| Checks.OverlapFindingAt | Importers.Model/Model/ValidationExtensions.cs:217-231 | the k-th finding names the k-th pair the loops yield, and its parts overlap |
| Checks.EachPairOnce | Importers.Model/Model/ValidationExtensions.cs:221-229 | no pair of parts is reported twice |
| StretchChecks.SortedPassings | Importers.Model/Model/ValidationExtensions.cs:106 | a permutation of the stretch's passings, ordered by departure |
| StretchChecks.ConflictsFrom | Importers.Model/Model/ValidationExtensions.cs:107-113 | exactly the loop indices from i below the passing count minus the track count where the conflict test holds, increasing |
| StretchChecks.FindingsAt | Importers.Model/Model/ValidationExtensions.cs:109-112 | one finding per given index, naming the passing at the index and the one a track count later |
| StretchChecks.PassingFindings | Importers.Model/Model/ValidationExtensions.cs:107-114 | for a non-negative track count, one finding per conflicting index; for a negative one, throws IndexOutOfRange exactly when the 32-bit loop bound `passings.Length - me.TracksCount` stays in range, and reports nothing when it wraps round |
| StretchChecks.PassingFindingAt | Importers.Model/Model/ValidationExtensions.cs:107-114 | the k-th finding is about the k-th conflicting index: the passing there conflicts with the one a track count later, and the finding names both |
| StretchChecks.NegativeTracksAtTheEdges | Importers.Model/Model/ValidationExtensions.cs:107 | a track count of -1 throws for any number of passings below int.MaxValue, while int.MinValue wraps the bound round and reports nothing |
| StretchChecks.StretchFindings | Importers.Model/Model/ValidationExtensions.cs:103-115 | throws IndexOutOfRange exactly when the stretch's track count is negative and the loop bound over its passings does not wrap round |
| StretchChecks.ConflictMeansOverlap | Importers.Model/Model/ValidationExtensions.cs:111 | a conflict is two different train numbers where the first arrives after the later one departs |
| StretchChecks.NoTracksReportsNothing | Importers.Model/Model/ValidationExtensions.cs:107-111 | with zero tracks every passing is compared with itself and nothing is reported |
| StretchChecks.EnoughTracksReportNothing | Importers.Model/Model/ValidationExtensions.cs:107 | a stretch with at least as many tracks as passings reports nothing |
| StretchChecks.LayoutStretchFindings | Importers.Model/Model/ValidationExtensions.cs:27 | throws IndexOutOfRange exactly when some stretch's check throws; otherwise the stretches' findings laid end to end in stretch order |
| StretchChecks.DistinctStretchMessages | Importers.Model/Model/ValidationExtensions.cs:27 | throws exactly when the stretch findings do; otherwise the stretch findings as information messages, each value kept at its first occurrence: no two messages are the same, and every finding is present |
| StretchChecks.DistinctInfo | Importers.Model/Model/ValidationExtensions.cs:27 | the distinct information messages of some findings are exactly those findings as information messages |
| SpeedChecks.Length | Importers.Model/Model/ValidationExtensions.cs:152 | at least 2 and at least the distance, and the distance itself from 2 on |
| SpeedChecks.Speed | Importers.Model/Model/ValidationExtensions.cs:154 | zero exactly for a zero run time, negative for a negative run time, otherwise speed times minutes is the length |
| SpeedChecks.FirstLayout | Models.Planning/Model/Train.cs:47 | the layout of the first call's station, when there is one, is a layout of the world |
| SpeedChecks.Bounded | Importers.Model/Model/ValidationExtensions.cs:156-159 | the too-slow message is present exactly below the minimum, the too-fast one exactly above the maximum, and nothing else |
| SpeedChecks.LegFindings | Importers.Model/Model/ValidationExtensions.cs:146-160 | throws InvalidOperation exactly when the stretch lookup does; nothing without a stretch or at zero run time |
| SpeedChecks.MeasuredLegFindings | Importers.Model/Model/ValidationExtensions.cs:146-160 | a leg with a stretch and a non-zero run time is reported too slow exactly below the minimum, too fast exactly above the maximum, and with nothing else |
| SpeedChecks.CheckedLegCount | Importers.Model/Model/ValidationExtensions.cs:144 | the loop `i < calls.Length - 2` checks every leg but the last, and none for fewer than three calls |
| SpeedChecks.CheckedLegs | Importers.Model/Model/ValidationExtensions.cs:144-161 | the i-th entry is the outcome of the i-th checked leg |
| SpeedChecks.TrainSpeedFindings | Importers.Model/Model/ValidationExtensions.cs:140-163 | nothing for fewer than three calls, because the loop stops before the last leg; when it does not throw, every checked leg succeeded and the result is their messages laid end to end in leg order |
| SpeedChecks.TrainSpeedThrowsOnAmbiguousLeg | Importers.Model/Model/ValidationExtensions.cs:140-163 | the train's check throws only InvalidOperation, and only when some checked leg has two stretches |
| SpeedChecks.AmbiguousLegThrows | Importers.Model/Model/ValidationExtensions.cs:140-163 | a checked leg with two stretches makes the train's check throw |
| SpeedChecks.TrainSpeedFinding | Importers.Model/Model/ValidationExtensions.cs:140-163 | every message of the train's check is a message of one of its checked legs |
| SpeedChecks.CheckedLegFindingIsReported | Importers.Model/Model/ValidationExtensions.cs:144-160 | every too-slow or too-fast message of a checked leg is a message of the train's check when that does not throw |
| SpeedChecks.NegativeRunTimeIsTooSlow | Importers.Model/Model/ValidationExtensions.cs:151-157 | a leg that arrives before it departs is reported too slow for any non-negative minimum |
| SpeedChecks.ZeroRunTimeIsSkipped | Importers.Model/Model/ValidationExtensions.cs:154-155 | a leg with zero run time is skipped whatever the bounds |
| SpeedChecks.TrainChecks | Importers.Model/Model/ValidationExtensions.cs:130-138 | the k-th entry is the k-th train's check |
| SpeedChecks.TimetableSpeedThrows | Importers.Model/Model/ValidationExtensions.cs:130-138 | the timetable's check throws exactly when some train's check throws, and then with that train's fault |
| SpeedChecks.TimetableSpeedFindings | Importers.Model/Model/ValidationExtensions.cs:130-138 | when it does not throw, every train's check succeeded and the result is their messages laid end to end, in train order |
| Validation.Stretches | Importers.Model/Model/ValidationExtensions.cs:27 | throws IndexOutOfRange exactly when stretches are validated and a stretch has a negative track count whose 32-bit loop bound does not wrap round; all messages are information |
| Validation.Speeds | Importers.Model/Model/ValidationExtensions.cs:28 | throws InvalidOperation exactly when train speed is validated and a checked leg is ambiguous |
| Validation.SpeedThrowsOnAmbiguousLeg | Importers.Model/Model/ValidationExtensions.cs:130-148 | the timetable's speed check throws exactly when some train has a checked leg between two stations joined by two stretches |
| Validation.SpeedThrowsOnlyOnAmbiguousLeg | Importers.Model/Model/ValidationExtensions.cs:130-148 | when the timetable's speed check throws, it throws InvalidOperation and some checked leg has two stretches |
| Validation.Combine | Importers.Model/Model/ValidationExtensions.cs:22-29 | throws when a gated part throws, with the stretch fault first; otherwise the earlier messages are a prefix, followed by the stretch and speed messages |
| Validation.TimetableFindings | Importers.Model/Model/ValidationExtensions.cs:18-30 | throws exactly for a negative track count whose loop bound does not wrap with stretches on (IndexOutOfRange) or an ambiguous checked leg with speed on (InvalidOperation); otherwise all messages are information and the ungated and option-selected findings come first |
| Validation.AllInformation | Importers.Model/Model/ValidationExtensions.cs:22-29 | combining information messages gives information messages |
| Validation.NoStoppingErrors | Importers.Model/Model/ValidationExtensions.cs:18-30 | the timetable validation never reports a stopping error |
| Validation.InformationOnly | Importers.Model/Model/Message.cs:42 | a list of information messages has no stopping error |
| Validation.AllOffLeavesUngated | Importers.Model/Model/ValidationExtensions.cs:23-28 | with every switch off only the track references and time sequences are reported, and nothing throws |
| Validation.GatedOff | Importers.Model/Model/ValidationExtensions.cs:25-26 | with the station track and station call switches off the gated checks add nothing |
| Validation.TracksFindings | Importers.Model/Model/ValidationExtensions.cs:25 | the occupancy messages of each station track laid end to end, in track order |
| Validation.StretchesAndSpeedsOff | Importers.Model/Model/ValidationExtensions.cs:27-28 | with the stretch and speed switches off neither check runs: both give no messages and nothing throws |
| Validation.CombineNothing | Importers.Model/Model/ValidationExtensions.cs:25-28 | when the gated checks add nothing and the stretch and speed checks give no messages, the result is the information messages of the ungated checks |
| Validation.UnreadOptionsHaveNoEffect | Importers.Model/Model/ValidationOptions.cs:9-15 | the train number, trainset schedule, driver duty and minimum gap options do not change the result |
| Validation.ScheduleFindings | Importers.Model/Model/ValidationExtensions.cs:8-16 | throws exactly when the timetable validation does; otherwise its messages come first, nothing is added when loco schedules are off, and all messages are information |
| Validation.LocoFindings | Importers.Model/Model/ValidationExtensions.cs:14 | the overlapping parts messages of each loco schedule laid end to end, in schedule order |
| Validation.Then | Importers.Model/Model/ValidationExtensions.cs:13-14 | appends after an outcome: throws exactly when it threw, keeps its messages as a prefix and adds exactly the extra ones |
| Validation.ScheduleHasNoStoppingErrors | Importers.Model/Model/ValidationExtensions.cs:8-16 | the schedule validation never reports a stopping error |
| Validation.TrainFindings | Importers.Model/Model/ValidationExtensions.cs:120-128 | throws exactly when the train speed check throws; otherwise the time sequence messages come last and all messages are information |
| Validation.TrainFindingsContent | Importers.Model/Model/ValidationExtensions.cs:125-126 | the train's messages are exactly its speed messages, then its time sequence messages |
| ImportStrings.DigitPrefix | Importers.Xpln/Importers/Extensions/StringExtensions.cs:11 | the longest digit prefix: a prefix, all digits, and the next character is not a digit |
| ImportStrings.FirstRun | Importers.Xpln/Importers/Extensions/StringExtensions.cs:9-11 | the `\d+` match is all digits and is empty exactly when the text has no digit |
| ImportStrings.TrimZeros | Importers.Xpln/Importers/Extensions/StringExtensions.cs:11 | a suffix of the text, what was removed is all zeros, and it does not start with '0' |
| ImportStrings.TrainNumber | Importers.Xpln/Importers/Extensions/StringExtensions.cs:11 | all digits, no leading zero, empty without digits, and equal to the first digit run minus its leading zeros |
| ImportStrings.DigitPrefixOf | Importers.Xpln/Importers/Extensions/StringExtensions.cs:11 | a digit string followed by a non-digit is recovered as the digit prefix |
| ImportStrings.FirstRunOf | Importers.Xpln/Importers/Extensions/StringExtensions.cs:9-11 | text without digits, a digit run and a non-digit start give back exactly that run |
| ImportStrings.TrimZerosOf | Importers.Xpln/Importers/Extensions/StringExtensions.cs:11 | zeros put in front of a text not starting with '0' are exactly what is removed |
| ImportStrings.TrainNumberOf | Importers.Xpln/Importers/Extensions/StringExtensions.cs:11 | round trip: composing a prefix without digits, zeros, a number and a non-digit rest gives back the number |
| ImportStrings.TrainNumberExample | Importers.Xpln/Importers/Extensions/StringExtensions.cs:11 | "GT CL5814" gives "5814" |
| ImportStrings.TrainNumberExampleWithZeros | Importers.Xpln/Importers/Extensions/StringExtensions.cs:11 | "054738.GT CN54738" gives "54738", the first run only |
| ImportStrings.IndexOf | Importers.Xpln/Importers/Extensions/StringExtensions.cs:17-19 | -1 exactly when the character is absent, otherwise its first position |
| ImportStrings.FirstDigit | Importers.Xpln/Importers/Extensions/StringExtensions.cs:24-26 | -1 exactly without digits, otherwise the first digit's position |
| ImportStrings.CategoryStart | Importers.Xpln/Importers/Extensions/StringExtensions.cs:17 | one past the first '.', or 0, within the text |
| ImportStrings.CategoryLength | Importers.Xpln/Importers/Extensions/StringExtensions.cs:18-27 | negative exactly when the first space comes before the first '.', and never past the end |
| ImportStrings.CategoryShapeWithSpace | Importers.Xpln/Importers/Extensions/StringExtensions.cs:19-21 | with a space the category ends at the first space and holds no space |
| ImportStrings.CategoryShapeWithoutSpace | Importers.Xpln/Importers/Extensions/StringExtensions.cs:22-27 | without a space the category holds no digit and ends at the first digit after the start, or is empty |
| ImportStrings.CategoryShape | Importers.Xpln/Importers/Extensions/StringExtensions.cs:15-28 | the category holds no space and ends as the two branches say |
| ImportStrings.TrainCategory | Importers.Xpln/Importers/Extensions/StringExtensions.cs:15-29 | throws ArgumentOutOfRange exactly when a space precedes the first '.'; otherwise the substring after the '.' up to the space, or up to the first digit |
| ImportStrings.TrainCategoryOf | Importers.Xpln/Importers/Extensions/StringExtensions.cs:15-29 | round trip: an id, '.', a category, then a space or a trailing digit run gives back the category |
| ImportStrings.TrainCategoryExampleWithSpace | Importers.Xpln/Importers/Extensions/StringExtensions.cs:15-29 | "054738.GT CN54738" gives "GT" |
| ImportStrings.TrainCategoryExampleWithDigits | Importers.Xpln/Importers/Extensions/StringExtensions.cs:15-29 | "000100.Snt100" gives "Snt" |
| ImportStrings.TrainCategoryExampleThrows | Importers.Xpln/Importers/Extensions/StringExtensions.cs:15-29 | "GT 1.2" throws |
| ImportStrings.AnyEqual | Importers.Xpln/Importers/Extensions/StringExtensions.cs:54 | true exactly when some value equals the text ignoring case |
| ImportStrings.IsAny | Importers.Xpln/Importers/Extensions/StringExtensions.cs:51-54 | true exactly for a non-null text and a non-null list with an entry equal to it ignoring case |
| ImportStrings.IsAnyOfParts | Importers.Xpln/Importers/Extensions/StringExtensions.cs:47-54 | a one-entry list is `Is`; an empty or null list matches nothing; a concatenation matches when either part does |
| ImportStrings.ValueOrEmpty | Importers.Xpln/Importers/Extensions/StringExtensions.cs:56-57 | null gives "", any other text is kept unchanged |
| ImportStrings.ValueOrEmptyKeepsBlanks | Importers.Xpln/Importers/Extensions/StringExtensions.cs:56-57 | agrees with TextOrEmpty except on blank texts, which it keeps, and preserves emptiness |
| ImportStrings.IsZeroOrEmpty | Importers.Xpln/Importers/Extensions/StringExtensions.cs:68-69 | true only for null or a one-digit text, and then the number is 0 |
| ImportStrings.IsZeroOrEmptyExamples | Importers.Xpln/Importers/Extensions/StringExtensions.cs:68-69 | null and "0" qualify; "", " " and "00" do not, although "" is empty |
| ImportStrings.OrElse | Importers.Xpln/Importers/Extensions/StringExtensions.cs:80-83 | the text when it has text, else the fallback when it has text, else throws Argument |
| ImportStrings.OrElseIsTextOrDefault | Importers.Xpln/Importers/Extensions/StringExtensions.cs:80-82 | with a fallback that has text, OrElse never throws and is TextOrDefault |
| ImportStrings.NumberOrZero | Importers.Xpln/Importers/Extensions/StringExtensions.cs:59-60 | a 32-bit value: the parsed number when the text parses, else 0 |
| ImportStrings.ToInteger | Importers.Xpln/Importers/Extensions/StringExtensions.cs:71-72 | a 32-bit value: the parsed number when the text parses, else 0 |
| ImportStrings.ConversionsAgree | Importers.Xpln/Importers/Extensions/StringExtensions.cs:43-72 | NumberOrZero and ToInteger agree; IsTrackNumber holds exactly when the text parses; otherwise the value is 0 |
| ImportStrings.NumberRoundTrip | Importers.Xpln/Importers/Extensions/StringExtensions.cs:43-72 | round trip: the decimal text of a number up to Int32.MaxValue is a track number and converts back to it |
| ImportStrings.TrainNumberConverts | Importers.Xpln/Importers/Extensions/StringExtensions.cs:71-72 | a non-empty train number within range converts to its digit value |
| Seqs.IndicesWhere | Importers.Xpln/Importers/Extensions/TrainExtensions.cs:30-32 | exactly the positions whose element passes the test, increasing |
| CallSearch.Candidates | Importers.Xpln/Importers/Extensions/TrainExtensions.cs:30-32 | positions of the train's calls, increasing |
| CallSearch.CandidatesAre | Importers.Xpln/Importers/Extensions/TrainExtensions.cs:30-32 | a position is a candidate exactly when its call is at the signature's station ignoring case and passes the rule |
| CallSearch.FailuresAreDistinguished | Importers.Xpln/Importers/Extensions/TrainExtensions.cs:38-46 | the no-call and several-calls failures carry different texts |
| CallSearch.TryFindCall | Importers.Xpln/Importers/Extensions/TrainExtensions.cs:28-48 | found exactly when one candidate remains, with that call and position; otherwise index -1, no value, and the text that tells none from several |
| CallSearch.FirstHitOfHead | Importers.Xpln/Importers/Extensions/TrainExtensions.cs:10-11 | a first rule that leaves one call is the first hit, and the only one |
| CallSearch.FirstHitOfSingle | Importers.Xpln/Importers/Extensions/TrainExtensions.cs:24-25 | with one rule there is a hit exactly when it leaves one call |
| CallSearch.FirstHitOfTail | Importers.Xpln/Importers/Extensions/TrainExtensions.cs:12-26 | when the first rule fails, the hits are those of the remaining rules, shifted by one |
| CallSearch.Cascade | Importers.Xpln/Importers/Extensions/TrainExtensions.cs:8-27 | a found call is a call of the train at the station with the signature; when nothing is found the result is the last rule's failure |
| CallSearch.CascadeFindsFirstHit | Importers.Xpln/Importers/Extensions/TrainExtensions.cs:8-27 | found exactly when some rule leaves one call, and then the call is the candidate of the first such rule |
| CallSearch.ImporterFind | Importers.Xpln/Importers/Extensions/TrainExtensions.cs:8-27 | any call, then arrival, departure, last call, first call and inside the stop are tried in turn; the first unique match is returned, else the failure of the inside-the-stop rule with the row number |
| CallSearch.LegacyFind | Repostitories.Xpln/Repository/Extensions/TrainExtensions.cs:10-25 | arrival, departure and inside the stop are tried in turn; the first unique match is returned, else the failure of the inside-the-stop rule |
| CallSearch.LoneCallIsFound | Importers.Xpln/Importers/Extensions/TrainExtensions.cs:10-11 | the only call of the train at the station is always found by the importer, whatever the time |
| CallSearch.NoCandidates | Importers.Xpln/Importers/Extensions/TrainExtensions.cs:30-32 | a rule that fails on the only call at the station leaves no candidate |
| CallSearch.LegacyFailsWithoutCandidates | Repostitories.Xpln/Repository/Extensions/TrainExtensions.cs:10-40 | with no candidate for any rule the older search fails with the no-calls text |
| CallSearch.LegacyRejectsLoneCallOffTime | Repostitories.Xpln/Repository/Extensions/TrainExtensions.cs:10-25 | a lone call whose times miss the time is rejected by the older search but found by the importer |
| CallSearch.WindowFind | Repository/TrainExtensions.cs:9-17 | throws InvalidOperation exactly when two calls lie in the window; a single call in the window is returned with its position; none gives index -1 and the no-station text |
| CallSearch.LegacyRuleIsInWindow | Repository/TrainExtensions.cs:11 | a call passing one of the older rules, with the exact signature and arrival not after departure, lies in the window |
| CallSearch.LegacyHitIsInWindow | Repostitories.Xpln/Repository/Extensions/TrainExtensions.cs:10-25 | a call the older search finds, at a station spelt exactly as asked, lies in the Excel repository's window |
| TrackLookup.FoundStation | Importers.Xpln/Importers/Extensions/LayoutExtenstions.cs:9-10 | the station found is a station of the layout |
| TrackLookup.Track | Importers.Xpln/Importers/Extensions/LayoutExtenstions.cs:7-14 | no value when no station or no track number matches ignoring case; the single matching track of the station otherwise; throws InvalidOperation when several stations or several tracks match |
| TrackLookup.ExactTrackIsFound | Importers.Xpln/Importers/Extensions/LayoutExtenstions.cs:11 | the track the station's exact lookup finds is the one found here |
| TrackLookup.CaseOfNumberDoesNotMatter | Importers.Xpln/Importers/Extensions/LayoutExtenstions.cs:11 | track numbers equal ignoring case give the same result |
| DataRows.GetRowFields | Importers.Xpln/Importers/Extensions/DataSetExtensions.cs:6-11 | no fields for a null item array; otherwise one field per item, "" for a null item, else its text |
| DataRows.IsEmptyFields | Importers.Xpln/Importers/Extensions/DataSetExtensions.cs:13-14 | true exactly when every field is null or white space |
| DataRows.AsTexts | Importers.Xpln/Importers/Extensions/DataSetExtensions.cs:17 | the fields as non-null texts, one to one |
| DataRows.BlankRowIsNullOrWhiteSpace | Importers.Xpln/Importers/Extensions/DataSetExtensions.cs:16-17 | a row is blank exactly when its item array is null or each item is null or white space |
| DataRows.BlankRowOfAppend | Importers.Xpln/Importers/Extensions/DataSetExtensions.cs:13-17 | appending an item keeps a row blank exactly when the row was blank and the item is null or white space |
| WorksheetConfig.Add | Importers.Xpln/Importers/DataSetProviders/DataSetConfiguration.cs:7-11 | appended at the end exactly when no stored name equals it ignoring case, otherwise unchanged; afterwards a non-empty name is contained |
| WorksheetConfig.Worksheets | Importers.Xpln/Importers/DataSetProviders/DataSetConfiguration.cs:6 | the stored names, one per configuration, in order |
| WorksheetConfig.Lookup | Importers.Xpln/Importers/DataSetProviders/DataSetConfiguration.cs:17-19 | throws InvalidOperation exactly when two stored names match a non-empty name; otherwise a value exactly when ContainsWorksheet holds, and then a stored configuration with that name |
| WorksheetConfig.AddKeepsDistinct | Importers.Xpln/Importers/DataSetProviders/DataSetConfiguration.cs:7-15 | adding keeps the non-empty names distinct ignoring case |
| WorksheetConfig.AddIsIdempotent | Importers.Xpln/Importers/DataSetProviders/DataSetConfiguration.cs:7-11 | adding a configuration with a non-empty name twice is adding it once |
| WorksheetConfig.EmptyNameIsAddedTwice | Importers.Xpln/Importers/DataSetProviders/DataSetConfiguration.cs:7-15 | a configuration with an empty name is appended on every Add |
| WorksheetConfig.WorksheetsAfterAdd | Importers.Xpln/Importers/DataSetProviders/DataSetConfiguration.cs:6-11 | Worksheets gains the name exactly when Add stores it |
| WorksheetConfig.LookupOfDistinctIsOk | Importers.Xpln/Importers/DataSetProviders/DataSetConfiguration.cs:17-19 | with distinct names the lookup never throws |
| WorksheetConfig.LookupAfterAdd | Importers.Xpln/Importers/DataSetProviders/DataSetConfiguration.cs:7-19 | after an Add with a non-empty name, the lookup by that name finds the new configuration, or the one already stored under it |

## Left out

- Spreadsheet, XML, ODBC and Excel input and output, the importers that drive them, and JSON serialisation of results: they are I/O plumbing around the helpers modelled here.
- Floating-point parsing and rounding are left out because they depend on the .NET number formats. This covers:
  - the decimal-day paths of `Time.FromDays` and `ParseDays`;
  - `AsTime`, `IsTime`, `IsNumber`, `IsNumberOrEmpty`, `ToDouble` and `HasFileExtension` in the importer's string extensions.

  Only the "H:M" branch of `ParseDays` and `Math.Round` for a stretch's default time are modelled.
- `Debugger.Break` (ValidationExtensions.cs lines 38 and 93): it has no effect on the result.
- Message wording, cultures and `Severity.ToLanguageString`: the texts are resource strings. The model represents each text as its key and arguments.
- Write-only back references: `Train.Timetable` (set by `Timetable.Add`), `TrainPart.Schedule`, `TrainPart.Duty` and `DriverDuty.Schedule`. Nothing in the core reads them.
- The `Train` of a stretch passing: the constructor never sets it, so it is always null, and nothing reads it.
- `Repository/LayoutExtenstions.cs` and `GetStationExit`: their types (track layouts and station exits) are not part of this model.
- Near-verbatim copies, which the same definitions cover:
  - `Models.Planning/Model/Maybe.cs`;
  - `RepositoryResult.cs`;
  - the string, layout and data set extensions of the older repositories.
- Text.EqIgnoreCase: ordinal case-insensitive comparison folds only ASCII and Latin-1 letters. Other scripts compare exactly.
- Text.Int32Parse: `int.TryParse` is modelled for the invariant culture. It accepts ASCII digits with optional white space and sign; culture-specific signs and digits are not modelled.
- ImportStrings.FirstRun: `\d` is taken as the ASCII digits only. .NET's `\d` also matches other Unicode decimal digits.
- ImportStrings.IsAny: a null entry in the list is not modelled. In the source it throws `NullReferenceException` when it is reached.
- CallSearch.ImporterFind: the row number enters the failure text through its decimal text, as the resource format would show it.
- WorksheetConfig.Lookup: a null worksheet name is modelled, but a configuration whose own name is null is not; records built by the importer always carry a name.
- WorksheetConfig.Distinct: only non-empty names are kept distinct, because `ContainsWorksheet("")` is false, so empty names are stored again (`EmptyNameIsAddedTwice`).
- Calls.SortTime: states only that the sort time is one of the call's two times. Which one (departure when the call is a departure, otherwise arrival) is visible in its definition, and `CompareTo` states the resulting order.
- StretchChecks.StretchFindings: states only when it throws. The findings themselves are stated by `StretchChecks.PassingFindings` and `StretchChecks.PassingFindingAt` on the sorted passings.
- StretchChecks.DistinctStretchMessages: `Distinct` first compares hash codes, and the model takes two different message values to hash differently. Two case variants of one text whose string hashes happen to collide would be merged by the case-insensitive `Message.Equals`; such a collision is not modelled.
- StretchChecks.DistinctStretchMessages: also compares messages as findings, that is kind and argument texts, while `Distinct` compares the formatted text. Two findings whose formatted texts coincide (an argument text that contains what the resource string puts between two arguments) would be merged by the source and are kept apart here, because the resource wording is not part of the model.
- StretchChecks.PassingFindings: track counts above `int.MaxValue` cannot occur in the source and are not wrapped; only the wrap of the loop bound for negative counts is modelled.
- StretchChecks.SortedPassings: `OrderBy` is stable, but the model only promises a permutation ordered by departure. The order among passings with equal departures is not pinned down.
- SpeedChecks.TimetableSpeedFindings: its contract gives the result as each train's messages in turn; when it throws is stated by `SpeedChecks.TimetableSpeedThrows`.
- Passings.GetStretchPassings: its contract states only that every passing refers to calls of the world. Which passings are listed is stated by `StretchPassingIsLegRun` and `LegRunIsStretchPassing`.
- Checks.OverlappingPartsFindings: its contract states only the count. What each finding names is stated by `Checks.OverlapFindingAt`.
- Validation.Stretches: states the throw condition and the severity. The content is that of `StretchChecks.DistinctStretchMessages`.
- Times.FromDayHourMinute: `new TimeSpan(days, hours, minutes, 0)` throws `ArgumentOutOfRangeException` when the total lies outside the `TimeSpan` range (about ±10,675,199 days, ±15,372,286,728 whole minutes). The model does not bound the minute count, so it never throws.
- Times.AddDays: `TimeSpan.FromDays` and `TimeSpan.Add` throw (`OverflowException` or `ArgumentOutOfRangeException`, depending on the .NET version) once the result leaves the `TimeSpan` range. The model adds days without a bound.
- Layouts.NewTrackStretchWithDefaults: the distance is a real number rather than a `double`, so NaN and infinities do not occur, and the `(int)` cast of the rounded distance is not bounded to the 32-bit range.
- Times.ParseDays: the "H:M" branch builds the time through the same `TimeSpan` constructor, so hours or minutes large enough to leave the `TimeSpan` range throw in the source. The model returns the unbounded time.
- Occupancy.TrackFindings: requires every call to have a train. In the source, a call without a train makes `r.Train.Equals(me.Train)` (ValidationExtensions.cs line 66) throw `NullReferenceException` once it is reached; that path is not modelled.
- Checks.CallFindings: a call without a train makes `stationCall?.Train.Number` (ValidationExtensions.cs line 93) throw `NullReferenceException`. The model reports such a call like any other.
- Trains.TrainTracks: requires every track to be at a station. In the source, comparing a track that has no station makes `Station.Equals` in `StationTrack.Equals` (StationTrack.cs line 50) throw `NullReferenceException`; that path is not modelled.
- Validation.TimetableFindings: requires every call to have a train and every track a station, so the `NullReferenceException`s above are not among its outcomes.
- Trains.ByArrival: `OrderBy` is stable, but the model only promises the same calls ordered by arrival. The order among calls with equal arrivals is not pinned down, and neither is the resulting order of `Trains.TrainTracks`.
- Validation.TimetableFindings: states that the ungated and option-selected findings form a prefix of the result, with the stretch and speed messages after it as `Validation.Combine` states; no single clause lists the full content.
- Null-argument guards: `ValueOrException` on a null argument throws `ArgumentNullException` in Parts.AddToDuty (DriverDuty.cs lines 52-53), Layouts.AddStation (Layout.cs lines 37-38), Layouts.AddStretch (Layout.cs lines 49-50), Layouts.AddTimetableStretch (Layout.cs lines 79-80), Stations.AddTrack (Station.cs lines 53-55), Timetables.Add (Timetable.cs lines 39-40), Trains.AddCall (Train.cs lines 68-69), TimetableStretches.AddLast (TimetableStretch.cs line 69) and the three validation entry points Validation.ScheduleFindings, Validation.TimetableFindings and Validation.TrainFindings (ValidationExtensions.cs lines 10-11, 20-21 and 122-123). These members take their arguments as ids or values that are always present, so the guard never fires; `Parts.AddPart` and the `Parts.Add*Schedule` members take an `Option` because the model needs their null case elsewhere.
- Parts.ToString, Passings.ToString: the texts are built as their doc comments describe (TrainPart.cs line 29, StretchPassing.cs lines 22-23). They only feed message arguments, which the model keeps abstract, so no property of their layout is stated.
- DataRows.IsBlankRow: carries no contract of its own; `DataRows.BlankRowIsNullOrWhiteSpace` states exactly when a row is blank.
- Validation options `ValidateTrainNumbers`, `ValidateTrainsetSchedules`, `ValidateDriverDuties` and `MinMinutesBetweenTrackUsage` are carried but never read, as in the source (`Validation.UnreadOptionsHaveNoEffect`).
- `GetConflicts(track, call, withCalls, locos)` (ValidationExtensions.cs lines 72-87) is modelled as `Occupancy.CallConflicts`. The engine itself never calls it.

## Findings

| source | as written | input that shows it | evidently intended | confidence | as-written member | corrected member |
|---|---|---|---|---|---|---|
| Models.Planning/Model/StationCall.cs:49-52 | `<` is `CompareTo == -1` and `>` is `CompareTo == 1`; `<=` is `CompareTo >= 0` and `>=` is `CompareTo <= 0` | two calls whose sort times are 10:00 and 10:05: `CompareTo` gives -5, so both `<` and `<=` are false and `>=` is true | the operators follow the order of the sort times: `<` for a negative comparison, `<=` for a non-positive one | high, not executed | Calls.OperatorsAsWrittenMisorder | Calls.OperatorsFollowSortTime |
| Models.Planning/Model/Timetable.cs:26-29 | `Min`/`Max` over `Time` use the default comparer. `Time` implements only `IComparable<Time?>`, so comparing two values throws `ArgumentException` | a timetable with two trains of one call each | the hours of the earliest and latest arrival | medium, not executed | Timetables.HoursAsWrittenNeedOneCall | Timetables.StartHour |
| Models.Planning/Model/TimetableStretch.cs:63-64 | the distance sums every stretch whose start is not the station | route A-B-C-D with stretches of length 1: the distance to B is 2 | the summed length of the stretches before the station, 1 for B | high, not executed | TimetableStretches.DistanceToStationAsWrittenCountsLaterStretches | TimetableStretches.DistanceToStation |
| Importers.Model/Model/Message.cs:26-28 | `Equals` compares texts ignoring case, but `GetHashCode` hashes the text as written, so hashed collections such as `Distinct` keep equal messages apart (the engine's stretch messages are modelled that way, in `StretchChecks.DistinctStretchMessages`) | information messages "Sth" and "STH" are equal, yet their hashes differ | a hash of the case-folded text, consistent with `Equals` | high, not executed | Messages.HashAsWrittenDisagreesWithEquals | Messages.HashAgreesWithEquals |

=== FILE: call_search.dfy ===
/** Finding the call of a train that a timetable row refers to, from the
    station's signature and a clock time.

    Three importers each have their own `FindBetweenArrivalAndDeparture`:
    the spreadsheet importer tries six rules in turn, the older repository
    three, and the Excel repository accepts only a call whose stop spans the
    time. Each rule keeps the calls at the station that pass its test, and
    succeeds only when exactly one call is left. */
module CallSearch {
  import opened Results
  import Text
  import Times
  import opened Graph
  import Maybes
  import Resources
  import Trains
  import Seqs

  /** The `(call, index)` pair the finders return: the index of the call in
      the train's calls, or -1 when `call` holds no value. */
  datatype Found = Found(call: Maybes.Maybe<CallId>, index: int)

  // ---------------------------------------------------------------------
  // The rules of the importer and of the older repository
  // ---------------------------------------------------------------------

  /** The tests a rule applies to a call at the station:
      any call at all; arrival at the time; departure at the time; the last
      call, when the time is not before its arrival; the first call, when the
      time is not after its departure; and a stop that spans the time with
      neither end on it. */
  datatype Rule = AnyCall | ArrivalIs | DepartureIs | LastCall | FirstCall | Inside

  /** The call's station has the signature, ignoring case. */
  predicate SignedAt(w: World, c: CallId, signature: string)
    requires Placed(w) && c < |w.calls|
  {
    Text.EqIgnoreCase(w.stations[StationOf(w, c)].signature, signature)
  }

  /** The rule's test on call `c` of train `t`. `LastCall` and `FirstCall`
      compare with `StationCall.Equals`, not identity. */
  predicate Holds(w: World, t: TrainId, time: Times.Time, rule: Rule, c: CallId)
    requires Placed(w) && t < |w.trains| && c < |w.calls|
  {
    var cs := w.trains[t].calls;
    var call := w.calls[c];
    match rule
    case AnyCall => true
    case ArrivalIs => Times.Eq(Some(call.arrival), Some(time))
    case DepartureIs => Times.Eq(Some(call.departure), Some(time))
    case LastCall =>
      |cs| > 0 && Times.Ge(Some(time), Some(w.calls[cs[|cs| - 1]].arrival)) && CallEquals(w, c, cs[|cs| - 1])
    case FirstCall =>
      |cs| > 0 && Times.Le(Some(time), Some(w.calls[cs[0]].departure)) && CallEquals(w, c, cs[0])
    case Inside => Times.Gt(Some(time), Some(call.arrival)) && Times.Lt(Some(time), Some(call.departure))
  }

  function Matches(w: World, t: TrainId, signature: string, time: Times.Time, rule: Rule): CallId -> bool
    requires t < |w.trains|
  {
    (c: CallId) => Placed(w) && c < |w.calls| && SignedAt(w, c, signature) && Holds(w, t, time, rule, c)
  }

  /** The positions of the train's calls at the station that pass the rule. */
  function Candidates(w: World, t: TrainId, signature: string, time: Times.Time, rule: Rule): (r: seq<nat>)
    requires Placed(w) && t < |w.trains|
    ensures forall i <- r :: i < |w.trains[t].calls|
    ensures forall a, b :: 0 <= a < b < |r| ==> r[a] < r[b]
  {
    assert TrainIn(w, w.trains[t]);
    Seqs.IndicesWhere(w.trains[t].calls, Matches(w, t, signature, time, rule))
  }

  /** A position is a candidate exactly when its call is at the station and
      passes the rule's test. */
  lemma CandidatesAre(w: World, t: TrainId, signature: string, time: Times.Time, rule: Rule)
    requires Placed(w) && t < |w.trains|
    ensures forall i :: i in Candidates(w, t, signature, time, rule) <==>
      0 <= i < |w.trains[t].calls| && SignedAt(w, w.trains[t].calls[i], signature)
      && Holds(w, t, time, rule, w.trains[t].calls[i])
  {
    assert TrainIn(w, w.trains[t]);
  }

  /** A rule that no call of the train at the station passes leaves no
      candidate. */
  lemma CandidatesNone(w: World, t: TrainId, signature: string, time: Times.Time, rule: Rule)
    requires Placed(w) && t < |w.trains|
    requires forall j :: 0 <= j < |w.trains[t].calls| ==> !Matches(w, t, signature, time, rule)(w.trains[t].calls[j])
    ensures Candidates(w, t, signature, time, rule) == []
  {
    assert TrainIn(w, w.trains[t]);
    Seqs.IndicesWhereNone(w.trains[t].calls, Matches(w, t, signature, time, rule));
  }

  /** The texts of the two failures: no call is left, or several are.
      `lead` is the row number in the importer and nothing in the older
      repository. */
  function NoCallsText(w: World, t: TrainId, signature: string, lead: seq<string>): string
    requires t < |w.trains|
  {
    Resources.Format("TrainHasNoCallsAtStation", lead + [Trains.ToString(w, t), signature])
  }

  function OverlappingText(w: World, t: TrainId, signature: string, lead: seq<string>): string
    requires t < |w.trains|
  {
    Resources.Format("TrainHasOverlappingTimesAtStation", lead + [Trains.ToString(w, t), signature])
  }

  /** The two failures always read differently. */
  lemma FailuresAreDistinguished(w: World, t: TrainId, signature: string, lead: seq<string>)
    requires t < |w.trains|
    ensures NoCallsText(w, t, signature, lead) != OverlappingText(w, t, signature, lead)
  {
    var a, b := NoCallsText(w, t, signature, lead), OverlappingText(w, t, signature, lead);
    assert a[8] == "TrainHasNoCallsAtStation"[8] == 'N';
    assert b[8] == "TrainHasOverlappingTimesAtStation"[8] == 'O';
  }

  /** `TryFindCall`: the one candidate and its position, or no value with
      index -1 and a text that tells no candidate from several. */
  function TryFindCall(w: World, t: TrainId, signature: string, time: Times.Time, rule: Rule, lead: seq<string>): (r: Found)
    requires Placed(w) && t < |w.trains|
    ensures var ps := Candidates(w, t, signature, time, rule);
      && (r.index >= 0 <==> |ps| == 1)
      && (r.index >= 0 ==> ps == [r.index] && r.index < |w.trains[t].calls|
                           && r.call == Maybes.FromValue(Some(w.trains[t].calls[r.index]))
                           && SignedAt(w, w.trains[t].calls[r.index], signature)
                           && Holds(w, t, time, rule, w.trains[t].calls[r.index]))
      && (r.index < 0 ==> r.index == -1 && Maybes.IsNone(r.call))
      && (r.index < 0 && |ps| == 0 ==> r.call.message == NoCallsText(w, t, signature, lead))
      && (r.index < 0 && |ps| > 1 ==> r.call.message == OverlappingText(w, t, signature, lead))
    ensures Located(w, t, signature, r)
  {
    var ps := Candidates(w, t, signature, time, rule);
    if |ps| == 1 then
      assert ps[0] in ps;
      CandidatesAre(w, t, signature, time, rule);
      Found(Maybes.FromValue(Some(w.trains[t].calls[ps[0]])), ps[0])
    else if |ps| == 0 then Found(Maybes.NoneWithReason(NoCallsText(w, t, signature, lead)), -1)
    else Found(Maybes.NoneWithReason(OverlappingText(w, t, signature, lead)), -1)
  }

  /** The rule leaves exactly one candidate. */
  predicate Unique(w: World, t: TrainId, signature: string, time: Times.Time, rule: Rule)
    requires Placed(w) && t < |w.trains|
  {
    |Candidates(w, t, signature, time, rule)| == 1
  }

  /** Rule `k` of the list is the first that leaves exactly one candidate. */
  predicate FirstHit(w: World, t: TrainId, signature: string, time: Times.Time, rules: seq<Rule>, k: int)
    requires Placed(w) && t < |w.trains|
  {
    && 0 <= k < |rules|
    && Unique(w, t, signature, time, rules[k])
    && forall j :: 0 <= j < k ==> !Unique(w, t, signature, time, rules[j])
  }

  lemma FirstHitOfHead(w: World, t: TrainId, signature: string, time: Times.Time, rules: seq<Rule>)
    requires Placed(w) && t < |w.trains|
    requires |rules| > 0 && Unique(w, t, signature, time, rules[0])
    ensures FirstHit(w, t, signature, time, rules, 0)
    ensures forall k :: FirstHit(w, t, signature, time, rules, k) ==> k == 0
  {
  }

  lemma FirstHitOfSingle(w: World, t: TrainId, signature: string, time: Times.Time, rules: seq<Rule>)
    requires Placed(w) && t < |w.trains|
    requires |rules| == 1
    ensures (exists k :: FirstHit(w, t, signature, time, rules, k)) <==> Unique(w, t, signature, time, rules[0])
    ensures forall k :: FirstHit(w, t, signature, time, rules, k) ==> k == 0
  {
    if Unique(w, t, signature, time, rules[0]) {
      assert FirstHit(w, t, signature, time, rules, 0);
    }
  }

  lemma FirstHitOfTail(w: World, t: TrainId, signature: string, time: Times.Time, rules: seq<Rule>)
    requires Placed(w) && t < |w.trains|
    requires |rules| > 1 && !Unique(w, t, signature, time, rules[0])
    ensures forall k :: FirstHit(w, t, signature, time, rules, k) ==>
      k > 0 && FirstHit(w, t, signature, time, rules[1..], k - 1) && rules[k] == rules[1..][k - 1]
    ensures (exists k :: FirstHit(w, t, signature, time, rules, k)) <==>
      exists k :: FirstHit(w, t, signature, time, rules[1..], k)
  {
    if exists k :: FirstHit(w, t, signature, time, rules[1..], k) {
      var k :| FirstHit(w, t, signature, time, rules[1..], k);
      assert forall j :: 1 <= j <= k + 1 ==> rules[j] == rules[1..][j - 1];
      assert FirstHit(w, t, signature, time, rules, k + 1);
    }
  }

  /** The rules tried in turn; the first that leaves one candidate gives
      the result, and when none does the failure of the last rule is the
      result. Which rule gives the result is `CascadeFindsFirstHit`. */
  function Cascade(w: World, t: TrainId, signature: string, time: Times.Time, rules: seq<Rule>, lead: seq<string>): (r: Found)
    requires Placed(w) && t < |w.trains| && |rules| > 0
    ensures Located(w, t, signature, r)
    ensures r.index < 0 ==> r == TryFindCall(w, t, signature, time, rules[|rules| - 1], lead)
    decreases |rules|
  {
    var here := TryFindCall(w, t, signature, time, rules[0], lead);
    if |rules| == 1 || here.index >= 0 then here
    else
      var r := Cascade(w, t, signature, time, rules[1..], lead);
      assert rules[1..][|rules[1..]| - 1] == rules[|rules| - 1];
      r
  }

  /** A found call is a call of the train, at its position, at the station
      with the signature. */
  predicate Located(w: World, t: TrainId, signature: string, r: Found)
    requires Placed(w) && t < |w.trains|
  {
    r.index >= 0 ==> && r.index < |w.trains[t].calls|
                     && r.call == Maybes.FromValue(Some(w.trains[t].calls[r.index]))
                     && SignedAt(w, w.trains[t].calls[r.index], signature)
  }

  /** The cascade finds a call exactly when some rule leaves one candidate,
      and then it is the candidate of the first such rule. */
  lemma {:induction false} CascadeFindsFirstHit(w: World, t: TrainId, signature: string, time: Times.Time,
                                                rules: seq<Rule>, lead: seq<string>)
    requires Placed(w) && t < |w.trains| && |rules| > 0
    ensures Cascade(w, t, signature, time, rules, lead).index >= 0 <==> exists k :: FirstHit(w, t, signature, time, rules, k)
    ensures forall k :: FirstHit(w, t, signature, time, rules, k) ==>
      [Cascade(w, t, signature, time, rules, lead).index] == Candidates(w, t, signature, time, rules[k])
    decreases |rules|
  {
    var here := TryFindCall(w, t, signature, time, rules[0], lead);
    if |rules| == 1 {
      FirstHitOfSingle(w, t, signature, time, rules);
    } else if here.index >= 0 {
      FirstHitOfHead(w, t, signature, time, rules);
    } else {
      FirstHitOfTail(w, t, signature, time, rules);
      CascadeFindsFirstHit(w, t, signature, time, rules[1..], lead);
    }
  }

  /** The importer's rules, in the order it tries them. */
  const ImporterRules: seq<Rule> := [AnyCall, ArrivalIs, DepartureIs, LastCall, FirstCall, Inside]

  /** The older repository's rules, in the order it tries them. */
  const LegacyRules: seq<Rule> := [ArrivalIs, DepartureIs, Inside]

  /** The spreadsheet importer's `FindBetweenArrivalAndDeparture(signature,
      time, rowNumber)`: the first of its rules that leaves one call, ending
      with `Inside`; a failure reports on `Inside`. */
  function ImporterFind(w: World, t: TrainId, signature: string, time: Times.Time, row: int): (r: Found)
    requires Placed(w) && t < |w.trains|
    ensures r.index >= 0 ==> r.index < |w.trains[t].calls| && r.call == Maybes.FromValue(Some(w.trains[t].calls[r.index]))
                             && SignedAt(w, w.trains[t].calls[r.index], signature)
    ensures r.index >= 0 <==> exists k :: FirstHit(w, t, signature, time, ImporterRules, k)
    ensures forall k :: FirstHit(w, t, signature, time, ImporterRules, k) ==>
      [r.index] == Candidates(w, t, signature, time, ImporterRules[k])
    ensures r.index < 0 ==> r == TryFindCall(w, t, signature, time, Inside, [Text.IntText(row)])
  {
    CascadeFindsFirstHit(w, t, signature, time, ImporterRules, [Text.IntText(row)]);
    Cascade(w, t, signature, time, ImporterRules, [Text.IntText(row)])
  }

  /** The older repository's `FindBetweenArrivalAndDeparture(signature,
      time)`: arrival, then departure, then `Inside`. */
  function LegacyFind(w: World, t: TrainId, signature: string, time: Times.Time): (r: Found)
    requires Placed(w) && t < |w.trains|
    ensures r.index >= 0 ==> r.index < |w.trains[t].calls| && r.call == Maybes.FromValue(Some(w.trains[t].calls[r.index]))
                             && SignedAt(w, w.trains[t].calls[r.index], signature)
    ensures r.index >= 0 <==> exists k :: FirstHit(w, t, signature, time, LegacyRules, k)
    ensures forall k :: FirstHit(w, t, signature, time, LegacyRules, k) ==>
      [r.index] == Candidates(w, t, signature, time, LegacyRules[k])
    ensures r.index < 0 ==> r == TryFindCall(w, t, signature, time, Inside, [])
  {
    CascadeFindsFirstHit(w, t, signature, time, LegacyRules, []);
    Cascade(w, t, signature, time, LegacyRules, [])
  }

  /** The only call of the train at the station is what the importer
      returns, whatever the time. */
  lemma LoneCallIsFound(w: World, t: TrainId, signature: string, time: Times.Time, row: int, i: nat)
    requires Placed(w) && t < |w.trains|
    requires Candidates(w, t, signature, time, AnyCall) == [i]
    ensures ImporterFind(w, t, signature, time, row).index == i
  {
    assert FirstHit(w, t, signature, time, ImporterRules, 0);
  }

  /** A rule whose test fails on the only call at the station leaves no
      candidate. */
  lemma NoCandidates(w: World, t: TrainId, signature: string, time: Times.Time, rule: Rule, i: nat)
    requires Placed(w) && t < |w.trains| && i < |w.trains[t].calls|
    requires Candidates(w, t, signature, time, AnyCall) == [i]
    requires !Holds(w, t, time, rule, w.trains[t].calls[i])
    ensures |Candidates(w, t, signature, time, rule)| == 0
  {
    var cs := w.trains[t].calls;
    CandidatesAre(w, t, signature, time, AnyCall);
    forall j | 0 <= j < |cs| ensures !Matches(w, t, signature, time, rule)(cs[j]) {
      if SignedAt(w, cs[j], signature) {
        assert j in Candidates(w, t, signature, time, AnyCall);
      }
    }
    CandidatesNone(w, t, signature, time, rule);
  }

  /** With no candidate for any of its rules, the older repository fails
      with the no-calls text. */
  lemma LegacyFailsWithoutCandidates(w: World, t: TrainId, signature: string, time: Times.Time)
    requires Placed(w) && t < |w.trains|
    requires |Candidates(w, t, signature, time, ArrivalIs)| == 0
    requires |Candidates(w, t, signature, time, DepartureIs)| == 0
    requires |Candidates(w, t, signature, time, Inside)| == 0
    ensures LegacyFind(w, t, signature, time).index == -1
    ensures LegacyFind(w, t, signature, time).call.message == NoCallsText(w, t, signature, [])
  {
    assert forall k :: 0 <= k < 3 ==> !Unique(w, t, signature, time, LegacyRules[k]);
    assert forall k :: !FirstHit(w, t, signature, time, LegacyRules, k);
  }

  /** The older repository does not take a lone call whose times miss the
      row's time, where the importer takes it. */
  lemma LegacyRejectsLoneCallOffTime(w: World, t: TrainId, signature: string, time: Times.Time, row: int, i: nat)
    requires Placed(w) && t < |w.trains|
    requires Candidates(w, t, signature, time, AnyCall) == [i]
    requires i < |w.trains[t].calls|
    requires !Holds(w, t, time, ArrivalIs, w.trains[t].calls[i])
    requires !Holds(w, t, time, DepartureIs, w.trains[t].calls[i])
    requires !Holds(w, t, time, Inside, w.trains[t].calls[i])
    ensures LegacyFind(w, t, signature, time).index == -1
    ensures LegacyFind(w, t, signature, time).call.message == NoCallsText(w, t, signature, [])
    ensures ImporterFind(w, t, signature, time, row).index == i
  {
    LoneCallIsFound(w, t, signature, time, row, i);
    NoCandidates(w, t, signature, time, ArrivalIs, i);
    NoCandidates(w, t, signature, time, DepartureIs, i);
    NoCandidates(w, t, signature, time, Inside, i);
    LegacyFailsWithoutCandidates(w, t, signature, time);
  }

  // ---------------------------------------------------------------------
  // The Excel repository: one window match
  // ---------------------------------------------------------------------

  /** The call's station has exactly the signature (case-sensitive) and its
      stop spans the time, both ends included. */
  predicate InWindow(w: World, c: CallId, signature: string, time: Times.Time)
    requires Placed(w) && c < |w.calls|
  {
    && w.stations[StationOf(w, c)].signature == signature
    && Times.Le(Some(w.calls[c].arrival), Some(time))
    && Times.Ge(Some(w.calls[c].departure), Some(time))
  }

  function InWindowOf(w: World, signature: string, time: Times.Time): CallId -> bool {
    (c: CallId) => Placed(w) && c < |w.calls| && InWindow(w, c, signature, time)
  }

  /** The Excel repository's `FindBetweenArrivalAndDeparture`: the one call
      in the window and its position; none gives no value, index -1 and the
      "no station with that signature" text; several throw
      `InvalidOperationException` from `SingleOrDefault`. */
  function WindowFind(w: World, t: TrainId, signature: string, time: Times.Time): (r: Result<Found>)
    requires Placed(w) && t < |w.trains|
    ensures var cs := w.trains[t].calls;
      r.Throws? <==> exists i, j :: 0 <= i < j < |cs| && InWindow(w, cs[i], signature, time) && InWindow(w, cs[j], signature, time)
    ensures r.Throws? ==> r.fault == InvalidOperation
    ensures r.Ok? && r.value.index >= 0 ==> var cs := w.trains[t].calls;
      && r.value.index < |cs| && r.value.call == Maybes.FromValue(Some(cs[r.value.index]))
      && InWindow(w, cs[r.value.index], signature, time)
    ensures r.Ok? && r.value.index < 0 ==> var cs := w.trains[t].calls;
      && r.value.index == -1 && Maybes.IsNone(r.value.call)
      && r.value.call.message == Resources.Format("ThereIsNoStationWithSignatureOrName", [signature])
      && forall i :: 0 <= i < |cs| ==> !InWindow(w, cs[i], signature, time)
  {
    var cs := w.trains[t].calls;
    assert TrainIn(w, w.trains[t]);
    var ps := Seqs.IndicesWhere(cs, InWindowOf(w, signature, time));
    if |ps| == 0 then
      Ok(Found(Maybes.NoneWithReason(Resources.Format("ThereIsNoStationWithSignatureOrName", [signature])), -1))
    else if |ps| == 1 then
      assert ps[0] in ps;
      assert forall i :: 0 <= i < |cs| && InWindow(w, cs[i], signature, time) ==> i in ps;
      Ok(Found(Maybes.FromValue(Some(cs[ps[0]])), ps[0]))
    else
      assert ps[0] in ps && ps[1] in ps;
      Throws(InvalidOperation)
  }

  /** A call at the station whose signature is written exactly as asked,
      and that passes one of the older repository's rules, lies in the
      window when it does not depart before it arrives. */
  lemma LegacyRuleIsInWindow(w: World, t: TrainId, signature: string, time: Times.Time, rule: Rule, c: CallId)
    requires Placed(w) && t < |w.trains| && c < |w.calls|
    requires rule in LegacyRules && Holds(w, t, time, rule, c)
    requires w.stations[StationOf(w, c)].signature == signature
    requires w.calls[c].arrival.minutes <= w.calls[c].departure.minutes
    ensures InWindow(w, c, signature, time)
  {
    Times.OperatorsFollowOrder(w.calls[c].arrival, time);
    Times.OperatorsFollowOrder(time, w.calls[c].arrival);
    Times.OperatorsFollowOrder(w.calls[c].departure, time);
    Times.OperatorsFollowOrder(time, w.calls[c].departure);
  }

  /** A call the older repository finds by arrival, by departure or inside
      its stop, at a station whose signature is written exactly as asked,
      lies in the Excel repository's window, provided the train's calls do
      not depart before they arrive. */
  lemma LegacyHitIsInWindow(w: World, t: TrainId, signature: string, time: Times.Time)
    requires Placed(w) && t < |w.trains|
    requires forall c <- w.trains[t].calls :: c < |w.calls| && w.calls[c].arrival.minutes <= w.calls[c].departure.minutes
    requires LegacyFind(w, t, signature, time).index >= 0
    ensures var i := LegacyFind(w, t, signature, time).index;
      w.stations[StationOf(w, w.trains[t].calls[i])].signature == signature ==>
      InWindow(w, w.trains[t].calls[i], signature, time)
  {
    var r := LegacyFind(w, t, signature, time);
    var k :| FirstHit(w, t, signature, time, LegacyRules, k);
    var rule := LegacyRules[k];
    assert r.index in Candidates(w, t, signature, time, rule);
    CandidatesAre(w, t, signature, time, rule);
    var c := w.trains[t].calls[r.index];
    assert c in w.trains[t].calls;
    if w.stations[StationOf(w, c)].signature == signature {
      LegacyRuleIsInWindow(w, t, signature, time, rule, c);
    }
  }
}

=== FILE: calls.dfy ===
/** `StationCall`: a train's call at a station track, how it is created and
    registered with its track, and how calls are ordered. */
module Calls {
  import opened Results
  import Text
  import Seqs
  import Times
  import opened Graph

  /** `new StationCall(track, arrival, departure)`: the call registers
      itself with the track while its train is still unset, and a call
      without a train equals no call, so it is always appended to the
      track's calls. It is neither an arrival nor a departure yet. */
  function NewCall(w: World, track: TrackId, arrival: Times.Time, departure: Times.Time): (r: (World, CallId))
    requires Valid(w) && track < |w.tracks|
    ensures var (w', c) := r;
      && Valid(w') && c == |w.calls| && |w'.calls| == c + 1 && w'.calls[..c] == w.calls
      && w'.calls[c] == Call(track, arrival, departure, false, false, None)
      && w'.tracks == w.tracks[track := w.tracks[track].(calls := w.tracks[track].calls + [c])]
      && w'.layouts == w.layouts && w'.stations == w.stations && w'.trains == w.trains
    ensures Placed(w) ==> Placed(r.0)
  {
    var c := |w.calls|;
    var tr := w.tracks[track];
    var w' := w.(calls := w.calls + [Call(track, arrival, departure, false, false, None)],
                 tracks := w.tracks[track := tr.(calls := tr.calls + [c])]);
    assert forall i :: 0 <= i < |w'.tracks| && i != track ==> w'.tracks[i] == w.tracks[i];
    (w', c)
  }

  /** A new call is listed on its track after every call that was there,
      even one with the same times. */
  lemma NewCallIsAlwaysAppended(w: World, track: TrackId, arrival: Times.Time, departure: Times.Time)
    requires Placed(w) && track < |w.tracks|
    ensures var (w', c) := NewCall(w, track, arrival, departure);
            && w'.tracks[track].calls[|w.tracks[track].calls|] == c
            && forall d :: 0 <= d < |w'.calls| ==> !CallEquals(w', c, d) && !CallEquals(w', d, c)
  {
    var (w', c) := NewCall(w, track, arrival, departure);
    forall d | 0 <= d < |w'.calls| ensures !CallEquals(w', c, d) && !CallEquals(w', d, c) {
      CallEqualsNeedsTrain(w', c, d);
    }
  }

  /** `IsStop`: the train stops here, to let passengers on or off. */
  predicate IsStop(c: Call) {
    c.isArrival || c.isDeparture
  }

  /** `SortTime`: the departure for a departing call, otherwise the arrival. */
  function SortTime(c: Call): (t: Times.Time)
    ensures t == c.departure || t == c.arrival
  {
    if c.isDeparture then c.departure else c.arrival
  }

  /** `call.CompareTo(other)`: 1 for a null other, otherwise the sort times
      compared as `Time.CompareTo` does (the minute difference, saturated to
      32 bits). */
  function CompareTo(a: Call, other: Option<Call>): (r: int)
    ensures other.None? ==> r == 1
    ensures other.Some? ==> (r < 0 <==> SortTime(a).minutes < SortTime(other.value).minutes)
    ensures other.Some? ==> (r == 0 <==> SortTime(a).minutes == SortTime(other.value).minutes)
    ensures other.Some? ==> (r > 0 <==> SortTime(a).minutes > SortTime(other.value).minutes)
  {
    if other.None? then 1 else Times.CompareTo(SortTime(a), Some(SortTime(other.value)))
  }

  // ---------------------------------------------------------------------
  // The comparison operators
  // ---------------------------------------------------------------------

  /** `call1?.CompareTo(call2)`: null when the left call is null. */
  function LiftedCompare(a: Option<Call>, b: Option<Call>): Option<int> {
    if a.None? then None else Some(CompareTo(a.value, b))
  }

  /** `<` AS WRITTEN: the comparison must be exactly -1. */
  predicate LtAsWritten(a: Option<Call>, b: Option<Call>) { LiftedCompare(a, b) == Some(-1) }

  /** `>` AS WRITTEN: the comparison must be exactly 1. */
  predicate GtAsWritten(a: Option<Call>, b: Option<Call>) { LiftedCompare(a, b) == Some(1) }

  /** `<=` AS WRITTEN: true when the comparison is at least 0. */
  predicate LeAsWritten(a: Option<Call>, b: Option<Call>) {
    LiftedCompare(a, b).Some? && LiftedCompare(a, b).value >= 0
  }

  /** `>=` AS WRITTEN: true when the comparison is at most 0. */
  predicate GeAsWritten(a: Option<Call>, b: Option<Call>) {
    LiftedCompare(a, b).Some? && LiftedCompare(a, b).value <= 0
  }

  /** Two calls whose sort times are five minutes apart: the earlier is
      neither `<` the later nor `>` it, and it is `>=` the later but not
      `<=` it. */
  lemma OperatorsAsWrittenMisorder(a: Call, b: Call)
    requires SortTime(a) == Times.Time(600) && SortTime(b) == Times.Time(605)
    ensures !LtAsWritten(Some(a), Some(b)) && !GtAsWritten(Some(a), Some(b))
    ensures !LeAsWritten(Some(a), Some(b)) && GeAsWritten(Some(a), Some(b))
    ensures !GtAsWritten(Some(b), Some(a)) && LeAsWritten(Some(b), Some(a))
  {
    assert CompareTo(a, Some(b)) == -5;
    assert CompareTo(b, Some(a)) == 5;
  }

  /** `<` as evidently intended: the comparison is negative. */
  predicate Lt(a: Option<Call>, b: Option<Call>) {
    LiftedCompare(a, b).Some? && LiftedCompare(a, b).value < 0
  }

  /** `>` as evidently intended: the comparison is positive. */
  predicate Gt(a: Option<Call>, b: Option<Call>) {
    LiftedCompare(a, b).Some? && LiftedCompare(a, b).value > 0
  }

  /** `<=` as evidently intended: the comparison is not positive. */
  predicate Le(a: Option<Call>, b: Option<Call>) {
    LiftedCompare(a, b).Some? && LiftedCompare(a, b).value <= 0
  }

  /** `>=` as evidently intended: the comparison is not negative. */
  predicate Ge(a: Option<Call>, b: Option<Call>) {
    LiftedCompare(a, b).Some? && LiftedCompare(a, b).value >= 0
  }

  /** The intended operators order two calls by their sort times, and a
      null call is below nothing and above nothing, while every call is
      above a null one. */
  lemma OperatorsFollowSortTime(a: Call, b: Call)
    ensures Lt(Some(a), Some(b)) <==> SortTime(a).minutes < SortTime(b).minutes
    ensures Gt(Some(a), Some(b)) <==> SortTime(a).minutes > SortTime(b).minutes
    ensures Le(Some(a), Some(b)) <==> SortTime(a).minutes <= SortTime(b).minutes
    ensures Ge(Some(a), Some(b)) <==> SortTime(a).minutes >= SortTime(b).minutes
    ensures Lt(Some(a), Some(b)) <==> Gt(Some(b), Some(a))
    ensures Gt(Some(a), None) && Ge(Some(a), None) && !Lt(Some(a), None) && !Le(Some(a), None)
    ensures !Lt(None, Some(b)) && !Gt(None, Some(b)) && !Le(None, Some(b)) && !Ge(None, Some(b))
  {
  }

  /** As written, `<` and `>` agree with the intended operators only for
      calls one minute apart or at equal times, and `<=` and `>=` are the
      intended `>=` and `<=`. */
  lemma OperatorsAsWrittenVersusIntended(a: Option<Call>, b: Option<Call>)
    ensures LeAsWritten(a, b) <==> Ge(a, b)
    ensures GeAsWritten(a, b) <==> Le(a, b)
    ensures LtAsWritten(a, b) ==> Lt(a, b)
    ensures GtAsWritten(a, b) ==> Gt(a, b)
    ensures a.Some? && b.Some? ==>
      (LtAsWritten(a, b) <==> SortTime(a.value).minutes - SortTime(b.value).minutes == -1)
  {
    if a.Some? && b.Some? {
      var d := SortTime(a.value).minutes - SortTime(b.value).minutes;
      assert Times.CompareTo(SortTime(a.value), Some(SortTime(b.value))) == Times.SaturateInt32(d);
    }
  }
}

=== FILE: checks.dfy ===
/** The per-entity checks of the validation engine: track references, the
    call time sequence of a train, arrival after departure at a call, and
    the overlap of a vehicle schedule's parts. */
module Checks {
  import opened Results
  import Seqs
  import Times
  import opened Graph
  import Stations
  import Layouts
  import Trains
  import Parts
  import opened Findings

  // ---------------------------------------------------------------------
  // EnsureStationHasTrack
  // ---------------------------------------------------------------------

  /** The track is not a track of the layout. */
  function NotInLayout(w: World, l: LayoutId): TrackId -> bool
    requires Placed(w) && l < |w.layouts|
  {
    (track: TrackId) => track < |w.tracks| && !Layouts.HasTrack(w, l, track)
  }

  /** The message for a track of train `t` missing from the layout: the
      track's number, its station and the train. */
  function TrackFinding(w: World, t: TrainId, track: TrackId): Finding
    requires Placed(w) && t < |w.trains| && track < |w.tracks|
  {
    TrackNotInLayout(w.tracks[track].number, w.stations[w.tracks[track].station.value].name, Trains.ToString(w, t))
  }

  /** The inner loop over one train's tracks: one message for each track
      the layout lacks, in the order of the tracks. */
  function TrainTrackFindings(w: World, l: LayoutId, t: TrainId, tracks: seq<TrackId>): (r: seq<Finding>)
    requires Placed(w) && l < |w.layouts| && t < |w.trains| && TracksIn(w, tracks)
    ensures var missing := Seqs.Filter<TrackId>(tracks, NotInLayout(w, l));
      |r| == |missing| && forall k :: 0 <= k < |r| ==> missing[k] < |w.tracks| && r[k] == TrackFinding(w, t, missing[k])
  {
    var missing := Seqs.Filter<TrackId>(tracks, NotInLayout(w, l));
    assert forall k :: 0 <= k < |missing| ==> missing[k] in missing && NotInLayout(w, l)(missing[k]);
    Seqs.Map(missing, TrackFindingOf(w, t))
  }

  function TrackFindingOf(w: World, t: TrainId): TrackId --> Finding
    requires Placed(w) && t < |w.trains|
  {
    (track: TrackId) requires track < |w.tracks| => TrackFinding(w, t, track)
  }

  /** The track `track` of the `k`-th train is missing from the layout and
      `f` reports it. */
  predicate ReportsMissingTrack(w: World, l: LayoutId, trains: seq<TrainId>, k: int, track: TrackId, f: Finding)
    requires Placed(w) && l < |w.layouts| && forall i :: 0 <= i < |trains| ==> trains[i] < |w.trains|
  {
    && 0 <= k < |trains| && track in Trains.TrainTracks(w, trains[k])
    && track < |w.tracks| && !Layouts.HasTrack(w, l, track) && f == TrackFinding(w, trains[k], track)
  }

  /** The inner loop's messages for each train, one sequence per train. */
  function TrainsTrackLoops(w: World, l: LayoutId, trains: seq<TrainId>): (r: seq<seq<Finding>>)
    requires Placed(w) && l < |w.layouts| && forall i :: 0 <= i < |trains| ==> trains[i] < |w.trains|
    ensures |r| == |trains|
    ensures forall k :: 0 <= k < |r| ==> r[k] == TrainTrackFindings(w, l, trains[k], Trains.TrainTracks(w, trains[k]))
  {
    seq(|trains|, k requires 0 <= k < |trains| => TrainTrackFindings(w, l, trains[k], Trains.TrainTracks(w, trains[k])))
  }

  /** The outer loop over the trains. */
  function TrainsTrackFindings(w: World, l: LayoutId, trains: seq<TrainId>): (r: seq<Finding>)
    requires Placed(w) && l < |w.layouts| && forall i :: 0 <= i < |trains| ==> trains[i] < |w.trains|
  {
    Seqs.Flatten(TrainsTrackLoops(w, l, trains))
  }

  /** A message of the `k`-th train's loop reports one of its missing
      tracks. */
  lemma {:induction false} TrainReports(w: World, l: LayoutId, trains: seq<TrainId>, k: int, f: Finding)
    requires Placed(w) && l < |w.layouts| && forall i :: 0 <= i < |trains| ==> trains[i] < |w.trains|
    requires 0 <= k < |trains| && f in TrainTrackFindings(w, l, trains[k], Trains.TrainTracks(w, trains[k]))
    ensures exists track :: ReportsMissingTrack(w, l, trains, k, track, f)
  {
    var tracks := Trains.TrainTracks(w, trains[k]);
    var here := TrainTrackFindings(w, l, trains[k], tracks);
    var missing := Seqs.Filter<TrackId>(tracks, NotInLayout(w, l));
    var i :| 0 <= i < |here| && here[i] == f;
    assert missing[i] in missing;
    assert ReportsMissingTrack(w, l, trains, k, missing[i], f);
  }

  /** A missing track of the `k`-th train is reported by its loop. */
  lemma {:induction false} TrainMissing(w: World, l: LayoutId, trains: seq<TrainId>, k: int, track: TrackId, f: Finding)
    requires Placed(w) && l < |w.layouts| && forall i :: 0 <= i < |trains| ==> trains[i] < |w.trains|
    requires ReportsMissingTrack(w, l, trains, k, track, f)
    ensures f in TrainTrackFindings(w, l, trains[k], Trains.TrainTracks(w, trains[k]))
  {
    var tracks := Trains.TrainTracks(w, trains[k]);
    var here := TrainTrackFindings(w, l, trains[k], tracks);
    var missing := Seqs.Filter<TrackId>(tracks, NotInLayout(w, l));
    assert NotInLayout(w, l)(track);
    assert track in missing;
    var i :| 0 <= i < |missing| && missing[i] == track;
    assert here[i] == f;
  }

  /** Every message of the outer loop reports a missing track of one of
      the trains. */
  lemma {:induction false} TrainsTrackFindingIsMissing(w: World, l: LayoutId, trains: seq<TrainId>, f: Finding)
    requires Placed(w) && l < |w.layouts| && forall i :: 0 <= i < |trains| ==> trains[i] < |w.trains|
    requires f in TrainsTrackFindings(w, l, trains)
    ensures exists k, track :: ReportsMissingTrack(w, l, trains, k, track, f)
  {
    var loops := TrainsTrackLoops(w, l, trains);
    var k :| 0 <= k < |loops| && f in loops[k];
    TrainReports(w, l, trains, k, f);
  }

  /** Every missing track of every train is reported by the outer loop. */
  lemma {:induction false} MissingTrackIsReported(w: World, l: LayoutId, trains: seq<TrainId>, k: int, track: TrackId, f: Finding)
    requires Placed(w) && l < |w.layouts| && forall i :: 0 <= i < |trains| ==> trains[i] < |w.trains|
    requires ReportsMissingTrack(w, l, trains, k, track, f)
    ensures f in TrainsTrackFindings(w, l, trains)
  {
    var loops := TrainsTrackLoops(w, l, trains);
    TrainMissing(w, l, trains, k, track, f);
    assert f in loops[k];
  }

  /** A message is in the outer loop's output exactly when it reports a
      missing track of one of the trains. */
  lemma {:induction false} TrainsTrackFindingsReport(w: World, l: LayoutId, trains: seq<TrainId>, f: Finding)
    requires Placed(w) && l < |w.layouts| && forall i :: 0 <= i < |trains| ==> trains[i] < |w.trains|
    ensures f in TrainsTrackFindings(w, l, trains) <==> exists k, track :: ReportsMissingTrack(w, l, trains, k, track, f)
  {
    if f in TrainsTrackFindings(w, l, trains) {
      TrainsTrackFindingIsMissing(w, l, trains, f);
    }
    if exists k, track :: ReportsMissingTrack(w, l, trains, k, track, f) {
      var k, track :| ReportsMissingTrack(w, l, trains, k, track, f);
      MissingTrackIsReported(w, l, trains, k, track, f);
    }
  }

  /** `timetable.EnsureStationHasTrack()`: for every train, one message per
      distinct track of its calls that is not a track of the timetable's
      layout; the trains' messages follow each other in train order. */
  function EnsureStationHasTrack(w: World, layout: LayoutId, trains: seq<TrainId>): (r: seq<Finding>)
    requires Placed(w) && layout < |w.layouts| && forall i :: 0 <= i < |trains| ==> trains[i] < |w.trains|
    ensures Seqs.Concatenation(r, TrainsTrackLoops(w, layout, trains))
    ensures forall f :: f in r <==> exists k, track :: ReportsMissingTrack(w, layout, trains, k, track, f)
  {
    Seqs.FlattenConcatenates(TrainsTrackLoops(w, layout, trains));
    assert forall f :: f in TrainsTrackFindings(w, layout, trains) <==> exists k, track :: ReportsMissingTrack(w, layout, trains, k, track, f) by {
      forall f ensures f in TrainsTrackFindings(w, layout, trains) <==> exists k, track :: ReportsMissingTrack(w, layout, trains, k, track, f) {
        TrainsTrackFindingsReport(w, layout, trains, f);
      }
    }
    TrainsTrackFindings(w, layout, trains)
  }

  /** Every call of the train is on a track of a station of the layout. */
  predicate CallsInLayout(w: World, l: LayoutId, t: TrainId)
    requires Valid(w) && l < |w.layouts| && t < |w.trains|
  {
    forall c <- w.trains[t].calls :: exists s <- w.layouts[l].stations :: w.calls[c].track in w.stations[s].tracks
  }

  lemma TrackOfTrainInLayout(w: World, l: LayoutId, t: TrainId, track: TrackId)
    requires Placed(w) && l < |w.layouts| && t < |w.trains| && CallsInLayout(w, l, t)
    requires track in Trains.TrainTracks(w, t)
    ensures track < |w.tracks| && Layouts.HasTrack(w, l, track)
  {
    var c :| c in w.trains[t].calls && w.calls[c].track == track;
    var s :| s in w.layouts[l].stations && track in w.stations[s].tracks;
    Layouts.HasTrackOfStation(w, l, s, track);
  }

  /** A train that calls only at tracks of the layout's stations has no
      track the layout lacks. */
  lemma TrainInLayoutMissesNothing(w: World, l: LayoutId, t: TrainId)
    requires Placed(w) && l < |w.layouts| && t < |w.trains| && CallsInLayout(w, l, t)
    ensures TrainTrackFindings(w, l, t, Trains.TrainTracks(w, t)) == []
  {
    var tracks := Trains.TrainTracks(w, t);
    forall i | 0 <= i < |tracks| ensures !NotInLayout(w, l)(tracks[i]) {
      TrackOfTrainInLayout(w, l, t, tracks[i]);
    }
    Seqs.FilterNone<TrackId>(tracks, NotInLayout(w, l));
  }

  /** Trains that call only at tracks of the layout's stations get no track
      reference message. */
  lemma {:induction false} TrainsInLayoutReportNothing(w: World, l: LayoutId, trains: seq<TrainId>)
    requires Placed(w) && l < |w.layouts| && forall i :: 0 <= i < |trains| ==> trains[i] < |w.trains|
    requires forall i :: 0 <= i < |trains| ==> CallsInLayout(w, l, trains[i])
    ensures TrainsTrackFindings(w, l, trains) == []
  {
    var loops := TrainsTrackLoops(w, l, trains);
    forall k | 0 <= k < |loops| ensures loops[k] == [] {
      TrainInLayoutMissesNothing(w, l, trains[k]);
    }
    Seqs.FlattenEmpty(loops);
  }

  // ---------------------------------------------------------------------
  // CheckTrainTimeSequence
  // ---------------------------------------------------------------------

  /** The four inequalities of the sequence check on consecutive calls
      `c1`, `c2`: an arrival or departure of `c1` later than an arrival or
      departure of `c2`. */
  predicate OutOfSequence(w: World, c1: CallId, c2: CallId)
    requires c1 < |w.calls| && c2 < |w.calls|
  {
    var a, b := w.calls[c1], w.calls[c2];
    || Times.Gt(Some(a.arrival), Some(b.departure))
    || Times.Gt(Some(a.arrival), Some(b.arrival))
    || Times.Gt(Some(a.departure), Some(b.arrival))
    || Times.Gt(Some(a.departure), Some(b.departure))
  }

  function OutOfSequenceLeg(w: World): ((CallId, CallId)) -> bool {
    (leg: (CallId, CallId)) => leg.0 < |w.calls| && leg.1 < |w.calls| && OutOfSequence(w, leg.0, leg.1)
  }

  /** The consecutive pairs of calls. */
  function Legs(cs: seq<CallId>): (r: seq<(CallId, CallId)>)
    ensures |r| == if |cs| < 2 then 0 else |cs| - 1
    ensures forall i :: 0 <= i < |r| ==> r[i] == (cs[i], cs[i + 1])
  {
    if |cs| < 2 then [] else [(cs[0], cs[1])] + Legs(cs[1..])
  }

  /** The loop of the private `GetConflicts(train)`: each consecutive pair
      that is out of sequence, once, in order. */
  function SequenceConflicts(w: World, cs: seq<CallId>): (r: seq<(CallId, CallId)>)
    requires CallsIn(w, cs)
    ensures r == Seqs.Filter(Legs(cs), OutOfSequenceLeg(w))
  {
    if |cs| < 2 then []
    else
      var rest := SequenceConflicts(w, cs[1..]);
      (if OutOfSequence(w, cs[0], cs[1]) then [(cs[0], cs[1])] else []) + rest
  }

  /** The private `GetConflicts(train)`: a train of two calls at equal
      stations is checked on its own branch, which examines the same single
      pair with the same inequalities as the loop does. */
  function TrainConflicts(w: World, t: TrainId): (r: seq<(CallId, CallId)>)
    requires Placed(w) && t < |w.trains|
    ensures r == Seqs.Filter(Legs(w.trains[t].calls), OutOfSequenceLeg(w))
  {
    var cs := w.trains[t].calls;
    if |cs| == 2 && StationEquals(w.stations[StationOf(w, cs[0])], w.stations[StationOf(w, cs[1])]) then
      if OutOfSequence(w, cs[0], cs[1]) then [(cs[0], cs[1])] else []
    else SequenceConflicts(w, cs)
  }

  function ConflictingCallsFinding(w: World, t: TrainId, leg: (CallId, CallId)): Finding
    requires Placed(w) && t < |w.trains| && leg.0 < |w.calls| && leg.1 < |w.calls|
  {
    ConflictingCalls(Trains.ToString(w, t), CallText(w, leg.0), CallText(w, leg.1))
  }

  function ConflictingCallsOf(w: World, t: TrainId): ((CallId, CallId)) --> Finding
    requires Placed(w) && t < |w.trains|
  {
    (leg: (CallId, CallId)) requires leg.0 < |w.calls| && leg.1 < |w.calls| => ConflictingCallsFinding(w, t, leg)
  }

  /** `train.CheckTrainTimeSequence()`: exactly one message for a train
      without calls; otherwise one message per consecutive pair of calls
      that is out of sequence, in order. */
  function TimeSequenceFindings(w: World, t: TrainId): (r: seq<Finding>)
    requires Placed(w) && t < |w.trains|
    ensures |w.trains[t].calls| == 0 ==> r == [TooFewCalls(Trains.ToString(w, t))]
    ensures |w.trains[t].calls| > 0 ==>
      var legs := Seqs.Filter(Legs(w.trains[t].calls), OutOfSequenceLeg(w));
      |r| == |legs| && forall k :: 0 <= k < |r| ==> legs[k].0 < |w.calls| && legs[k].1 < |w.calls|
                                                    && r[k] == ConflictingCallsFinding(w, t, legs[k])
  {
    if |w.trains[t].calls| < 1 then [TooFewCalls(Trains.ToString(w, t))]
    else
      var legs := TrainConflicts(w, t);
      assert forall i :: 0 <= i < |legs| ==> legs[i] in legs && OutOfSequenceLeg(w)(legs[i]);
      Seqs.Map(legs, ConflictingCallsOf(w, t))
  }

  /** The time sequence messages of each train, one sequence per train. */
  function TimeSequencesOf(w: World, trains: seq<TrainId>): (r: seq<seq<Finding>>)
    requires Placed(w) && forall i :: 0 <= i < |trains| ==> trains[i] < |w.trains|
    ensures |r| == |trains| && forall k :: 0 <= k < |r| ==> r[k] == TimeSequenceFindings(w, trains[k])
  {
    seq(|trains|, k requires 0 <= k < |trains| => TimeSequenceFindings(w, trains[k]))
  }

  /** The time sequence messages of each train in turn. */
  function TimeSequences(w: World, trains: seq<TrainId>): (r: seq<Finding>)
    requires Placed(w) && forall i :: 0 <= i < |trains| ==> trains[i] < |w.trains|
    ensures Seqs.Concatenation(r, TimeSequencesOf(w, trains))
  {
    Seqs.FlattenConcatenates(TimeSequencesOf(w, trains));
    Seqs.Flatten(TimeSequencesOf(w, trains))
  }

  /** Every train of the timetable without calls is reported. */
  lemma {:induction false} TrainWithoutCallsIsReported(w: World, trains: seq<TrainId>, k: int)
    requires Placed(w) && forall i :: 0 <= i < |trains| ==> trains[i] < |w.trains|
    requires 0 <= k < |trains| && |w.trains[trains[k]].calls| == 0
    ensures TooFewCalls(Trains.ToString(w, trains[k])) in TimeSequences(w, trains)
  {
    var all := TimeSequencesOf(w, trains);
    assert all[k][0] == TooFewCalls(Trains.ToString(w, trains[k]));
  }

  /** A train with a single call is always in sequence. */
  lemma SingleCallIsInSequence(w: World, t: TrainId)
    requires Placed(w) && t < |w.trains| && |w.trains[t].calls| == 1
    ensures TimeSequenceFindings(w, t) == []
  {
  }

  /** For calls that each arrive no later than they depart, the four
      inequalities come down to one: the first call departs after the second
      arrives. Two calls with the same times, the first arriving before it
      departs, are therefore out of sequence. */
  lemma OutOfSequenceOfWellFormedCalls(w: World, c1: CallId, c2: CallId)
    requires c1 < |w.calls| && c2 < |w.calls|
    requires w.calls[c1].arrival.minutes <= w.calls[c1].departure.minutes
    requires w.calls[c2].arrival.minutes <= w.calls[c2].departure.minutes
    ensures OutOfSequence(w, c1, c2) <==> w.calls[c1].departure.minutes > w.calls[c2].arrival.minutes
  {
    var a, b := w.calls[c1], w.calls[c2];
    Times.OperatorsFollowOrder(a.arrival, b.departure);
    Times.OperatorsFollowOrder(a.arrival, b.arrival);
    Times.OperatorsFollowOrder(a.departure, b.arrival);
    Times.OperatorsFollowOrder(a.departure, b.departure);
  }

  // ---------------------------------------------------------------------
  // StationCall.GetValidationErrors
  // ---------------------------------------------------------------------

  /** The call arrives after it departs. */
  function ArrivesLate(w: World): CallId -> bool {
    (c: CallId) => c < |w.calls| && Times.Gt(Some(w.calls[c].arrival), Some(w.calls[c].departure))
  }

  /** The message for a call arriving after it departs: its station's name
      and both times. */
  function CallFinding(w: World, c: CallId): Finding
    requires Placed(w) && c < |w.calls|
  {
    ArrivalAfterDeparture(StationText(w, c), Times.HHMM(w.calls[c].arrival), Times.HHMM(w.calls[c].departure))
  }

  /** `call.GetValidationErrors()` for each call in turn: exactly one message
      per call that arrives after it departs, in order. */
  function CallFindings(w: World, cs: seq<CallId>): (r: seq<Finding>)
    requires Placed(w) && CallsIn(w, cs)
    ensures var late := Seqs.Filter<CallId>(cs, ArrivesLate(w));
      |r| == |late| && forall k :: 0 <= k < |r| ==> late[k] < |w.calls| && r[k] == CallFinding(w, late[k])
  {
    var late := Seqs.Filter<CallId>(cs, ArrivesLate(w));
    assert forall k :: 0 <= k < |late| ==> late[k] in late && ArrivesLate(w)(late[k]);
    Seqs.Map(late, CallFindingOf(w))
  }

  function CallFindingOf(w: World): CallId --> Finding
    requires Placed(w)
  {
    (c: CallId) requires c < |w.calls| => CallFinding(w, c)
  }

  /** Each station's calls, in station order. */
  function CallsOfStations(w: World, ss: seq<StationId>): (r: seq<seq<CallId>>)
    requires Valid(w) && StationsIn(w, ss)
  {
    seq(|ss|, i requires 0 <= i < |ss| => Stations.Calls(w, ss[i]))
  }

  /** `stations.SelectMany(s => s.Calls())`: the stations' calls laid end to
      end in station order. */
  function StationCalls(w: World, ss: seq<StationId>): (r: seq<CallId>)
    requires Valid(w) && StationsIn(w, ss)
    ensures CallsIn(w, r)
    ensures Seqs.Concatenation(r, CallsOfStations(w, ss))
    ensures forall c :: c in r <==> exists s <- ss :: c in Stations.Calls(w, s)
  {
    if |ss| == 0 then []
    else
      var rest := StationCalls(w, ss[1..]);
      assert forall s <- ss[1..] :: s in ss;
      assert forall s <- ss :: s == ss[0] || s in ss[1..];
      assert CallsOfStations(w, ss) == [Stations.Calls(w, ss[0])] + CallsOfStations(w, ss[1..]);
      Seqs.ConcatenationCons(Stations.Calls(w, ss[0]), rest, CallsOfStations(w, ss[1..]));
      Stations.Calls(w, ss[0]) + rest
  }

  /** Every call of the layout's stations that arrives after it departs is
      reported. */
  lemma {:induction false} LateCallIsReported(w: World, ss: seq<StationId>, c: CallId)
    requires Placed(w) && StationsIn(w, ss)
    requires c in StationCalls(w, ss) && Times.Gt(Some(w.calls[c].arrival), Some(w.calls[c].departure))
    ensures CallFinding(w, c) in CallFindings(w, StationCalls(w, ss))
  {
    var cs := StationCalls(w, ss);
    var late := Seqs.Filter<CallId>(cs, ArrivesLate(w));
    assert c in late;
    var k :| 0 <= k < |late| && late[k] == c;
    assert CallFindings(w, cs)[k] == CallFinding(w, c);
  }

  // ---------------------------------------------------------------------
  // ValidateOverlappingParts
  // ---------------------------------------------------------------------

  /** `p1.To.Arrival > p2.From.Departure && p1.From.Departure < p2.To.Arrival`. */
  predicate PartsOverlap(w: World, p1: Parts.TrainPart, p2: Parts.TrainPart)
    requires Parts.PartIn(w, p1) && Parts.PartIn(w, p2)
  {
    && Times.Gt(Some(Parts.Arrival(w, p1)), Some(Parts.Departure(w, p2)))
    && Times.Lt(Some(Parts.Departure(w, p1)), Some(Parts.Arrival(w, p2)))
  }

  /** The check agrees with `TrainPart.IsOverlapping`, in either order of the
      two parts. */
  lemma {:induction false} PartsOverlapIsOverlapping(w: World, p1: Parts.TrainPart, p2: Parts.TrainPart)
    requires Parts.PartIn(w, p1) && Parts.PartIn(w, p2)
    ensures PartsOverlap(w, p1, p2) <==> Parts.IsOverlapping(w, p1, [p2])
    ensures PartsOverlap(w, p1, p2) <==> PartsOverlap(w, p2, p1)
  {
    Times.OperatorsFollowOrder(Parts.Arrival(w, p1), Parts.Departure(w, p2));
    Times.OperatorsFollowOrder(Parts.Departure(w, p1), Parts.Arrival(w, p2));
    Times.OperatorsFollowOrder(Parts.Arrival(w, p2), Parts.Departure(w, p1));
    Times.OperatorsFollowOrder(Parts.Departure(w, p2), Parts.Arrival(w, p1));
  }

  /** `(i, j)` precedes `(k, l)` in the order the two loops visit pairs. */
  predicate Before(a: (int, int), b: (int, int)) {
    a.0 < b.0 || (a.0 == b.0 && a.1 < b.1)
  }

  /** The positions `i < j` of two parts that overlap. */
  predicate OverlapAt(w: World, ps: seq<Parts.TrainPart>, pair: (int, int))
    requires Parts.PartsIn(w, ps)
  {
    0 <= pair.0 < pair.1 < |ps| && PartsOverlap(w, ps[pair.0], ps[pair.1])
  }

  /** The inner loop: `j` from `from` up. */
  function OverlapsInRow(w: World, ps: seq<Parts.TrainPart>, i: nat, from: nat): (r: seq<(int, int)>)
    requires Parts.PartsIn(w, ps) && i < from
    ensures forall pair :: pair in r <==> pair.0 == i && from <= pair.1 && OverlapAt(w, ps, pair)
    ensures forall a, b :: 0 <= a < b < |r| ==> Before(r[a], r[b])
    decreases |ps| - from
  {
    if from >= |ps| then []
    else
      var rest := OverlapsInRow(w, ps, i, from + 1);
      (if OverlapAt(w, ps, (i, from)) then [(i, from)] else []) + rest
  }

  /** The outer loop: `i` from `from` up, each with every later `j`. */
  function OverlapsFrom(w: World, ps: seq<Parts.TrainPart>, from: nat): (r: seq<(int, int)>)
    requires Parts.PartsIn(w, ps)
    ensures forall pair :: pair in r <==> from <= pair.0 && OverlapAt(w, ps, pair)
    ensures forall a, b :: 0 <= a < b < |r| ==> Before(r[a], r[b])
    decreases |ps| - from
  {
    if from + 1 >= |ps| then []
    else
      var row := OverlapsInRow(w, ps, from, from + 1);
      var rest := OverlapsFrom(w, ps, from + 1);
      assert forall a :: 0 <= a < |row| ==> row[a] in row;
      assert forall b :: 0 <= b < |rest| ==> rest[b] in rest;
      row + rest
  }

  function OverlapFinding(w: World, number: string, ps: seq<Parts.TrainPart>, pair: (int, int)): Finding
    requires Placed(w) && Parts.PartsIn(w, ps) && 0 <= pair.0 < |ps| && 0 <= pair.1 < |ps|
  {
    OverlappingParts(number, Parts.ToString(w, ps[pair.0]), Parts.ToString(w, ps[pair.1]))
  }

  /** `schedule.ValidateOverlappingParts()`: one message for each pair of
      positions `i < j` whose parts overlap, each pair once, in the order
      the loops visit them. */
  function OverlappingPartsFindings(w: World, v: Parts.VehicleSchedule): (r: seq<Finding>)
    requires Placed(w) && Parts.PartsIn(w, v.parts)
    ensures |r| == |OverlapsFrom(w, v.parts, 0)|
  {
    var pairs := OverlapsFrom(w, v.parts, 0);
    assert forall k :: 0 <= k < |pairs| ==> pairs[k] in pairs;
    OverlapFindings(w, v.number, v.parts, pairs)
  }

  /** The `k`-th message names the parts of the `k`-th overlapping pair. */
  lemma {:induction false} OverlapFindingAt(w: World, v: Parts.VehicleSchedule, k: int)
    requires Placed(w) && Parts.PartsIn(w, v.parts) && 0 <= k < |OverlapsFrom(w, v.parts, 0)|
    ensures var pair := OverlapsFrom(w, v.parts, 0)[k];
      && OverlapAt(w, v.parts, pair)
      && OverlappingPartsFindings(w, v)[k] == OverlapFinding(w, v.number, v.parts, pair)
  {
    var pairs := OverlapsFrom(w, v.parts, 0);
    assert pairs[k] in pairs;
  }

  /** One message per pair of `pairs`, naming its two parts. */
  function OverlapFindings(w: World, number: string, ps: seq<Parts.TrainPart>, pairs: seq<(int, int)>): (r: seq<Finding>)
    requires Placed(w) && Parts.PartsIn(w, ps) && forall k :: 0 <= k < |pairs| ==> 0 <= pairs[k].0 < |ps| && 0 <= pairs[k].1 < |ps|
    ensures |r| == |pairs| && forall k :: 0 <= k < |r| ==> r[k] == OverlapFinding(w, number, ps, pairs[k])
  {
    seq(|pairs|, k requires 0 <= k < |pairs| => OverlapFinding(w, number, ps, pairs[k]))
  }

  /** Each pair of positions is reported at most once: the visiting order is
      strict. */
  lemma {:induction false} EachPairOnce(w: World, ps: seq<Parts.TrainPart>, a: int, b: int)
    requires Parts.PartsIn(w, ps)
    requires 0 <= a < b < |OverlapsFrom(w, ps, 0)|
    ensures OverlapsFrom(w, ps, 0)[a] != OverlapsFrom(w, ps, 0)[b]
  {
  }
}

=== FILE: data_rows.dfy ===
/** Reading the cells of a worksheet row as text, and recognising a blank
    row. */
module DataRows {
  import opened Results
  import Text
  import ImportStrings

  /** A data row: its item array, which may be null, of cell values; a
      cell is its text (`ToString()`) or null. */
  datatype Row = Row(items: Option<seq<Text.NString>>)

  /** `row.GetRowFields()`: one field per item, a null item giving "", and
      no fields at all when the item array is null. */
  function GetRowFields(row: Row): (r: seq<string>)
    ensures row.items.None? ==> r == []
    ensures row.items.Some? ==> |r| == |row.items.value|
    ensures row.items.Some? ==> forall i :: 0 <= i < |r| ==>
      (row.items.value[i].None? ==> r[i] == "") && (row.items.value[i].Some? ==> Some(r[i]) == row.items.value[i])
  {
    match row.items
    case None => []
    case Some(items) => seq(|items|, i requires 0 <= i < |items| => ImportStrings.ValueOrEmpty(items[i]))
  }

  /** `fields.IsEmptyFields()`: every field is null or white space; true
      when there are no fields. */
  function IsEmptyFields(fields: seq<Text.NString>): (r: bool)
    ensures r <==> forall i :: 0 <= i < |fields| ==> ImportStrings.IsEmpty(fields[i])
  {
    if |fields| == 0 then true
    else
      var rest := IsEmptyFields(fields[1..]);
      assert forall i :: 1 <= i < |fields| ==> fields[i] == fields[1..][i - 1];
      ImportStrings.IsEmpty(fields[0]) && rest
  }

  /** The fields as nullable texts, for `IsEmptyFields`. */
  function AsTexts(fields: seq<string>): (r: seq<Text.NString>)
    ensures |r| == |fields| && forall i :: 0 <= i < |r| ==> r[i] == Some(fields[i])
  {
    seq(|fields|, i requires 0 <= i < |fields| => Some(fields[i]))
  }

  /** `row.IsBlankRow()`: the row's fields are all empty. */
  function IsBlankRow(row: Row): bool {
    IsEmptyFields(AsTexts(GetRowFields(row)))
  }

  /** A row is blank exactly when its item array is null or every item is
      null or white space. */
  lemma BlankRowIsNullOrWhiteSpace(row: Row)
    ensures IsBlankRow(row) <==>
      row.items.None? || forall i :: 0 <= i < |row.items.value| ==> Text.IsNullOrWhiteSpace(row.items.value[i])
  {
    if row.items.Some? {
      var items := row.items.value;
      var fields := GetRowFields(row);
      forall i | 0 <= i < |items|
        ensures ImportStrings.IsEmpty(Some(fields[i])) <==> Text.IsNullOrWhiteSpace(items[i])
      {
        ImportStrings.ValueOrEmptyKeepsBlanks(items[i]);
      }
    }
  }

  /** Extending a row keeps it blank only when the new item is empty. */
  lemma BlankRowOfAppend(items: seq<Text.NString>, item: Text.NString)
    ensures IsBlankRow(Row(Some(items + [item]))) <==>
      IsBlankRow(Row(Some(items))) && Text.IsNullOrWhiteSpace(item)
  {
    BlankRowIsNullOrWhiteSpace(Row(Some(items + [item])));
    BlankRowIsNullOrWhiteSpace(Row(Some(items)));
    assert (items + [item])[|items|] == item;
    assert forall i :: 0 <= i < |items| ==> (items + [item])[i] == items[i];
  }
}

=== FILE: findings.dfy ===
/** What the validation engine reports. Every message text is one of the
    localized resource strings filled with arguments; the strings live in
    resource files outside this model, so a text is kept as its kind (the
    resource) and the argument texts. */
module Findings {
  import Text
  import Times
  import Resources
  import Messages
  import opened Graph
  import Trains

  datatype Finding =
    /** `TrackInStationReferredInTrainIsNotInLayout`: track, its station, train. */
    | TrackNotInLayout(track: string, station: string, train: string)
    /** `CallAtStationHasConflictsWithOtherCall`: a train and its call, twice. */
    | TrackCallConflict(train1: string, call1: string, train2: string, call2: string)
    /** `ArrivalIsAfterDeparture`: station, arrival, departure. */
    | ArrivalAfterDeparture(station: string, arrival: string, departure: string)
    /** `TrainBetweenPassingIsConflictingWithTrainBetweenPassing`. */
    | StretchConflict(number1: string, passing1: string, number2: string, passing2: string)
    /** `TrainSpeedBetweenCallsIsTooSlow`: train, from station and departure,
        to station and arrival, and the length used. */
    | TooSlow(train: string, from: string, departure: string, to: string, arrival: string, length: real)
    /** `TrainSpeedBetweenCallsIsTooFast`, with the same arguments. */
    | TooFast(train: string, from: string, departure: string, to: string, arrival: string, length: real)
    /** `TrainMustHaveMinimumTwoCalls`: the train. */
    | TooFewCalls(train: string)
    /** `TrainHasConflictingCalls`: the train and two consecutive calls. */
    | ConflictingCalls(train: string, call1: string, call2: string)
    /** `VehicleScheduleContainsOverlappingTrainParts`: the schedule number and
        the two parts. */
    | OverlappingParts(schedule: string, part1: string, part2: string)

  /** `Message.Information(text)` for each finding, in order. */
  function Info(fs: seq<Finding>): (r: seq<Messages.Message<Finding>>)
    ensures |r| == |fs|
    ensures forall i :: 0 <= i < |r| ==> r[i] == Messages.Message(fs[i], Messages.Severity.Information)
  {
    if |fs| == 0 then [] else [Messages.Message(fs[0], Messages.Severity.Information)] + Info(fs[1..])
  }

  /** Wrapping distributes over concatenation. */
  lemma {:induction false} InfoAppend(a: seq<Finding>, b: seq<Finding>)
    ensures Info(a + b) == Info(a) + Info(b)
  {
  }

  // ---------------------------------------------------------------------
  // The argument texts (each object's `ToString()`)
  // ---------------------------------------------------------------------

  /** `call.Train.ToString()`; a null train prints as the empty string. */
  function TrainText(w: World, c: CallId): string
    requires Valid(w) && c < |w.calls|
  {
    if w.calls[c].train.Some? then Trains.ToString(w, w.calls[c].train.value) else ""
  }

  /** `call.Station.ToString()`, the station's name. */
  function StationText(w: World, c: CallId): string
    requires Placed(w) && c < |w.calls|
  {
    w.stations[StationOf(w, c)].name
  }

  /** `StationCall.ToString()`: the `CallAtStationTrackDuringTimes` resource
      with the station, the track number and both times. */
  function CallText(w: World, c: CallId): string
    requires Placed(w) && c < |w.calls|
  {
    Resources.Format("CallAtStationTrackDuringTimes",
      [StationText(w, c), w.tracks[w.calls[c].track].number,
       Times.HHMM(w.calls[c].arrival), Times.HHMM(w.calls[c].departure)])
  }
}

=== FILE: graph.dfy ===
/** The timetable entity graph as an arena.

    The C# timetable model is an object graph with back references: a call knows its
    train and its track, a track knows its station, a station knows its
    layout. Here every station, track, call and train lives in one `World`
    and refers to the others by index; an index is the object's identity
    (C#'s reference), while `Equals` is the case-insensitive key equality
    each class defines. */
module Graph {
  import opened Results
  import Text
  import Times

  type LayoutId = nat
  type StationId = nat
  type TrackId = nat
  type CallId = nat
  type TrainId = nat

  /** `Station`: its tracks in insertion order and the layout it was added
      to, if any. */
  datatype Station = Station(name: string, signature: string, tracks: seq<TrackId>, layout: Option<LayoutId>)

  /** `StationTrack`: the station is set when the track is added to one. */
  datatype Track = Track(number: string, isMain: bool, isScheduled: bool,
                         station: Option<StationId>, calls: seq<CallId>)

  /** `StationCall`: the train is set when the call is added to a train. */
  datatype Call = Call(track: TrackId, arrival: Times.Time, departure: Times.Time,
                       isArrival: bool, isDeparture: bool, train: Option<TrainId>)

  /** `Train`: `ExtenalId` is "" unless given. */
  datatype Train = Train(number: string, externalId: string, category: string, calls: seq<CallId>)

  /** `TrackStretch`: a directed stretch of line between two stations of the
      same layout. */
  datatype TrackStretch = TrackStretch(start: StationId, end: StationId, distance: real,
                                       tracksCount: int, speed: int, time: int, layout: LayoutId)

  /** `TimetableStretch`: a numbered route made of track stretches. */
  datatype TimetableStretch = TimetableStretch(number: string, description: string, stretches: seq<TrackStretch>)

  /** `Layout`. */
  datatype Layout = Layout(name: string, stations: seq<StationId>, trackStretches: seq<TrackStretch>,
                           timetableStretches: seq<TimetableStretch>)

  datatype World = World(layouts: seq<Layout>, stations: seq<Station>, tracks: seq<Track>,
                         calls: seq<Call>, trains: seq<Train>)

  /** The world with nothing in it. */
  const Empty: World := World([], [], [], [], [])

  // ---------------------------------------------------------------------
  // Well-formedness
  // ---------------------------------------------------------------------

  predicate StretchIn(w: World, s: TrackStretch) {
    s.start < |w.stations| && s.end < |w.stations| && s.layout < |w.layouts|
  }

  predicate StretchesIn(w: World, ss: seq<TrackStretch>) {
    forall i :: 0 <= i < |ss| ==> StretchIn(w, ss[i])
  }

  predicate StationsIn(w: World, ss: seq<StationId>) {
    forall i :: 0 <= i < |ss| ==> ss[i] < |w.stations|
  }

  predicate TracksIn(w: World, ts: seq<TrackId>) {
    forall i :: 0 <= i < |ts| ==> ts[i] < |w.tracks|
  }

  predicate CallsIn(w: World, cs: seq<CallId>) {
    forall i :: 0 <= i < |cs| ==> cs[i] < |w.calls|
  }

  predicate LayoutIn(w: World, l: Layout) {
    && StationsIn(w, l.stations)
    && StretchesIn(w, l.trackStretches)
    && (forall i :: 0 <= i < |l.timetableStretches| ==> StretchesIn(w, l.timetableStretches[i].stretches))
  }

  predicate StationIn(w: World, st: Station) {
    TracksIn(w, st.tracks) && (st.layout.Some? ==> st.layout.value < |w.layouts|)
  }

  predicate TrackIn(w: World, t: Track) {
    (t.station.Some? ==> t.station.value < |w.stations|) && CallsIn(w, t.calls)
  }

  predicate CallIn(w: World, c: Call) {
    c.track < |w.tracks| && (c.train.Some? ==> c.train.value < |w.trains|)
  }

  predicate TrainIn(w: World, tr: Train) {
    CallsIn(w, tr.calls)
  }

  /** Every reference points into the world: C# references never dangle. */
  predicate Valid(w: World) {
    && (forall i :: 0 <= i < |w.layouts| ==> LayoutIn(w, w.layouts[i]))
    && (forall i :: 0 <= i < |w.stations| ==> StationIn(w, w.stations[i]))
    && (forall i :: 0 <= i < |w.tracks| ==> TrackIn(w, w.tracks[i]))
    && (forall i :: 0 <= i < |w.calls| ==> CallIn(w, w.calls[i]))
    && (forall i :: 0 <= i < |w.trains| ==> TrainIn(w, w.trains[i]))
  }

  /** Every track has been added to a station: track equality dereferences
      the station. */
  predicate Placed(w: World) {
    Valid(w) && forall i :: 0 <= i < |w.tracks| ==> w.tracks[i].station.Some?
  }

  /** Placed, and every call has been added to a train: the validation
      engine dereferences both. */
  predicate Built(w: World) {
    Placed(w) && forall i :: 0 <= i < |w.calls| ==> w.calls[i].train.Some?
  }

  // ---------------------------------------------------------------------
  // Navigation
  // ---------------------------------------------------------------------

  /** `StationCall.Station`, which is `Track.Station`. */
  function StationOf(w: World, c: CallId): (s: StationId)
    requires Placed(w) && c < |w.calls|
    ensures s < |w.stations|
    ensures Some(s) == w.tracks[w.calls[c].track].station
  {
    w.tracks[w.calls[c].track].station.value
  }

  /** The train a call was added to, in a built world. */
  function TrainOf(w: World, c: CallId): (t: TrainId)
    requires Built(w) && c < |w.calls|
    ensures t < |w.trains| && w.calls[c].train == Some(t)
  {
    w.calls[c].train.value
  }

  // ---------------------------------------------------------------------
  // Equality and hash codes
  // ---------------------------------------------------------------------

  /** `Station.Equals`: signatures equal ignoring case. */
  predicate StationEquals(a: Station, b: Station) {
    Text.EqIgnoreCase(a.signature, b.signature)
  }

  /** The input of `Station.GetHashCode`: the case-insensitive hash of the
      signature is a hash of its folded form. */
  function StationHash(a: Station): string {
    Text.Fold(a.signature)
  }

  /** `Equals(Station? other)` with a nullable station, as
      `StationTrack.Equals` calls it: false for null. */
  predicate StationIdEquals(w: World, a: StationId, b: Option<StationId>)
    requires a < |w.stations| && (b.Some? ==> b.value < |w.stations|)
  {
    b.Some? && StationEquals(w.stations[a], w.stations[b.value])
  }

  /** `StationTrack.Equals`: numbers equal ignoring case and stations equal. */
  predicate TrackEquals(w: World, a: TrackId, b: TrackId)
    requires Placed(w) && a < |w.tracks| && b < |w.tracks|
  {
    Text.EqIgnoreCase(w.tracks[a].number, w.tracks[b].number)
    && StationIdEquals(w, w.tracks[a].station.value, w.tracks[b].station)
  }

  /** The input of `StationTrack.GetHashCode`: the folded number. */
  function TrackHash(w: World, t: TrackId): string
    requires t < |w.tracks|
  {
    Text.Fold(w.tracks[t].number)
  }

  /** `Train.Equals`: number and external id equal ignoring case. */
  predicate TrainEquals(a: Train, b: Train) {
    Text.EqIgnoreCase(a.number, b.number) && Text.EqIgnoreCase(a.externalId, b.externalId)
  }

  /** The inputs of `Train.GetHashCode`. */
  function TrainHash(a: Train): (string, string) {
    (Text.Fold(a.number), Text.Fold(a.externalId))
  }

  /** The default equality comparer on nullable trains, as `Distinct` and
      `Intersect` use it: two nulls are equal, null equals nothing else. */
  predicate NullableTrainEquals(w: World, a: Option<TrainId>, b: Option<TrainId>)
    requires a.Some? ==> a.value < |w.trains|
    requires b.Some? ==> b.value < |w.trains|
  {
    if a.None? || b.None? then a.None? && b.None?
    else TrainEquals(w.trains[a.value], w.trains[b.value])
  }

  /** `StationCall.Equals`: same times, equal tracks, and this call's train
      is set and equal to the other's. */
  predicate CallEquals(w: World, a: CallId, b: CallId)
    requires Placed(w) && a < |w.calls| && b < |w.calls|
  {
    var x, y := w.calls[a], w.calls[b];
    && x.arrival == y.arrival
    && x.departure == y.departure
    && TrackEquals(w, x.track, y.track)
    && x.train.Some? && y.train.Some? && TrainEquals(w.trains[x.train.value], w.trains[y.train.value])
  }

  /** The inputs `StationCall.GetHashCode` combines: both times, the track's
      hash and the train's hash (none for null). */
  function CallHash(w: World, c: CallId): (Times.Time, Times.Time, string, Option<(string, string)>)
    requires Valid(w) && c < |w.calls|
  {
    var x := w.calls[c];
    (x.arrival, x.departure, TrackHash(w, x.track),
     if x.train.Some? then Some(TrainHash(w.trains[x.train.value])) else None)
  }

  /** `TrackStretch.Equals`: directional, start equal to start and end to end. */
  predicate StretchEquals(w: World, a: TrackStretch, b: TrackStretch)
    requires StretchIn(w, a) && StretchIn(w, b)
  {
    StationEquals(w.stations[a.start], w.stations[b.start]) && StationEquals(w.stations[a.end], w.stations[b.end])
  }

  /** The inputs of `TrackStretch.GetHashCode`, the XOR of the two station
      hashes: unordered. */
  function StretchHash(w: World, s: TrackStretch): multiset<string>
    requires StretchIn(w, s)
  {
    multiset{StationHash(w.stations[s.start]), StationHash(w.stations[s.end])}
  }

  /** Every `Equals` above agrees with its `GetHashCode`: equal objects hash
      alike (stations, tracks, trains and calls), and for stations and trains
      equal hashes also mean equal objects. */
  lemma HashCodesAgreeWithEquals(w: World, s1: Station, s2: Station, t1: Train, t2: Train)
    ensures StationEquals(s1, s2) <==> StationHash(s1) == StationHash(s2)
    ensures TrainEquals(t1, t2) <==> TrainHash(t1) == TrainHash(t2)
    ensures Placed(w) ==> forall a: TrackId, b: TrackId :: a < |w.tracks| && b < |w.tracks| && TrackEquals(w, a, b)
                                         ==> TrackHash(w, a) == TrackHash(w, b)
    ensures Placed(w) ==> forall a: CallId, b: CallId :: a < |w.calls| && b < |w.calls| && CallEquals(w, a, b)
                                         ==> CallHash(w, a) == CallHash(w, b)
    ensures Placed(w) ==> forall a, b :: StretchIn(w, a) && StretchIn(w, b) && StretchEquals(w, a, b)
                                         ==> StretchHash(w, a) == StretchHash(w, b)
  {
  }

  /** A call that has not been added to a train equals no call, not even
      itself; once its train is set it equals itself. */
  lemma CallEqualsNeedsTrain(w: World, a: CallId, b: CallId)
    requires Placed(w) && a < |w.calls| && b < |w.calls|
    ensures w.calls[a].train.None? ==> !CallEquals(w, a, b) && !CallEquals(w, a, a)
    ensures w.calls[a].train.Some? ==> CallEquals(w, a, a)
    ensures CallEquals(w, a, b) ==> CallEquals(w, b, a)
  {
  }

  /** Stretch equality is directional: a stretch between two stations with
      different signatures does not equal its reverse, although both hash
      alike. */
  lemma StretchEqualityIsDirectional(w: World, s: TrackStretch)
    requires StretchIn(w, s)
    requires !StationEquals(w.stations[s.start], w.stations[s.end])
    ensures var r := s.(start := s.end, end := s.start);
            !StretchEquals(w, s, r) && StretchHash(w, s) == StretchHash(w, r)
  {
  }
}

=== FILE: guards.dfy ===
/** Argument guards: `ValueOrException`, `IfNotEqualsThrow`/`NotEqualsThrow`
    and `IfTrueThrows`/`TrueThrows`. Both model libraries define the same
    three guards; this module models both. A guard that returns nothing is a
    `Result<()>`. */
module Guards {
  import opened Results

  /** `ValueOrException`: a non-null value is returned, null throws
      `ArgumentNullException`. */
  function ValueOrException<T>(value: Option<T>): (r: Result<T>)
    ensures r.Ok? <==> value.Some?
    ensures r.Ok? ==> Some(r.value) == value
    ensures r.Throws? ==> r.fault == ArgumentNull
  {
    if value.Some? then Ok(value.value) else Throws(ArgumentNull)
  }

  /** `IfNotEqualsThrow` / `NotEqualsThrow`: throws
      `ArgumentOutOfRangeException` when `one` is null or `one.Equals(other)`
      is false; `equals` is the type's `Equals`. */
  function IfNotEqualsThrow<T>(one: Option<T>, other: T, equals: (T, T) -> bool): (r: Result<()>)
    ensures r.Ok? <==> one.Some? && equals(one.value, other)
    ensures r.Throws? ==> r.fault == ArgumentOutOfRange
  {
    if one.None? || !equals(one.value, other) then Throws(ArgumentOutOfRange) else Ok(())
  }

  /** `IfTrueThrows` / `TrueThrows`: throws `ArgumentOutOfRangeException`
      exactly when the condition holds. */
  function IfTrueThrows(condition: bool): (r: Result<()>)
    ensures r.Ok? <==> !condition
    ensures r.Throws? ==> r.fault == ArgumentOutOfRange
  {
    if condition then Throws(ArgumentOutOfRange) else Ok(())
  }
}

=== FILE: import_result.dfy ===
/** `ImportResult<T>`: the items an import produced, its messages and whether
    it succeeded. */
module ImportResults {
  import opened Results

  datatype ImportResult<+T> = ImportResult(items: seq<T>, messages: seq<string>, isSuccess: bool)

  /** The `Success` overloads: `Success()`, `Success(item)`,
      `Success(item, message)`, `Success(item, messages)`, `Success(items)`,
      `Success(items, messages)` and `Success(items, message)` all build a
      successful result from the items and messages given. */
  function Success<T>(items: seq<T>, messages: seq<string>): (r: ImportResult<T>)
    ensures IsSuccess(r) && !IsFailure(r)
    ensures r.items == items && r.messages == messages
  {
    ImportResult(items, messages, true)
  }

  function SuccessItem<T>(item: T): (r: ImportResult<T>)
    ensures IsSuccess(r) && Item(r) == Ok(item) && r.messages == []
  {
    Success([item], [])
  }

  function SuccessItemWithMessage<T>(item: T, message: string): (r: ImportResult<T>)
    ensures IsSuccess(r) && r.items == [item] && r.messages == [message]
  {
    Success([item], [message])
  }

  /** `Failure(message)` and `Failure(messages)`: no items. */
  function Failure<T>(messages: seq<string>): (r: ImportResult<T>)
    ensures IsFailure(r) && r.items == [] && r.messages == messages
    ensures Item(r) == Throws(InvalidOperation)
  {
    ImportResult([], messages, false)
  }

  /** `SuccessIfNoMessagesOtherwiseFailure`: no items; a success exactly when
      there are no messages. */
  function SuccessIfNoMessagesOtherwiseFailure<T>(messages: seq<string>): (r: ImportResult<T>)
    ensures IsSuccess(r) <==> |messages| == 0
    ensures r.items == [] && r.messages == messages
  {
    ImportResult([], messages, |messages| == 0)
  }

  predicate IsSuccess<T>(r: ImportResult<T>) { r.isSuccess }

  predicate IsFailure<T>(r: ImportResult<T>) { !IsSuccess(r) }

  /** `Item`: the first item; `First()` throws `InvalidOperationException`
      when there are none. */
  function Item<T>(r: ImportResult<T>): (x: Result<T>)
    ensures x.Ok? <==> |r.items| > 0
    ensures x.Ok? ==> x.value == r.items[0]
    ensures x.Throws? ==> x.fault == InvalidOperation
  {
    if |r.items| > 0 then Ok(r.items[0]) else Throws(InvalidOperation)
  }
}

=== FILE: import_strings.dfy ===
/** The string rules the spreadsheet importer applies to cell texts: train
    numbers and categories taken apart from one text, the case-insensitive
    keyword tests, the blank and zero tests, and the integer conversions. */
module ImportStrings {
  import opened Results
  import Text

  type NString = Text.NString

  // ---------------------------------------------------------------------
  // TrainNumber: the first run of digits without its leading zeros
  // ---------------------------------------------------------------------

  predicate NoDigit(s: string) {
    forall i :: 0 <= i < |s| ==> !Text.IsDigit(s[i])
  }

  predicate AllZeros(s: string) {
    forall i :: 0 <= i < |s| ==> s[i] == '0'
  }

  /** The longest prefix made of digits. */
  function DigitPrefix(s: string): (r: string)
    ensures |r| <= |s| && r == s[..|r|] && Text.AllDigits(r)
    ensures |r| < |s| ==> !Text.IsDigit(s[|r|])
  {
    if |s| > 0 && Text.IsDigit(s[0]) then [s[0]] + DigitPrefix(s[1..]) else ""
  }

  /** `Regex("\d+").Match(s).Value`: the first maximal run of digits, and ""
      when there is none. */
  function FirstRun(s: string): (r: string)
    ensures Text.AllDigits(r)
    ensures r == "" <==> NoDigit(s)
  {
    if |s| == 0 then ""
    else if Text.IsDigit(s[0]) then DigitPrefix(s)
    else
      assert forall i :: 1 <= i < |s| ==> s[i] == s[1..][i - 1];
      FirstRun(s[1..])
  }

  /** `s.TrimStart('0')`: the leading zeros removed. */
  function TrimZeros(s: string): (r: string)
    ensures |r| <= |s| && r == s[|s| - |r|..]
    ensures AllZeros(s[..|s| - |r|])
    ensures |r| > 0 ==> r[0] != '0'
  {
    if |s| > 0 && s[0] == '0' then
      var r := TrimZeros(s[1..]);
      assert s[..|s| - |r|] == [s[0]] + s[1..][..|s| - 1 - |r|];
      r
    else s
  }

  /** `TrainNumber`: the digits of the first run of digits, without leading
      zeros; "" when the text has no digit or the run is all zeros. */
  function TrainNumber(s: string): (r: string)
    ensures Text.AllDigits(r)
    ensures |r| > 0 ==> r[0] != '0'
    ensures NoDigit(s) ==> r == ""
    ensures var run := FirstRun(s); |r| <= |run| && run == run[..|run| - |r|] + r && AllZeros(run[..|run| - |r|])
  {
    var run := FirstRun(s);
    var r := TrimZeros(run);
    assert run == run[..|run| - |r|] + run[|run| - |r|..];
    r
  }

  lemma {:induction false} DigitPrefixOf(d: string, rest: string)
    requires Text.AllDigits(d) && (|rest| == 0 || !Text.IsDigit(rest[0]))
    ensures DigitPrefix(d + rest) == d
    decreases |d|
  {
    if |d| == 0 {
      assert d + rest == rest;
    } else {
      DigitPrefixOf(d[1..], rest);
      assert (d + rest)[1..] == d[1..] + rest;
      assert [d[0]] + d[1..] == d;
    }
  }

  lemma {:induction false} FirstRunOf(prefix: string, run: string, rest: string)
    requires NoDigit(prefix) && |run| > 0 && Text.AllDigits(run)
    requires |rest| == 0 || !Text.IsDigit(rest[0])
    ensures FirstRun(prefix + run + rest) == run
    decreases |prefix|
  {
    if |prefix| == 0 {
      assert prefix + run + rest == run + rest;
      DigitPrefixOf(run, rest);
    } else {
      FirstRunOf(prefix[1..], run, rest);
      assert (prefix + run + rest)[1..] == prefix[1..] + run + rest;
    }
  }

  lemma {:induction false} TrimZerosOf(zeros: string, digits: string)
    requires AllZeros(zeros) && (|digits| == 0 || digits[0] != '0')
    ensures TrimZeros(zeros + digits) == digits
  {
    var s := zeros + digits;
    var r := TrimZeros(s);
    var cut := |s| - |r|;
    assert forall k :: 0 <= k < cut ==> s[k] == '0' by {
      assert forall k :: 0 <= k < cut ==> s[..cut][k] == s[k];
    }
    assert forall k :: 0 <= k < |zeros| ==> s[k] == '0';
    if |digits| > 0 {
      assert s[|zeros|] == digits[0];
    }
    if |r| > 0 {
      assert r[0] == s[cut];
    }
    assert cut == |zeros|;
    assert s[|zeros|..] == digits;
  }

  /** Taking apart a composed text recovers the number: text without digits,
      then zero padding, the number and anything that does not start with a
      digit gives back the number. */
  lemma TrainNumberOf(prefix: string, zeros: string, number: string, rest: string)
    requires NoDigit(prefix) && AllZeros(zeros) && Text.AllDigits(number)
    requires |zeros| + |number| > 0 && (|number| == 0 || number[0] != '0')
    requires |rest| == 0 || !Text.IsDigit(rest[0])
    ensures TrainNumber(prefix + zeros + number + rest) == number
  {
    assert prefix + zeros + number + rest == prefix + (zeros + number) + rest;
    FirstRunOf(prefix, zeros + number, rest);
    TrimZerosOf(zeros, number);
  }

  /** The importer's own examples, written as the composed texts. */
  lemma TrainNumberExample()
    ensures TrainNumber("GT CL" + "5814") == "5814"
  {
    var p := "GT CL";
    assert NoDigit(p);
    FirstRunOf(p, "5814", "");
    assert p + "5814" + "" == p + "5814";
    TrimZerosOf("", "5814");
    assert "" + "5814" == "5814";
  }

  lemma TrainNumberExampleWithZeros()
    ensures TrainNumber("0" + "54738" + ".GT CN54738") == "54738"
  {
    TrainNumberOf("", "0", "54738", ".GT CN54738");
    assert "" + "0" + "54738" + ".GT CN54738" == "0" + "54738" + ".GT CN54738";
  }

  // ---------------------------------------------------------------------
  // TrainCategory: the text between the first '.' and the first space
  // ---------------------------------------------------------------------

  /** `s.IndexOf(c)`: the first position of `c`, or -1. */
  function IndexOf(s: string, c: char): (r: int)
    ensures -1 <= r < |s|
    ensures r == -1 <==> c !in s
    ensures r >= 0 ==> s[r] == c && forall k :: 0 <= k < r ==> s[k] != c
  {
    if |s| == 0 then -1
    else if s[0] == c then 0
    else
      var k := IndexOf(s[1..], c);
      assert forall i :: 1 <= i < |s| ==> s[i] == s[1..][i - 1];
      if k == -1 then -1 else k + 1
  }

  /** The match position of `Regex("\d+")` in `s`: the first digit, or -1. */
  function FirstDigit(s: string): (r: int)
    ensures -1 <= r < |s|
    ensures r == -1 <==> NoDigit(s)
    ensures r >= 0 ==> Text.IsDigit(s[r]) && forall k :: 0 <= k < r ==> !Text.IsDigit(s[k])
  {
    if |s| == 0 then -1
    else if Text.IsDigit(s[0]) then 0
    else
      var k := FirstDigit(s[1..]);
      assert forall i :: 1 <= i < |s| ==> s[i] == s[1..][i - 1];
      if k == -1 then -1 else k + 1
  }

  /** The text has a space, and a '.' after its first space but none
      before it. */
  predicate SpaceBeforeDot(s: string) {
    0 <= IndexOf(s, ' ') < IndexOf(s, '.')
  }

  /** Where the category starts: one past the first '.', or 0. */
  function CategoryStart(s: string): (n: nat)
    ensures n <= |s|
  {
    IndexOf(s, '.') + 1
  }

  /** The `length` argument `TrainCategory` passes to `Substring`: up to the
      first space when there is one, else up to the first digit after the
      start, else 0. */
  function CategoryLength(s: string): (n: int)
    ensures n < 0 <==> SpaceBeforeDot(s)
    ensures CategoryStart(s) + n <= |s|
  {
    var start := CategoryStart(s);
    var end := IndexOf(s, ' ');
    if end >= 0 then end - start
    else var k := FirstDigit(s[start..]); if k >= 0 then k else 0
  }

  /** The category text stops before the first space when there is one. */
  lemma {:induction false} CategoryShapeWithSpace(s: string)
    requires CategoryLength(s) >= 0 && ' ' in s
    ensures var start, n := CategoryStart(s), CategoryLength(s);
      ' ' !in s[start..start + n] && start + n == IndexOf(s, ' ')
  {
    var start, n := CategoryStart(s), CategoryLength(s);
    var r := s[start..start + n];
    assert forall k :: 0 <= k < n ==> r[k] == s[start + k];
  }

  /** Without a space, the category text holds no digit and stops at the
      first digit after the start, or is empty. */
  lemma CategoryShapeWithoutSpace(s: string)
    requires CategoryLength(s) >= 0 && ' ' !in s
    ensures var start, n := CategoryStart(s), CategoryLength(s);
      && ' ' !in s[start..start + n]
      && NoDigit(s[start..start + n])
      && (n == 0 || start + n == |s| || Text.IsDigit(s[start + n]))
  {
    var start, n := CategoryStart(s), CategoryLength(s);
    var r := s[start..start + n];
    assert forall k :: 0 <= k < n ==> r[k] == s[start..][k];
  }

  lemma {:induction false} CategoryShape(s: string)
    requires CategoryLength(s) >= 0
    ensures var start, n := CategoryStart(s), CategoryLength(s);
      && ' ' !in s[start..start + n]
      && (' ' in s ==> start + n == IndexOf(s, ' '))
      && (' ' !in s ==> NoDigit(s[start..start + n]) && (n == 0 || start + n == |s| || Text.IsDigit(s[start + n])))
  {
    if ' ' in s { CategoryShapeWithSpace(s); } else { CategoryShapeWithoutSpace(s); }
  }

  /** `TrainCategory`: the text from `CategoryStart` of `CategoryLength`
      characters. A first space before the first '.' gives a negative
      length, and `Substring` throws `ArgumentOutOfRangeException`. */
  function TrainCategory(s: string): (r: Result<string>)
    ensures r.Throws? <==> SpaceBeforeDot(s)
    ensures r.Throws? ==> r.fault == ArgumentOutOfRange
    ensures r.Ok? ==> var start := CategoryStart(s);
      && start + |r.value| <= |s| && r.value == s[start..start + |r.value|]
      && ' ' !in r.value
      && (' ' in s ==> start + |r.value| == IndexOf(s, ' '))
      && (' ' !in s ==> NoDigit(r.value) && (r.value == "" || start + |r.value| == |s| || Text.IsDigit(s[start + |r.value|])))
  {
    var n := CategoryLength(s);
    if n < 0 then Throws(ArgumentOutOfRange)
    else
      CategoryShape(s);
      Ok(s[CategoryStart(s)..CategoryStart(s) + n])
  }

  /** The category of a composed text starts after the id and its '.'. */
  lemma {:induction false} CategoryStartOf(id: string, category: string, rest: string)
    requires '.' !in id
    ensures CategoryStart(id + "." + category + rest) == |id| + 1
  {
    var s := id + "." + category + rest;
    assert forall k :: 0 <= k < |id| ==> s[k] == id[k];
    assert s[|id|] == '.';
  }

  /** The first space of a composed text is the one that follows the
      category. */
  lemma {:induction false} SpaceEndsCategory(id: string, category: string, rest: string)
    requires ' ' !in id && ' ' !in category && |rest| > 0 && rest[0] == ' '
    ensures IndexOf(id + "." + category + rest, ' ') == |id| + 1 + |category|
  {
    var s := id + "." + category + rest;
    var n := |id| + 1 + |category|;
    assert s[n] == ' ';
    assert forall k :: 0 <= k < n ==> s[k] != ' ' by {
      var head := id + "." + category;
      assert ' ' !in head;
      assert s == head + rest;
      assert forall k :: 0 <= k < n ==> s[k] == head[k];
    }
    FirstAt(s, ' ', n);
  }

  /** The first position holding `c` is the one before which no position
      holds it. */
  lemma {:induction false} FirstAt(s: string, c: char, n: int)
    requires 0 <= n < |s| && s[n] == c && forall k :: 0 <= k < n ==> s[k] != c
    ensures IndexOf(s, c) == n
  {
  }

  /** Without spaces, the first digit after the '.' is the one that follows
      the category. */
  lemma {:induction false} DigitEndsCategory(id: string, category: string, rest: string)
    requires ' ' !in id && ' ' !in category && ' ' !in rest && NoDigit(category)
    requires |rest| > 0 && Text.IsDigit(rest[0])
    ensures var s := id + "." + category + rest;
      ' ' !in s && FirstDigit(s[|id| + 1..]) == |category|
  {
    var s := id + "." + category + rest;
    var start := |id| + 1;
    assert forall k :: 0 <= k < |id| ==> s[k] == id[k];
    assert forall k :: 0 <= k < |category| ==> s[start + k] == category[k];
    assert forall k :: start + |category| <= k < |s| ==> s[k] == rest[k - start - |category|];
    assert s[|id|] == '.';
    var tail := s[start..];
    assert forall k :: 0 <= k < |category| ==> tail[k] == category[k];
    assert tail[|category|] == rest[0];
  }

  /** Composing a category back into a text gives it back: an id without
      '.' or space, a '.', the category, then a space or a digit run with no
      space anywhere after it. */
  lemma {:induction false} TrainCategoryOf(id: string, category: string, rest: string)
    requires '.' !in id && ' ' !in id && '.' !in category && ' ' !in category && NoDigit(category)
    requires |rest| > 0 && (rest[0] == ' ' || (Text.IsDigit(rest[0]) && ' ' !in rest))
    ensures TrainCategory(id + "." + category + rest) == Ok(category)
  {
    var s := id + "." + category + rest;
    var start := |id| + 1;
    CategoryStartOf(id, category, rest);
    if rest[0] == ' ' {
      SpaceEndsCategory(id, category, rest);
    } else {
      DigitEndsCategory(id, category, rest);
    }
    assert CategoryLength(s) == |category|;
    assert forall k :: 0 <= k < |category| ==> s[start..start + |category|][k] == category[k];
  }

  /** The importer's own examples, written as the composed texts. */
  lemma TrainCategoryExampleWithSpace()
    ensures TrainCategory("054738" + "." + "GT" + " CN54738") == Ok("GT")
  {
    TrainCategoryOf("054738", "GT", " CN54738");
  }

  lemma TrainCategoryExampleWithDigits()
    ensures TrainCategory("000100" + "." + "Snt" + "100") == Ok("Snt")
  {
    TrainCategoryOf("000100", "Snt", "100");
  }

  /** A space before the '.' throws. */
  lemma TrainCategoryExampleThrows()
    ensures TrainCategory("GT" + " " + "1.2").Throws?
  {
    var t := "GT" + " " + "1.2";
    assert t[2] == ' ' && t[0] != ' ' && t[1] != ' ';
    assert IndexOf(t, ' ') == 2;
    assert t[4] == '.' && t[0] != '.' && t[1] != '.' && t[2] != '.' && t[3] != '.';
    assert IndexOf(t, '.') == 4;
  }

  // ---------------------------------------------------------------------
  // Keyword tests
  // ---------------------------------------------------------------------

  /** `Is(value)`: both non-null and equal ignoring case. */
  predicate Is(me: NString, value: NString) {
    Text.EqualsIgnoreCase(me, value)
  }

  /** Some value equals the text ignoring case. */
  function AnyEqual(me: string, values: seq<string>): (r: bool)
    ensures r <==> exists i :: 0 <= i < |values| && Text.EqIgnoreCase(values[i], me)
  {
    if |values| == 0 then false
    else
      assert forall i :: 1 <= i < |values| ==> values[i] == values[1..][i - 1];
      Text.EqIgnoreCase(values[0], me) || AnyEqual(me, values[1..])
  }

  /** `IsAny(values)`: a non-null text and a non-null list, one of whose
      entries equals the text ignoring case. */
  function IsAny(me: NString, values: Option<seq<string>>): (r: bool)
    ensures r <==> me.Some? && values.Some? && exists v <- values.value :: Text.EqIgnoreCase(v, me.value)
  {
    me.Some? && values.Some? && AnyEqual(me.value, values.value)
  }

  /** A one-entry list is `Is`, an empty or null list matches nothing, and
      a concatenated list matches when either part does. */
  lemma IsAnyOfParts(me: NString, v: string, a: seq<string>, b: seq<string>)
    ensures IsAny(me, Some([v])) <==> Is(me, Some(v))
    ensures !IsAny(me, Some([])) && !IsAny(me, None)
    ensures IsAny(me, Some(a + b)) <==> IsAny(me, Some(a)) || IsAny(me, Some(b))
  {
    Text.EqualsIgnoreCaseProperties(me, Some(v));
    if me.Some? {
      Text.EqIgnoreCaseIsEquivalence(me.value, v, v);
    }
  }

  // ---------------------------------------------------------------------
  // Blank and zero tests
  // ---------------------------------------------------------------------

  /** `IsEmpty`: null or white space only. */
  predicate IsEmpty(s: NString) {
    Text.IsNullOrWhiteSpace(s)
  }

  /** `ValueOrEmpty`: null becomes "", any other text (blank or not) is kept. */
  function ValueOrEmpty(s: NString): (r: string)
    ensures s.Some? ==> Some(r) == s
    ensures s.None? ==> r == ""
  {
    if s.None? then "" else s.value
  }

  /** Unlike `TextOrEmpty`, `ValueOrEmpty` keeps a blank text; the two agree
      on every text that has text, and on null. */
  lemma ValueOrEmptyKeepsBlanks(s: NString)
    ensures Text.HasText(s) || s.None? ==> ValueOrEmpty(s) == Text.TextOrEmpty(s)
    ensures ValueOrEmpty(Some(" ")) == " " && Text.TextOrEmpty(Some(" ")) == ""
    ensures IsEmpty(Some(ValueOrEmpty(s))) <==> IsEmpty(s)
  {
    assert Text.IsWhiteSpace(" "[0]);
  }

  /** `IsZeroOrEmpty`: null or exactly "0"; in spite of its name the empty
      text is not included. */
  function IsZeroOrEmpty(s: NString): (r: bool)
    ensures r ==> s.None? || (|s.value| == 1 && Text.IsDigit(s.value[0]))
    ensures r ==> NumberOrZero(s) == 0
    ensures !r ==> s.Some?
  {
    if s.None? then true
    else
      if s.value == "0" then
        Text.Int32ParseDigits(s.value);
        true
      else false
  }

  lemma IsZeroOrEmptyExamples()
    ensures IsZeroOrEmpty(None) && IsZeroOrEmpty(Some("0"))
    ensures !IsZeroOrEmpty(Some("")) && !IsZeroOrEmpty(Some(" ")) && !IsZeroOrEmpty(Some("00"))
    ensures IsEmpty(Some("")) && !IsZeroOrEmpty(Some(""))
  {
  }

  /** `OrElse(other)`: the text when it has text, otherwise `other` when
      that has text; otherwise `ArgumentException`. */
  function OrElse(value: NString, other: NString): (r: Result<string>)
    ensures r.Ok? <==> Text.HasText(value) || Text.HasText(other)
    ensures r.Ok? ==> Text.HasText(Some(r.value))
    ensures Text.HasText(value) ==> r == Ok(value.value)
    ensures !Text.HasText(value) && Text.HasText(other) ==> r == Ok(other.value)
    ensures r.Throws? ==> r.fault == Argument
  {
    if Text.HasText(value) then Ok(value.value)
    else if Text.HasText(other) then Ok(other.value)
    else Throws(Argument)
  }

  /** When the fallback has text, `OrElse` is `TextOrDefault` with it. */
  lemma OrElseIsTextOrDefault(value: NString, other: string)
    requires Text.HasText(Some(other))
    ensures OrElse(value, Some(other)) == Ok(Text.TextOrDefault(value, other))
  {
  }

  // ---------------------------------------------------------------------
  // Integer conversions
  // ---------------------------------------------------------------------

  /** `NumberOrZero`: the parsed number, and 0 for null or a text that does
      not parse. */
  function NumberOrZero(s: NString): (r: int)
    ensures Text.Int32Min <= r <= Text.Int32Max
    ensures Text.Int32TryParse(s).None? ==> r == 0
    ensures Text.Int32TryParse(s).Some? ==> Ok(r) == Text.Int32Parse(s.value)
  {
    if s.None? then 0
    else match Text.Int32TryParse(s)
      case Some(n) => n
      case None => 0
  }

  /** `ToInteger`: the parsed number, or 0. */
  function ToInteger(s: NString): (r: int)
    ensures Text.Int32Min <= r <= Text.Int32Max
    ensures Text.Int32TryParse(s).None? ==> r == 0
    ensures Text.Int32TryParse(s).Some? ==> Ok(r) == Text.Int32Parse(s.value)
  {
    match Text.Int32TryParse(s)
    case Some(n) => n
    case None => 0
  }

  /** `IsTrackNumber`: the text parses as a 32-bit integer. */
  predicate IsTrackNumber(s: NString) {
    Text.Int32TryParse(s).Some?
  }

  /** The two conversions never differ, and a track number is exactly a text
      that converts without falling back to 0. */
  lemma ConversionsAgree(s: NString)
    ensures NumberOrZero(s) == ToInteger(s)
    ensures IsTrackNumber(s) <==> s.Some? && Text.Int32Parse(s.value).Ok?
    ensures !IsTrackNumber(s) ==> ToInteger(s) == 0
  {
  }

  /** A number's decimal text converts back to the number: a round trip for
      every non-negative 32-bit value. */
  lemma {:induction false} NumberRoundTrip(n: nat)
    requires n <= Text.Int32Max
    ensures IsTrackNumber(Some(Text.NatText(n)))
    ensures ToInteger(Some(Text.NatText(n))) == n
  {
    Text.Int32ParseDigits(Text.NatText(n));
  }

  /** A train number small enough for `int` converts to its digit value. */
  lemma TrainNumberConverts(s: string)
    requires |TrainNumber(s)| > 0 && Text.DigitsValue(TrainNumber(s)) <= Text.Int32Max
    ensures ToInteger(Some(TrainNumber(s))) == Text.DigitsValue(TrainNumber(s))
  {
    Text.Int32ParseDigits(TrainNumber(s));
  }
}

=== FILE: layouts.dfy ===
/** `Layout` and its extension methods: the stations of a layout, its track
    stretches and its timetable stretches, how each is added and how each is
    looked up; and the `TrackStretch` constructors. */
module Layouts {
  import opened Results
  import Text
  import Seqs
  import Maybes
  import Resources
  import opened Graph

  // ---------------------------------------------------------------------
  // Stations of a layout
  // ---------------------------------------------------------------------

  /** `layout.HasStation(station)`: a station of the layout equals it, that
      is has the same signature ignoring case. */
  predicate HasStation(w: World, l: LayoutId, s: StationId)
    requires Valid(w) && l < |w.layouts| && s < |w.stations|
  {
    var ss := w.layouts[l].stations;
    exists i :: 0 <= i < |ss| && StationEquals(w.stations[ss[i]], w.stations[s])
  }

  /** `layout.Add(station)`: unless an equal station is already there, the
      station's layout becomes this layout and the station is appended.
      Either way the layout then has the station, and adding it again
      changes nothing. */
  function AddStation(w: World, l: LayoutId, s: StationId): (w': World)
    requires Valid(w) && l < |w.layouts| && s < |w.stations|
    ensures Valid(w') && |w'.layouts| == |w.layouts| && |w'.stations| == |w.stations|
    ensures HasStation(w', l, s)
    ensures HasStation(w, l, s) ==> w' == w
    ensures !HasStation(w, l, s) ==>
      && w'.layouts == w.layouts[l := w.layouts[l].(stations := w.layouts[l].stations + [s])]
      && w'.stations == w.stations[s := w.stations[s].(layout := Some(l))]
      && w'.tracks == w.tracks && w'.calls == w.calls && w'.trains == w.trains
  {
    if HasStation(w, l, s) then w
    else
      var lay := w.layouts[l];
      var w' := w.(layouts := w.layouts[l := lay.(stations := lay.stations + [s])],
                   stations := w.stations[s := w.stations[s].(layout := Some(l))]);
      assert w'.layouts[l].stations[|lay.stations|] == s;
      assert Text.EqIgnoreCase(w'.stations[s].signature, w'.stations[s].signature);
      w'
  }

  /** The case-insensitive match on signature or name the lookups by text
      use. */
  predicate NamedOrSigned(w: World, s: StationId, nameOrSignature: string) {
    s < |w.stations|
    && (Text.EqIgnoreCase(w.stations[s].signature, nameOrSignature)
        || Text.EqIgnoreCase(w.stations[s].name, nameOrSignature))
  }

  function IsNamedOrSigned(w: World, nameOrSignature: string): StationId -> bool {
    (s: StationId) => NamedOrSigned(w, s, nameOrSignature)
  }

  /** `layout.Station(nameOrSignature)`: the single station whose signature
      or name equals the text ignoring case, always with the "no station
      with that name or signature" text; several matches throw
      `InvalidOperationException`. */
  function StationNamed(w: World, l: LayoutId, nameOrSignature: string): (r: Result<Maybes.Maybe<StationId>>)
    requires Valid(w) && l < |w.layouts|
    ensures r.Throws? <==> Seqs.TwoMatches(w.layouts[l].stations, IsNamedOrSigned(w, nameOrSignature))
    ensures r.Throws? ==> r.fault == InvalidOperation
    ensures r.Ok? ==> (Maybes.HasValue(r.value) <==> exists s <- w.layouts[l].stations :: NamedOrSigned(w, s, nameOrSignature))
    ensures r.Ok? && Maybes.HasValue(r.value) ==>
      r.value.stored.value in w.layouts[l].stations && NamedOrSigned(w, r.value.stored.value, nameOrSignature)
    ensures r.Ok? ==> r.value.message == Resources.Format("ThereIsNoStationWithNameOrSignature", [nameOrSignature])
  {
    var message := Resources.Format("ThereIsNoStationWithNameOrSignature", [nameOrSignature]);
    match Seqs.SingleOrDefault(w.layouts[l].stations, IsNamedOrSigned(w, nameOrSignature))
    case Ok(found) => Ok(Maybes.FromValueAndMessage(found, message))
    case Throws(f) => Throws(f)
  }

  /** The tracks of each of the stations, station by station. */
  function TracksOfStations(w: World, ss: seq<StationId>): (r: seq<seq<TrackId>>)
    requires Valid(w) && StationsIn(w, ss)
    ensures |r| == |ss| && forall i :: 0 <= i < |r| ==> r[i] == w.stations[ss[i]].tracks
  {
    if |ss| == 0 then [] else [w.stations[ss[0]].tracks] + TracksOfStations(w, ss[1..])
  }

  /** `layout.StationTracks()`: the tracks of the layout's stations, the
      stations' track lists laid end to end in station order. */
  function StationTracks(w: World, l: LayoutId): (r: seq<TrackId>)
    requires Valid(w) && l < |w.layouts|
    ensures TracksIn(w, r)
    ensures forall t :: t in r <==> exists s <- w.layouts[l].stations :: t in w.stations[s].tracks
    ensures Seqs.Concatenation(r, TracksOfStations(w, w.layouts[l].stations))
  {
    var ss := w.layouts[l].stations;
    var tss := TracksOfStations(w, ss);
    var r := Seqs.Flatten<TrackId>(tss);
    Seqs.FlattenConcatenates(tss);
    forall t | t in r ensures t < |w.tracks| && exists s <- ss :: t in w.stations[s].tracks {
      var i :| 0 <= i < |tss| && t in tss[i];
      assert ss[i] in ss;
    }
    assert forall i :: 0 <= i < |r| ==> r[i] in r;
    forall t, s | s in ss && t in w.stations[s].tracks ensures t in r {
      var i :| 0 <= i < |ss| && ss[i] == s;
      assert t in tss[i];
    }
    r
  }

  /** `layout.HasTrack(track)`: a track of one of the layout's stations
      equals it. */
  predicate HasTrack(w: World, l: LayoutId, t: TrackId)
    requires Placed(w) && l < |w.layouts| && t < |w.tracks|
  {
    var ts := StationTracks(w, l);
    exists i :: 0 <= i < |ts| && TrackEquals(w, ts[i], t)
  }

  /** Every track of every station of a layout is a track of the layout, and
      a track equal to no track of the layout's stations is not. */
  lemma HasTrackOfStation(w: World, l: LayoutId, s: StationId, t: TrackId)
    requires Placed(w) && l < |w.layouts| && s in w.layouts[l].stations && t in w.stations[s].tracks
    ensures t < |w.tracks| && HasTrack(w, l, t)
  {
    var ts := StationTracks(w, l);
    assert t in ts;
    var i :| 0 <= i < |ts| && ts[i] == t;
    assert Text.EqIgnoreCase(w.tracks[t].number, w.tracks[t].number);
    assert StationEquals(w.stations[w.tracks[t].station.value], w.stations[w.tracks[t].station.value]);
    assert TrackEquals(w, ts[i], t);
  }

  // ---------------------------------------------------------------------
  // TrackStretch constructors
  // ---------------------------------------------------------------------

  /** The stretch speed the short constructors assume. */
  const DefaultSpeed := 100

  /** `Math.Round(x, 0)`: the nearest integer, ties to the even one. */
  function RoundHalfEven(x: real): (r: int)
    ensures -(1.0 / 2.0) <= x - r as real <= 1.0 / 2.0
    ensures (x - r as real == 1.0 / 2.0 || r as real - x == 1.0 / 2.0) ==> r % 2 == 0
  {
    var f := x.Floor;
    var d := x - f as real;
    if d < 1.0 / 2.0 then f
    else if d > 1.0 / 2.0 then f + 1
    else if f % 2 == 0 then f else f + 1
  }

  /** `new TrackStretch(start, end, distance, tracksCount, speed, time)`:
      a start without a layout is dereferenced (`NullReferenceException`);
      an end in another layout or in none throws
      `ArgumentOutOfRangeException`; otherwise the stretch belongs to the
      start's layout. */
  function NewTrackStretch(w: World, start: StationId, end: StationId, distance: real,
                           tracksCount: int, speed: int, time: int): (r: Result<TrackStretch>)
    requires Valid(w) && start < |w.stations| && end < |w.stations|
    ensures r.Ok? <==> w.stations[start].layout.Some? && w.stations[end].layout == w.stations[start].layout
    ensures r.Throws? ==> r.fault == (if w.stations[start].layout.None? then NullReference else ArgumentOutOfRange)
    ensures r.Ok? ==>
      && StretchIn(w, r.value)
      && Some(r.value.layout) == w.stations[start].layout
      && r.value.start == start && r.value.end == end && r.value.distance == distance
      && r.value.tracksCount == tracksCount && r.value.speed == speed && r.value.time == time
  {
    var lay := w.stations[start].layout;
    if lay.None? then Throws(NullReference)
    else if w.stations[end].layout != lay then Throws(ArgumentOutOfRange)
    else Ok(TrackStretch(start, end, distance, tracksCount, speed, time, lay.value))
  }

  /** `new TrackStretch(start, end, distance, tracksCount)` and, with one
      track, `new TrackStretch(start, end, distance)`: the default speed and
      a running time of the distance rounded to whole minutes. */
  function NewTrackStretchWithDefaults(w: World, start: StationId, end: StationId, distance: real,
                                       tracksCount: int): (r: Result<TrackStretch>)
    requires Valid(w) && start < |w.stations| && end < |w.stations|
    ensures r.Ok? <==> NewTrackStretch(w, start, end, distance, tracksCount, DefaultSpeed, 0).Ok?
    ensures r.Throws? ==> r == NewTrackStretch(w, start, end, distance, tracksCount, DefaultSpeed, 0)
    ensures r.Ok? ==>
      && StretchIn(w, r.value)
      && Some(r.value.layout) == w.stations[start].layout
      && r.value.start == start && r.value.end == end && r.value.distance == distance
      && r.value.speed == DefaultSpeed && r.value.tracksCount == tracksCount
      && -(1.0 / 2.0) <= distance - r.value.time as real <= 1.0 / 2.0
      && ((distance - r.value.time as real == 1.0 / 2.0 || r.value.time as real - distance == 1.0 / 2.0)
          ==> r.value.time % 2 == 0)
  {
    NewTrackStretch(w, start, end, distance, tracksCount, DefaultSpeed, RoundHalfEven(distance))
  }

  // ---------------------------------------------------------------------
  // Track stretches of a layout
  // ---------------------------------------------------------------------

  /** An element of the layout's track stretches equals the stretch: same
      start and same end, by station equality. */
  predicate HasStretch(w: World, l: LayoutId, s: TrackStretch)
    requires Valid(w) && l < |w.layouts| && StretchIn(w, s)
  {
    var ss := w.layouts[l].trackStretches;
    exists i :: 0 <= i < |ss| && StretchEquals(w, ss[i], s)
  }

  /** `layout.Add(stretch)`: appended unless an equal stretch is already
      there; afterwards the layout has it, and adding it again changes
      nothing. */
  function AddStretch(w: World, l: LayoutId, s: TrackStretch): (w': World)
    requires Valid(w) && l < |w.layouts| && StretchIn(w, s)
    ensures Valid(w') && |w'.layouts| == |w.layouts| && |w'.stations| == |w.stations| && HasStretch(w', l, s)
    ensures HasStretch(w, l, s) ==> w' == w
    ensures !HasStretch(w, l, s) ==>
      w' == w.(layouts := w.layouts[l := w.layouts[l].(trackStretches := w.layouts[l].trackStretches + [s])])
  {
    if HasStretch(w, l, s) then w
    else
      var lay := w.layouts[l];
      var w' := w.(layouts := w.layouts[l := lay.(trackStretches := lay.trackStretches + [s])]);
      assert w'.layouts[l].trackStretches[|lay.trackStretches|] == s;
      assert Text.EqIgnoreCase(w.stations[s.start].signature, w.stations[s.start].signature);
      assert Text.EqIgnoreCase(w.stations[s.end].signature, w.stations[s.end].signature);
      w'
  }

  /** The exact (case-sensitive) name match of `Add(fromName, toName, ...)`. */
  function HasName(w: World, name: string): StationId -> bool {
    (s: StationId) => s < |w.stations| && w.stations[s].name == name
  }

  /** `layout.Add(fromStationName, toStationName, distance, tracksCount)`:
      each name must match exactly one station of the layout
      (`InvalidOperationException` otherwise, the from-name first); the
      stretch is built with the defaults and added. */
  function AddStretchBetweenNames(w: World, l: LayoutId, fromName: string, toName: string,
                                  distance: real, tracksCount: int): (r: Result<(World, TrackStretch)>)
    requires Valid(w) && l < |w.layouts|
    ensures r.Ok? ==>
      var (w', s) := r.value;
      && Seqs.Single(w.layouts[l].stations, HasName(w, fromName)) == Ok(s.start)
      && Seqs.Single(w.layouts[l].stations, HasName(w, toName)) == Ok(s.end)
      && NewTrackStretchWithDefaults(w, s.start, s.end, distance, tracksCount) == Ok(s)
      && w' == AddStretch(w, l, s) && HasStretch(w', l, s)
    ensures Seqs.Single(w.layouts[l].stations, HasName(w, fromName)).Throws? ==> r == Throws(InvalidOperation)
    ensures Seqs.Single(w.layouts[l].stations, HasName(w, toName)).Throws? ==> r == Throws(InvalidOperation)
    ensures Seqs.Single(w.layouts[l].stations, HasName(w, fromName)).Ok? &&
            Seqs.Single(w.layouts[l].stations, HasName(w, toName)).Ok? ==>
      var from := Seqs.Single(w.layouts[l].stations, HasName(w, fromName)).value;
      var to := Seqs.Single(w.layouts[l].stations, HasName(w, toName)).value;
      && (NewTrackStretchWithDefaults(w, from, to, distance, tracksCount).Ok? ==> r.Ok? && r.value.1.start == from && r.value.1.end == to)
      && (NewTrackStretchWithDefaults(w, from, to, distance, tracksCount).Throws? ==>
            r == Throws(NewTrackStretchWithDefaults(w, from, to, distance, tracksCount).fault))
  {
    match Seqs.Single(w.layouts[l].stations, HasName(w, fromName))
    case Throws(f) => Throws(f)
    case Ok(from) =>
      match Seqs.Single(w.layouts[l].stations, HasName(w, toName))
      case Throws(f) => Throws(f)
      case Ok(to) =>
        match NewTrackStretchWithDefaults(w, from, to, distance, tracksCount)
        case Throws(f) => Throws(f)
        case Ok(s) => Ok((AddStretch(w, l, s), s))
  }

  /** The station's name, as `Station.ToString()` gives it. */
  function StationName(w: World, s: StationId): string {
    if s < |w.stations| then w.stations[s].name else ""
  }

  /** How a found station prints inside a message. */
  function ShowStation(w: World): StationId -> string {
    (s: StationId) => StationName(w, s)
  }

  /** `layout.Add(fromStationName, toStationName, distance, tracksCount,
      speed, time)`: both stations are looked up by name or signature; when
      both are found the stretch is built and added and returned as the
      value, otherwise nothing is added and the message names what was and
      was not found. */
  function AddStretchBetweenStations(w: World, l: LayoutId, fromText: string, toText: string, distance: real,
                                     tracksCount: int, speed: int, time: int): (r: Result<(World, Maybes.Maybe<TrackStretch>)>)
    requires Valid(w) && l < |w.layouts|
    ensures r.Ok? ==> Valid(r.value.0)
    ensures r.Ok? && Maybes.HasValue(r.value.1) ==>
      var s := r.value.1.stored.value;
      && StretchIn(w, s) && r.value.0 == AddStretch(w, l, s)
      && NamedOrSigned(w, s.start, fromText) && NamedOrSigned(w, s.end, toText)
      && s.distance == distance && s.tracksCount == tracksCount && s.speed == speed && s.time == time
    ensures r.Ok? && Maybes.IsNone(r.value.1) ==>
      && r.value.0 == w
      && ((forall s <- w.layouts[l].stations :: !NamedOrSigned(w, s, fromText))
          || (forall s <- w.layouts[l].stations :: !NamedOrSigned(w, s, toText)))
    ensures StationNamed(w, l, fromText).Throws? || StationNamed(w, l, toText).Throws? ==> r.Throws?
    ensures StationNamed(w, l, fromText).Ok? && StationNamed(w, l, toText).Ok? ==>
      var from := StationNamed(w, l, fromText).value;
      var to := StationNamed(w, l, toText).value;
      if Maybes.HasValue(from) && Maybes.HasValue(to) then
        var made := NewTrackStretch(w, from.stored.value, to.stored.value, distance, tracksCount, speed, time);
        && (made.Ok? ==> r.Ok? && Maybes.HasValue(r.value.1) && r.value.1.stored.value == made.value)
        && (made.Throws? ==> r == Throws(made.fault))
      else
        && r.Ok? && Maybes.IsNone(r.value.1)
        && r.value.1.message == "From " + Maybes.ToString(from, ShowStation(w)) + " to " + Maybes.ToString(to, ShowStation(w))
  {
    match StationNamed(w, l, fromText)
    case Throws(f) => Throws(f)
    case Ok(from) =>
      match StationNamed(w, l, toText)
      case Throws(f) => Throws(f)
      case Ok(to) =>
        if Maybes.HasValue(from) && Maybes.HasValue(to) then
          assert from.stored.value in w.layouts[l].stations && to.stored.value in w.layouts[l].stations;
          match NewTrackStretch(w, from.stored.value, to.stored.value, distance, tracksCount, speed, time)
          case Throws(f) => Throws(f)
          case Ok(s) => Ok((AddStretch(w, l, s), Maybes.FromValue(Some(s))))
        else
          Ok((w, Maybes.NoneWithReason("From " + Maybes.ToString(from, ShowStation(w)) + " to " + Maybes.ToString(to, ShowStation(w)))))
  }

  /** The stretch joins the two stations, in either direction. */
  predicate Joins(w: World, ts: TrackStretch, from: StationId, to: StationId)
    requires from < |w.stations| && to < |w.stations|
  {
    StretchIn(w, ts)
    && ((StationEquals(w.stations[ts.start], w.stations[from]) && StationEquals(w.stations[ts.end], w.stations[to]))
        || (StationEquals(w.stations[ts.start], w.stations[to]) && StationEquals(w.stations[ts.end], w.stations[from])))
  }

  function JoinsStations(w: World, from: StationId, to: StationId): TrackStretch -> bool
    requires from < |w.stations| && to < |w.stations|
  {
    (ts: TrackStretch) => Joins(w, ts, from, to)
  }

  /** `layout.TrackStretch(from, to)`: the single stretch of the layout
      joining the two stations in either direction, always with the "more
      than one stretch between the stations" text; no layout finds nothing
      and several stretches throw `InvalidOperationException`. */
  function StretchBetween(w: World, layout: Option<LayoutId>, from: StationId, to: StationId): (r: Result<Maybes.Maybe<TrackStretch>>)
    requires Valid(w) && (layout.Some? ==> layout.value < |w.layouts|)
    requires from < |w.stations| && to < |w.stations|
    ensures layout.None? ==> r.Ok? && Maybes.IsNone(r.value)
    ensures layout.Some? ==> (r.Throws? <==> Seqs.TwoMatches(w.layouts[layout.value].trackStretches, JoinsStations(w, from, to)))
    ensures r.Throws? ==> r.fault == InvalidOperation
    ensures r.Ok? && layout.Some? ==>
      (Maybes.HasValue(r.value) <==> exists ts <- w.layouts[layout.value].trackStretches :: Joins(w, ts, from, to))
    ensures r.Ok? && Maybes.HasValue(r.value) ==>
      layout.Some? && r.value.stored.value in w.layouts[layout.value].trackStretches && Joins(w, r.value.stored.value, from, to)
    ensures r.Ok? ==> r.value.message == Resources.Format("MoreThanOneStretchBetweenStations", [w.stations[from].name, w.stations[to].name])
  {
    var message := Resources.Format("MoreThanOneStretchBetweenStations", [w.stations[from].name, w.stations[to].name]);
    if layout.None? then Ok(Maybes.FromValueAndMessage(None, message))
    else
      match Seqs.SingleOrDefault(w.layouts[layout.value].trackStretches, JoinsStations(w, from, to))
      case Ok(found) => Ok(Maybes.FromValueAndMessage(found, message))
      case Throws(f) => Throws(f)
  }

  /** The lookup does not depend on the order of the two stations: swapping
      them finds the same stretch, or throws just the same. */
  lemma StretchBetweenIsSymmetric(w: World, layout: Option<LayoutId>, from: StationId, to: StationId)
    requires Valid(w) && (layout.Some? ==> layout.value < |w.layouts|)
    requires from < |w.stations| && to < |w.stations|
    ensures StretchBetween(w, layout, from, to).Throws? == StretchBetween(w, layout, to, from).Throws?
    ensures StretchBetween(w, layout, from, to).Ok? ==>
      StretchBetween(w, layout, from, to).value.stored == StretchBetween(w, layout, to, from).value.stored
  {
    if layout.Some? {
      Seqs.FilterOfEquivalent(w.layouts[layout.value].trackStretches, JoinsStations(w, from, to), JoinsStations(w, to, from));
    }
  }

  /** The stretch runs from a station named or signed `fromText` to one
      named or signed `toText`, ignoring case. */
  predicate RunsBetween(w: World, ts: TrackStretch, fromText: string, toText: string) {
    NamedOrSigned(w, ts.start, fromText) && NamedOrSigned(w, ts.end, toText)
  }

  /** `Between(from, to)`: the layout's stretches running from `from` to `to`. */
  function Between(w: World, l: LayoutId, fromText: string, toText: string): (r: seq<TrackStretch>)
    requires Valid(w) && l < |w.layouts|
    ensures forall ts <- r :: ts in w.layouts[l].trackStretches && RunsBetween(w, ts, fromText, toText)
    ensures forall ts <- w.layouts[l].trackStretches :: RunsBetween(w, ts, fromText, toText) ==> ts in r
  {
    Seqs.Filter(w.layouts[l].trackStretches, (ts: TrackStretch) => RunsBetween(w, ts, fromText, toText))
  }

  /** `layout.TrackStretch(fromText, toText)`: the stretches running either
      way between stations named or signed by the two texts, which must be
      at most one (`InvalidOperationException` otherwise, also when one
      stretch matches both ways), always with the "no stretch between"
      text. */
  function StretchBetweenNames(w: World, l: LayoutId, fromText: string, toText: string): (r: Result<Maybes.Maybe<TrackStretch>>)
    requires Valid(w) && l < |w.layouts|
    ensures r.Throws? <==> |Between(w, l, fromText, toText) + Between(w, l, toText, fromText)| >= 2
    ensures r.Throws? ==> r.fault == InvalidOperation
    ensures r.Ok? ==> (Maybes.IsNone(r.value) <==>
      forall ts <- w.layouts[l].trackStretches :: !RunsBetween(w, ts, fromText, toText) && !RunsBetween(w, ts, toText, fromText))
    ensures r.Ok? && Maybes.HasValue(r.value) ==>
      var ts := r.value.stored.value;
      ts in w.layouts[l].trackStretches && (RunsBetween(w, ts, fromText, toText) || RunsBetween(w, ts, toText, fromText))
    ensures r.Ok? ==> r.value.message == Resources.Format("ThereIsNoStretchBetweenStation1AndStation2", [fromText, toText])
  {
    var message := Resources.Format("ThereIsNoStretchBetweenStation1AndStation2", [fromText, toText]);
    var found := Between(w, l, fromText, toText) + Between(w, l, toText, fromText);
    if |found| == 0 then Ok(Maybes.FromValueAndMessage(None, message))
    else if |found| == 1 then
      assert found[0] in found;
      Ok(Maybes.FromValueAndMessage(Some(found[0]), message))
    else Throws(InvalidOperation)
  }

  /** Swapping the two texts finds the same stretch, or throws just the
      same. */
  lemma StretchBetweenNamesIsSymmetric(w: World, l: LayoutId, fromText: string, toText: string)
    requires Valid(w) && l < |w.layouts|
    ensures StretchBetweenNames(w, l, fromText, toText).Throws? == StretchBetweenNames(w, l, toText, fromText).Throws?
    ensures StretchBetweenNames(w, l, fromText, toText).Ok? ==>
      StretchBetweenNames(w, l, fromText, toText).value.stored == StretchBetweenNames(w, l, toText, fromText).value.stored
  {
    var a, b := Between(w, l, fromText, toText), Between(w, l, toText, fromText);
    if |a + b| == 1 {
      assert |b + a| == 1;
      assert (a + b)[0] == (b + a)[0];
    }
  }

  // ---------------------------------------------------------------------
  // Timetable stretches of a layout
  // ---------------------------------------------------------------------

  /** `TimetableStretch.Equals`: numbers equal ignoring case. */
  predicate TimetableStretchEquals(a: TimetableStretch, b: TimetableStretch) {
    Text.EqIgnoreCase(a.number, b.number)
  }

  predicate Numbered(t: TimetableStretch, number: string) {
    Text.EqIgnoreCase(t.number, number)
  }

  function IsNumbered(number: string): TimetableStretch -> bool {
    (t: TimetableStretch) => Numbered(t, number)
  }

  /** `layout.HasTimetableStretch(number)`: one has that number ignoring case. */
  predicate HasTimetableStretch(w: World, l: LayoutId, number: string)
    requires l < |w.layouts|
  {
    exists t <- w.layouts[l].timetableStretches :: Numbered(t, number)
  }

  /** `layout.TimetableStretch(number)`: the single timetable stretch with
      that number ignoring case, with an empty message; several throw
      `InvalidOperationException`. */
  function TimetableStretchNumbered(w: World, l: LayoutId, number: string): (r: Result<Maybes.Maybe<TimetableStretch>>)
    requires l < |w.layouts|
    ensures r.Throws? <==> Seqs.TwoMatches(w.layouts[l].timetableStretches, IsNumbered(number))
    ensures r.Throws? ==> r.fault == InvalidOperation
    ensures r.Ok? ==> (Maybes.HasValue(r.value) <==> HasTimetableStretch(w, l, number)) && r.value.message == ""
    ensures r.Ok? && Maybes.HasValue(r.value) ==>
      r.value.stored.value in w.layouts[l].timetableStretches && Numbered(r.value.stored.value, number)
  {
    match Seqs.SingleOrDefault(w.layouts[l].timetableStretches, IsNumbered(number))
    case Ok(found) => Ok(Maybes.FromValue(found))
    case Throws(f) => Throws(f)
  }

  /** `layout.Add(timetableStretch)`: appended unless one with the same
      number ignoring case is there; afterwards the layout has that number,
      and adding it again changes nothing. */
  function AddTimetableStretch(w: World, l: LayoutId, t: TimetableStretch): (w': World)
    requires Valid(w) && l < |w.layouts| && StretchesIn(w, t.stretches)
    ensures Valid(w') && |w'.layouts| == |w.layouts| && HasTimetableStretch(w', l, t.number)
    ensures HasTimetableStretch(w, l, t.number) ==> w' == w
    ensures !HasTimetableStretch(w, l, t.number) ==>
      w' == w.(layouts := w.layouts[l := w.layouts[l].(timetableStretches := w.layouts[l].timetableStretches + [t])])
  {
    var ts := w.layouts[l].timetableStretches;
    assert Numbered(t, t.number);
    if exists i :: 0 <= i < |ts| && TimetableStretchEquals(ts[i], t) then
      var i :| 0 <= i < |ts| && TimetableStretchEquals(ts[i], t);
      assert Numbered(ts[i], t.number);
      w
    else
      var lay := w.layouts[l];
      var w' := w.(layouts := w.layouts[l := lay.(timetableStretches := ts + [t])]);
      assert w'.layouts[l].timetableStretches[|ts|] == t;
      assert !HasTimetableStretch(w, l, t.number) by {
        forall x <- ts ensures !Numbered(x, t.number) {
          var i :| 0 <= i < |ts| && ts[i] == x;
          assert !TimetableStretchEquals(ts[i], t);
        }
      }
      w'
  }
}

=== FILE: maybe.dfy ===
/** `Maybe<T>`: an optional value that carries a reason when it is empty. */
module Maybes {
  import opened Results
  import Seqs
  import Text

  /** The stored value (null when absent) and the message. */
  datatype Maybe<+T> = Maybe(stored: Option<T>, message: string)

  /** The resource text `Strings.NoValue`, represented by its key. */
  const NoValueText: string := "NoValue"

  /** `Maybe<T>.None`: no value, with the generic no-value message. */
  function NoValue<T>(): (m: Maybe<T>)
    ensures IsNone(m) && m.message == NoValueText
  {
    Maybe(None, NoValueText)
  }

  /** `NoneWithReason(reason)` and the constructor `Maybe(message)`, including
      its formatted overload once the text is formatted. */
  function NoneWithReason<T>(reason: string): (m: Maybe<T>)
    ensures IsNone(m) && m.message == reason
  {
    Maybe(None, reason)
  }

  /** `Maybe(value)`: the value, with an empty message. */
  function FromValue<T>(value: Option<T>): (m: Maybe<T>)
    ensures HasValue(m) <==> value.Some?
    ensures m.stored == value && m.message == ""
  {
    Maybe(value, "")
  }

  /** `Maybe(value, message)`: both kept as given. */
  function FromValueAndMessage<T>(value: Option<T>, message: string): (m: Maybe<T>)
    ensures HasValue(m) <==> value.Some?
    ensures m.stored == value && m.message == message
  {
    Maybe(value, message)
  }

  /** `Maybe(messages)`: no value; the messages joined with ", ". */
  function FromMessages<T>(messages: seq<string>): (m: Maybe<T>)
    ensures IsNone(m)
    ensures |messages| == 1 ==> m.message == messages[0]
    ensures |messages| == 0 ==> m.message == ""
    ensures Seqs.Concatenation(m.message, Text.Separated(", ", messages))
  {
    Maybe(None, Text.Join(", ", messages))
  }

  /** Three messages are joined with ", " between each two. */
  lemma FromThreeMessages<T>()
    ensures FromMessages<T>(["a", "b", "c"]).message == "a, b, c"
  {
    assert ["a", "b", "c"][1..] == ["b", "c"] && ["b", "c"][1..] == ["c"];
  }

  /** `Maybe(values, message)`: the FIRST value, not the only one, and the
      message only when there is no value; a null sequence is no value. */
  function FromValues<T>(values: Option<seq<T>>, message: string): (m: Maybe<T>)
    ensures HasValue(m) <==> values.Some? && |values.value| > 0
    ensures HasValue(m) ==> m.stored.value == values.value[0] && m.message == ""
    ensures IsNone(m) ==> m.message == message
  {
    if values.Some? && |values.value| > 0 then Maybe(Some(values.value[0]), "")
    else Maybe(None, message)
  }

  /** `HasValue` and `IsNone`. */
  predicate HasValue<T>(m: Maybe<T>) { m.stored.Some? }

  predicate IsNone<T>(m: Maybe<T>) { !HasValue(m) }

  /** `Value`: the stored value; `InvalidOperationException` when there is
      none. */
  function Value<T>(m: Maybe<T>): (r: Result<T>)
    ensures r.Ok? <==> HasValue(m)
    ensures r.Ok? ==> m.stored == Some(r.value)
    ensures r.Throws? ==> r.fault == InvalidOperation
  {
    if m.stored.Some? then Ok(m.stored.value) else Throws(InvalidOperation)
  }

  /** `Equals(Maybe<T>)` and `==`: this side must hold a value that equals
      the other side's value under `T.Equals`; `!=` is its negation. */
  predicate Equals<T>(a: Maybe<T>, b: Maybe<T>, equals: (T, T) -> bool) {
    a.stored.Some? && b.stored.Some? && equals(a.stored.value, b.stored.value)
  }

  /** `GetHashCode`: the value's hash, or for no value the ordinal
      case-insensitive hash of the message, that is a hash of its folded
      text. */
  function HashCode<T>(m: Maybe<T>, hash: T -> int, textHash: string -> int): int {
    if m.stored.Some? then hash(m.stored.value) else textHash(Text.Fold(m.message))
  }

  /** Two empty `Maybe`s are never equal, not even to themselves; two values
      are equal when `T.Equals` says so, and then their hashes agree whenever
      the value hash agrees with `T.Equals`. */
  lemma EqualsProperties<T>(a: Maybe<T>, b: Maybe<T>, equals: (T, T) -> bool,
                            hash: T -> int, textHash: string -> int)
    requires forall x: T, y: T :: equals(x, y) ==> hash(x) == hash(y)
    ensures IsNone(a) || IsNone(b) ==> !Equals(a, b, equals)
    ensures Equals(a, b, equals) ==> HashCode(a, hash, textHash) == HashCode(b, hash, textHash)
    ensures HasValue(a) && HasValue(b) ==> (Equals(a, b, equals) <==> equals(a.stored.value, b.stored.value))
  {
  }

  /** `ToString`: the value's text, or the message when there is none. */
  function ToString<T>(m: Maybe<T>, show: T -> string): (r: string)
    ensures HasValue(m) ==> r == show(m.stored.value)
    ensures IsNone(m) ==> r == m.message
  {
    if m.stored.Some? then show(m.stored.value) else m.message
  }
}

=== FILE: messages.dfy ===
/** `Message` and `Severity`: the diagnostics every import and validation
    returns, and the predicates that decide whether they stop an import. */
module Messages {
  import Results
  import Text

  /** The severities, in increasing order. */
  datatype Severity = None | Information | Warning | Error | System

  /** The enum's underlying value: `None = 0`, `Information = 1`,
      `Warning = 2`, `Error = 3`, `System = 4`. */
  function Ord(s: Severity): (n: nat)
    ensures n <= 4
    ensures s.None? <==> n == 0
    ensures s.Information? <==> n == 1
    ensures s.Warning? <==> n == 2
    ensures s.Error? <==> n == 3
    ensures s.System? <==> n == 4
  {
    match s
    case None => 0
    case Information => 1
    case Warning => 2
    case Error => 3
    case System => 4
  }

  /** The underlying values make the severities a strict chain from `None`
      (0) to `System` (4). */
  lemma SeverityOrder(a: Severity, b: Severity)
    ensures Ord(a) == Ord(b) <==> a == b
    ensures Ord(Severity.None) < Ord(Severity.Information) < Ord(Severity.Warning)
            < Ord(Severity.Error) < Ord(Severity.System)
    ensures Ord(Severity.None) == 0 && Ord(Severity.System) == 4
  {
  }

  /** A message: its text and severity. The text is generic so that the
      validation engine can emit an abstract finding in place of the text
      formatted from a resource string. */
  datatype Message<+T> = Message(text: T, severity: Severity)

  /** The factories `Information`, `Warning`, `Error`, `System` and `Copy`;
      the formatted overloads of the first three differ only in how the text
      is produced. */
  function Information<T>(text: T): (m: Message<T>)
    ensures m.text == text && Ord(m.severity) == 1
  { Message(text, Severity.Information) }

  function Warning<T>(text: T): (m: Message<T>)
    ensures m.text == text && Ord(m.severity) == 2
  { Message(text, Severity.Warning) }

  function Error<T>(text: T): (m: Message<T>)
    ensures m.text == text && Ord(m.severity) == 3
  { Message(text, Severity.Error) }

  function SystemMessage<T>(text: T): (m: Message<T>)
    ensures m.text == text && Ord(m.severity) == 4
  { Message(text, Severity.System) }

  function Copy<T>(text: T): (m: Message<T>)
    ensures m.text == text && Ord(m.severity) == 0
  { Message(text, Severity.None) }

  // ---------------------------------------------------------------------
  // Equality, hash code, text
  // ---------------------------------------------------------------------

  /** `Equals(Message? other)`: same severity and texts equal ignoring case;
      false for null. */
  predicate MessageEquals(a: Message<string>, b: Results.Option<Message<string>>) {
    b.Some? && a.severity == b.value.severity && Text.EqIgnoreCase(a.text, b.value.text)
  }

  /** What `GetHashCode` combines: the text as written (hashed with the
      case-sensitive string hash) and the severity. */
  function HashInputsAsWritten(m: Message<string>): (string, nat) {
    (m.text, Ord(m.severity))
  }

  /** Two equal messages whose hashes are built from different inputs: the
      hash disagrees with the case-insensitive `Equals`. */
  lemma HashAsWrittenDisagreesWithEquals()
    ensures var a, b := Information("Sth"), Information("STH");
            MessageEquals(a, Results.Some(b)) && HashInputsAsWritten(a) != HashInputsAsWritten(b)
  {
    Text.EqIgnoreCaseIgnoresAsciiCase();
  }

  /** The hash inputs `Equals` calls for: the case-folded text and the
      severity. */
  function HashInputs(m: Message<string>): (string, nat) {
    (Text.Fold(m.text), Ord(m.severity))
  }

  /** With folded text, equal messages always hash alike, and messages with
      the same hash inputs are equal. */
  lemma HashAgreesWithEquals(a: Message<string>, b: Message<string>)
    ensures MessageEquals(a, Results.Some(b)) <==> HashInputs(a) == HashInputs(b)
  {
    if HashInputs(a) == HashInputs(b) {
      SeverityOrder(a.severity, b.severity);
    }
  }

  /** `ToString`: the bare text for severity `None`, otherwise the localized
      severity name (`severityName`), ": " and the text. */
  function ToString(m: Message<string>, severityName: Severity -> string): (r: string)
    ensures m.severity == Severity.None ==> r == m.text
    ensures m.severity != Severity.None ==>
              var l := severityName(m.severity);
              |r| == |l| + 2 + |m.text| && r[..|l|] == l && r[|l|..|l| + 2] == ": " && r[|l| + 2..] == m.text
  {
    if m.severity == Severity.None then m.text else severityName(m.severity) + ": " + m.text
  }

  // ---------------------------------------------------------------------
  // Stopping errors
  // ---------------------------------------------------------------------

  /** `HasStoppingErrors`: some message is an error or worse. */
  predicate HasStoppingErrors<T>(ms: seq<Message<T>>) {
    exists i :: 0 <= i < |ms| && Ord(ms[i].severity) >= Ord(Severity.Error)
  }

  /** `HasNoStoppingErrors`: the list is empty, or ANY message is below
      error; it is not the negation of `HasStoppingErrors`. */
  predicate HasNoStoppingErrors<T>(ms: seq<Message<T>>) {
    |ms| == 0 || exists i :: 0 <= i < |ms| && Ord(ms[i].severity) < Ord(Severity.Error)
  }

  /** Every message below error. */
  predicate AllBelowError<T>(ms: seq<Message<T>>) {
    forall i :: 0 <= i < |ms| ==> Ord(ms[i].severity) < Ord(Severity.Error)
  }

  /** A list with nothing at error or above has no stopping errors by both
      predicates; a list holding one error and one information satisfies
      both predicates at once. */
  lemma StoppingErrorPredicates<T>(ms: seq<Message<T>>, t: T)
    ensures AllBelowError(ms) ==> !HasStoppingErrors(ms) && HasNoStoppingErrors(ms)
    ensures !HasNoStoppingErrors(ms) ==> HasStoppingErrors(ms)
    ensures var both := [Error(t), Information(t)];
            HasStoppingErrors(both) && HasNoStoppingErrors(both)
  {
    if |ms| > 0 && AllBelowError(ms) {
      assert Ord(ms[0].severity) < Ord(Severity.Error);
    }
    var both := [Error(t), Information(t)];
    assert Ord(both[0].severity) >= 3 && Ord(both[1].severity) < 3;
  }

  /** `Contains(text)`: some message text contains `text`, ignoring case. */
  predicate Contains(ms: seq<Message<string>>, text: string) {
    exists i :: 0 <= i < |ms| && Text.ContainsIgnoreCase(ms[i].text, text)
  }

  /** The empty text is contained in every non-empty list, and nothing is
      contained in the empty list. */
  lemma ContainsProperties(ms: seq<Message<string>>, text: string)
    ensures |ms| == 0 ==> !Contains(ms, text)
    ensures |ms| > 0 ==> Contains(ms, "")
  {
    if |ms| > 0 {
      assert Text.Fold("") == "";
      assert Text.Fold(ms[0].text)[..0] == "";
    }
  }
}

=== FILE: occupancy.dfy ===
/** The station-track occupancy check of the validation engine and the
    same-loco exemption it uses. */
module Occupancy {
  import opened Results
  import Seqs
  import Text
  import Times
  import opened Graph
  import Parts
  import opened Findings

  // ---------------------------------------------------------------------
  // HasSameLoco, FindLocoSchedule, ContainsCall
  // ---------------------------------------------------------------------

  /** `part.ContainsCall(call)`: the part is of the same train object as the
      call, departs no later than the call departs and arrives no earlier
      than the call arrives. */
  predicate ContainsCall(w: World, part: Parts.TrainPart, c: CallId)
    requires Parts.PartIn(w, part) && c < |w.calls|
  {
    && Parts.TrainOfPart(w, part) == w.calls[c].train
    && Times.Le(Some(Parts.Departure(w, part)), Some(w.calls[c].departure))
    && Times.Ge(Some(Parts.Arrival(w, part)), Some(w.calls[c].arrival))
  }

  /** The loco schedules are schedules of the plan with their parts in the
      world. */
  predicate LocosIn(w: World, p: Parts.Plan, locos: seq<Parts.VehicleId>) {
    forall k :: 0 <= k < |locos| ==> locos[k] < |p.vehicles| && Parts.PartsIn(w, p.vehicles[locos[k]].parts)
  }

  /** Some part of the schedule contains the call. */
  predicate Carries(w: World, v: Parts.VehicleSchedule, c: CallId)
    requires Parts.PartsIn(w, v.parts) && c < |w.calls|
  {
    exists i :: 0 <= i < |v.parts| && ContainsCall(w, v.parts[i], c)
  }

  /** `locos.FindLocoSchedule(call)`: the first schedule, in list order,
      with a part containing the call; null when there is none. */
  function FindLocoSchedule(w: World, p: Parts.Plan, locos: seq<Parts.VehicleId>, c: CallId): (r: Option<Parts.VehicleId>)
    requires LocosIn(w, p, locos) && c < |w.calls|
    ensures r.None? <==> forall k :: 0 <= k < |locos| ==> !Carries(w, p.vehicles[locos[k]], c)
    ensures r.Some? ==> exists k :: 0 <= k < |locos| && locos[k] == r.value && Carries(w, p.vehicles[locos[k]], c)
                          && forall j :: 0 <= j < k ==> !Carries(w, p.vehicles[locos[j]], c)
  {
    if |locos| == 0 then None
    else if Carries(w, p.vehicles[locos[0]], c) then Some(locos[0])
    else
      var r := FindLocoSchedule(w, p, locos[1..], c);
      assert forall k :: 1 <= k < |locos| ==> locos[k] == locos[1..][k - 1];
      if r.Some? then
        var k :| 0 <= k < |locos[1..]| && locos[1..][k] == r.value && Carries(w, p.vehicles[locos[1..][k]], c)
                 && forall j :: 0 <= j < k ==> !Carries(w, p.vehicles[locos[1..][j]], c);
        assert forall j :: 0 <= j < k + 1 ==> !Carries(w, p.vehicles[locos[j]], c);
        r
      else r
  }

  /** `locos.HasSameLoco(one, another)`: both calls are found and the first
      schedule found for each is the same schedule. */
  predicate HasSameLoco(w: World, p: Parts.Plan, locos: seq<Parts.VehicleId>, one: CallId, another: CallId)
    requires LocosIn(w, p, locos) && one < |w.calls| && another < |w.calls|
  {
    var a := FindLocoSchedule(w, p, locos, one);
    var b := FindLocoSchedule(w, p, locos, another);
    a.Some? && b.Some? && a == b
  }

  /** A call no loco schedule contains never shares a loco, and without
      loco schedules no two calls do. */
  lemma SameLocoNeedsCarryingSchedule(w: World, p: Parts.Plan, locos: seq<Parts.VehicleId>, one: CallId, another: CallId)
    requires LocosIn(w, p, locos) && one < |w.calls| && another < |w.calls|
    requires forall k :: 0 <= k < |locos| ==> !Carries(w, p.vehicles[locos[k]], one)
    ensures !HasSameLoco(w, p, locos, one, another) && !HasSameLoco(w, p, locos, another, one)
  {
  }

  // ---------------------------------------------------------------------
  // StationTrack.GetValidationErrors(locos)
  // ---------------------------------------------------------------------

  /** The condition under which a later call `r` conflicts with an earlier
      call `me` on the track: equal tracks, unequal trains, `r` arriving
      after `me` departs and departing before `me` arrives, and no shared
      loco. */
  predicate Conflicts(w: World, p: Parts.Plan, locos: seq<Parts.VehicleId>, me: CallId, r: CallId)
    requires Built(w) && LocosIn(w, p, locos) && me < |w.calls| && r < |w.calls|
  {
    && TrackEquals(w, w.calls[r].track, w.calls[me].track)
    && !TrainEquals(w.trains[TrainOf(w, r)], w.trains[TrainOf(w, me)])
    && Times.Gt(Some(w.calls[r].arrival), Some(w.calls[me].departure))
    && Times.Lt(Some(w.calls[r].departure), Some(w.calls[me].arrival))
    && !HasSameLoco(w, p, locos, r, me)
  }

  /** The pair `(cs[i], cs[j])` is a conflict of the earlier `cs[i]` with the
      later `cs[j]`. */
  predicate ConflictAt(w: World, p: Parts.Plan, locos: seq<Parts.VehicleId>, cs: seq<CallId>, i: int, j: int,
                       pair: (CallId, CallId))
    requires Built(w) && LocosIn(w, p, locos) && CallsIn(w, cs)
  {
    0 <= i < j < |cs| && pair == (cs[i], cs[j]) && Conflicts(w, p, locos, cs[i], cs[j])
  }

  /** The positions of the remaining calls that conflict with `me`. */
  function ConflictingWith(w: World, p: Parts.Plan, locos: seq<Parts.VehicleId>, me: CallId, remaining: seq<CallId>)
    : nat -> bool
    requires Built(w) && LocosIn(w, p, locos) && me < |w.calls| && CallsIn(w, remaining)
  {
    (j: nat) => j < |remaining| && Conflicts(w, p, locos, me, remaining[j])
  }

  /** `remaining.Where(...).Select(c => (me, c))`: `me` paired with each
      remaining call that conflicts with it, in the order of the remaining
      calls; the `k`-th pair holds the `k`-th conflicting position. */
  function ConflictsWithMe(w: World, p: Parts.Plan, locos: seq<Parts.VehicleId>, me: CallId, remaining: seq<CallId>)
    : (r: seq<(CallId, CallId)>)
    requires Built(w) && LocosIn(w, p, locos) && me < |w.calls| && CallsIn(w, remaining)
    ensures var at := Seqs.Positions(0, |remaining|, ConflictingWith(w, p, locos, me, remaining));
      |r| == |at| && forall k :: 0 <= k < |r| ==> at[k] < |remaining| && r[k] == (me, remaining[at[k]])
    ensures forall pair :: pair in r <==>
      exists j :: 0 <= j < |remaining| && pair == (me, remaining[j]) && Conflicts(w, p, locos, me, remaining[j])
  {
    var test := ConflictingWith(w, p, locos, me, remaining);
    var r := ConflictsWithMeFrom(w, p, locos, me, remaining, 0);
    forall pair | pair in r
      ensures exists j :: 0 <= j < |remaining| && pair == (me, remaining[j]) && Conflicts(w, p, locos, me, remaining[j])
    {
      var k :| 0 <= k < |r| && r[k] == pair;
      var j := Seqs.Positions(0, |remaining|, test)[k];
      assert test(j);
    }
    forall j | 0 <= j < |remaining| && Conflicts(w, p, locos, me, remaining[j]) ensures (me, remaining[j]) in r {
      assert test(j);
      Seqs.PositionKept(0, |remaining|, test, j);
      var k :| 0 <= k < |Seqs.Positions(0, |remaining|, test)| && Seqs.Positions(0, |remaining|, test)[k] == j;
      assert r[k] == (me, remaining[j]);
    }
    r
  }

  /** The `Where` from position `j` of the remaining calls on. */
  function ConflictsWithMeFrom(w: World, p: Parts.Plan, locos: seq<Parts.VehicleId>, me: CallId, remaining: seq<CallId>,
                               j: nat): (r: seq<(CallId, CallId)>)
    requires Built(w) && LocosIn(w, p, locos) && me < |w.calls| && CallsIn(w, remaining)
    ensures var at := Seqs.Positions(j, |remaining|, ConflictingWith(w, p, locos, me, remaining));
      |r| == |at| && forall k :: 0 <= k < |r| ==> at[k] < |remaining| && r[k] == (me, remaining[at[k]])
    decreases |remaining| - j
  {
    if |remaining| <= j then []
    else
      var rest := ConflictsWithMeFrom(w, p, locos, me, remaining, j + 1);
      if Conflicts(w, p, locos, me, remaining[j]) then [(me, remaining[j])] + rest else rest
  }

  /** Row `i` holds the conflicts of `cs[i]` with the calls after it. */
  function ConflictRows(w: World, p: Parts.Plan, locos: seq<Parts.VehicleId>, cs: seq<CallId>)
    : (r: seq<seq<(CallId, CallId)>>)
    requires Built(w) && LocosIn(w, p, locos) && CallsIn(w, cs) && |cs| >= 1
  {
    seq(|cs| - 1, i requires 0 <= i < |cs| - 1 => ConflictsWithMe(w, p, locos, cs[i], cs[i + 1..]))
  }

  /** Putting the first call's row before the concatenated later rows gives
      the concatenation of all rows. */
  lemma ConflictRowsStep(w: World, p: Parts.Plan, locos: seq<Parts.VehicleId>, cs: seq<CallId>, rest: seq<(CallId, CallId)>)
    requires Built(w) && LocosIn(w, p, locos) && CallsIn(w, cs) && |cs| >= 2
    requires Seqs.Concatenation(rest, ConflictRows(w, p, locos, cs[1..]))
    ensures Seqs.Concatenation(ConflictsWithMe(w, p, locos, cs[0], cs[1..]) + rest, ConflictRows(w, p, locos, cs))
  {
    ConflictRowsCons(w, p, locos, cs);
    Seqs.ConcatenationCons(ConflictsWithMe(w, p, locos, cs[0], cs[1..]), rest, ConflictRows(w, p, locos, cs[1..]));
  }

  /** The rows of `cs` are the first call's row followed by the rows of the
      calls after it. */
  lemma ConflictRowsCons(w: World, p: Parts.Plan, locos: seq<Parts.VehicleId>, cs: seq<CallId>)
    requires Built(w) && LocosIn(w, p, locos) && CallsIn(w, cs) && |cs| >= 2
    ensures ConflictRows(w, p, locos, cs) == [ConflictsWithMe(w, p, locos, cs[0], cs[1..])] + ConflictRows(w, p, locos, cs[1..])
  {
    var rows := ConflictRows(w, p, locos, cs);
    var tail := ConflictRows(w, p, locos, cs[1..]);
    forall i | 0 <= i < |tail| ensures rows[i + 1] == tail[i] {
      assert cs[1..][i + 1..] == cs[i + 2..];
    }
  }

  /** A pair is in the first call's row or the later rows exactly when it is
      a conflict of two positions of `cs`. */
  lemma ConflictPairsStep(w: World, p: Parts.Plan, locos: seq<Parts.VehicleId>, cs: seq<CallId>, rest: seq<(CallId, CallId)>)
    requires Built(w) && LocosIn(w, p, locos) && CallsIn(w, cs) && |cs| >= 1
    requires forall pair :: pair in rest <==> |cs| > 2 && exists i, j :: ConflictAt(w, p, locos, cs[1..], i, j, pair)
    ensures forall pair :: pair in ConflictsWithMe(w, p, locos, cs[0], cs[1..]) + rest <==>
      exists i, j :: ConflictAt(w, p, locos, cs, i, j, pair)
  {
    var here := ConflictsWithMe(w, p, locos, cs[0], cs[1..]);
    forall pair ensures pair in here + rest <==> exists i, j :: ConflictAt(w, p, locos, cs, i, j, pair) {
      if pair in here {
        var j :| 0 <= j < |cs[1..]| && pair == (cs[0], cs[1..][j]) && Conflicts(w, p, locos, cs[0], cs[1..][j]);
        assert ConflictAt(w, p, locos, cs, 0, j + 1, pair);
      }
      if pair in rest {
        var i, j :| ConflictAt(w, p, locos, cs[1..], i, j, pair);
        assert ConflictAt(w, p, locos, cs, i + 1, j + 1, pair);
      }
      if exists i, j :: ConflictAt(w, p, locos, cs, i, j, pair) {
        var i, j :| ConflictAt(w, p, locos, cs, i, j, pair);
        if i == 0 {
          assert cs[j] == cs[1..][j - 1];
          assert pair in here;
        } else {
          assert ConflictAt(w, p, locos, cs[1..], i - 1, j - 1, pair);
        }
      }
    }
  }

  /** The private `GetConflicts(me, remaining, locos)`: the first call with
      each later call, then the same again from the second call while at
      least two calls remain. The result is the rows of conflicts of each
      call with the calls after it, laid end to end in call order, so every
      pair `i < j` of positions is examined once, in order of `i` and then
      `j`. */
  function ConflictPairs(w: World, p: Parts.Plan, locos: seq<Parts.VehicleId>, cs: seq<CallId>)
    : (r: seq<(CallId, CallId)>)
    requires Built(w) && LocosIn(w, p, locos) && CallsIn(w, cs) && |cs| >= 1
    ensures Seqs.Concatenation(r, ConflictRows(w, p, locos, cs))
    ensures forall pair :: pair in r <==> exists i, j :: ConflictAt(w, p, locos, cs, i, j, pair)
  {
    var here := ConflictsWithMe(w, p, locos, cs[0], cs[1..]);
    var rest := if |cs| - 1 > 1 then ConflictPairs(w, p, locos, cs[1..]) else [];
    if |cs| >= 2 then
      ConflictRowsStep(w, p, locos, cs, rest);
      ConflictPairsStep(w, p, locos, cs, rest);
      here + rest
    else
      ConflictPairsStep(w, p, locos, cs, rest);
      here + rest
  }

  /** Value-tuple equality of two conflicting pairs: both calls equal. */
  function PairEquals(w: World): ((CallId, CallId), (CallId, CallId)) -> bool
    requires Placed(w)
  {
    (a: (CallId, CallId), b: (CallId, CallId)) =>
      a.0 < |w.calls| && a.1 < |w.calls| && b.0 < |w.calls| && b.1 < |w.calls|
      && CallEquals(w, a.0, b.0) && CallEquals(w, a.1, b.1)
  }

  /** Once every call has a train, every call equals itself. */
  lemma CallEqualsReflexive(w: World, c: CallId)
    requires Built(w) && c < |w.calls|
    ensures CallEquals(w, c, c)
  {
    var x := w.calls[c];
    assert Text.EqIgnoreCase(w.tracks[x.track].number, w.tracks[x.track].number);
    assert StationEquals(w.stations[w.tracks[x.track].station.value], w.stations[w.tracks[x.track].station.value]);
    assert TrainEquals(w.trains[x.train.value], w.trains[x.train.value]);
  }

  /** Once every call has a train, every pair of calls equals itself. */
  lemma PairEqualsReflexive(w: World, pairs: seq<(CallId, CallId)>)
    requires Built(w) && forall pair <- pairs :: pair.0 < |w.calls| && pair.1 < |w.calls|
    ensures Seqs.ReflexiveOn(pairs, PairEquals(w))
  {
    forall i | 0 <= i < |pairs| ensures PairEquals(w)(pairs[i], pairs[i]) {
      assert pairs[i] in pairs;
      CallEqualsReflexive(w, pairs[i].0);
      CallEqualsReflexive(w, pairs[i].1);
    }
  }

  /** The private `GetConflicts(track, locos)`: nothing for fewer than two
      calls; otherwise the conflicting pairs of the track's calls in the
      order they are examined, each kept at its first occurrence and dropped
      when equal to a pair kept before it. */
  function TrackConflictPairs(w: World, p: Parts.Plan, locos: seq<Parts.VehicleId>, t: TrackId)
    : (r: seq<(CallId, CallId)>)
    requires Built(w) && LocosIn(w, p, locos) && t < |w.tracks|
    ensures |w.tracks[t].calls| < 2 ==> r == []
    ensures forall pair <- r :: pair.0 < |w.calls| && pair.1 < |w.calls|
    ensures forall pair <- r :: exists i, j :: ConflictAt(w, p, locos, w.tracks[t].calls, i, j, pair)
    ensures forall i, j :: 0 <= i < j < |w.tracks[t].calls| && Conflicts(w, p, locos, w.tracks[t].calls[i], w.tracks[t].calls[j])
              ==> (w.tracks[t].calls[i], w.tracks[t].calls[j]) in r
                  || exists k :: 0 <= k < |r| && PairEquals(w)(r[k], (w.tracks[t].calls[i], w.tracks[t].calls[j]))
    ensures Seqs.Unrelated(r, PairEquals(w))
    ensures |w.tracks[t].calls| >= 2 ==>
      Seqs.FirstOccurrences(r, ConflictPairs(w, p, locos, w.tracks[t].calls), PairEquals(w))
  {
    var cs := w.tracks[t].calls;
    if |cs| < 2 then []
    else
      var pairs := ConflictPairs(w, p, locos, cs);
      DistinctPairsKeepFirst(w, pairs);
      ConflictsArePaired(w, p, locos, cs);
      Seqs.Distinct(pairs, PairEquals(w))
  }

  /** Every conflict of two positions is among the examined pairs. */
  lemma ConflictsArePaired(w: World, p: Parts.Plan, locos: seq<Parts.VehicleId>, cs: seq<CallId>)
    requires Built(w) && LocosIn(w, p, locos) && CallsIn(w, cs) && |cs| >= 1
    ensures forall i, j :: 0 <= i < j < |cs| && Conflicts(w, p, locos, cs[i], cs[j]) ==>
      (cs[i], cs[j]) in ConflictPairs(w, p, locos, cs)
  {
    forall i, j | 0 <= i < j < |cs| && Conflicts(w, p, locos, cs[i], cs[j])
      ensures (cs[i], cs[j]) in ConflictPairs(w, p, locos, cs)
    {
      assert ConflictAt(w, p, locos, cs, i, j, (cs[i], cs[j]));
    }
  }

  /** Dropping equal pairs of calls keeps each pair's first occurrence. */
  lemma DistinctPairsKeepFirst(w: World, pairs: seq<(CallId, CallId)>)
    requires Built(w) && forall pair <- pairs :: pair.0 < |w.calls| && pair.1 < |w.calls|
    ensures Seqs.FirstOccurrences(Seqs.Distinct(pairs, PairEquals(w)), pairs, PairEquals(w))
  {
    PairEqualsReflexive(w, pairs);
    Seqs.DistinctKeepsFirstOccurrences(pairs, PairEquals(w));
  }

  /** The message of one conflicting pair: each call's train and the call. */
  function ConflictFinding(w: World, pair: (CallId, CallId)): Finding
    requires Placed(w) && pair.0 < |w.calls| && pair.1 < |w.calls|
  {
    TrackCallConflict(TrainText(w, pair.0), CallText(w, pair.0), TrainText(w, pair.1), CallText(w, pair.1))
  }

  function ConflictFindings(w: World, pairs: seq<(CallId, CallId)>): (r: seq<Finding>)
    requires Placed(w) && forall pair <- pairs :: pair.0 < |w.calls| && pair.1 < |w.calls|
    ensures |r| == |pairs| && forall k :: 0 <= k < |r| ==> r[k] == ConflictFinding(w, pairs[k])
  {
    seq(|pairs|, k requires 0 <= k < |pairs| => ConflictFinding(w, pairs[k]))
  }

  /** `track.GetValidationErrors(locos)`: one message per conflicting pair
      that remains after dropping equal pairs. */
  function TrackFindings(w: World, p: Parts.Plan, locos: seq<Parts.VehicleId>, t: TrackId): (r: seq<Finding>)
    requires Built(w) && LocosIn(w, p, locos) && t < |w.tracks|
    ensures var pairs := TrackConflictPairs(w, p, locos, t);
      |r| == |pairs| && forall k :: 0 <= k < |r| ==> r[k] == ConflictFinding(w, pairs[k])
  {
    ConflictFindings(w, TrackConflictPairs(w, p, locos, t))
  }

  /** Two calls that each arrive no later than they depart never conflict, in
      either order: the later would have to arrive after the earlier departs
      and depart before the earlier arrives. */
  lemma WellFormedCallsNeverConflict(w: World, p: Parts.Plan, locos: seq<Parts.VehicleId>, me: CallId, r: CallId)
    requires Built(w) && LocosIn(w, p, locos) && me < |w.calls| && r < |w.calls|
    requires WellFormed(w, me) && WellFormed(w, r)
    ensures !Conflicts(w, p, locos, me, r)
  {
    Times.OperatorsFollowOrder(w.calls[r].arrival, w.calls[me].departure);
    Times.OperatorsFollowOrder(w.calls[r].departure, w.calls[me].arrival);
  }

  /** The call arrives no later than it departs. */
  predicate WellFormed(w: World, c: CallId)
    requires c < |w.calls|
  {
    w.calls[c].arrival.minutes <= w.calls[c].departure.minutes
  }

  lemma {:induction false} WellFormedHasNoConflictsWithMe(w: World, p: Parts.Plan, locos: seq<Parts.VehicleId>, me: CallId, remaining: seq<CallId>)
    requires Built(w) && LocosIn(w, p, locos) && me < |w.calls| && CallsIn(w, remaining)
    requires WellFormed(w, me) && forall c <- remaining :: WellFormed(w, c)
    ensures ConflictsWithMe(w, p, locos, me, remaining) == []
  {
    var r := ConflictsWithMe(w, p, locos, me, remaining);
    forall j | 0 <= j < |remaining| ensures !Conflicts(w, p, locos, me, remaining[j]) {
      assert remaining[j] in remaining;
      WellFormedCallsNeverConflict(w, p, locos, me, remaining[j]);
    }
    Seqs.PositionsNone(0, |remaining|, ConflictingWith(w, p, locos, me, remaining));
  }

  lemma {:induction false} WellFormedHasNoConflictPairs(w: World, p: Parts.Plan, locos: seq<Parts.VehicleId>, cs: seq<CallId>)
    requires Built(w) && LocosIn(w, p, locos) && CallsIn(w, cs) && |cs| >= 1
    requires forall c <- cs :: WellFormed(w, c)
    ensures ConflictPairs(w, p, locos, cs) == []
  {
    WellFormedHasNoConflictsWithMe(w, p, locos, cs[0], cs[1..]);
    if |cs| - 1 > 1 {
      WellFormedHasNoConflictPairs(w, p, locos, cs[1..]);
    }
  }

  /** A track whose calls all arrive no later than they depart reports
      nothing, whatever the trains and the loco schedules. */
  lemma WellFormedTrackReportsNothing(w: World, p: Parts.Plan, locos: seq<Parts.VehicleId>, t: TrackId)
    requires Built(w) && LocosIn(w, p, locos) && t < |w.tracks|
    requires forall c <- w.tracks[t].calls :: WellFormed(w, c)
    ensures TrackFindings(w, p, locos, t) == []
  {
    if |w.tracks[t].calls| >= 2 {
      WellFormedHasNoConflictPairs(w, p, locos, w.tracks[t].calls);
    }
  }

  /** A conflict needs one of the two calls to arrive after it departs, and
      then it is reported: the later call `r` inside the earlier call's
      inverted window, for different trains without a shared loco. */
  lemma InvertedCallConflicts(w: World, p: Parts.Plan, locos: seq<Parts.VehicleId>, me: CallId, r: CallId)
    requires Built(w) && LocosIn(w, p, locos) && me < |w.calls| && r < |w.calls|
    requires TrackEquals(w, w.calls[r].track, w.calls[me].track)
    requires !TrainEquals(w.trains[TrainOf(w, r)], w.trains[TrainOf(w, me)])
    requires forall k :: 0 <= k < |locos| ==> !Carries(w, p.vehicles[locos[k]], r)
    ensures Conflicts(w, p, locos, me, r) <==>
      w.calls[me].departure.minutes < w.calls[r].arrival.minutes && w.calls[r].departure.minutes < w.calls[me].arrival.minutes
  {
    Times.OperatorsFollowOrder(w.calls[r].arrival, w.calls[me].departure);
    Times.OperatorsFollowOrder(w.calls[r].departure, w.calls[me].arrival);
    SameLocoNeedsCarryingSchedule(w, p, locos, r, me);
  }

  // ---------------------------------------------------------------------
  // The internal overload GetConflicts(track, call, withCalls, locos)
  // ---------------------------------------------------------------------

  /** The condition the overload filters `withCalls` by: no shared loco, and
      the call departs within `(c.Arrival, c.Departure]` or arrives within
      `[c.Arrival, c.Departure)`. */
  predicate OverlapsCall(w: World, p: Parts.Plan, locos: seq<Parts.VehicleId>, call: CallId, c: CallId)
    requires LocosIn(w, p, locos) && call < |w.calls| && c < |w.calls|
  {
    var x, y := w.calls[call], w.calls[c];
    && !HasSameLoco(w, p, locos, call, c)
    && ((Times.Gt(Some(x.departure), Some(y.arrival)) && Times.Le(Some(x.departure), Some(y.departure)))
        || (Times.Ge(Some(x.arrival), Some(y.arrival)) && Times.Lt(Some(x.arrival), Some(y.departure))))
  }

  function OverlapsCallOf(w: World, p: Parts.Plan, locos: seq<Parts.VehicleId>, call: CallId): CallId -> bool
    requires LocosIn(w, p, locos) && call < |w.calls|
  {
    (c: CallId) => c < |w.calls| && OverlapsCall(w, p, locos, call, c)
  }

  /** `track.GetConflicts(call, withCalls, locos)`: `(false, null)` for a
      track without calls, and for a track with exactly two calls at equal
      stations; otherwise `(true, the overlapping calls)` when some call of
      `withCalls` overlaps, else `(false, null)`. */
  function CallConflicts(w: World, p: Parts.Plan, locos: seq<Parts.VehicleId>, t: TrackId, call: CallId, withCalls: seq<CallId>)
    : (r: (bool, Option<seq<CallId>>))
    requires Placed(w) && LocosIn(w, p, locos) && t < |w.tracks| && call < |w.calls| && CallsIn(w, withCalls)
    ensures r.0 <==> r.1.Some?
    ensures |w.tracks[t].calls| == 0 ==> !r.0
    ensures r.0 ==> |r.1.value| > 0
    ensures r.0 ==> forall c <- r.1.value :: c in withCalls && OverlapsCall(w, p, locos, call, c)
    ensures r.0 ==> forall c <- withCalls :: OverlapsCall(w, p, locos, call, c) ==> c in r.1.value
    ensures !r.0 && |w.tracks[t].calls| != 2 && |w.tracks[t].calls| != 0 ==>
              forall c <- withCalls :: !OverlapsCall(w, p, locos, call, c)
  {
    var cs := w.tracks[t].calls;
    if |cs| == 0 then (false, None)
    else if |cs| == 2 && StationEquals(w.stations[StationOf(w, cs[0])], w.stations[StationOf(w, cs[1])]) then (false, None)
    else
      var conflicting := Seqs.Filter(withCalls, OverlapsCallOf(w, p, locos, call));
      if |conflicting| > 0 then (true, Some(conflicting)) else (false, None)
  }

  /** The two-call exemption: when both calls of a two-call track are calls
      on that track, their stations are the track's station, so the
      overload never reports anything for such a track. */
  lemma TwoCallTrackNeverConflicts(w: World, p: Parts.Plan, locos: seq<Parts.VehicleId>, t: TrackId, call: CallId, withCalls: seq<CallId>)
    requires Placed(w) && LocosIn(w, p, locos) && t < |w.tracks| && call < |w.calls| && CallsIn(w, withCalls)
    requires |w.tracks[t].calls| == 2
    requires forall c <- w.tracks[t].calls :: w.calls[c].track == t
    ensures CallConflicts(w, p, locos, t, call, withCalls) == (false, None)
  {
    var s := w.tracks[t].station.value;
    Text.EqIgnoreCaseIsEquivalence(w.stations[s].signature, w.stations[s].signature, w.stations[s].signature);
  }

  /** For calls that arrive no later than they depart, the overload's
      condition implies that the two stays share an instant; a stay that
      strictly contains the other does not meet it. */
  lemma OverlapsCallMeansOverlap(w: World, p: Parts.Plan, locos: seq<Parts.VehicleId>, call: CallId, c: CallId)
    requires LocosIn(w, p, locos) && call < |w.calls| && c < |w.calls|
    requires w.calls[call].arrival.minutes <= w.calls[call].departure.minutes
    requires w.calls[c].arrival.minutes <= w.calls[c].departure.minutes
    ensures OverlapsCall(w, p, locos, call, c) ==>
      w.calls[call].arrival.minutes <= w.calls[c].departure.minutes && w.calls[c].arrival.minutes <= w.calls[call].departure.minutes
    ensures w.calls[call].arrival.minutes < w.calls[c].arrival.minutes && w.calls[c].departure.minutes < w.calls[call].departure.minutes
      ==> !OverlapsCall(w, p, locos, call, c)
  {
    var x, y := w.calls[call], w.calls[c];
    Times.OperatorsFollowOrder(x.departure, y.arrival);
    Times.OperatorsFollowOrder(x.departure, y.departure);
    Times.OperatorsFollowOrder(x.arrival, y.arrival);
    Times.OperatorsFollowOrder(x.arrival, y.departure);
  }
}

=== FILE: parts.dfy ===
/** `TrainPart`, `VehicleSchedule`, `DriverDuty` and `Schedule`: the parts of
    trains that locos, trainsets and drivers are scheduled on, and the
    schedules holding them. */
module Parts {
  import opened Results
  import Text
  import Times
  import Maybes
  import opened Graph
  import Trains
  import Timetables

  // ---------------------------------------------------------------------
  // TrainPart
  // ---------------------------------------------------------------------

  type CallHashInputs = (Times.Time, Times.Time, string, Option<(string, string)>)

  /** A train part runs from the departure of one call to the arrival of a
      later call of the same train. */
  datatype TrainPart = TrainPart(from: CallId, to: CallId)

  predicate PartIn(w: World, p: TrainPart) {
    p.from < |w.calls| && p.to < |w.calls|
  }

  predicate PartsIn(w: World, ps: seq<TrainPart>) {
    forall i :: 0 <= i < |ps| ==> PartIn(w, ps[i])
  }

  /** The calls `from` and `to` belong to equal trains, as `NotEqualsThrow`
      on `From.Train` demands: a null `From.Train` fails, and so does a null
      `To.Train`, which `Train.Equals` rejects. */
  predicate SameTrain(w: World, from: CallId, to: CallId)
    requires Valid(w) && from < |w.calls| && to < |w.calls|
  {
    w.calls[from].train.Some? && NullableTrainEquals(w, w.calls[from].train, w.calls[to].train)
  }

  /** `new TrainPart(from, to)`: `ArgumentNullException` for a null call
      (`from` checked first), `ArgumentOutOfRangeException` when the calls
      do not belong to equal trains. */
  function NewTrainPart(w: World, from: Option<CallId>, to: Option<CallId>): (r: Result<TrainPart>)
    requires Valid(w) && (from.Some? ==> from.value < |w.calls|) && (to.Some? ==> to.value < |w.calls|)
    ensures from.None? || to.None? ==> r == Throws(ArgumentNull)
    ensures from.Some? && to.Some? ==>
      (r.Ok? <==> SameTrain(w, from.value, to.value)) && (r.Throws? ==> r.fault == ArgumentOutOfRange)
    ensures r.Ok? ==> r.value == TrainPart(from.value, to.value)
  {
    if from.None? || to.None? then Throws(ArgumentNull)
    else if !SameTrain(w, from.value, to.value) then Throws(ArgumentOutOfRange)
    else Ok(TrainPart(from.value, to.value))
  }

  /** `part.Departure` is `From.Departure`. */
  function Departure(w: World, p: TrainPart): Times.Time
    requires PartIn(w, p)
  {
    w.calls[p.from].departure
  }

  /** `part.Arrival` is `To.Arrival`. */
  function Arrival(w: World, p: TrainPart): Times.Time
    requires PartIn(w, p)
  {
    w.calls[p.to].arrival
  }

  /** `part.Train` is `From.Train`. */
  function TrainOfPart(w: World, p: TrainPart): Option<TrainId>
    requires PartIn(w, p)
  {
    w.calls[p.from].train
  }

  /** `TrainPart.Equals`: both calls equal. */
  predicate PartEquals(w: World, a: TrainPart, b: TrainPart)
    requires Placed(w) && PartIn(w, a) && PartIn(w, b)
  {
    CallEquals(w, a.from, b.from) && CallEquals(w, a.to, b.to)
  }

  /** The inputs `TrainPart.GetHashCode` combines. */
  function PartHash(w: World, p: TrainPart): (CallHashInputs, CallHashInputs)
    requires Placed(w) && PartIn(w, p)
  {
    (CallHash(w, p.from), CallHash(w, p.to))
  }

  /** Equal parts hash alike, and part equality is symmetric. */
  lemma PartHashAgreesWithEquals(w: World, a: TrainPart, b: TrainPart)
    requires Placed(w) && PartIn(w, a) && PartIn(w, b)
    ensures PartEquals(w, a, b) ==> PartHash(w, a) == PartHash(w, b)
    ensures PartEquals(w, a, b) ==> PartEquals(w, b, a)
  {
    var s := Station("", "", [], None);
    var t := Train("", "", "", []);
    HashCodesAgreeWithEquals(w, s, s, t, t);
    CallEqualsNeedsTrain(w, a.from, b.from);
    CallEqualsNeedsTrain(w, a.to, b.to);
  }

  /** `TrainPart.ToString()`: "'<train>' <from station> <departure>-><to
      station> <arrival>"; a null train prints as nothing. */
  function ToString(w: World, p: TrainPart): string
    requires Placed(w) && PartIn(w, p)
  {
    var train := if w.calls[p.from].train.Some? then Trains.ToString(w, w.calls[p.from].train.value) else "";
    "'" + train + "' " + w.stations[StationOf(w, p.from)].name + " " + Times.HHMM(Departure(w, p))
      + "->" + w.stations[StationOf(w, p.to)].name + " " + Times.HHMM(Arrival(w, p))
  }

  /** `train.AsTrainPart(fromCallIndex, toCallIndex)`: `ArgumentNullException`
      for a null train; `ArgumentOutOfRangeException` unless
      `0 <= from <= count - 2` and `from < to <= count - 1`; otherwise the
      part between the two calls, which the constructor still checks. */
  function AsTrainPart(w: World, train: Option<TrainId>, fromIndex: int, toIndex: int): (r: Result<TrainPart>)
    requires Valid(w) && (train.Some? ==> train.value < |w.trains|)
    ensures train.None? ==> r == Throws(ArgumentNull)
    ensures train.Some? ==>
      var cs := w.trains[train.value].calls;
      && (!(0 <= fromIndex < toIndex < |cs|) ==> r == Throws(ArgumentOutOfRange))
      && (0 <= fromIndex < toIndex < |cs| ==>
            (r.Ok? <==> SameTrain(w, cs[fromIndex], cs[toIndex])) && (r.Throws? ==> r.fault == ArgumentOutOfRange))
      && (r.Ok? ==> r.value == TrainPart(cs[fromIndex], cs[toIndex]))
  {
    if train.None? then Throws(ArgumentNull)
    else
      var cs := w.trains[train.value].calls;
      var c := |cs|;
      if fromIndex < 0 || fromIndex > c - 2 then Throws(ArgumentOutOfRange)
      else if toIndex <= fromIndex || toIndex > c - 1 then Throws(ArgumentOutOfRange)
      else NewTrainPart(w, Some(cs[fromIndex]), Some(cs[toIndex]))
  }

  /** Every call of the train was added to it, as `Train.Add` does. */
  predicate OwnsCalls(w: World, t: TrainId)
    requires Valid(w) && t < |w.trains|
  {
    forall k :: 0 <= k < |w.trains[t].calls| ==> w.calls[w.trains[t].calls[k]].train == Some(t)
  }

  /** For a train that owns its calls, the constructor's check always
      passes: a part exists exactly for indices `0 <= from < to < count`. */
  lemma AsTrainPartOfOwnCalls(w: World, t: TrainId, fromIndex: int, toIndex: int)
    requires Valid(w) && t < |w.trains| && OwnsCalls(w, t)
    ensures AsTrainPart(w, Some(t), fromIndex, toIndex).Ok? <==> 0 <= fromIndex < toIndex < |w.trains[t].calls|
  {
    var tr := w.trains[t];
    Text.EqIgnoreCaseIsEquivalence(tr.number, tr.number, tr.number);
    Text.EqIgnoreCaseIsEquivalence(tr.externalId, tr.externalId, tr.externalId);
  }

  /** `o` overlaps `p` in time: `o` arrives after `p` departs and departs
      before `p` arrives. */
  predicate Overlaps(w: World, p: TrainPart, o: TrainPart)
    requires PartIn(w, p) && PartIn(w, o)
  {
    Arrival(w, o).minutes > Departure(w, p).minutes && Departure(w, o).minutes < Arrival(w, p).minutes
  }

  /** `part.IsOverlapping(others)`, with the lifted `Time?` operators `>` and
      `<`: some other part overlaps this one. */
  function IsOverlapping(w: World, p: TrainPart, others: seq<TrainPart>): (r: bool)
    requires PartIn(w, p) && PartsIn(w, others)
    ensures r <==> exists i :: 0 <= i < |others| && Overlaps(w, p, others[i])
  {
    if |others| == 0 then false
    else
      var o := others[0];
      Times.OperatorsFollowOrder(Arrival(w, o), Departure(w, p));
      Times.OperatorsFollowOrder(Departure(w, o), Arrival(w, p));
      var here := Times.Gt(Some(Arrival(w, o)), Some(Departure(w, p)))
               && Times.Lt(Some(Departure(w, o)), Some(Arrival(w, p)));
      var rest := IsOverlapping(w, p, others[1..]);
      assert rest <==> exists i :: 1 <= i < |others| && Overlaps(w, p, others[i]) by {
        forall i | 1 <= i < |others| ensures others[i] == others[1..][i - 1] { }
      }
      here || rest
  }

  /** Overlap is symmetric, so `IsOverlapping` of one part against another
      is the same both ways round; nothing overlaps an empty list. */
  lemma {:induction false} OverlapIsSymmetric(w: World, p: TrainPart, o: TrainPart)
    requires PartIn(w, p) && PartIn(w, o)
    ensures IsOverlapping(w, p, [o]) == IsOverlapping(w, o, [p])
    ensures !IsOverlapping(w, p, [])
  {
  }

  // ---------------------------------------------------------------------
  // VehicleSchedule
  // ---------------------------------------------------------------------

  /** `LocoSchedule` and `TrainsetSchedule`, the two kinds of
      `VehicleSchedule`. */
  datatype VehicleKind = Loco | Trainset

  /** A vehicle schedule: its number and its parts. Record equality includes
      the `Parts` list, compared by reference, and every schedule creates
      its own list, so a schedule equals only itself: schedules are held by
      id in a `Plan`. */
  datatype VehicleSchedule = VehicleSchedule(kind: VehicleKind, number: string, parts: seq<TrainPart>)

  /** `new LocoSchedule(number)`, `new TrainsetSchedule(number)`. */
  function NewVehicleSchedule(kind: VehicleKind, number: string): VehicleSchedule {
    VehicleSchedule(kind, number, [])
  }

  /** A new schedule has no parts, so the first part added is its only
      one. */
  lemma NewScheduleTakesFirstPart(w: World, kind: VehicleKind, number: string, part: TrainPart)
    requires Placed(w) && PartIn(w, part)
    ensures AddPart(w, NewVehicleSchedule(kind, number), Some(part)) == Ok(VehicleSchedule(kind, number, [part]))
  {
    var v := NewVehicleSchedule(kind, number);
    assert !HasPart(w, v.parts, part);
    assert [] + [part] == [part];
  }

  /** The parts include one equal to `p`. */
  predicate HasPart(w: World, ps: seq<TrainPart>, p: TrainPart)
    requires Placed(w) && PartsIn(w, ps) && PartIn(w, p)
  {
    exists i :: 0 <= i < |ps| && PartEquals(w, ps[i], p)
  }

  /** No two parts are equal. */
  predicate NoEqualParts(w: World, ps: seq<TrainPart>)
    requires Placed(w) && PartsIn(w, ps)
  {
    forall i, j :: 0 <= i < j < |ps| ==> !PartEquals(w, ps[i], ps[j])
  }

  /** `schedule.Add(part)`: `ArgumentNullException` for a null part;
      otherwise the part is appended unless an equal part is there. */
  function AddPart(w: World, v: VehicleSchedule, part: Option<TrainPart>): (r: Result<VehicleSchedule>)
    requires Placed(w) && PartsIn(w, v.parts) && (part.Some? ==> PartIn(w, part.value))
    ensures r.Ok? <==> part.Some?
    ensures r.Throws? ==> r.fault == ArgumentNull
    ensures r.Ok? ==> PartsIn(w, r.value.parts) && r.value.kind == v.kind && r.value.number == v.number
    ensures r.Ok? && HasPart(w, v.parts, part.value) ==> r.value == v
    ensures r.Ok? && !HasPart(w, v.parts, part.value) ==> r.value.parts == v.parts + [part.value]
    ensures r.Ok? && NoEqualParts(w, v.parts) ==> NoEqualParts(w, r.value.parts)
  {
    if part.None? then Throws(ArgumentNull)
    else if HasPart(w, v.parts, part.value) then Ok(v)
    else Ok(v.(parts := v.parts + [part.value]))
  }

  /** Adding a part twice is adding it once when both its calls belong to
      trains; a part whose `From` call has no train equals nothing, so it is
      appended every time. */
  lemma AddPartIsIdempotent(w: World, v: VehicleSchedule, part: TrainPart)
    requires Placed(w) && PartsIn(w, v.parts) && PartIn(w, part)
    ensures var v1 := AddPart(w, v, Some(part)).value;
      && PartsIn(w, v1.parts)
      && (w.calls[part.from].train.Some? && w.calls[part.to].train.Some? ==> AddPart(w, v1, Some(part)) == Ok(v1))
      && (w.calls[part.from].train.None? ==> AddPart(w, v1, Some(part)) == Ok(v1.(parts := v1.parts + [part])))
  {
    var v1 := AddPart(w, v, Some(part)).value;
    if w.calls[part.from].train.Some? && w.calls[part.to].train.Some? && !HasPart(w, v.parts, part) {
      CallEqualsNeedsTrain(w, part.from, part.from);
      CallEqualsNeedsTrain(w, part.to, part.to);
      assert PartEquals(w, v1.parts[|v.parts|], part);
    }
    if w.calls[part.from].train.None? {
      forall i | 0 <= i < |v1.parts| ensures !PartEquals(w, v1.parts[i], part) {
        CallEqualsNeedsTrain(w, part.from, v1.parts[i].from);
      }
    }
  }

  // ---------------------------------------------------------------------
  // DriverDuty
  // ---------------------------------------------------------------------

  datatype DriverDuty = DriverDuty(identity: string, parts: seq<TrainPart>)

  /** `new DriverDuty(identity)`: the identity must have text, or
      `ArgumentNullException` is thrown. */
  function NewDriverDuty(identity: Text.NString): (r: Result<DriverDuty>)
    ensures r.Ok? <==> Text.HasText(identity)
    ensures r.Throws? ==> r.fault == ArgumentNull
    ensures r.Ok? ==> r.value == DriverDuty(identity.value, [])
  {
    match Text.TextOrException(identity)
    case Ok(id) => Ok(DriverDuty(id, []))
    case Throws(f) => Throws(f)
  }

  /** `DriverDuty.Equals`: identities equal ignoring case; false for null. */
  predicate DutyEquals(a: DriverDuty, b: Option<DriverDuty>) {
    b.Some? && Text.EqIgnoreCase(a.identity, b.value.identity)
  }

  /** The input of `DriverDuty.GetHashCode`: the folded identity. */
  function DutyHash(a: DriverDuty): string {
    Text.Fold(a.identity)
  }

  /** Duty equality is exactly equality of the hashes' inputs, and is an
      equivalence. */
  lemma DutyEqualsAgreesWithHash(a: DriverDuty, b: DriverDuty, c: DriverDuty)
    ensures DutyEquals(a, Some(b)) <==> DutyHash(a) == DutyHash(b)
    ensures DutyEquals(a, Some(a)) && !DutyEquals(a, None)
    ensures DutyEquals(a, Some(b)) ==> DutyEquals(b, Some(a))
    ensures DutyEquals(a, Some(b)) && DutyEquals(b, Some(c)) ==> DutyEquals(a, Some(c))
  {
  }

  /** `DriverDuty.ToString()`: the identity alone without parts, otherwise
      "<identity>: <first departure> - <last arrival>". */
  function DutyToString(w: World, d: DriverDuty): string
    requires PartsIn(w, d.parts)
  {
    if |d.parts| == 0 then d.identity
    else d.identity + ": " + Times.HHMM(Departure(w, d.parts[0])) + " - " + Times.HHMM(Arrival(w, d.parts[|d.parts| - 1]))
  }

  /** No two different parts of the list overlap. */
  predicate NoOverlaps(w: World, ps: seq<TrainPart>)
    requires PartsIn(w, ps)
  {
    forall i, j :: 0 <= i < |ps| && 0 <= j < |ps| && i != j ==> !Overlaps(w, ps[i], ps[j])
  }

  /** `duty.Add(part)`: a part already there is returned as it is; a part
      overlapping a part of the duty is refused with a message and nothing
      changes; any other part is appended and returned. */
  function AddToDuty(w: World, d: DriverDuty, part: TrainPart): (r: (DriverDuty, Maybes.Maybe<TrainPart>))
    requires Placed(w) && PartsIn(w, d.parts) && PartIn(w, part)
    ensures PartsIn(w, r.0.parts) && r.0.identity == d.identity
    ensures Maybes.HasValue(r.1) <==> HasPart(w, d.parts, part) || !IsOverlapping(w, part, d.parts)
    ensures Maybes.HasValue(r.1) ==> r.1.stored.value == part
    ensures Maybes.IsNone(r.1) ==>
      && r.0 == d
      && r.1.message == "Part " + ToString(w, part) + " overlaps existing parts in driver duty '" + d.identity + "'"
    ensures HasPart(w, d.parts, part) ==> r.0 == d
    ensures !HasPart(w, d.parts, part) && Maybes.HasValue(r.1) ==> r.0.parts == d.parts + [part]
    ensures NoOverlaps(w, d.parts) ==> NoOverlaps(w, r.0.parts)
  {
    if HasPart(w, d.parts, part) then (d, Maybes.FromValue(Some(part)))
    else if IsOverlapping(w, part, d.parts) then
      (d, Maybes.NoneWithReason("Part " + ToString(w, part) + " overlaps existing parts in driver duty '" + d.identity + "'"))
    else
      var ps := d.parts + [part];
      assert NoOverlaps(w, d.parts) ==> NoOverlaps(w, ps) by {
        if NoOverlaps(w, d.parts) {
          forall i, j | 0 <= i < |ps| && 0 <= j < |ps| && i != j ensures !Overlaps(w, ps[i], ps[j]) {
            if j == |d.parts| {
              assert !Overlaps(w, part, d.parts[i]);
            } else if i == |d.parts| {
              assert !Overlaps(w, part, d.parts[j]);
            }
          }
        }
      }
      (d.(parts := ps), Maybes.FromValue(Some(part)))
  }

  // ---------------------------------------------------------------------
  // Schedule
  // ---------------------------------------------------------------------

  type VehicleId = nat
  type DutyId = nat

  /** The vehicle schedules and driver duties a schedule refers to. */
  datatype Plan = Plan(vehicles: seq<VehicleSchedule>, duties: seq<DriverDuty>)

  datatype Schedule = Schedule(name: string, timetable: Timetables.Timetable,
                               locos: seq<VehicleId>, trainsets: seq<VehicleId>, duties: seq<DutyId>)

  predicate ScheduleIn(p: Plan, s: Schedule) {
    && (forall i :: 0 <= i < |s.locos| ==> s.locos[i] < |p.vehicles| && p.vehicles[s.locos[i]].kind == Loco)
    && (forall i :: 0 <= i < |s.trainsets| ==> s.trainsets[i] < |p.vehicles| && p.vehicles[s.trainsets[i]].kind == Trainset)
    && (forall i :: 0 <= i < |s.duties| ==> s.duties[i] < |p.duties|)
  }

  /** `Schedule.Create(name, timetable)`: no schedules and no duties. */
  function Create(name: string, timetable: Timetables.Timetable): Schedule {
    Schedule(name, timetable, [], [], [])
  }

  /** `schedule.AddLocoSchedule(loco)`: `ArgumentNullException` for null;
      the schedule is appended unless it is already there (as the same
      object: see `VehicleSchedule`). */
  function AddLocoSchedule(p: Plan, s: Schedule, v: Option<VehicleId>): (r: Result<Schedule>)
    requires ScheduleIn(p, s) && (v.Some? ==> v.value < |p.vehicles| && p.vehicles[v.value].kind == Loco)
    ensures r.Ok? <==> v.Some?
    ensures r.Throws? ==> r.fault == ArgumentNull
    ensures r.Ok? ==>
      && ScheduleIn(p, r.value) && v.value in r.value.locos
      && r.value == s.(locos := r.value.locos)
      && r.value.locos == (if v.value in s.locos then s.locos else s.locos + [v.value])
  {
    if v.None? then Throws(ArgumentNull)
    else if v.value in s.locos then Ok(s)
    else Ok(s.(locos := s.locos + [v.value]))
  }

  /** `schedule.AddTrainsetSchedule(trainset)`: as `AddLocoSchedule`. */
  function AddTrainsetSchedule(p: Plan, s: Schedule, v: Option<VehicleId>): (r: Result<Schedule>)
    requires ScheduleIn(p, s) && (v.Some? ==> v.value < |p.vehicles| && p.vehicles[v.value].kind == Trainset)
    ensures r.Ok? <==> v.Some?
    ensures r.Throws? ==> r.fault == ArgumentNull
    ensures r.Ok? ==>
      && ScheduleIn(p, r.value) && v.value in r.value.trainsets
      && r.value == s.(trainsets := r.value.trainsets)
      && r.value.trainsets == (if v.value in s.trainsets then s.trainsets else s.trainsets + [v.value])
  {
    if v.None? then Throws(ArgumentNull)
    else if v.value in s.trainsets then Ok(s)
    else Ok(s.(trainsets := s.trainsets + [v.value]))
  }

  /** The schedule lists a duty equal to `d`. */
  predicate HasDuty(p: Plan, s: Schedule, d: DutyId)
    requires ScheduleIn(p, s) && d < |p.duties|
  {
    exists i :: 0 <= i < |s.duties| && DutyEquals(p.duties[s.duties[i]], Some(p.duties[d]))
  }

  /** No two listed duties are equal. */
  predicate DistinctDuties(p: Plan, s: Schedule)
    requires ScheduleIn(p, s)
  {
    forall i, j :: 0 <= i < j < |s.duties| ==> !DutyEquals(p.duties[s.duties[i]], Some(p.duties[s.duties[j]]))
  }

  /** `schedule.AddDriverDuty(duty)`: `ArgumentNullException` for null; the
      duty is appended unless a duty with the same identity, ignoring case,
      is there. Existing entries are never removed or reordered, and the
      listed duties stay pairwise unequal. */
  function AddDriverDuty(p: Plan, s: Schedule, d: Option<DutyId>): (r: Result<Schedule>)
    requires ScheduleIn(p, s) && (d.Some? ==> d.value < |p.duties|)
    ensures r.Ok? <==> d.Some?
    ensures r.Throws? ==> r.fault == ArgumentNull
    ensures r.Ok? ==> ScheduleIn(p, r.value) && r.value == s.(duties := r.value.duties)
    ensures r.Ok? ==> HasDuty(p, r.value, d.value)
    ensures r.Ok? && HasDuty(p, s, d.value) ==> r.value == s
    ensures r.Ok? && !HasDuty(p, s, d.value) ==> r.value.duties == s.duties + [d.value]
    ensures r.Ok? && DistinctDuties(p, s) ==> DistinctDuties(p, r.value)
  {
    if d.None? then Throws(ArgumentNull)
    else if HasDuty(p, s, d.value) then Ok(s)
    else
      var r := s.(duties := s.duties + [d.value]);
      assert DutyEquals(p.duties[r.duties[|s.duties|]], Some(p.duties[d.value])) by {
        var x := p.duties[d.value].identity;
        Text.EqIgnoreCaseIsEquivalence(x, x, x);
      }
      assert DistinctDuties(p, s) ==> DistinctDuties(p, r) by {
        forall i, j | 0 <= i < j < |r.duties| && j == |s.duties|
          ensures !DutyEquals(p.duties[r.duties[i]], Some(p.duties[r.duties[j]]))
        {
          assert r.duties[i] == s.duties[i];
        }
      }
      Ok(r)
  }
}

=== FILE: passings.dfy ===
/** `StretchPassing` and `TrackStretch.GetStretchPassings`: the runs of
    trains along a track stretch, found from consecutive calls. */
module Passings {
  import opened Results
  import Seqs
  import Times
  import opened Graph
  import Stations

  /** A train running from one call to the next along a stretch; `isOdd`
      for the direction from the stretch's start to its end. The train is
      never set by the constructor. */
  datatype StretchPassing = StretchPassing(from: CallId, to: CallId, isOdd: bool, train: Option<TrainId>)

  predicate PassingIn(w: World, p: StretchPassing) {
    p.from < |w.calls| && p.to < |w.calls|
  }

  /** `new StretchPassing(from, to, isOdd)`: `ArgumentNullException` for a
      null call; `IsOdd` as given and `Train` left null. */
  function NewStretchPassing(from: Option<CallId>, to: Option<CallId>, isOdd: bool): (r: Result<StretchPassing>)
    ensures r.Ok? <==> from.Some? && to.Some?
    ensures r.Throws? ==> r.fault == ArgumentNull
    ensures r.Ok? ==> r.value.from == from.value && r.value.to == to.value && r.value.isOdd == isOdd && r.value.train.None?
  {
    if from.None? || to.None? then Throws(ArgumentNull) else Ok(StretchPassing(from.value, to.value, isOdd, None))
  }

  /** `passing.Arrival` is `To.Arrival`. */
  function Arrival(w: World, p: StretchPassing): Times.Time
    requires PassingIn(w, p)
  {
    w.calls[p.to].arrival
  }

  /** `passing.Departure` is `From.Departure`. */
  function Departure(w: World, p: StretchPassing): Times.Time
    requires PassingIn(w, p)
  {
    w.calls[p.from].departure
  }

  /** `StretchPassing.ToString()`: "<from station>: <departure> - <to
      station>: <arrival>". */
  function ToString(w: World, p: StretchPassing): string
    requires Placed(w) && PassingIn(w, p)
  {
    w.stations[StationOf(w, p.from)].name + ": " + Times.HHMM(Departure(w, p)) + " - "
      + w.stations[StationOf(w, p.to)].name + ": " + Times.HHMM(Arrival(w, p))
  }

  // ---------------------------------------------------------------------
  // GetStretchPassings
  // ---------------------------------------------------------------------

  /** `call.Station.Equals(station)`: signatures equal ignoring case. */
  predicate AtStation(w: World, c: CallId, s: StationId)
    requires Placed(w) && c < |w.calls| && s < |w.stations|
  {
    StationEquals(w.stations[StationOf(w, c)], w.stations[s])
  }

  /** The leg from `a` to `b` runs from the stretch's start to its end. */
  predicate Forward(w: World, st: TrackStretch, a: CallId, b: CallId)
    requires Placed(w) && StretchIn(w, st) && a < |w.calls| && b < |w.calls|
  {
    AtStation(w, a, st.start) && AtStation(w, b, st.end)
  }

  /** The leg from `a` to `b` runs from the stretch's end to its start. */
  predicate Backward(w: World, st: TrackStretch, a: CallId, b: CallId)
    requires Placed(w) && StretchIn(w, st) && a < |w.calls| && b < |w.calls|
  {
    AtStation(w, a, st.end) && AtStation(w, b, st.start)
  }

  /** The passings of one leg: odd when forward, even when backward, and
      both when the two ends of the stretch are equal stations. */
  function LegPassings(w: World, st: TrackStretch, a: CallId, b: CallId): seq<StretchPassing>
    requires Placed(w) && StretchIn(w, st) && a < |w.calls| && b < |w.calls|
  {
    (if Forward(w, st, a, b) then [StretchPassing(a, b, true, None)] else [])
      + (if Backward(w, st, a, b) then [StretchPassing(a, b, false, None)] else [])
  }

  /** The passing `p` is of the leg between `cs[i]` and `cs[i + 1]`. */
  predicate PassingOfLeg(w: World, st: TrackStretch, cs: seq<CallId>, i: int, p: StretchPassing)
    requires Placed(w) && StretchIn(w, st) && CallsIn(w, cs)
  {
    && 0 <= i < |cs| - 1 && p.from == cs[i] && p.to == cs[i + 1] && p.train.None?
    && (if p.isOdd then Forward(w, st, cs[i], cs[i + 1]) else Backward(w, st, cs[i], cs[i + 1]))
  }

  /** The passings of one train's calls: every passing is the forward or
      backward run of two CONSECUTIVE calls, and every such run is a
      passing; a visit to the other end with a call in between is none. */
  function TrainPassings(w: World, st: TrackStretch, cs: seq<CallId>): (r: seq<StretchPassing>)
    requires Placed(w) && StretchIn(w, st) && CallsIn(w, cs)
    ensures forall p <- r :: PassingIn(w, p) && exists i :: PassingOfLeg(w, st, cs, i, p)
    ensures forall i, p :: PassingOfLeg(w, st, cs, i, p) ==> p in r
  {
    if |cs| < 2 then []
    else
      var here := LegPassings(w, st, cs[0], cs[1]);
      var rest := TrainPassings(w, st, cs[1..]);
      assert forall p <- here :: PassingOfLeg(w, st, cs, 0, p);
      forall p | p in rest ensures exists i :: PassingOfLeg(w, st, cs, i, p) {
        var i :| PassingOfLeg(w, st, cs[1..], i, p);
        assert PassingOfLeg(w, st, cs, i + 1, p);
      }
      forall i, p | PassingOfLeg(w, st, cs, i, p) ensures p in here + rest {
        if i > 0 {
          assert PassingOfLeg(w, st, cs[1..], i - 1, p);
        }
      }
      here + rest
  }

  /** `a.Intersect(b)` on two lists of distinct trains: the trains of `a`
      equal to some train of `b`, in the order of `a`. (With the elements of
      `a` pairwise unequal, the set `Intersect` builds from `b` loses nothing
      that a later element of `a` could match.) */
  function CommonTrains(w: World, a: seq<Option<TrainId>>, b: seq<Option<TrainId>>): (r: seq<Option<TrainId>>)
    requires forall x <- a :: x.Some? ==> x.value < |w.trains|
    requires forall y <- b :: y.Some? ==> y.value < |w.trains|
    ensures forall x :: x in r <==> x in a && exists y <- b :: Stations.TrainIdEquals(w)(x, y)
    ensures Seqs.Unrelated(a, Stations.TrainIdEquals(w)) ==> Seqs.Unrelated(r, Stations.TrainIdEquals(w))
  {
    if |a| == 0 then []
    else
      var rest := CommonTrains(w, a[1..], b);
      assert forall x <- a[1..] :: x in a;
      var eq := Stations.TrainIdEquals(w);
      if exists y <- b :: eq(a[0], y) then
        var r := [a[0]] + rest;
        assert Seqs.Unrelated(a, eq) ==> Seqs.Unrelated(r, eq) by {
          if Seqs.Unrelated(a, eq) {
            assert Seqs.Unrelated(a[1..], eq);
            forall j | 1 <= j < |r| ensures !eq(r[0], r[j]) {
              assert r[j] in a[1..];
              var k :| 0 <= k < |a[1..]| && a[1..][k] == r[j];
              assert a[k + 1] == r[j];
            }
          }
        }
        r
      else
        assert Seqs.Unrelated(a, eq) ==> Seqs.Unrelated(a[1..], eq);
        rest
  }

  /** The trains calling at both ends of the stretch, each once. */
  function StretchTrains(w: World, st: TrackStretch): (r: seq<Option<TrainId>>)
    requires Built(w) && StretchIn(w, st)
    ensures forall x <- r :: x.Some? && x.value < |w.trains|
    ensures forall k :: 0 <= k < |r| ==> r[k].Some? && r[k].value < |w.trains|
    ensures Seqs.Unrelated(r, Stations.TrainIdEquals(w))
  {
    var a := Stations.Trains(w, st.start);
    var b := Stations.Trains(w, st.end);
    forall x | x in a ensures x.Some? {
      assert x in Stations.CallTrains(w, st.start);
    }
    forall y | y in b ensures y.Some? && y.value < |w.trains| {
      assert y in Stations.CallTrains(w, st.end);
    }
    CommonTrains(w, a, b)
  }

  /** The passings of each train in turn. */
  function PassingsOfTrains(w: World, st: TrackStretch, ts: seq<Option<TrainId>>): (r: seq<StretchPassing>)
    requires Placed(w) && StretchIn(w, st)
    requires forall x <- ts :: x.Some? && x.value < |w.trains|
    ensures forall p <- r :: PassingIn(w, p)
    ensures Seqs.Concatenation(r, EachTrainPassings(w, st, ts))
  {
    Seqs.FlattenConcatenates(EachTrainPassings(w, st, ts));
    Seqs.Flatten(EachTrainPassings(w, st, ts))
  }

  /** A train is one of the stretch's trains exactly when it calls at the
      start station and equals a train calling at the end station. */
  lemma {:induction false} StretchTrainsAreCommon(w: World, st: TrackStretch, x: Option<TrainId>)
    requires Built(w) && StretchIn(w, st)
    ensures x in StretchTrains(w, st) <==>
      x in Stations.Trains(w, st.start) && exists y <- Stations.Trains(w, st.end) :: Stations.TrainIdEquals(w)(x, y)
  {
  }

  /** The passings of each train, one sequence per train. */
  function EachTrainPassings(w: World, st: TrackStretch, ts: seq<Option<TrainId>>): (r: seq<seq<StretchPassing>>)
    requires Placed(w) && StretchIn(w, st)
    requires forall x <- ts :: x.Some? && x.value < |w.trains|
    ensures |r| == |ts| && forall k :: 0 <= k < |ts| ==> r[k] == TrainPassings(w, st, w.trains[ts[k].value].calls)
    ensures forall k, p :: 0 <= k < |r| && p in r[k] ==> PassingIn(w, p)
  {
    assert forall k :: 0 <= k < |ts| ==> ts[k] in ts;
    seq(|ts|, k requires 0 <= k < |ts| => TrainPassings(w, st, w.trains[ts[k].value].calls))
  }

  /** `stretch.GetStretchPassings()`: for each train calling at both ends,
      once, every consecutive pair of its calls from the start to the end
      (odd) or from the end to the start (even). */
  function GetStretchPassings(w: World, st: TrackStretch): (r: seq<StretchPassing>)
    requires Built(w) && StretchIn(w, st)
    ensures forall p <- r :: PassingIn(w, p)
  {
    PassingsOfTrains(w, st, StretchTrains(w, st))
  }

  /** Every listed passing is a run between consecutive calls of a train
      calling at both ends, in the direction its oddness says. */
  lemma {:induction false} StretchPassingIsLegRun(w: World, st: TrackStretch, p: StretchPassing)
    requires Built(w) && StretchIn(w, st) && p in GetStretchPassings(w, st)
    ensures var ts := StretchTrains(w, st);
      exists k, i :: 0 <= k < |ts| && PassingOfLeg(w, st, w.trains[ts[k].value].calls, i, p)
  {
    PassingOfTrainsIsLegRun(w, st, StretchTrains(w, st), p);
  }

  /** A passing of the given trains is a run of one of them. */
  lemma {:induction false} PassingOfTrainsIsLegRun(w: World, st: TrackStretch, ts: seq<Option<TrainId>>, p: StretchPassing)
    requires Placed(w) && StretchIn(w, st)
    requires forall k :: 0 <= k < |ts| ==> ts[k].Some? && ts[k].value < |w.trains|
    requires p in PassingsOfTrains(w, st, ts)
    ensures exists k, i :: 0 <= k < |ts| && PassingOfLeg(w, st, w.trains[ts[k].value].calls, i, p)
  {
    var each := EachTrainPassings(w, st, ts);
    var k :| 0 <= k < |each| && p in each[k];
    var cs := w.trains[ts[k].value].calls;
    assert p in TrainPassings(w, st, cs);
    var i :| PassingOfLeg(w, st, cs, i, p);
  }

  /** Every such run of a train calling at both ends is listed. */
  lemma {:induction false} LegRunIsStretchPassing(w: World, st: TrackStretch, k: int, i: int, p: StretchPassing)
    requires Built(w) && StretchIn(w, st) && 0 <= k < |StretchTrains(w, st)|
    requires PassingOfLeg(w, st, w.trains[StretchTrains(w, st)[k].value].calls, i, p)
    ensures p in GetStretchPassings(w, st)
  {
    var ts := StretchTrains(w, st);
    var each := EachTrainPassings(w, st, ts);
    assert p in each[k];
  }
}

=== FILE: resources.dfy ===
/** The localized resource strings the messages are formatted from. Their
    wording lives in resource files outside this model, so a formatted text
    is represented by the resource key and the argument texts. */
module Resources {

  /** `string.Format(Resources.Strings.<key>, args)`, represented by its
      inputs. */
  function Format(key: string, args: seq<string>): (r: string)
    ensures |key| <= |r| && r[..|key|] == key
  {
    key + ArgsText(args)
  }

  function ArgsText(args: seq<string>): string {
    if |args| == 0 then "" else "|" + args[0] + ArgsText(args[1..])
  }
}

=== FILE: results.dfy ===
/** Nullable references and thrown exceptions, as values.

    The timetable library is C#: a reference may be null, and failures are signalled by
    throwing. Here a nullable reference is an `Option`, and an operation that
    may throw returns a `Result` naming the .NET exception type it throws. */
module Results {

  /** A nullable reference: `None` is C#'s `null`. */
  datatype Option<+T> = None | Some(value: T)

  /** The .NET exception types the modelled code throws. */
  datatype Fault =
    | ArgumentNull        // System.ArgumentNullException
    | ArgumentOutOfRange  // System.ArgumentOutOfRangeException
    | Argument            // System.ArgumentException
    | InvalidOperation    // System.InvalidOperationException (also from First/Single on LINQ)
    | IndexOutOfRange     // System.IndexOutOfRangeException
    | FormatError         // System.FormatException
    | Overflow            // System.OverflowException
    | NullReference       // System.NullReferenceException

  /** The outcome of an operation that either returns a value or throws. */
  datatype Result<+T> = Ok(value: T) | Throws(fault: Fault)
}

=== FILE: seqs.dfy ===
/** The LINQ operators the C# library relies on, over Dafny sequences:
    `Where`, `SingleOrDefault`, `FirstOrDefault`, `Distinct`, `SelectMany` and
    the stable `OrderBy`. */
module Seqs {
  import opened Results

  // ---------------------------------------------------------------------
  // Where
  // ---------------------------------------------------------------------

  /** `xs.Where(p)`: the matching elements, in order. */
  function Filter<T>(xs: seq<T>, p: T -> bool): (r: seq<T>)
    ensures |r| <= |xs|
    ensures forall x <- r :: x in xs && p(x)
    ensures forall x <- xs :: p(x) ==> x in r
  {
    if |xs| == 0 then [] else (if p(xs[0]) then [xs[0]] else []) + Filter(xs[1..], p)
  }

  /** Filtering keeps the order: the filter of two sequences laid end to
      end is the filter of the first followed by the filter of the second. */
  lemma {:induction false} FilterAppend<T>(xs: seq<T>, ys: seq<T>, p: T -> bool)
    ensures Filter(xs + ys, p) == Filter(xs, p) + Filter(ys, p)
  {
    if |xs| > 0 {
      assert (xs + ys)[1..] == xs[1..] + ys;
      FilterAppend(xs[1..], ys, p);
    } else {
      assert xs + ys == ys;
    }
  }

  /** Nothing passes a filter no element satisfies. */
  lemma {:induction false} FilterNone<T>(xs: seq<T>, p: T -> bool)
    requires forall i :: 0 <= i < |xs| ==> !p(xs[i])
    ensures Filter(xs, p) == []
  {
    if |xs| > 0 {
      FilterNone(xs[1..], p);
    }
  }

  /** The positions from `lo` up to `hi` that satisfy `p`, increasing: a
      `for` loop over an index that collects the indices passing a test. */
  function Positions(lo: nat, hi: int, p: nat -> bool): (r: seq<nat>)
    ensures forall k :: 0 <= k < |r| ==> lo <= r[k] < hi && p(r[k])
    decreases hi - lo
  {
    if hi <= lo then []
    else
      var rest := Positions(lo + 1, hi, p);
      if p(lo) then [lo] + rest else rest
  }

  /** Every position in the range that satisfies `p` is kept. */
  lemma {:induction false} PositionsComplete(lo: nat, hi: int, p: nat -> bool)
    ensures forall j: nat :: lo <= j < hi && p(j) ==> j in Positions(lo, hi, p)
  {
    forall j: nat | lo <= j < hi && p(j) ensures j in Positions(lo, hi, p) {
      PositionKept(lo, hi, p, j);
    }
  }

  lemma {:induction false} PositionKept(lo: nat, hi: int, p: nat -> bool, j: nat)
    requires lo <= j < hi && p(j)
    ensures j in Positions(lo, hi, p)
    decreases hi - lo
  {
    if j > lo {
      PositionKept(lo + 1, hi, p, j);
    }
  }

  /** The positions come out in increasing order. */
  lemma {:induction false} PositionsIncrease(lo: nat, hi: int, p: nat -> bool)
    ensures forall a, b :: 0 <= a < b < |Positions(lo, hi, p)| ==> Positions(lo, hi, p)[a] < Positions(lo, hi, p)[b]
  {
    forall a, b | 0 <= a < b < |Positions(lo, hi, p)| ensures Positions(lo, hi, p)[a] < Positions(lo, hi, p)[b] {
      PositionIncreasesAt(lo, hi, p, a, b);
    }
  }

  lemma {:induction false} PositionIncreasesAt(lo: nat, hi: int, p: nat -> bool, a: int, b: int)
    requires 0 <= a < b < |Positions(lo, hi, p)|
    ensures Positions(lo, hi, p)[a] < Positions(lo, hi, p)[b]
    decreases hi - lo
  {
    var rest := Positions(lo + 1, hi, p);
    if !p(lo) {
      PositionIncreasesAt(lo + 1, hi, p, a, b);
    } else if a == 0 {
      assert Positions(lo, hi, p)[b] == rest[b - 1];
    } else {
      PositionIncreasesAt(lo + 1, hi, p, a - 1, b - 1);
    }
  }

  /** No position passes a test no position in the range satisfies. */
  lemma {:induction false} PositionsNone(lo: nat, hi: int, p: nat -> bool)
    requires forall j: nat :: lo <= j < hi ==> !p(j)
    ensures Positions(lo, hi, p) == []
    decreases hi - lo
  {
    if lo < hi {
      PositionsNone(lo + 1, hi, p);
    }
  }

  /** The test on positions that holds where the element of `xs` there
      satisfies `p`. */
  function AtIndex<T>(xs: seq<T>, p: T -> bool): nat -> bool {
    (i: nat) => i < |xs| && p(xs[i])
  }

  /** The positions of `xs` whose element satisfies `p`, increasing:
      `Select((x, index) => (x, index)).Where(...)` keeping the indices. */
  function IndicesWhere<T>(xs: seq<T>, p: T -> bool): (r: seq<nat>)
    ensures forall i :: i in r <==> 0 <= i < |xs| && p(xs[i])
    ensures forall a, b :: 0 <= a < b < |r| ==> r[a] < r[b]
  {
    PositionsComplete(0, |xs|, AtIndex(xs, p));
    PositionsIncrease(0, |xs|, AtIndex(xs, p));
    Positions(0, |xs|, AtIndex(xs, p))
  }

  /** No index is kept when no element satisfies `p`. */
  lemma IndicesWhereNone<T>(xs: seq<T>, p: T -> bool)
    requires forall i :: 0 <= i < |xs| ==> !p(xs[i])
    ensures IndicesWhere(xs, p) == []
  {
    PositionsNone(0, |xs|, AtIndex(xs, p));
  }

  /** More than one element of `xs` satisfies `p`: `Where(p)` keeps at
      least two. */
  predicate TwoMatches<T>(xs: seq<T>, p: T -> bool) {
    |Filter(xs, p)| >= 2
  }

  /** Two different positions of `xs` both satisfy `p`. */
  predicate TwoPositionsMatch<T>(xs: seq<T>, p: T -> bool) {
    exists i, j :: 0 <= i < j < |xs| && p(xs[i]) && p(xs[j])
  }

  /** `Where` keeps at least two elements exactly when two positions match. */
  lemma {:induction false} FilterHasTwo<T>(xs: seq<T>, p: T -> bool)
    ensures TwoMatches(xs, p) <==> TwoPositionsMatch(xs, p)
  {
    if |xs| > 0 {
      FilterHasTwo(xs[1..], p);
      TwoPositionsCons(xs, p);
      FilterNonEmpty(xs[1..], p);
      assert Filter(xs, p) == (if p(xs[0]) then [xs[0]] else []) + Filter(xs[1..], p);
    }
  }

  /** `Where` keeps something exactly when some position matches. */
  lemma {:induction false} FilterNonEmpty<T>(xs: seq<T>, p: T -> bool)
    ensures |Filter(xs, p)| >= 1 <==> exists i :: 0 <= i < |xs| && p(xs[i])
  {
    if exists i :: 0 <= i < |xs| && p(xs[i]) {
      var i :| 0 <= i < |xs| && p(xs[i]);
      assert xs[i] in xs;
    }
    if |Filter(xs, p)| >= 1 {
      var y := Filter(xs, p)[0];
      assert y in Filter(xs, p);
      var i :| 0 <= i < |xs| && xs[i] == y;
    }
  }

  /** Two matches in a non-empty sequence are two in its tail, or its head
      and one in its tail. */
  lemma TwoPositionsCons<T>(xs: seq<T>, p: T -> bool)
    requires |xs| > 0
    ensures TwoPositionsMatch(xs, p) <==>
      TwoPositionsMatch(xs[1..], p) || (p(xs[0]) && exists j :: 0 <= j < |xs[1..]| && p(xs[1..][j]))
  {
    if TwoPositionsMatch(xs[1..], p) {
      var i, j :| 0 <= i < j < |xs[1..]| && p(xs[1..][i]) && p(xs[1..][j]);
      assert p(xs[i + 1]) && p(xs[j + 1]);
    }
    if p(xs[0]) && exists j :: 0 <= j < |xs[1..]| && p(xs[1..][j]) {
      var j :| 0 <= j < |xs[1..]| && p(xs[1..][j]);
      assert p(xs[j + 1]);
    }
    if TwoPositionsMatch(xs, p) {
      var i, j :| 0 <= i < j < |xs| && p(xs[i]) && p(xs[j]);
      assert p(xs[1..][j - 1]);
      if i > 0 {
        assert p(xs[1..][i - 1]);
      }
    }
  }

  // ---------------------------------------------------------------------
  // SingleOrDefault, FirstOrDefault
  // ---------------------------------------------------------------------

  /** `xs.SingleOrDefault(p)`: null when nothing matches, the match when one
      position matches, and `InvalidOperationException` when several do. */
  function SingleOrDefault<T>(xs: seq<T>, p: T -> bool): (r: Result<Option<T>>)
    ensures r == Ok(None) <==> forall x <- xs :: !p(x)
    ensures r.Throws? <==> TwoMatches(xs, p)
    ensures r.Throws? ==> r.fault == InvalidOperation
    ensures r.Ok? && r.value.Some? ==> r.value.value in xs && p(r.value.value)
    ensures r.Ok? && r.value.Some? ==> forall x <- xs :: p(x) ==> x == r.value.value
  {
    var f := Filter(xs, p);
    if |f| == 0 then Ok(None)
    else if |f| == 1 then
      assert forall x <- xs :: p(x) ==> x in f;
      assert f[0] in xs && p(f[0]);
      Ok(Some(f[0]))
    else Throws(InvalidOperation)
  }

  /** Filtering by two predicates that agree everywhere keeps the same
      elements. */
  lemma {:induction false} FilterOfEquivalent<T>(xs: seq<T>, p: T -> bool, q: T -> bool)
    requires forall x :: p(x) == q(x)
    ensures Filter(xs, p) == Filter(xs, q)
    ensures SingleOrDefault(xs, p) == SingleOrDefault(xs, q)
  {
    if |xs| > 0 {
      FilterOfEquivalent(xs[1..], p, q);
    }
  }

  /** `xs.Single(p)`: the match when exactly one position matches, and
      `InvalidOperationException` both when none and when several do. */
  function Single<T>(xs: seq<T>, p: T -> bool): (r: Result<T>)
    ensures r.Ok? <==> (exists x <- xs :: p(x)) && !TwoMatches(xs, p)
    ensures r.Ok? ==> r.value in xs && p(r.value) && forall x <- xs :: p(x) ==> x == r.value
    ensures r.Throws? ==> r.fault == InvalidOperation
  {
    match SingleOrDefault(xs, p)
    case Ok(Some(x)) => Ok(x)
    case _ => Throws(InvalidOperation)
  }

  /** The index of the first element satisfying `p`, or -1. */
  function IndexOfFirst<T>(xs: seq<T>, p: T -> bool): (r: int)
    ensures -1 <= r < |xs|
    ensures r == -1 <==> forall x <- xs :: !p(x)
    ensures r >= 0 ==> p(xs[r]) && forall k :: 0 <= k < r ==> !p(xs[k])
  {
    if |xs| == 0 then -1
    else if p(xs[0]) then 0
    else
      var k := IndexOfFirst(xs[1..], p);
      assert forall x <- xs[1..] :: x in xs;
      if k == -1 then -1 else k + 1
  }

  /** `xs.FirstOrDefault(p)`. */
  function FirstOrDefault<T>(xs: seq<T>, p: T -> bool): (r: Option<T>)
    ensures r.None? <==> forall x <- xs :: !p(x)
    ensures r.Some? ==> exists i :: 0 <= i < |xs| && xs[i] == r.value && p(r.value)
                                    && forall k :: 0 <= k < i ==> !p(xs[k])
  {
    var i := IndexOfFirst(xs, p);
    if i < 0 then None else Some(xs[i])
  }

  // ---------------------------------------------------------------------
  // Distinct
  // ---------------------------------------------------------------------

  /** No two positions of `xs` are related by `eq`. */
  predicate Unrelated<T>(xs: seq<T>, eq: (T, T) -> bool) {
    forall i, j :: 0 <= i < j < |xs| ==> !eq(xs[i], xs[j])
  }

  /** `Distinct` continued after the elements `kept` so far. */
  function DistinctFrom<T>(xs: seq<T>, eq: (T, T) -> bool, kept: seq<T>): (r: seq<T>)
    ensures |kept| <= |r| && r[..|kept|] == kept
    ensures forall y <- r :: y in kept || y in xs
    ensures forall x <- xs :: x in r || exists i :: 0 <= i < |r| && eq(r[i], x)
    ensures Unrelated(kept, eq) ==> Unrelated(r, eq)
    decreases |xs|
  {
    if |xs| == 0 then kept
    else if exists i :: 0 <= i < |kept| && eq(kept[i], xs[0]) then
      var r := DistinctFrom(xs[1..], eq, kept);
      assert forall i :: 0 <= i < |kept| ==> r[i] == kept[i];
      assert forall i :: 0 <= i < |kept| && eq(kept[i], xs[0]) ==> eq(r[i], xs[0]);
      assert forall x <- xs :: x == xs[0] || x in xs[1..];
      r
    else
      var r := DistinctFrom(xs[1..], eq, kept + [xs[0]]);
      assert r[..|kept| + 1] == kept + [xs[0]];
      assert r[|kept|] == xs[0];
      assert forall x <- xs :: x == xs[0] || x in xs[1..];
      assert forall i :: 0 <= i <= |kept| ==> r[i] == (kept + [xs[0]])[i];
      assert Unrelated(kept, eq) ==> Unrelated(kept + [xs[0]], eq);
      r
  }

  /** `xs.Distinct()` under the equality `eq`: the first element of every class,
      in order of first occurrence. */
  function Distinct<T>(xs: seq<T>, eq: (T, T) -> bool): (r: seq<T>)
    ensures forall y <- r :: y in xs
    ensures forall x <- xs :: x in r || exists i :: 0 <= i < |r| && eq(r[i], x)
    ensures Unrelated(r, eq)
  {
    DistinctFrom(xs, eq, [])
  }

  /** Some element of `ys` is related to `x`. */
  predicate Related<T>(ys: seq<T>, eq: (T, T) -> bool, x: T) {
    exists i :: 0 <= i < |ys| && eq(ys[i], x)
  }

  /** Position `p` holds the first element of `xs` related to none of
      `seen`: every earlier element is related to one of them. */
  predicate FirstUnrelatedAt<T>(xs: seq<T>, eq: (T, T) -> bool, seen: seq<T>, p: int) {
    && 0 <= p < |xs|
    && !Related(seen, eq, xs[p])
    && forall q :: 0 <= q < p ==> Related(seen, eq, xs[q])
  }

  /** `r` lists the first element of every class of `xs`, in order of first
      occurrence: each `r[k]` is the first element of `xs` related to none
      of `r[..k]`, and once `r` is complete every element is related to one
      of its elements. This fixes `r` entirely. */
  ghost predicate FirstOccurrences<T>(r: seq<T>, xs: seq<T>, eq: (T, T) -> bool) {
    && (forall k :: 0 <= k < |r| ==> exists p :: 0 <= p < |xs| && FirstUnrelatedAt(xs, eq, r[..k], p) && r[k] == xs[p])
    && (forall q :: 0 <= q < |xs| ==> Related(r, eq, xs[q]))
  }

  /** `eq` relates every element of `xs` to itself. */
  predicate ReflexiveOn<T>(xs: seq<T>, eq: (T, T) -> bool) {
    forall i :: 0 <= i < |xs| ==> eq(xs[i], xs[i])
  }

  /** A prefix's relatives are relatives of the whole. */
  lemma {:induction false} RelatedOfPrefix<T>(ys: seq<T>, n: int, eq: (T, T) -> bool, x: T)
    requires 0 <= n <= |ys| && Related(ys[..n], eq, x)
    ensures Related(ys, eq, x)
  {
    var i :| 0 <= i < n && eq(ys[..n][i], x);
    assert ys[i] == ys[..n][i];
  }

  /** Every element `r` holds after `kept` is the first element of `xs`
      related to none of the elements before it. */
  ghost predicate AddsFirst<T>(xs: seq<T>, eq: (T, T) -> bool, kept: seq<T>, r: seq<T>) {
    forall k :: |kept| <= k < |r| ==> exists p :: 0 <= p < |xs| && FirstUnrelatedAt(xs, eq, r[..k], p) && r[k] == xs[p]
  }

  /** Every element of `xs` is related to an element of `r`. */
  ghost predicate Covers<T>(xs: seq<T>, eq: (T, T) -> bool, r: seq<T>) {
    forall q :: 0 <= q < |xs| ==> Related(r, eq, xs[q])
  }

  /** A first unrelated position of the tail, one further on, is one of the
      whole when the head is related to what was seen. */
  lemma {:induction false} FirstUnrelatedOfTail<T>(xs: seq<T>, eq: (T, T) -> bool, seen: seq<T>, p: int)
    requires |xs| > 0 && FirstUnrelatedAt(xs[1..], eq, seen, p) && Related(seen, eq, xs[0])
    ensures FirstUnrelatedAt(xs, eq, seen, p + 1) && xs[p + 1] == xs[1..][p]
  {
    forall q | 0 <= q < p + 1 ensures Related(seen, eq, xs[q]) {
      if q > 0 {
        assert xs[q] == xs[1..][q - 1];
      }
    }
  }

  /** The step of `DistinctFrom` that drops a head related to `kept`. */
  lemma {:induction false} DistinctFromDrops<T>(xs: seq<T>, eq: (T, T) -> bool, kept: seq<T>, r: seq<T>)
    requires |xs| > 0 && Related(kept, eq, xs[0])
    requires |kept| <= |r| && r[..|kept|] == kept
    requires AddsFirst(xs[1..], eq, kept, r) && Covers(xs[1..], eq, r)
    ensures AddsFirst(xs, eq, kept, r) && Covers(xs, eq, r)
  {
    forall k | |kept| <= k < |r| ensures exists p :: 0 <= p < |xs| && FirstUnrelatedAt(xs, eq, r[..k], p) && r[k] == xs[p] {
      var p :| 0 <= p < |xs[1..]| && FirstUnrelatedAt(xs[1..], eq, r[..k], p) && r[k] == xs[1..][p];
      assert r[..k][..|kept|] == kept;
      RelatedOfPrefix(r[..k], |kept|, eq, xs[0]);
      FirstUnrelatedOfTail(xs, eq, r[..k], p);
    }
    forall q | 0 <= q < |xs| ensures Related(r, eq, xs[q]) {
      if q == 0 {
        RelatedOfPrefix(r, |kept|, eq, xs[0]);
      } else {
        assert xs[q] == xs[1..][q - 1];
      }
    }
  }

  /** The step of `DistinctFrom` that keeps a head related to nothing in
      `kept`. */
  lemma {:induction false} DistinctFromKeeps<T>(xs: seq<T>, eq: (T, T) -> bool, kept: seq<T>, r: seq<T>)
    requires |xs| > 0 && !Related(kept, eq, xs[0]) && eq(xs[0], xs[0])
    requires |kept| < |r| && r[..|kept| + 1] == kept + [xs[0]]
    requires AddsFirst(xs[1..], eq, kept + [xs[0]], r) && Covers(xs[1..], eq, r)
    ensures AddsFirst(xs, eq, kept, r) && Covers(xs, eq, r)
  {
    assert r[|kept|] == (kept + [xs[0]])[|kept|] == xs[0];
    forall k | |kept| <= k < |r| ensures exists p :: 0 <= p < |xs| && FirstUnrelatedAt(xs, eq, r[..k], p) && r[k] == xs[p] {
      if k == |kept| {
        assert r[..k] == kept;
        assert FirstUnrelatedAt(xs, eq, r[..k], 0);
      } else {
        var p :| 0 <= p < |xs[1..]| && FirstUnrelatedAt(xs[1..], eq, r[..k], p) && r[k] == xs[1..][p];
        assert r[..k][|kept|] == xs[0];
        assert Related(r[..k], eq, xs[0]);
        FirstUnrelatedOfTail(xs, eq, r[..k], p);
      }
    }
    forall q | 0 <= q < |xs| ensures Related(r, eq, xs[q]) {
      if q == 0 {
        assert eq(r[|kept|], xs[0]);
      } else {
        assert xs[q] == xs[1..][q - 1];
      }
    }
  }

  /** What `DistinctFrom` adds after `kept` is the first occurrences of the
      classes of `xs` that `kept` does not already hold. */
  lemma {:induction false} DistinctFromFirst<T>(xs: seq<T>, eq: (T, T) -> bool, kept: seq<T>)
    requires ReflexiveOn(xs, eq)
    ensures AddsFirst(xs, eq, kept, DistinctFrom(xs, eq, kept)) && Covers(xs, eq, DistinctFrom(xs, eq, kept))
    decreases |xs|
  {
    var r := DistinctFrom(xs, eq, kept);
    if |xs| > 0 {
      var tail := xs[1..];
      assert ReflexiveOn(tail, eq) by {
        forall i | 0 <= i < |tail| ensures eq(tail[i], tail[i]) {
          assert tail[i] == xs[i + 1];
        }
      }
      assert eq(xs[0], xs[0]);
      if Related(kept, eq, xs[0]) {
        DistinctFromFirst(tail, eq, kept);
        DistinctFromDrops(xs, eq, kept, r);
      } else {
        DistinctFromFirst(tail, eq, kept + [xs[0]]);
        DistinctFromKeeps(xs, eq, kept, r);
      }
    }
  }

  /** For a relation every element bears to itself, `Distinct` keeps exactly
      the first occurrences, in order. */
  lemma {:induction false} DistinctKeepsFirstOccurrences<T>(xs: seq<T>, eq: (T, T) -> bool)
    requires ReflexiveOn(xs, eq)
    ensures FirstOccurrences(Distinct(xs, eq), xs, eq)
  {
    DistinctFromFirst(xs, eq, []);
  }

  /** Value equality as a relation. */
  function Same<T(==)>(): (T, T) -> bool {
    (a: T, b: T) => a == b
  }

  /** `Distinct` under value equality: the distinct elements in order of
      first occurrence. */
  function Dedup<T(==)>(xs: seq<T>): (r: seq<T>)
    ensures forall y <- r :: y in xs
    ensures forall x <- xs :: x in r
    ensures forall i, j :: 0 <= i < j < |r| ==> r[i] != r[j]
    ensures FirstOccurrences(r, xs, Same())
  {
    DistinctKeepsFirstOccurrences(xs, Same());
    Distinct(xs, Same())
  }

  // ---------------------------------------------------------------------
  // Select
  // ---------------------------------------------------------------------

  /** `xs.Select(f)`: `f` of each element, in order. */
  function Map<A, B>(xs: seq<A>, f: A --> B): (r: seq<B>)
    requires forall i :: 0 <= i < |xs| ==> f.requires(xs[i])
    ensures |r| == |xs| && forall i :: 0 <= i < |xs| ==> r[i] == f(xs[i])
  {
    if |xs| == 0 then [] else [f(xs[0])] + Map(xs[1..], f)
  }

  // ---------------------------------------------------------------------
  // SelectMany
  // ---------------------------------------------------------------------

  /** `SelectMany` over already-selected inner sequences. */
  function Flatten<T>(xss: seq<seq<T>>): (r: seq<T>)
    ensures forall x <- r :: exists i :: 0 <= i < |xss| && x in xss[i]
    ensures forall i, x :: 0 <= i < |xss| && x in xss[i] ==> x in r
  {
    if |xss| == 0 then []
    else
      var rest := Flatten(xss[1..]);
      assert forall i, x :: 1 <= i < |xss| && x in xss[i] ==> x in xss[1..][i - 1];
      xss[0] + rest
  }

  /** Where part `i` starts when the parts are laid end to end: the total
      length of the parts before it. */
  function Offset<T>(xss: seq<seq<T>>, i: nat): nat
    requires i <= |xss|
  {
    if i == 0 then 0 else Offset(xss, i - 1) + |xss[i - 1]|
  }

  /** `r` is the parts laid end to end in order, as `SelectMany` yields
      them: as long as all parts together, with part `i` filling the
      positions from `Offset(xss, i)` on. */
  ghost predicate Concatenation<T>(r: seq<T>, xss: seq<seq<T>>) {
    |r| == Offset(xss, |xss|) && PartsInPlace(r, xss)
  }

  /** Part `i` fills the positions `Offset(xss, i)` up to
      `Offset(xss, i) + |xss[i]|` of `r`. */
  ghost predicate PartsInPlace<T>(r: seq<T>, xss: seq<seq<T>>) {
    forall i :: 0 <= i < |xss| ==> PartInPlace(r, xss, i)
  }

  ghost predicate PartInPlace<T>(r: seq<T>, xss: seq<seq<T>>, i: int)
    requires 0 <= i < |xss|
  {
    Offset(xss, i) + |xss[i]| <= |r| && r[Offset(xss, i)..Offset(xss, i) + |xss[i]|] == xss[i]
  }

  /** Putting a part in front shifts every later part by its length. */
  lemma {:induction false} OffsetCons<T>(x: seq<T>, xss: seq<seq<T>>, i: nat)
    requires 1 <= i <= |xss| + 1
    ensures Offset([x] + xss, i) == |x| + Offset(xss, i - 1)
  {
    if i > 1 {
      OffsetCons(x, xss, i - 1);
      assert ([x] + xss)[i - 1] == xss[i - 2];
    }
  }

  /** A part in front of a concatenation gives the concatenation with that
      part in front. */
  lemma {:induction false} ConcatenationCons<T>(x: seq<T>, r: seq<T>, xss: seq<seq<T>>)
    requires Concatenation(r, xss)
    ensures Concatenation(x + r, [x] + xss)
  {
    OffsetCons(x, xss, |xss| + 1);
    forall i | 0 <= i < |xss| + 1 ensures PartInPlace(x + r, [x] + xss, i) {
      PartInPlaceCons(x, r, xss, i);
    }
  }

  lemma {:induction false} PartInPlaceCons<T>(x: seq<T>, r: seq<T>, xss: seq<seq<T>>, i: nat)
    requires PartsInPlace(r, xss) && i < |xss| + 1
    ensures PartInPlace(x + r, [x] + xss, i)
  {
    var yss := [x] + xss;
    if i == 0 {
      assert (x + r)[..|x|] == x;
    } else {
      OffsetCons(x, xss, i);
      var o := Offset(xss, i - 1);
      assert yss[i] == xss[i - 1];
      assert PartInPlace(r, xss, i - 1);
      SliceAfter(x, r, o, o + |xss[i - 1]|);
    }
  }

  /** Slicing past a prefix slices what follows it. */
  lemma {:induction false} SliceAfter<T>(x: seq<T>, r: seq<T>, a: int, b: int)
    requires 0 <= a <= b <= |r|
    ensures (x + r)[|x| + a..|x| + b] == r[a..b]
  {
    assert forall k :: 0 <= k < b - a ==> (x + r)[|x| + a..|x| + b][k] == r[a..b][k];
  }

  /** `Flatten` lays the parts end to end in order. */
  lemma {:induction false} FlattenConcatenates<T>(xss: seq<seq<T>>)
    ensures Concatenation(Flatten(xss), xss)
  {
    if |xss| > 0 {
      FlattenConcatenates(xss[1..]);
      ConcatenationCons(xss[0], Flatten(xss[1..]), xss[1..]);
      assert [xss[0]] + xss[1..] == xss;
    }
  }

  /** Flattening distributes over concatenation of the outer sequence. */
  lemma {:induction false} FlattenAppend<T>(a: seq<seq<T>>, b: seq<seq<T>>)
    ensures Flatten(a + b) == Flatten(a) + Flatten(b)
  {
    if |a| == 0 {
      assert a + b == b;
    } else {
      FlattenAppend(a[1..], b);
      assert (a + b)[0] == a[0] && (a + b)[1..] == a[1..] + b;
      calc {
        Flatten(a + b);
        a[0] + Flatten(a[1..] + b);
        a[0] + (Flatten(a[1..]) + Flatten(b));
        (a[0] + Flatten(a[1..])) + Flatten(b);
      }
    }
  }

  /** A sequence of empty sequences flattens to nothing. */
  lemma {:induction false} FlattenEmpty<T>(xss: seq<seq<T>>)
    requires forall i :: 0 <= i < |xss| ==> xss[i] == []
    ensures Flatten(xss) == []
  {
    if |xss| > 0 {
      FlattenEmpty(xss[1..]);
    }
  }

  // ---------------------------------------------------------------------
  // A loop whose steps may throw
  // ---------------------------------------------------------------------

  /** A loop that adds the results of its steps in turn, where a step may
      throw: the concatenation, or the first step's exception. */
  function ConcatResults<T>(rs: seq<Result<seq<T>>>): (r: Result<seq<T>>)
    ensures |rs| == 0 ==> r == Ok([])
  {
    if |rs| == 0 then Ok([])
    else
      match rs[0]
      case Throws(f) => Throws(f)
      case Ok(here) =>
        match ConcatResults(rs[1..])
        case Throws(f) => Throws(f)
        case Ok(rest) => Ok(here + rest)
  }

  /** The values of the steps, an empty one for a step that throws. */
  function OkValues<T>(rs: seq<Result<seq<T>>>): (r: seq<seq<T>>)
    ensures |r| == |rs|
  {
    if |rs| == 0 then [] else [if rs[0].Ok? then rs[0].value else []] + OkValues(rs[1..])
  }

  /** A loop that does not throw ran every step without a throw and holds
      the steps' values end to end, in order. */
  lemma {:induction false} ConcatResultsOk<T>(rs: seq<Result<seq<T>>>)
    requires ConcatResults(rs).Ok?
    ensures forall k :: 0 <= k < |rs| ==> rs[k].Ok?
    ensures Concatenation(ConcatResults(rs).value, OkValues(rs))
  {
    if |rs| == 0 {
      assert OkValues(rs) == [];
    } else {
      ConcatResultsOk(rs[1..]);
      ConcatenationCons(rs[0].value, ConcatResults(rs[1..]).value, OkValues(rs[1..]));
      assert OkValues(rs) == [rs[0].value] + OkValues(rs[1..]);
      forall k | 0 < k < |rs| ensures rs[k].Ok? {
        assert rs[k] == rs[1..][k - 1];
      }
    }
  }

  /** A step that throws makes the loop throw. */
  lemma {:induction false} ConcatThrowsAt<T>(rs: seq<Result<seq<T>>>, k: int)
    requires 0 <= k < |rs| && rs[k].Throws?
    ensures ConcatResults(rs).Throws?
  {
    if k > 0 && rs[0].Ok? {
      assert rs[1..][k - 1] == rs[k];
      ConcatThrowsAt(rs[1..], k - 1);
    }
  }

  /** The loop throws only what some step throws. */
  lemma {:induction false} ConcatThrowsOnlyAt<T>(rs: seq<Result<seq<T>>>)
    requires ConcatResults(rs).Throws?
    ensures exists k :: 0 <= k < |rs| && rs[k] == ConcatResults(rs)
  {
    if rs[0].Ok? {
      ConcatThrowsOnlyAt(rs[1..]);
      var k :| 0 <= k < |rs[1..]| && rs[1..][k] == ConcatResults(rs[1..]);
      assert rs[k + 1] == rs[1..][k];
    }
  }

  /** Every element the loop adds comes from a step that did not throw. */
  lemma {:induction false} ConcatElement<T>(rs: seq<Result<seq<T>>>, x: T)
    requires ConcatResults(rs).Ok? && x in ConcatResults(rs).value
    ensures exists k :: 0 <= k < |rs| && rs[k].Ok? && x in rs[k].value
  {
    if x !in rs[0].value {
      ConcatElement(rs[1..], x);
      var k :| 0 <= k < |rs[1..]| && rs[1..][k].Ok? && x in rs[1..][k].value;
      assert rs[k + 1] == rs[1..][k];
    }
  }

  /** Every element of a step is in the loop's result when the loop does
      not throw. */
  lemma {:induction false} ConcatKeepsElement<T>(rs: seq<Result<seq<T>>>, k: int, x: T)
    requires ConcatResults(rs).Ok? && 0 <= k < |rs| && rs[k].Ok? && x in rs[k].value
    ensures x in ConcatResults(rs).value
  {
    if k > 0 {
      assert rs[1..][k - 1] == rs[k];
      ConcatKeepsElement(rs[1..], k - 1, x);
    }
  }

  // ---------------------------------------------------------------------
  // OrderBy (stable)
  // ---------------------------------------------------------------------

  predicate SortedBy<T>(xs: seq<T>, key: T -> int) {
    forall i, j :: 0 <= i < j < |xs| ==> key(xs[i]) <= key(xs[j])
  }

  /** Insert `x` after every element whose key is not greater than its own. */
  function InsertBy<T>(s: seq<T>, x: T, key: T -> int): (r: seq<T>)
    requires SortedBy(s, key)
    ensures SortedBy(r, key)
    ensures multiset(r) == multiset(s) + multiset{x}
  {
    if |s| == 0 then [x]
    else if key(x) < key(s[0]) then
      ConsSorted(x, s, key);
      [x] + s
    else
      var rest := InsertBy(s[1..], x, key);
      assert s == [s[0]] + s[1..];
      HeadBelowInsert(s, x, rest, key);
      ConsSorted(s[0], rest, key);
      [s[0]] + rest
  }

  /** An element no greater than every element of a sorted sequence can go
      in front of it. */
  lemma ConsSorted<T>(h: T, t: seq<T>, key: T -> int)
    requires SortedBy(t, key)
    requires forall i :: 0 <= i < |t| ==> key(h) <= key(t[i])
    ensures SortedBy([h] + t, key)
  {
    var r := [h] + t;
    forall i, j | 0 <= i < j < |r| ensures key(r[i]) <= key(r[j]) {
      assert r[j] == t[j - 1];
      if i > 0 { assert r[i] == t[i - 1]; }
    }
  }

  /** The head of a sorted sequence is no greater than anything inserted
      into its tail after it. */
  lemma HeadBelowInsert<T>(s: seq<T>, x: T, rest: seq<T>, key: T -> int)
    requires |s| > 0 && SortedBy(s, key) && key(s[0]) <= key(x)
    requires multiset(rest) == multiset(s[1..]) + multiset{x}
    ensures forall i :: 0 <= i < |rest| ==> key(s[0]) <= key(rest[i])
  {
    forall i | 0 <= i < |rest| ensures key(s[0]) <= key(rest[i]) {
      assert rest[i] in multiset(rest);
      if rest[i] != x {
        assert rest[i] in multiset(s[1..]);
        var k :| 0 <= k < |s[1..]| && s[1..][k] == rest[i];
        assert s[1..][k] == s[k + 1];
      }
    }
  }

  /** `xs.OrderBy(key)`: sorted by key and a permutation of `xs`; equal keys
      keep their input order because each element is inserted after its
      equals. */
  function SortBy<T>(xs: seq<T>, key: T -> int): (r: seq<T>)
    ensures SortedBy(r, key)
    ensures multiset(r) == multiset(xs)
    ensures |r| == |xs|
  {
    if |xs| == 0 then []
    else
      var r := InsertBy(SortBy(xs[..|xs| - 1], key), xs[|xs| - 1], key);
      assert xs == xs[..|xs| - 1] + [xs[|xs| - 1]];
      assert |r| == |multiset(r)|;
      r
  }
}

=== FILE: speed_checks.dfy ===
/** The train speed check of the validation engine: the speed between
    consecutive calls, on the stretch of line that joins their stations,
    against a lower and an upper bound in meters per clock minute. */
module SpeedChecks {
  import opened Results
  import Times
  import opened Graph
  import Layouts
  import Maybes
  import opened Findings
  import Seqs

  /** The length the check uses: a stretch shorter than 2 counts as 2. */
  function Length(distance: real): (r: real)
    ensures r >= 2.0 && r >= distance
    ensures distance >= 2.0 ==> r == distance
  {
    if distance < 2.0 then 2.0 else distance
  }

  /** Meters per clock minute; a run time of zero gives speed 0. */
  function Speed(length: real, minutes: int): (r: real)
    requires length > 0.0
    ensures r == 0.0 <==> minutes == 0
    ensures minutes < 0 ==> r < 0.0
    ensures minutes > 0 ==> r > 0.0
  {
    if minutes == 0 then 0.0 else length / minutes as real
  }

  /** A speed over a non-zero run time covers the length in that time. */
  lemma SpeedCoversLength(length: real, minutes: int)
    requires length > 0.0 && minutes != 0
    ensures Speed(length, minutes) * minutes as real == length
  {
  }

  /** `c2.Arrival.Subtract(c1.Departure).TotalMinutes`. */
  function RunMinutes(w: World, c1: CallId, c2: CallId): int
    requires c1 < |w.calls| && c2 < |w.calls|
  {
    w.calls[c2].arrival.minutes - w.calls[c1].departure.minutes
  }

  /** `train.Layout`, the layout of the first call's station. */
  function FirstLayout(w: World, t: TrainId): (r: Option<LayoutId>)
    requires Placed(w) && t < |w.trains| && |w.trains[t].calls| > 0
    ensures r.Some? ==> r.value < |w.layouts|
  {
    w.stations[StationOf(w, w.trains[t].calls[0])].layout
  }

  /** The stretch lookup between the stations of the leg's two calls. */
  function LegStretch(w: World, t: TrainId, i: int): Result<Maybes.Maybe<TrackStretch>>
    requires Placed(w) && t < |w.trains| && 0 <= i && i + 1 < |w.trains[t].calls|
  {
    var cs := w.trains[t].calls;
    Layouts.StretchBetween(w, FirstLayout(w, t), StationOf(w, cs[i]), StationOf(w, cs[i + 1]))
  }

  /** The leg from the `i`-th call to the next was looked up without
      throwing, a stretch was found and its speed is not zero; `length` and
      `speed` are what the check compares. */
  predicate Measured(w: World, t: TrainId, i: int)
    requires Placed(w) && t < |w.trains| && 0 <= i && i + 1 < |w.trains[t].calls|
  {
    var sb := LegStretch(w, t, i);
    var cs := w.trains[t].calls;
    sb.Ok? && Maybes.HasValue(sb.value) && RunMinutes(w, cs[i], cs[i + 1]) != 0
  }

  function LegSpeed(w: World, t: TrainId, i: int): real
    requires Placed(w) && t < |w.trains| && 0 <= i && i + 1 < |w.trains[t].calls|
    requires LegStretch(w, t, i).Ok? && Maybes.HasValue(LegStretch(w, t, i).value)
  {
    var cs := w.trains[t].calls;
    Speed(Length(LegStretch(w, t, i).value.stored.value.distance), RunMinutes(w, cs[i], cs[i + 1]))
  }

  /** The message arguments: the train, the first call's station and
      departure, the second call's station and arrival, and the length. */
  function Slow(w: World, c1: CallId, c2: CallId, length: real): Finding
    requires Placed(w) && c1 < |w.calls| && c2 < |w.calls|
  {
    TooSlow(TrainText(w, c1), StationText(w, c1), Times.HHMM(w.calls[c1].departure),
            StationText(w, c2), Times.HHMM(w.calls[c2].arrival), length)
  }

  function Fast(w: World, c1: CallId, c2: CallId, length: real): Finding
    requires Placed(w) && c1 < |w.calls| && c2 < |w.calls|
  {
    TooFast(TrainText(w, c1), StationText(w, c1), Times.HHMM(w.calls[c1].departure),
            StationText(w, c2), Times.HHMM(w.calls[c2].arrival), length)
  }

  /** The messages for a speed against its bounds: `slow` when it is below
      `min`, then `fast` when it is above `max`. */
  function Bounded(speed: real, min: real, max: real, slow: Finding, fast: Finding): (r: seq<Finding>)
    requires slow != fast
    ensures slow in r <==> speed < min
    ensures fast in r <==> speed > max
    ensures forall f <- r :: f == slow || f == fast
    ensures |r| <= 2
  {
    (if speed < min then [slow] else []) + (if speed > max then [fast] else [])
  }

  /** One pass of the loop body: nothing when no stretch joins the two
      stations or the speed is zero; otherwise a too-slow message when the
      speed is below `min` and a too-fast one when it is above `max` (both
      when `min` exceeds `max`). Two stretches between the stations throw
      `InvalidOperationException`. */
  function LegFindings(w: World, min: real, max: real, t: TrainId, i: int): (r: Result<seq<Finding>>)
    requires Placed(w) && t < |w.trains| && 0 <= i && i + 1 < |w.trains[t].calls|
    ensures r.Throws? <==> LegStretch(w, t, i).Throws?
    ensures r.Throws? ==> r.fault == InvalidOperation
    ensures r.Ok? && !Measured(w, t, i) ==> r.value == []
  {
    var cs := w.trains[t].calls;
    var (c1, c2) := (cs[i], cs[i + 1]);
    match LegStretch(w, t, i)
    case Throws(f) => Throws(f)
    case Ok(m) =>
      if !Maybes.HasValue(m) then Ok([])
      else
        var length := Length(m.stored.value.distance);
        var speed := Speed(length, RunMinutes(w, c1, c2));
        if speed == 0.0 then Ok([])
        else
          Ok(Bounded(speed, min, max, Slow(w, c1, c2, length), Fast(w, c1, c2, length)))
  }

  /** A measured leg is reported too slow exactly when its speed is below
      `min`, too fast exactly when it is above `max`, and with nothing else. */
  lemma MeasuredLegFindings(w: World, min: real, max: real, t: TrainId, i: int)
    requires Placed(w) && t < |w.trains| && 0 <= i && i + 1 < |w.trains[t].calls|
    requires Measured(w, t, i)
    ensures var r := LegFindings(w, min, max, t, i);
      var cs := w.trains[t].calls;
      var length := Length(LegStretch(w, t, i).value.stored.value.distance);
      && r.Ok?
      && (Slow(w, cs[i], cs[i + 1], length) in r.value <==> LegSpeed(w, t, i) < min)
      && (Fast(w, cs[i], cs[i + 1], length) in r.value <==> LegSpeed(w, t, i) > max)
      && forall f <- r.value :: f == Slow(w, cs[i], cs[i + 1], length) || f == Fast(w, cs[i], cs[i + 1], length)
  {
    var cs := w.trains[t].calls;
    var length := Length(LegStretch(w, t, i).value.stored.value.distance);
    var (slow, fast, speed) := (Slow(w, cs[i], cs[i + 1], length), Fast(w, cs[i], cs[i + 1], length), LegSpeed(w, t, i));
    assert LegFindings(w, min, max, t, i) == Ok(Bounded(speed, min, max, slow, fast));
  }

  /** The number of legs the loop `i < calls.Length - 2` checks: every leg
      but the last. */
  function CheckedLegCount(w: World, t: TrainId): (n: nat)
    requires t < |w.trains|
    ensures n + 2 <= |w.trains[t].calls| || n == 0
    ensures n + 2 >= |w.trains[t].calls|
  {
    if |w.trains[t].calls| < 2 then 0 else |w.trains[t].calls| - 2
  }

  /** The result of each checked leg, in order. */
  function CheckedLegs(w: World, min: real, max: real, t: TrainId): (r: seq<Result<seq<Finding>>>)
    requires Placed(w) && t < |w.trains|
    ensures |r| == CheckedLegCount(w, t)
    ensures forall j :: 0 <= j < |r| ==> r[j] == LegFindings(w, min, max, t, j)
  {
    var n := CheckedLegCount(w, t);
    seq(n, j requires 0 <= j < n => LegFindings(w, min, max, t, j))
  }

  /** `train.CheckTrainSpeed(min, max)`: the legs between consecutive calls
      in turn, except the last leg, which the loop bound leaves out; the
      first leg that throws ends it. */
  function TrainSpeedFindings(w: World, min: real, max: real, t: TrainId): (r: Result<seq<Finding>>)
    requires Placed(w) && t < |w.trains|
    ensures |w.trains[t].calls| < 3 ==> r == Ok([])
    ensures r.Ok? ==> forall j :: 0 <= j < CheckedLegCount(w, t) ==> LegFindings(w, min, max, t, j).Ok?
    ensures r.Ok? ==> Seqs.Concatenation(r.value, Seqs.OkValues(CheckedLegs(w, min, max, t)))
  {
    var legs := CheckedLegs(w, min, max, t);
    var r := Seqs.ConcatResults(legs);
    if r.Ok? then
      Seqs.ConcatResultsOk(legs);
      r
    else r
  }

  /** The train's check throws only `InvalidOperationException`, and only
      when some checked leg has two stretches joining its stations. */
  lemma TrainSpeedThrowsOnAmbiguousLeg(w: World, min: real, max: real, t: TrainId)
    requires Placed(w) && t < |w.trains|
    requires TrainSpeedFindings(w, min, max, t).Throws?
    ensures TrainSpeedFindings(w, min, max, t).fault == InvalidOperation
    ensures exists j :: 0 <= j < |w.trains[t].calls| - 2 && LegStretch(w, t, j).Throws?
  {
    var legs := CheckedLegs(w, min, max, t);
    Seqs.ConcatThrowsOnlyAt(legs);
    var j :| 0 <= j < |legs| && legs[j] == TrainSpeedFindings(w, min, max, t);
    assert LegFindings(w, min, max, t, j).Throws?;
  }

  /** A checked leg with two stretches joining its stations makes the
      train's check throw. */
  lemma AmbiguousLegThrows(w: World, min: real, max: real, t: TrainId, j: int)
    requires Placed(w) && t < |w.trains|
    requires 0 <= j < |w.trains[t].calls| - 2 && LegStretch(w, t, j).Throws?
    ensures TrainSpeedFindings(w, min, max, t).Throws?
  {
    var legs := CheckedLegs(w, min, max, t);
    assert legs[j].Throws?;
    Seqs.ConcatThrowsAt(legs, j);
  }

  /** Every message of the train's check is a message of one of its checked
      legs. */
  lemma TrainSpeedFinding(w: World, min: real, max: real, t: TrainId, f: Finding)
    requires Placed(w) && t < |w.trains|
    requires TrainSpeedFindings(w, min, max, t).Ok? && f in TrainSpeedFindings(w, min, max, t).value
    ensures exists j :: 0 <= j < |w.trains[t].calls| - 2 && LegFindings(w, min, max, t, j).Ok?
                        && f in LegFindings(w, min, max, t, j).value
  {
    var legs := CheckedLegs(w, min, max, t);
    Seqs.ConcatElement(legs, f);
    var j :| 0 <= j < |legs| && legs[j].Ok? && f in legs[j].value;
    assert legs[j] == LegFindings(w, min, max, t, j);
  }

  /** Every message of a checked leg is a message of the train's check
      when that does not throw. */
  lemma CheckedLegFindingIsReported(w: World, min: real, max: real, t: TrainId, j: int, f: Finding)
    requires Placed(w) && t < |w.trains| && 0 <= j < |w.trains[t].calls| - 2
    requires TrainSpeedFindings(w, min, max, t).Ok?
    requires LegFindings(w, min, max, t, j).Ok? && f in LegFindings(w, min, max, t, j).value
    ensures f in TrainSpeedFindings(w, min, max, t).value
  {
    var legs := CheckedLegs(w, min, max, t);
    assert legs[j] == LegFindings(w, min, max, t, j);
    Seqs.ConcatKeepsElement(legs, j, f);
  }

  /** A leg run in negative time (the second call arriving before the first
      departs) on a stretch that is found is always too slow for a
      non-negative lower bound. */
  lemma NegativeRunTimeIsTooSlow(w: World, min: real, max: real, t: TrainId, i: int)
    requires Placed(w) && t < |w.trains| && 0 <= i && i + 1 < |w.trains[t].calls|
    requires LegStretch(w, t, i).Ok? && Maybes.HasValue(LegStretch(w, t, i).value)
    requires RunMinutes(w, w.trains[t].calls[i], w.trains[t].calls[i + 1]) < 0 && min >= 0.0
    ensures LegFindings(w, min, max, t, i).Ok?
    ensures var cs := w.trains[t].calls;
      Slow(w, cs[i], cs[i + 1], Length(LegStretch(w, t, i).value.stored.value.distance)) in LegFindings(w, min, max, t, i).value
  {
    MeasuredLegFindings(w, min, max, t, i);
  }

  /** A leg whose run time is zero is skipped whatever the bounds. */
  lemma ZeroRunTimeIsSkipped(w: World, min: real, max: real, t: TrainId, i: int)
    requires Placed(w) && t < |w.trains| && 0 <= i && i + 1 < |w.trains[t].calls|
    requires RunMinutes(w, w.trains[t].calls[i], w.trains[t].calls[i + 1]) == 0
    ensures LegFindings(w, min, max, t, i).Ok? ==> LegFindings(w, min, max, t, i).value == []
  {
  }

  // ---------------------------------------------------------------------
  // The timetable's trains
  // ---------------------------------------------------------------------

  /** The result of each train's check, in order. */
  function TrainChecks(w: World, min: real, max: real, trains: seq<TrainId>): (r: seq<Result<seq<Finding>>>)
    requires Placed(w) && forall i :: 0 <= i < |trains| ==> trains[i] < |w.trains|
    ensures |r| == |trains| && forall k :: 0 <= k < |r| ==> r[k] == TrainSpeedFindings(w, min, max, trains[k])
  {
    seq(|trains|, k requires 0 <= k < |trains| => TrainSpeedFindings(w, min, max, trains[k]))
  }

  /** `timetable.CheckTrainSpeed(min, max)`: each train's messages in turn;
      the first train whose check throws ends it. */
  function TimetableSpeedFindings(w: World, min: real, max: real, trains: seq<TrainId>): (r: Result<seq<Finding>>)
    requires Placed(w) && forall i :: 0 <= i < |trains| ==> trains[i] < |w.trains|
    ensures r.Ok? ==> forall k :: 0 <= k < |trains| ==> TrainSpeedFindings(w, min, max, trains[k]).Ok?
    ensures r.Ok? ==> Seqs.Concatenation(r.value, Seqs.OkValues(TrainChecks(w, min, max, trains)))
  {
    var checks := TrainChecks(w, min, max, trains);
    var r := Seqs.ConcatResults(checks);
    if r.Ok? then
      Seqs.ConcatResultsOk(checks);
      r
    else r
  }

  /** The timetable's check throws exactly when some train's check does,
      and then throws what that train's check throws. */
  lemma TimetableSpeedThrows(w: World, min: real, max: real, trains: seq<TrainId>)
    requires Placed(w) && forall i :: 0 <= i < |trains| ==> trains[i] < |w.trains|
    ensures TimetableSpeedFindings(w, min, max, trains).Throws? ==>
      exists k :: 0 <= k < |trains| && TrainSpeedFindings(w, min, max, trains[k]) == TimetableSpeedFindings(w, min, max, trains)
    ensures (exists k :: 0 <= k < |trains| && TrainSpeedFindings(w, min, max, trains[k]).Throws?) ==>
      TimetableSpeedFindings(w, min, max, trains).Throws?
  {
    var checks := TrainChecks(w, min, max, trains);
    if TimetableSpeedFindings(w, min, max, trains).Throws? {
      Seqs.ConcatThrowsOnlyAt(checks);
    }
    if k :| 0 <= k < |trains| && TrainSpeedFindings(w, min, max, trains[k]).Throws? {
      Seqs.ConcatThrowsAt(checks, k);
    }
  }
}

=== FILE: stations.dfy ===
/** `Station` and `StationTrack`: construction, adding tracks, and the
    track lookups and derived views of a station. */
module Stations {
  import opened Results
  import Text
  import Seqs
  import Maybes
  import Resources
  import opened Graph

  // ---------------------------------------------------------------------
  // Construction
  // ---------------------------------------------------------------------

  /** `new Station(name, signature)`: both must have text, or
      `ArgumentNullException` is thrown (the name is checked first); every
      '_' in the name becomes a space. The new station has no tracks and no
      layout. */
  function NewStation(w: World, name: Text.NString, signature: Text.NString): (r: Result<(World, StationId)>)
    requires Valid(w)
    ensures r.Ok? <==> Text.HasText(name) && Text.HasText(signature)
    ensures r.Throws? ==> r.fault == ArgumentNull
    ensures r.Ok? ==>
      var (w', s) := r.value;
      && Valid(w') && s == |w.stations| && |w'.stations| == s + 1 && w'.stations[..s] == w.stations
      && w' == w.(stations := w'.stations)
      && w'.stations[s] == Station(Text.ReplaceChar(name.value, '_', ' '), signature.value, [], None)
  {
    match Text.TextOrException(name)
    case Throws(f) => Throws(f)
    case Ok(n) =>
      match Text.TextOrException(signature)
      case Throws(f) => Throws(f)
      case Ok(sig) =>
        var w' := w.(stations := w.stations + [Station(Text.ReplaceChar(n, '_', ' '), sig, [], None)]);
        Ok((w', |w.stations|))
  }

  /** `new StationTrack(number, isMain, isScheduled)`: not yet in any
      station and without calls. */
  function NewTrack(w: World, number: string, isMain: bool, isScheduled: bool): (r: (World, TrackId))
    requires Valid(w)
    ensures Valid(r.0) && r.1 == |w.tracks| && r.0 == w.(tracks := w.tracks + [Track(number, isMain, isScheduled, None, [])])
  {
    var w' := w.(tracks := w.tracks + [Track(number, isMain, isScheduled, None, [])]);
    (w', |w.tracks|)
  }

  /** `new StationTrack(number)` is `new StationTrack(number, true, true)`. */
  function NewDefaultTrack(w: World, number: string): (r: (World, TrackId))
    requires Valid(w)
    ensures r == NewTrack(w, number, true, true)
    ensures r.0.tracks[r.1].isMain && r.0.tracks[r.1].isScheduled && r.0.tracks[r.1].calls == []
  {
    NewTrack(w, number, true, true)
  }

  /** `StationTrack.ToString()`: the number. */
  function TrackToString(w: World, t: TrackId): (r: string)
    requires t < |w.tracks|
    ensures r == w.tracks[t].number
  {
    w.tracks[t].number
  }

  /** Two tracks are equal exactly when they print alike ignoring case and
      lie at equal stations, so the text of a track identifies it within
      its station. */
  lemma EqualTracksPrintAlike(w: World, a: TrackId, b: TrackId)
    requires Placed(w) && a < |w.tracks| && b < |w.tracks|
    ensures TrackEquals(w, a, b) <==>
      Text.EqIgnoreCase(TrackToString(w, a), TrackToString(w, b))
      && StationEquals(w.stations[w.tracks[a].station.value], w.stations[w.tracks[b].station.value])
  {
  }

  // ---------------------------------------------------------------------
  // Station.Add(track)
  // ---------------------------------------------------------------------

  /** `station.Add(track)`: the track's station becomes this station and the
      track is appended to the station's tracks, with no duplicate check.
      Nothing else changes; a track already in another station stays in that
      station's list as well. */
  function AddTrack(w: World, s: StationId, t: TrackId): (w': World)
    requires Valid(w) && s < |w.stations| && t < |w.tracks|
    ensures Valid(w')
    ensures w'.stations == w.stations[s := w.stations[s].(tracks := w.stations[s].tracks + [t])]
    ensures w'.tracks == w.tracks[t := w.tracks[t].(station := Some(s))]
    ensures w'.layouts == w.layouts && w'.calls == w.calls && w'.trains == w.trains
  {
    var st := w.stations[s];
    var tr := w.tracks[t];
    var w' := w.(stations := w.stations[s := st.(tracks := st.tracks + [t])],
                 tracks := w.tracks[t := tr.(station := Some(s))]);
    w'
  }

  /** Adding the same track twice lists it twice. */
  lemma AddTrackHasNoDuplicateCheck(w: World, s: StationId, t: TrackId)
    requires Valid(w) && s < |w.stations| && t < |w.tracks|
    ensures var w2 := AddTrack(AddTrack(w, s, t), s, t);
            w2.stations[s].tracks == w.stations[s].tracks + [t, t]
  {
  }

  // ---------------------------------------------------------------------
  // Track lookups
  // ---------------------------------------------------------------------

  /** The exact (case-sensitive) number match the station lookups use. */
  predicate Numbered(w: World, t: TrackId, number: string) {
    t < |w.tracks| && w.tracks[t].number == number
  }

  function NumberIs(w: World, number: string): TrackId -> bool {
    (t: TrackId) => Numbered(w, t, number)
  }

  /** `station[number]`: `SingleOrDefault` on the exact number, and
      `InvalidOperationException` both when no track has it and when several
      do. */
  function Indexer(w: World, s: StationId, number: string): (r: Result<TrackId>)
    requires Valid(w) && s < |w.stations|
    ensures r.Throws? ==> r.fault == InvalidOperation
    ensures r.Ok? <==> HasTrack(w, s, number) && !Seqs.TwoMatches(w.stations[s].tracks, NumberIs(w, number))
    ensures r.Ok? ==> r.value in w.stations[s].tracks && Numbered(w, r.value, number)
  {
    match Seqs.SingleOrDefault(w.stations[s].tracks, NumberIs(w, number))
    case Ok(Some(t)) => Ok(t)
    case _ => Throws(InvalidOperation)
  }

  /** `station.Track(number)`: a `Maybe` of the exact match, carrying the
      "station has no track number" text whether or not a track is found;
      several matches throw `InvalidOperationException`. */
  function TrackOf(w: World, s: StationId, number: string): (r: Result<Maybes.Maybe<TrackId>>)
    requires Valid(w) && s < |w.stations|
    ensures r.Throws? <==> Seqs.TwoMatches(w.stations[s].tracks, NumberIs(w, number))
    ensures r.Ok? ==> (Maybes.HasValue(r.value) <==> HasTrack(w, s, number))
    ensures r.Ok? && Maybes.HasValue(r.value) ==> Ok(r.value.stored.value) == Indexer(w, s, number)
    ensures r.Ok? ==> r.value.message == Resources.Format("StationHasNotTrackNumber", [w.stations[s].name, number])
  {
    var message := Resources.Format("StationHasNotTrackNumber", [w.stations[s].name, number]);
    match Seqs.SingleOrDefault(w.stations[s].tracks, NumberIs(w, number))
    case Ok(found) => Ok(Maybes.FromValueAndMessage(found, message))
    case Throws(f) => Throws(f)
  }

  /** `station.HasTrack(number)`: some track has exactly that number. */
  predicate HasTrack(w: World, s: StationId, number: string)
    requires Valid(w) && s < |w.stations|
  {
    exists t <- w.stations[s].tracks :: Numbered(w, t, number)
  }

  // ---------------------------------------------------------------------
  // Derived views
  // ---------------------------------------------------------------------

  /** The calls of each of the station's tracks, track by track. */
  function TrackCalls(w: World, tracks: seq<TrackId>): (r: seq<seq<CallId>>)
    requires TracksIn(w, tracks)
    ensures |r| == |tracks| && forall i :: 0 <= i < |r| ==> r[i] == w.tracks[tracks[i]].calls
  {
    if |tracks| == 0 then [] else [w.tracks[tracks[0]].calls] + TrackCalls(w, tracks[1..])
  }

  /** `station.Calls()`: the tracks' call lists laid end to end in track
      order. */
  function Calls(w: World, s: StationId): (r: seq<CallId>)
    requires Valid(w) && s < |w.stations|
    ensures CallsIn(w, r)
    ensures forall c :: c in r <==> exists t <- w.stations[s].tracks :: c in w.tracks[t].calls
    ensures Seqs.Concatenation(r, TrackCalls(w, w.stations[s].tracks))
  {
    var tracks := w.stations[s].tracks;
    var css := TrackCalls(w, tracks);
    var r := Seqs.Flatten<CallId>(css);
    Seqs.FlattenConcatenates(css);
    forall c | c in r ensures c < |w.calls| && exists t <- tracks :: c in w.tracks[t].calls {
      var i :| 0 <= i < |css| && c in css[i];
      assert tracks[i] in tracks;
    }
    assert forall i :: 0 <= i < |r| ==> r[i] in r;
    forall c, t | t in tracks && c in w.tracks[t].calls ensures c in r {
      var i :| 0 <= i < |tracks| && tracks[i] == t;
      assert c in css[i];
    }
    r
  }

  /** The train of each call, null for a call not added to a train. */
  function TrainsOfCalls(w: World, cs: seq<CallId>): (r: seq<Option<TrainId>>)
    requires Valid(w) && CallsIn(w, cs)
    ensures |r| == |cs| && forall i :: 0 <= i < |r| ==> r[i] == w.calls[cs[i]].train
    ensures forall x <- r :: x.Some? ==> x.value < |w.trains|
  {
    if |cs| == 0 then []
    else
      [w.calls[cs[0]].train] + TrainsOfCalls(w, cs[1..])
  }

  /** The trains of the station's calls, one entry per call, in the order
      of the calls. */
  function CallTrains(w: World, s: StationId): (r: seq<Option<TrainId>>)
    requires Valid(w) && s < |w.stations|
    ensures forall x <- r :: x.Some? ==> x.value < |w.trains|
    ensures |r| == |Calls(w, s)| && forall i :: 0 <= i < |r| ==> r[i] == w.calls[Calls(w, s)[i]].train
    ensures forall x :: x in r <==> exists c <- Calls(w, s) :: w.calls[c].train == x
  {
    var cs := Calls(w, s);
    var r := TrainsOfCalls(w, cs);
    forall x | x in r ensures exists c <- cs :: w.calls[c].train == x {
      var i :| 0 <= i < |r| && r[i] == x;
      assert cs[i] in cs;
    }
    forall c | c in cs ensures w.calls[c].train in r {
      var i :| 0 <= i < |cs| && cs[i] == c;
      assert r[i] == w.calls[c].train;
    }
    r
  }

  /** `Train.Equals` on nullable trains of the world, total over all ids. */
  function TrainIdEquals(w: World): (Option<TrainId>, Option<TrainId>) -> bool {
    (a: Option<TrainId>, b: Option<TrainId>) =>
      (a.Some? ==> a.value < |w.trains|) && (b.Some? ==> b.value < |w.trains|) && NullableTrainEquals(w, a, b)
  }

  /** `station.Trains()`: the trains of the station's calls, without
      duplicates under `Train.Equals`, in order of first occurrence: every
      call's train is listed or equal to a listed one, and no two listed
      trains are equal. */
  function Trains(w: World, s: StationId): (r: seq<Option<TrainId>>)
    requires Valid(w) && s < |w.stations|
    ensures forall x <- r :: x in CallTrains(w, s)
    ensures forall x <- CallTrains(w, s) :: x in r || exists i :: 0 <= i < |r| && TrainIdEquals(w)(r[i], x)
    ensures Seqs.Unrelated(r, TrainIdEquals(w))
    ensures Seqs.FirstOccurrences(r, CallTrains(w, s), TrainIdEquals(w))
  {
    var ts := CallTrains(w, s);
    assert Seqs.ReflexiveOn(ts, TrainIdEquals(w)) by {
      forall i | 0 <= i < |ts| ensures TrainIdEquals(w)(ts[i], ts[i]) {
        assert ts[i] in ts;
      }
    }
    Seqs.DistinctKeepsFirstOccurrences(ts, TrainIdEquals(w));
    Seqs.Distinct(ts, TrainIdEquals(w))
  }
}

=== FILE: stretch_checks.dfy ===
/** The track stretch check of the validation engine: passings of different
    trains along a stretch that follow each other too closely for the
    stretch's number of tracks. */
module StretchChecks {
  import opened Results
  import Seqs
  import Text
  import Times
  import opened Graph
  import Passings
  import Messages
  import opened Findings

  type StretchPassing = Passings.StretchPassing

  /** `p.Departure.Value` in minutes, the key the passings are ordered by. */
  function DepartureKey(w: World): StretchPassing -> int {
    (p: StretchPassing) => if Passings.PassingIn(w, p) then Passings.Departure(w, p).minutes else 0
  }

  predicate AllIn(w: World, ps: seq<StretchPassing>) {
    forall i :: 0 <= i < |ps| ==> Passings.PassingIn(w, ps[i])
  }

  /** `me.Passings.OrderBy(p => p.Departure.Value)`: the stretch's passings
      ordered by departure. */
  function SortedPassings(w: World, st: TrackStretch): (r: seq<StretchPassing>)
    requires Built(w) && StretchIn(w, st)
    ensures AllIn(w, r)
    ensures multiset(r) == multiset(Passings.GetStretchPassings(w, st))
    ensures forall i, j :: 0 <= i < j < |r| ==> Passings.Departure(w, r[i]).minutes <= Passings.Departure(w, r[j]).minutes
  {
    var ps := Passings.GetStretchPassings(w, st);
    var r := Seqs.SortBy<StretchPassing>(ps, DepartureKey(w));
    assert AllIn(w, r) by {
      forall i | 0 <= i < |r| ensures Passings.PassingIn(w, r[i]) {
        assert r[i] in multiset(ps);
      }
    }
    r
  }

  /** The train number of the train a passing arrives with,
      `passing.To.Train.Number`. */
  function ToNumber(w: World, p: StretchPassing): string
    requires Built(w) && Passings.PassingIn(w, p)
  {
    w.trains[TrainOf(w, p.to)].number
  }

  /** `passing.From.Train.Number`. */
  function FromNumber(w: World, p: StretchPassing): string
    requires Built(w) && Passings.PassingIn(w, p)
  {
    w.trains[TrainOf(w, p.from)].number
  }

  /** The passing at `i` and the one `tracks` places later belong to trains
      of different numbers, and the first arrives after the second departs. */
  predicate ConflictAt(w: World, ps: seq<StretchPassing>, tracks: int, i: int)
    requires Built(w) && AllIn(w, ps)
  {
    && 0 <= i < |ps| && 0 <= i + tracks < |ps|
    && ToNumber(w, ps[i]) != ToNumber(w, ps[i + tracks])
    && Times.Gt(Some(Passings.Arrival(w, ps[i])), Some(Passings.Departure(w, ps[i + tracks])))
  }

  /** The positions whose passing conflicts with the one `tracks` places
      later. */
  function Conflicting(w: World, ps: seq<StretchPassing>, tracks: nat): nat -> bool
    requires Built(w) && AllIn(w, ps)
  {
    (j: nat) => ConflictAt(w, ps, tracks, j)
  }

  /** The loop from `i` on, for a non-negative track count: the positions
      that conflict, in increasing order. */
  function ConflictsFrom(w: World, ps: seq<StretchPassing>, tracks: nat, i: nat): (r: seq<nat>)
    requires Built(w) && AllIn(w, ps)
    ensures forall k :: 0 <= k < |r| ==> i <= r[k] && r[k] + tracks < |ps| && ConflictAt(w, ps, tracks, r[k])
    ensures forall j :: i <= j && j + tracks < |ps| && ConflictAt(w, ps, tracks, j) ==> j in r
    ensures forall a, b :: 0 <= a < b < |r| ==> r[a] < r[b]
  {
    Seqs.PositionsIncrease(i, |ps| - tracks, Conflicting(w, ps, tracks));
    Seqs.PositionsComplete(i, |ps| - tracks, Conflicting(w, ps, tracks));
    Seqs.Positions(i, |ps| - tracks, Conflicting(w, ps, tracks))
  }

  function StretchFinding(w: World, first: StretchPassing, second: StretchPassing): Finding
    requires Built(w) && Passings.PassingIn(w, first) && Passings.PassingIn(w, second)
  {
    StretchConflict(FromNumber(w, first), Passings.ToString(w, first), ToNumber(w, second), Passings.ToString(w, second))
  }

  /** One message per position of `at`, naming its passing and the one a
      track count later. */
  function FindingsAt(w: World, ps: seq<StretchPassing>, tracks: nat, at: seq<nat>): (r: seq<Finding>)
    requires Built(w) && AllIn(w, ps) && forall k :: 0 <= k < |at| ==> at[k] + tracks < |ps|
    ensures |r| == |at|
    ensures forall k :: 0 <= k < |at| ==> r[k] == StretchFinding(w, ps[at[k]], ps[at[k] + tracks])
  {
    seq(|at|, k requires 0 <= k < |at| => StretchFinding(w, ps[at[k]], ps[at[k] + tracks]))
  }

  /** The loop of `stretch.GetValidationErrors()` on passings ordered by
      departure: one message for each position `i` whose passing conflicts
      with the one `tracks` places later, in order of `i`. The loop bound
      `passings.Length - me.TracksCount` is 32-bit arithmetic: for a
      negative track count it either stays in range, and the first round
      indexes before the first passing and throws `IndexOutOfRangeException`,
      or it wraps round to a negative number and the loop does not run. */
  function PassingFindings(w: World, ps: seq<StretchPassing>, tracks: int): (r: Result<seq<Finding>>)
    requires Built(w) && AllIn(w, ps)
    ensures r.Throws? <==> BoundInRangeForNegative(|ps|, tracks)
    ensures r.Throws? ==> r.fault == IndexOutOfRange
    ensures tracks < 0 && !BoundInRangeForNegative(|ps|, tracks) ==> r == Ok([])
    ensures tracks >= 0 ==> r.Ok? && |r.value| == |ConflictsFrom(w, ps, tracks, 0)|
  {
    if tracks < 0 then
      if |ps| - tracks <= Text.Int32Max then Throws(IndexOutOfRange) else Ok([])
    else
      Ok(FindingsAt(w, ps, tracks, ConflictsFrom(w, ps, tracks, 0)))
  }

  /** The track count is negative and `count - tracks` does not overflow a
      32-bit `int`. */
  predicate BoundInRangeForNegative(count: nat, tracks: int) {
    tracks < 0 && count - tracks <= Text.Int32Max
  }

  /** A track count of -1 throws for any realistic number of passings, and
      `int.MinValue` never does: the bound wraps round. */
  lemma NegativeTracksAtTheEdges(w: World, ps: seq<StretchPassing>)
    requires Built(w) && AllIn(w, ps) && |ps| < Text.Int32Max
    ensures PassingFindings(w, ps, -1).Throws?
    ensures PassingFindings(w, ps, Text.Int32Min) == Ok([])
  {
  }

  /** The `k`-th message names the `k`-th conflicting position's passing
      and the one a track count later. */
  lemma {:induction false} PassingFindingAt(w: World, ps: seq<StretchPassing>, tracks: nat, k: int)
    requires Built(w) && AllIn(w, ps) && 0 <= k < |ConflictsFrom(w, ps, tracks, 0)|
    ensures var i := ConflictsFrom(w, ps, tracks, 0)[k];
      && i + tracks < |ps| && ConflictAt(w, ps, tracks, i)
      && PassingFindings(w, ps, tracks).value[k] == StretchFinding(w, ps[i], ps[i + tracks])
  {
  }

  /** The stretch check of `st` throws: its track count is negative and
      the loop bound does not wrap round. */
  predicate StretchThrows(w: World, st: TrackStretch)
    requires Built(w) && StretchIn(w, st)
  {
    BoundInRangeForNegative(PassingCount(w, st), st.tracksCount)
  }

  /** The number of passings along the stretch. */
  function PassingCount(w: World, st: TrackStretch): nat
    requires Built(w) && StretchIn(w, st)
  {
    |Passings.GetStretchPassings(w, st)|
  }

  /** `stretch.GetValidationErrors()`: the loop on the stretch's passings
      ordered by departure, with the stretch's track count. */
  function StretchFindings(w: World, st: TrackStretch): (r: Result<seq<Finding>>)
    requires Built(w) && StretchIn(w, st)
    ensures r.Throws? <==> StretchThrows(w, st)
    ensures r.Throws? ==> r.fault == IndexOutOfRange
  {
    var ps := SortedPassings(w, st);
    assert |ps| == |multiset(ps)| == |Passings.GetStretchPassings(w, st)|;
    PassingFindings(w, ps, st.tracksCount)
  }

  /** For a non-negative track count, a conflict is exactly two passings of
      differently numbered trains where the earlier departing one arrives
      after the later one departs. */
  lemma ConflictMeansOverlap(w: World, ps: seq<StretchPassing>, tracks: nat, i: nat)
    requires Built(w) && AllIn(w, ps) && i + tracks < |ps|
    ensures ConflictAt(w, ps, tracks, i) <==>
      ToNumber(w, ps[i]) != ToNumber(w, ps[i + tracks])
      && Passings.Arrival(w, ps[i]).minutes > Passings.Departure(w, ps[i + tracks]).minutes
  {
    Times.OperatorsFollowOrder(Passings.Arrival(w, ps[i]), Passings.Departure(w, ps[i + tracks]));
  }

  /** A passing is never compared with itself to any effect: with no tracks
      every passing is paired with itself, and nothing is reported. */
  lemma NoTracksReportsNothing(w: World, ps: seq<StretchPassing>, i: nat)
    requires Built(w) && AllIn(w, ps)
    ensures ConflictsFrom(w, ps, 0, i) == []
  {
    Seqs.PositionsNone(i, |ps|, Conflicting(w, ps, 0));
  }

  /** At least as many tracks as passings reports nothing. */
  lemma EnoughTracksReportNothing(w: World, ps: seq<StretchPassing>, tracks: int)
    requires Built(w) && AllIn(w, ps)
    requires 0 <= |ps| <= tracks
    ensures PassingFindings(w, ps, tracks) == Ok([])
  {
  }

  // ---------------------------------------------------------------------
  // All stretches of the layout
  // ---------------------------------------------------------------------

  /** Each stretch's messages, in stretch order (none for a stretch that
      throws). */
  function EachStretchFindings(w: World, ss: seq<TrackStretch>): (r: seq<seq<Finding>>)
    requires Built(w) && StretchesIn(w, ss)
    ensures |r| == |ss|
  {
    if |ss| == 0 then [] else [FindingsOrNone(w)(ss[0])] + EachStretchFindings(w, ss[1..])
  }

  function FindingsOrNone(w: World): TrackStretch --> seq<Finding>
    requires Built(w)
  {
    (st: TrackStretch) requires StretchIn(w, st) =>
      var f := StretchFindings(w, st); if f.Ok? then f.value else []
  }

  /** `TrackStretches.SelectMany(ss => ss.GetValidationErrors())`, as
      messages: the stretches' messages laid end to end in stretch order;
      the first stretch whose check throws makes the whole throw. */
  function LayoutStretchFindings(w: World, ss: seq<TrackStretch>): (r: Result<seq<Finding>>)
    requires Built(w) && StretchesIn(w, ss)
    ensures r.Throws? <==> exists st <- ss :: StretchThrows(w, st)
    ensures r.Throws? ==> r.fault == IndexOutOfRange
    ensures r.Ok? ==> Seqs.Concatenation(r.value, EachStretchFindings(w, ss))
  {
    if |ss| == 0 then Ok([])
    else
      match StretchFindings(w, ss[0])
      case Throws(f) => Throws(f)
      case Ok(here) =>
        match LayoutStretchFindings(w, ss[1..])
        case Throws(f) => Throws(f)
        case Ok(rest) =>
          assert FindingsOrNone(w)(ss[0]) == here;
          Seqs.ConcatenationCons(here, rest, EachStretchFindings(w, ss[1..]));
          Ok(here + rest)
  }

  /** The layout's stretch check with `.Distinct()`: the information
      messages in order, each kept at its first occurrence. `Distinct`
      looks messages up by `GetHashCode`, which hashes the text as written,
      so only messages that are the same value are dropped. */
  function DistinctStretchMessages(w: World, ss: seq<TrackStretch>): (r: Result<seq<Messages.Message<Finding>>>)
    requires Built(w) && StretchesIn(w, ss)
    ensures r.Throws? <==> LayoutStretchFindings(w, ss).Throws?
    ensures r.Throws? ==> r.fault == IndexOutOfRange
    ensures r.Ok? ==> Seqs.FirstOccurrences(r.value, Info(LayoutStretchFindings(w, ss).value), Seqs.Same())
    ensures r.Ok? ==> forall i, j :: 0 <= i < j < |r.value| ==> r.value[i] != r.value[j]
    ensures r.Ok? ==> forall m <- r.value :: m.severity == Messages.Severity.Information && m.text in LayoutStretchFindings(w, ss).value
    ensures r.Ok? ==> forall f <- LayoutStretchFindings(w, ss).value :: Messages.Message(f, Messages.Severity.Information) in r.value
  {
    match LayoutStretchFindings(w, ss)
    case Throws(f) => Throws(f)
    case Ok(fs) =>
      DistinctInfo(fs);
      Ok(Seqs.Dedup(Info(fs)))
  }

  /** The distinct information messages of some findings are exactly the
      findings as information messages. */
  lemma DistinctInfo(fs: seq<Finding>)
    ensures forall m <- Seqs.Dedup(Info(fs)) :: m.severity == Messages.Severity.Information && m.text in fs
    ensures forall f <- fs :: Messages.Message(f, Messages.Severity.Information) in Seqs.Dedup(Info(fs))
  {
    var ms := Info(fs);
    var r := Seqs.Dedup(ms);
    forall m | m in r ensures m.severity == Messages.Severity.Information && m.text in fs {
      var i :| 0 <= i < |ms| && ms[i] == m;
    }
    forall f | f in fs ensures Messages.Message(f, Messages.Severity.Information) in r {
      var i :| 0 <= i < |fs| && fs[i] == f;
      assert ms[i] in ms;
    }
  }
}

=== FILE: text.dfy ===
/** Strings as the C# library treats them: ordinal case-insensitive comparison,
    white space, the `HasText` family of helpers, and `int.Parse`.

    Both `Importers.Model/Model/Extensions.cs` and
    `Models.Planning/Model/Extensions.cs` define the same string helpers;
    this one module models both. */
module Text {
  import opened Results
  import Seqs

  /** A C# `string?`: `None` is null. */
  type NString = Option<string>

  // ---------------------------------------------------------------------
  // Ordinal case-insensitive comparison
  // ---------------------------------------------------------------------

  /** Upper-case mapping used by `StringComparison.OrdinalIgnoreCase`,
      restricted to ASCII and Latin-1 letters. */
  function FoldChar(c: char): char {
    if 'a' <= c <= 'z' || (0xE0 <= c as int <= 0xFE && c as int != 0xF7) then
      (c as int - 32) as char
    else
      c
  }

  /** The string with every character folded; the case-insensitive hash of a
      string is a function of this value. */
  function Fold(s: string): (r: string)
    ensures |r| == |s|
    ensures forall i :: 0 <= i < |s| ==> r[i] == FoldChar(s[i])
  {
    if |s| == 0 then [] else [FoldChar(s[0])] + Fold(s[1..])
  }

  /** `a.Equals(b, StringComparison.OrdinalIgnoreCase)` on two non-null strings.
      The one case-insensitive comparison the whole model uses. */
  predicate EqIgnoreCase(a: string, b: string) {
    Fold(a) == Fold(b)
  }

  /** Case-insensitive equality is an equivalence relation that respects
      length, and identical strings are equal ignoring case. */
  lemma EqIgnoreCaseIsEquivalence(a: string, b: string, c: string)
    ensures EqIgnoreCase(a, a)
    ensures EqIgnoreCase(a, b) ==> EqIgnoreCase(b, a)
    ensures EqIgnoreCase(a, b) && EqIgnoreCase(b, c) ==> EqIgnoreCase(a, c)
    ensures EqIgnoreCase(a, b) ==> |a| == |b|
  {
  }

  /** Strings that differ only in the case of one ASCII letter are equal
      ignoring case, so the relation is strictly coarser than `==`. */
  lemma EqIgnoreCaseIgnoresAsciiCase()
    ensures EqIgnoreCase("Sth", "STH") && "Sth" != "STH"
  {
    assert Fold("Sth") == "STH";
    assert Fold("STH") == "STH";
  }

  // ---------------------------------------------------------------------
  // White space and the HasText family
  // ---------------------------------------------------------------------

  /** `char.IsWhiteSpace`: the Unicode space separators, line and paragraph
      separators, and the control characters U+0009..U+000D, U+0085. */
  predicate IsWhiteSpace(c: char) {
    var n := c as int;
    || 0x09 <= n <= 0x0D || n == 0x20 || n == 0x85 || n == 0xA0
    || n == 0x1680 || 0x2000 <= n <= 0x200A || n == 0x2028 || n == 0x2029
    || n == 0x202F || n == 0x205F || n == 0x3000
  }

  predicate AllWhiteSpace(s: string) {
    forall i :: 0 <= i < |s| ==> IsWhiteSpace(s[i])
  }

  /** `string.IsNullOrWhiteSpace`. */
  predicate IsNullOrWhiteSpace(s: NString) {
    s.None? || AllWhiteSpace(s.value)
  }

  /** `string.IsNullOrEmpty`. */
  predicate IsNullOrEmpty(s: NString) {
    s.None? || |s.value| == 0
  }

  /** `HasText`: non-null and holding some character that is not white space. */
  predicate HasText(s: NString)
  {
    !IsNullOrWhiteSpace(s)
  }

  /** A string that has text is non-null and non-empty; the empty string and
      blanks never have text. */
  lemma HasTextWitness(s: NString)
    ensures HasText(s) <==> (s.Some? && exists i :: 0 <= i < |s.value| && !IsWhiteSpace(s.value[i]))
    ensures HasText(s) ==> |s.value| > 0
    ensures !HasText(Some("")) && !HasText(Some(" \t"))
  {
    assert IsWhiteSpace(" \t"[0]) && IsWhiteSpace(" \t"[1]);
  }

  /** `TextOrEmpty`: the input when it has text, else "". */
  function TextOrEmpty(s: NString): (r: string)
    ensures HasText(s) ==> Some(r) == s
    ensures !HasText(s) ==> r == ""
  {
    if HasText(s) then s.value else ""
  }

  /** `TextOrDefault`: the input when it has text, else the default. */
  function TextOrDefault(s: NString, default: string): (r: string)
    ensures HasText(s) ==> Some(r) == s
    ensures !HasText(s) ==> r == default
  {
    if HasText(s) then s.value else default
  }

  /** `TextOrException`: the input when it has text, else an
      `ArgumentNullException`. */
  function TextOrException(s: NString): (r: Result<string>)
    ensures r.Ok? <==> HasText(s)
    ensures r.Ok? ==> Some(r.value) == s
    ensures r.Throws? ==> r.fault == ArgumentNull
  {
    if HasText(s) then Ok(s.value) else Throws(ArgumentNull)
  }

  /** `EqualsIgnoreCase` extension on nullable strings: false when either side
      is null. */
  predicate EqualsIgnoreCase(a: NString, b: NString)
  {
    a.Some? && b.Some? && EqIgnoreCase(a.value, b.value)
  }

  /** The nullable comparison is symmetric, never holds for null, and on two
      non-null strings is exactly `EqIgnoreCase`. */
  lemma EqualsIgnoreCaseProperties(a: NString, b: NString)
    ensures EqualsIgnoreCase(a, b) <==> EqualsIgnoreCase(b, a)
    ensures a.None? || b.None? ==> !EqualsIgnoreCase(a, b)
    ensures a.Some? && b.Some? ==> (EqualsIgnoreCase(a, b) <==> EqIgnoreCase(a.value, b.value))
  {
  }

  // ---------------------------------------------------------------------
  // Substrings, splitting, joining, replacing
  // ---------------------------------------------------------------------

  /** `needle` occurs in `hay` at some position. */
  predicate IsInfix(needle: string, hay: string)
    decreases |hay|
  {
    |needle| <= |hay| && (hay[..|needle|] == needle || (|hay| > 0 && IsInfix(needle, hay[1..])))
  }

  /** `hay.Contains(needle, StringComparison.OrdinalIgnoreCase)`. */
  predicate ContainsIgnoreCase(hay: string, needle: string) {
    IsInfix(Fold(needle), Fold(hay))
  }

  /** `s.Replace(from, to)` on single characters. */
  function ReplaceChar(s: string, from: char, to: char): (r: string)
    ensures |r| == |s|
    ensures forall i :: 0 <= i < |s| ==> r[i] == (if s[i] == from then to else s[i])
  {
    if |s| == 0 then "" else [if s[0] == from then to else s[0]] + ReplaceChar(s[1..], from, to)
  }

  /** The pieces `string.Join` lays end to end: the parts at the even
      places, with the separator between each two of them. */
  function Separated(sep: string, parts: seq<string>): (r: seq<string>)
    ensures |parts| > 0 ==> |r| == 2 * |parts| - 1
  {
    if |parts| == 0 then []
    else if |parts| == 1 then [parts[0]]
    else [parts[0], sep] + Separated(sep, parts[1..])
  }

  /** Part `i` is piece `2 i`, and the piece after each part but the last
      is the separator. */
  lemma {:induction false} SeparatedAt(sep: string, parts: seq<string>)
    ensures forall i :: 0 <= i < |parts| ==> 2 * i < |Separated(sep, parts)| && Separated(sep, parts)[2 * i] == parts[i]
    ensures forall i :: 0 <= i < |parts| - 1 ==> Separated(sep, parts)[2 * i + 1] == sep
  {
    if |parts| >= 2 {
      var r, rest := Separated(sep, parts), Separated(sep, parts[1..]);
      SeparatedAt(sep, parts[1..]);
      assert r == [parts[0], sep] + rest;
      forall i | 1 <= i < |parts| ensures r[2 * i] == parts[i] {
        assert r[2 * i] == rest[2 * (i - 1)];
        assert parts[i] == parts[1..][i - 1];
      }
      forall i | 1 <= i < |parts| - 1 ensures r[2 * i + 1] == sep {
        assert r[2 * i + 1] == rest[2 * (i - 1) + 1];
      }
    }
  }

  /** `string.Join(sep, parts)`: the parts laid end to end with the
      separator between each two. */
  function Join(sep: string, parts: seq<string>): (r: string)
    ensures Seqs.Concatenation(r, Separated(sep, parts))
  {
    if |parts| == 0 then ""
    else if |parts| == 1 then
      Seqs.ConcatenationCons(parts[0], "", []);
      assert parts[0] + "" == parts[0] && [parts[0]] + [] == [parts[0]];
      parts[0]
    else
      var rest := Join(sep, parts[1..]);
      JoinStep(sep, parts, rest);
      parts[0] + sep + rest
  }

  /** The first part and the separator put before the joined rest lay out
      the pieces of all parts. */
  lemma JoinStep(sep: string, parts: seq<string>, rest: string)
    requires |parts| >= 2 && Seqs.Concatenation(rest, Separated(sep, parts[1..]))
    ensures Seqs.Concatenation(parts[0] + sep + rest, Separated(sep, parts))
  {
    var pieces := Separated(sep, parts[1..]);
    assert Separated(sep, parts) == [parts[0], sep] + pieces;
    assert [parts[0]] + ([sep] + pieces) == Separated(sep, parts);
    assert parts[0] + (sep + rest) == parts[0] + sep + rest;
    Seqs.ConcatenationCons(sep, rest, pieces);
    Seqs.ConcatenationCons(parts[0], sep + rest, [sep] + pieces);
  }

  /** `s.Split(sep)`: every piece, empty ones included, so there is always at
      least one. */
  function Split(s: string, sep: char): (parts: seq<string>)
    ensures |parts| >= 1
    ensures forall i :: 0 <= i < |parts| ==> sep !in parts[i]
  {
    if |s| == 0 then [""]
    else if s[0] == sep then [""] + Split(s[1..], sep)
    else
      var rest := Split(s[1..], sep);
      [[s[0]] + rest[0]] + rest[1..]
  }

  /** Splitting a string without the separator gives the string itself, and a
      separator after a separator-free prefix cuts exactly there. */
  lemma {:induction false} SplitAtFirst(a: string, sep: char, rest: string)
    requires sep !in a
    ensures Split(a, sep) == [a]
    ensures Split(a + [sep] + rest, sep) == [a] + Split(rest, sep)
    decreases |a|
  {
    if |a| == 0 {
      assert a + [sep] + rest == [sep] + rest;
      assert ([sep] + rest)[1..] == rest;
    } else {
      SplitAtFirst(a[1..], sep, rest);
      assert (a + [sep] + rest)[1..] == a[1..] + [sep] + rest;
      assert [a[0]] + a[1..] == a;
    }
  }

  /** Joining the pieces with the separator gives the string back. */
  lemma {:induction false} SplitJoinRoundTrip(s: string, sep: char)
    ensures Join([sep], Split(s, sep)) == s
  {
    if |s| > 0 {
      var rest := Split(s[1..], sep);
      SplitJoinRoundTrip(s[1..], sep);
      if s[0] == sep {
        assert Split(s, sep) == [""] + rest;
        JoinCons([sep], [""] + rest);
        assert ([""] + rest)[1..] == rest;
        assert s == "" + [sep] + s[1..];
      } else if |rest| == 1 {
        assert Split(s, sep) == [[s[0]] + rest[0]];
        assert s == [s[0]] + s[1..];
      } else {
        var parts := Split(s, sep);
        assert parts == [[s[0]] + rest[0]] + rest[1..];
        JoinCons([sep], parts);
        JoinCons([sep], rest);
        assert parts[1..] == rest[1..];
        assert s == [s[0]] + s[1..];
      }
    }
  }

  /** Joining two or more parts puts the first part and the separator in
      front of the joined rest. */
  lemma JoinCons(sep: string, parts: seq<string>)
    requires |parts| >= 2
    ensures Join(sep, parts) == parts[0] + sep + Join(sep, parts[1..])
  {
  }

  // ---------------------------------------------------------------------
  // int.Parse / int.TryParse (NumberStyles.Integer, invariant culture)
  // ---------------------------------------------------------------------

  const Int32Min: int := -0x8000_0000
  const Int32Max: int := 0x7FFF_FFFF

  predicate IsDigit(c: char) { '0' <= c <= '9' }

  predicate AllDigits(s: string) { forall i :: 0 <= i < |s| ==> IsDigit(s[i]) }

  /** The white space `NumberStyles.AllowLeadingWhite`/`AllowTrailingWhite`
      accept: U+0009..U+000D and the space. */
  predicate IsParseWhite(c: char) { 0x09 <= c as int <= 0x0D || c == ' ' }

  function TrimParseWhiteStart(s: string): (r: string)
    ensures |r| <= |s|
  {
    if |s| > 0 && IsParseWhite(s[0]) then TrimParseWhiteStart(s[1..]) else s
  }

  function TrimParseWhiteEnd(s: string): (r: string)
    ensures |r| <= |s|
  {
    if |s| > 0 && IsParseWhite(s[|s| - 1]) then TrimParseWhiteEnd(s[..|s| - 1]) else s
  }

  function DigitValue(c: char): nat requires IsDigit(c) { c as int - '0' as int }

  /** The value of a run of decimal digits, most significant first. */
  function DigitsValue(s: string): nat
    requires AllDigits(s)
  {
    if |s| == 0 then 0 else DigitsValue(s[..|s| - 1]) * 10 + DigitValue(s[|s| - 1])
  }

  /** `int.Parse(s, CultureInfo.InvariantCulture)`: optional surrounding white
      space, an optional sign and at least one digit; a value outside the
      32-bit range throws `OverflowException`, anything else malformed throws
      `FormatException`. */
  function Int32Parse(s: string): (r: Result<int>)
    ensures r.Ok? ==> Int32Min <= r.value <= Int32Max
    ensures r.Throws? ==> r.fault in {FormatError, Overflow}
  {
    var t := TrimParseWhiteEnd(TrimParseWhiteStart(s));
    var negative := |t| > 0 && t[0] == '-';
    var body := if |t| > 0 && (t[0] == '-' || t[0] == '+') then t[1..] else t;
    if |body| == 0 || !AllDigits(body) then Throws(FormatError)
    else
      var d: int := DigitsValue(body);
      var v := if negative then -d else d;
      if v < Int32Min || v > Int32Max then Throws(Overflow) else Ok(v)
  }

  /** `int.TryParse(s, out n)`: a null string never parses. */
  function Int32TryParse(s: NString): (r: Option<int>)
    ensures r.Some? <==> s.Some? && Int32Parse(s.value).Ok?
    ensures r.Some? ==> r.value == Int32Parse(s.value).value
  {
    if s.None? then None
    else match Int32Parse(s.value)
      case Ok(n) => Some(n)
      case Throws(_) => None
  }

  /** Two decimal digits, zero padded: the `hh` and `mm` format fields. */
  function TwoDigits(n: nat): (r: string)
    requires n < 100
    ensures |r| == 2 && AllDigits(r) && DigitsValue(r) == n
  {
    var r := [('0' as int + n / 10) as char, ('0' as int + n % 10) as char];
    assert r[..1] == [r[0]] && [r[0]][..0] == [];
    assert DigitsValue([r[0]]) == n / 10;
    r
  }

  /** `n.ToString()` for a non-negative number: its decimal digits, most
      significant first, with no leading zero. */
  function NatText(n: nat): (r: string)
    ensures |r| > 0 && AllDigits(r) && DigitsValue(r) == n
    ensures |r| > 1 ==> r[0] != '0'
  {
    var last := [('0' as int + n % 10) as char];
    if n < 10 then
      assert DigitsValue(last) == DigitsValue(last[..0]) * 10 + n % 10;
      last
    else
      var r := NatText(n / 10) + last;
      assert r[..|r| - 1] == NatText(n / 10);
      r
  }

  /** `n.ToString()` in the invariant culture: a minus sign before the
      digits of a negative number. */
  function IntText(n: int): string {
    if n < 0 then "-" + NatText(-n) else NatText(n)
  }

  /** A bare run of digits parses to its value. */
  lemma {:induction false} Int32ParseDigits(s: string)
    requires |s| > 0 && AllDigits(s) && DigitsValue(s) <= Int32Max
    ensures Int32Parse(s) == Ok(DigitsValue(s))
  {
    assert !IsParseWhite(s[0]) && !IsParseWhite(s[|s| - 1]);
    assert TrimParseWhiteStart(s) == s;
    assert TrimParseWhiteEnd(s) == s;
  }
}

=== FILE: times.dfy ===
/** `Time`: a clock value counted in whole minutes, with the nullable
    comparison operators the timetable code relies on. */
module Times {
  import opened Results
  import Text

  /** A `Time` wraps a `TimeSpan`; every way of building one in the model
      yields whole minutes, so the span is its minute count. */
  datatype Time = Time(minutes: int)

  const MinutesPerHour: int := 60
  const MinutesPerDay: int := 1440

  // ---------------------------------------------------------------------
  // Construction and the TimeSpan components
  // ---------------------------------------------------------------------

  /** `FromDayHourMinute(d, h, m)`: the span of d days, h hours and m minutes. */
  function FromDayHourMinute(days: int, hours: int, minutes: int): (t: Time)
    ensures t.minutes - minutes == (days * 24 + hours) * MinutesPerHour
  {
    Time(days * MinutesPerDay + hours * MinutesPerHour + minutes)
  }

  /** `FromHourAndMinute(h, m)` is `FromDayHourMinute(0, h, m)`. */
  function FromHourAndMinute(hours: int, minutes: int): (t: Time)
    ensures t == FromDayHourMinute(0, hours, minutes)
    ensures 0 <= hours < 24 && 0 <= minutes < 60 ==> Hours(t) == hours && MinutePart(t) == minutes
  {
    FromDayHourMinute(0, hours, minutes)
  }

  /** C#'s `/` on `int`: the quotient rounded toward zero. */
  function TruncDiv(a: int, b: int): (q: int)
    requires b > 0
    ensures a >= 0 ==> q >= 0 && q * b <= a < q * b + b
    ensures a < 0 ==> q <= 0 && q * b - b < a <= q * b
  {
    if a >= 0 then a / b else -((-a) / b)
  }

  /** C#'s `%` on `int`: the remainder takes the sign of the dividend. */
  function TruncRem(a: int, b: int): (r: int)
    requires b > 0
    ensures a == TruncDiv(a, b) * b + r
    ensures a >= 0 ==> 0 <= r < b
    ensures a < 0 ==> -b < r <= 0
  {
    a - TruncDiv(a, b) * b
  }

  /** `TimeSpan.Days`. */
  function Days(t: Time): int {
    TruncDiv(t.minutes, MinutesPerDay)
  }

  /** `TimeSpan.Hours` (the `Hours()` extension): the hours within the day,
      negative for a negative span. */
  function Hours(t: Time): (h: int)
    ensures -24 < h < 24
    ensures t.minutes >= 0 ==> h >= 0
    ensures t.minutes <= 0 ==> h <= 0
  {
    TruncRem(TruncDiv(t.minutes, MinutesPerHour), 24)
  }

  /** `TimeSpan.Minutes`: the minutes within the hour. */
  function MinutePart(t: Time): (m: int)
    ensures -60 < m < 60
    ensures t.minutes >= 0 ==> m >= 0
    ensures t.minutes <= 0 ==> m <= 0
  {
    TruncRem(t.minutes, MinutesPerHour)
  }

  /** The three components put back together give the span again, so
      `FromDayHourMinute` inverts the decomposition. */
  lemma {:induction false} Decompose(t: Time)
    ensures FromDayHourMinute(Days(t), Hours(t), MinutePart(t)) == t
  {
    var q := TruncDiv(t.minutes, MinutesPerHour);
    assert t.minutes == q * 60 + MinutePart(t);
    assert q == TruncDiv(q, 24) * 24 + Hours(t);
    TruncDivNested(t.minutes);
  }

  /** Dividing by 60 then by 24, both rounding toward zero, is dividing by
      1440 rounding toward zero. */
  lemma TruncDivNested(a: int)
    ensures TruncDiv(TruncDiv(a, 60), 24) == TruncDiv(a, 1440)
  {
    if a >= 0 {
      assert a / 60 / 24 == a / 1440;
    } else {
      assert (-a) / 60 / 24 == (-a) / 1440;
    }
  }

  // ---------------------------------------------------------------------
  // CompareTo and the lifted operators
  // ---------------------------------------------------------------------

  /** The `(int)` cast of a whole number of minutes held in a `double`:
      saturating at the 32-bit bounds, as .NET does from version 9. */
  function SaturateInt32(x: int): (r: int)
    ensures Text.Int32Min <= r <= Text.Int32Max
    ensures Text.Int32Min <= x <= Text.Int32Max ==> r == x
    ensures (r < 0 <==> x < 0) && (r == 0 <==> x == 0)
  {
    if x < Text.Int32Min then Text.Int32Min else if x > Text.Int32Max then Text.Int32Max else x
  }

  /** `t.CompareTo(other)`: the difference in minutes, and `int.MinValue` when
      `other` is null. */
  function CompareTo(t: Time, other: Option<Time>): (r: int)
    ensures other.None? ==> r == Text.Int32Min
    ensures other.Some? ==> (r < 0 <==> t.minutes < other.value.minutes)
    ensures other.Some? ==> (r == 0 <==> t.minutes == other.value.minutes)
    ensures other.Some? && Text.Int32Min <= t.minutes - other.value.minutes <= Text.Int32Max
            ==> r == t.minutes - other.value.minutes
  {
    if other.None? then Text.Int32Min else SaturateInt32(t.minutes - other.value.minutes)
  }

  /** `time1?.CompareTo(time2)`: null when the left operand is null. */
  function LiftedCompare(a: Option<Time>, b: Option<Time>): Option<int> {
    if a.None? then None else Some(CompareTo(a.value, b))
  }

  /** The operators compare a nullable `int` with 0: false whenever it is null,
      except `!=`, which is then true. */
  predicate Lt(a: Option<Time>, b: Option<Time>) {
    var c := LiftedCompare(a, b); c.Some? && c.value < 0
  }
  predicate Le(a: Option<Time>, b: Option<Time>) {
    var c := LiftedCompare(a, b); c.Some? && c.value <= 0
  }
  predicate Gt(a: Option<Time>, b: Option<Time>) {
    var c := LiftedCompare(a, b); c.Some? && c.value > 0
  }
  predicate Ge(a: Option<Time>, b: Option<Time>) {
    var c := LiftedCompare(a, b); c.Some? && c.value >= 0
  }
  predicate Eq(a: Option<Time>, b: Option<Time>) {
    var c := LiftedCompare(a, b); c.Some? && c.value == 0
  }
  predicate Ne(a: Option<Time>, b: Option<Time>) {
    var c := LiftedCompare(a, b); c.None? || c.value != 0
  }

  /** With both operands present, every operator agrees with the order of the
      minute counts. */
  lemma OperatorsFollowOrder(a: Time, b: Time)
    ensures Lt(Some(a), Some(b)) <==> a.minutes < b.minutes
    ensures Le(Some(a), Some(b)) <==> a.minutes <= b.minutes
    ensures Gt(Some(a), Some(b)) <==> a.minutes > b.minutes
    ensures Ge(Some(a), Some(b)) <==> a.minutes >= b.minutes
    ensures Eq(Some(a), Some(b)) <==> a.minutes == b.minutes
    ensures Ne(Some(a), Some(b)) <==> a.minutes != b.minutes
  {
  }

  /** A null right operand compares as the smallest value; a null left operand
      makes every operator false except `!=`, so `null == null` is false. */
  lemma OperatorsOnNull(a: Time, b: Option<Time>)
    ensures Lt(Some(a), None) && Le(Some(a), None)
    ensures !Gt(Some(a), None) && !Ge(Some(a), None) && !Eq(Some(a), None) && Ne(Some(a), None)
    ensures !Lt(None, b) && !Le(None, b) && !Gt(None, b) && !Ge(None, b) && !Eq(None, b)
    ensures Ne(None, b)
  {
  }

  /** `Time.Equals` and `GetHashCode`: the span and its hash. */
  predicate Equals(a: Time, b: Time) { a.minutes == b.minutes }

  function HashCode(t: Time): int { t.minutes }

  /** Equal times hash equally, and `Equals` is the `==` operator on present
      values. */
  lemma EqualsAndHashAgree(a: Time, b: Time)
    ensures Equals(a, b) ==> HashCode(a) == HashCode(b)
    ensures Equals(a, b) <==> Eq(Some(a), Some(b))
    ensures Equals(a, b) <==> a == b
  {
  }

  // ---------------------------------------------------------------------
  // Arithmetic
  // ---------------------------------------------------------------------

  /** `Subtract`: the signed span from `b` to `a`. */
  function Subtract(a: Time, b: Time): (r: Time)
    ensures r.minutes + b.minutes == a.minutes
  {
    Time(a.minutes - b.minutes)
  }

  /** `AddMinutes`. */
  function AddMinutes(t: Time, minutes: int): (r: Time)
    ensures Subtract(r, t) == Time(minutes)
  {
    Time(t.minutes + minutes)
  }

  /** `AddDays`: whole days of 1440 minutes. */
  function AddDays(t: Time, days: int): (r: Time)
    ensures r == AddMinutes(t, days * MinutesPerDay)
    ensures (t.minutes < 0) == (r.minutes < 0) ==> Hours(r) == Hours(t) && MinutePart(r) == MinutePart(t)
  {
    var r := Time(t.minutes + days * MinutesPerDay);
    if t.minutes >= 0 && r.minutes >= 0 then
      ShiftByDays(t.minutes, days);
      r
    else if t.minutes < 0 && r.minutes < 0 then
      ShiftByDays(-t.minutes, -days);
      r
    else r
  }

  /** Adding whole days to a non-negative span keeps its hour and minute
      components. */
  lemma ShiftByDays(a: int, days: int)
    requires a >= 0 && a + days * 1440 >= 0
    ensures TruncRem(TruncDiv(a + days * 1440, 60), 24) == TruncRem(TruncDiv(a, 60), 24)
    ensures TruncRem(a + days * 1440, 60) == TruncRem(a, 60)
  {
    var b := a + days * 1440;
    var q, r := a / 60, a % 60;
    assert a == q * 60 + r && 0 <= r < 60;
    assert b == (q + days * 24) * 60 + r;
    assert b / 60 == q + days * 24 && b % 60 == r;
    assert (q + days * 24) % 24 == q % 24;
  }

  /** `Subtract` is antisymmetric, and adding then subtracting the same
      minutes returns the original time. */
  lemma ArithmeticRoundTrips(a: Time, b: Time, m: int)
    ensures Subtract(a, b).minutes == -Subtract(b, a).minutes
    ensures Subtract(AddMinutes(a, m), Time(m)) == a
    ensures AddMinutes(b, Subtract(a, b).minutes) == a
  {
  }

  // ---------------------------------------------------------------------
  // Formatting and parsing
  // ---------------------------------------------------------------------

  /** `HHMM()` and `ToString()`: the `hh\:mm` custom format, which prints the
      hours within the day and the minutes within the hour, two digits each;
      the days and the sign are not printed. */
  function HHMM(t: Time): (r: string)
    ensures |r| == 5 && r[2] == ':'
    ensures Text.AllDigits(r[..2]) && Text.DigitsValue(r[..2]) == if Hours(t) < 0 then -Hours(t) else Hours(t)
    ensures Text.AllDigits(r[3..]) && Text.DigitsValue(r[3..]) == if MinutePart(t) < 0 then -MinutePart(t) else MinutePart(t)
  {
    var h := Hours(t);
    var m := MinutePart(t);
    var r := Text.TwoDigits(if h < 0 then -h else h) + ":" + Text.TwoDigits(if m < 0 then -m else m);
    assert r[..2] == Text.TwoDigits(if h < 0 then -h else h);
    assert r[3..] == Text.TwoDigits(if m < 0 then -m else m);
    r
  }

  /** `ParseDays`: null or blank throws `ArgumentNullException`; a string
      without ':' is a decimal number of days, handled by `decimalDays` (the
      floating-point path, outside this model); otherwise the first two
      ':'-separated pieces are parsed as hours and minutes, hours first. */
  function ParseDays(value: Text.NString, decimalDays: string -> Result<Time>): (r: Result<Time>)
    ensures Text.IsNullOrWhiteSpace(value) ==> r == Throws(ArgumentNull)
    ensures !Text.IsNullOrWhiteSpace(value) && ':' !in value.value ==> r == decimalDays(value.value)
    ensures !Text.IsNullOrWhiteSpace(value) && ':' in value.value ==>
              var parts := Text.Split(value.value, ':');
              && |parts| >= 2
              && (r.Ok? <==> Text.Int32Parse(parts[0]).Ok? && Text.Int32Parse(parts[1]).Ok?)
              && (r.Ok? ==> r.value == FromHourAndMinute(Text.Int32Parse(parts[0]).value, Text.Int32Parse(parts[1]).value))
              && (Text.Int32Parse(parts[0]).Throws? ==> r == Throws(Text.Int32Parse(parts[0]).fault))
  {
    if Text.IsNullOrWhiteSpace(value) then Throws(ArgumentNull)
    else
      var s := value.value;
      var parts := Text.Split(s, ':');
      SplitCount(s, ':');
      if |parts| == 1 then decimalDays(s)
      else
        match Text.Int32Parse(parts[0])
        case Throws(f) => Throws(f)
        case Ok(h) =>
          match Text.Int32Parse(parts[1])
          case Throws(f) => Throws(f)
          case Ok(m) => Ok(FromHourAndMinute(h, m))
  }

  /** `Split` gives one piece exactly when the separator does not occur. */
  lemma {:induction false} SplitCount(s: string, sep: char)
    ensures |Text.Split(s, sep)| == 1 <==> sep !in s
  {
    if |s| > 0 {
      SplitCount(s[1..], sep);
      assert s == [s[0]] + s[1..];
    }
  }

  /** Printing a time of day with `HHMM` and parsing it back with
      `ParseDays` gives the same time. */
  lemma HHMMRoundTrip(t: Time, decimalDays: string -> Result<Time>)
    requires 0 <= t.minutes < MinutesPerDay
    ensures ParseDays(Some(HHMM(t)), decimalDays) == Ok(t)
  {
    var s := HHMM(t);
    var hh, mm := s[..2], s[3..];
    assert s == hh + [':'] + mm;
    assert ':' !in hh && ':' !in mm by {
      assert forall i :: 0 <= i < |hh| ==> Text.IsDigit(hh[i]);
      assert forall i :: 0 <= i < |mm| ==> Text.IsDigit(mm[i]);
    }
    Text.SplitAtFirst(hh, ':', mm);
    Text.SplitAtFirst(mm, ':', []);
    assert Text.Split(s, ':') == [hh, mm];
    Text.Int32ParseDigits(hh);
    Text.Int32ParseDigits(mm);
    assert !Text.IsWhiteSpace(s[0]);
    Decompose(t);
    assert Days(t) == 0;
  }

  /** Concrete instances of the format: 7:05 prints as "07:05" and a day and
      a half prints only its time of day. */
  lemma HHMMExamples()
    ensures HHMM(FromHourAndMinute(7, 5)) == "07:05"
    ensures HHMM(FromDayHourMinute(1, 12, 0)) == "12:00"
  {
    var a, b := FromHourAndMinute(7, 5), FromDayHourMinute(1, 12, 0);
    assert a.minutes == 425 && b.minutes == 2160;
    assert Hours(a) == 7 && MinutePart(a) == 5;
    assert Hours(b) == 12 && MinutePart(b) == 0;
    assert Text.TwoDigits(7) == "07" && Text.TwoDigits(5) == "05";
    assert Text.TwoDigits(12) == "12" && Text.TwoDigits(0) == "00";
  }
}

=== FILE: timetable_stretches.dfy ===
/** `TimetableStretch` and its extension methods: a numbered route made of
    track stretches, its end stations, its station list, the lookup of a
    station on it and the distance from its start to a station. */
module TimetableStretches {
  import opened Results
  import Text
  import Seqs
  import Maybes
  import opened Graph

  /** `new TimetableStretch(number)` and `new TimetableStretch(number,
      description)`: a number without text throws `ArgumentNullException`;
      the stretch starts without track stretches. */
  function NewTimetableStretch(number: Text.NString, description: string): (r: Result<TimetableStretch>)
    ensures r.Ok? <==> Text.HasText(number)
    ensures r.Throws? ==> r.fault == ArgumentNull
    ensures r.Ok? ==> r.value == TimetableStretch(number.value, description, [])
  {
    match Text.TextOrException(number)
    case Throws(f) => Throws(f)
    case Ok(n) => Ok(TimetableStretch(n, description, []))
  }

  /** `Starts`: the start of the first stretch; `InvalidOperationException`
      when there is none. */
  function Starts(t: TimetableStretch): (r: Result<StationId>)
    ensures r.Ok? <==> |t.stretches| > 0
    ensures r.Ok? ==> r.value == t.stretches[0].start
    ensures r.Throws? ==> r.fault == InvalidOperation
  {
    if |t.stretches| > 0 then Ok(t.stretches[0].start) else Throws(InvalidOperation)
  }

  /** `Ends`: the end of the last stretch; `InvalidOperationException` when
      there is none. */
  function Ends(t: TimetableStretch): (r: Result<StationId>)
    ensures r.Ok? <==> |t.stretches| > 0
    ensures r.Ok? ==> r.value == t.stretches[|t.stretches| - 1].end
    ensures r.Throws? ==> r.fault == InvalidOperation
  {
    if |t.stretches| > 0 then Ok(t.stretches[|t.stretches| - 1].end) else Throws(InvalidOperation)
  }

  function StartsOf(ss: seq<TrackStretch>): (r: seq<StationId>)
    ensures |r| == |ss| && forall i :: 0 <= i < |ss| ==> r[i] == ss[i].start
  {
    if |ss| == 0 then [] else [ss[0].start] + StartsOf(ss[1..])
  }

  /** `Stations`: the start of every stretch followed by the end of the last
      one; `InvalidOperationException` when there is no stretch. */
  function Stations(t: TimetableStretch): (r: Result<seq<StationId>>)
    ensures r.Ok? <==> |t.stretches| > 0
    ensures r.Throws? ==> r.fault == InvalidOperation
    ensures r.Ok? ==>
      && |r.value| == |t.stretches| + 1
      && (forall i :: 0 <= i < |t.stretches| ==> r.value[i] == t.stretches[i].start)
      && Ok(r.value[0]) == Starts(t) && Ok(r.value[|t.stretches|]) == Ends(t)
  {
    if |t.stretches| == 0 then Throws(InvalidOperation)
    else Ok(StartsOf(t.stretches) + [t.stretches[|t.stretches| - 1].end])
  }

  /** `AddLast(trackStretch)`: appended; it becomes the end of the route and
      the start stays, or is its start when it is the first. */
  function AddLast(t: TimetableStretch, s: TrackStretch): (r: TimetableStretch)
    ensures r.number == t.number && r.description == t.description
    ensures |r.stretches| == |t.stretches| + 1 && r.stretches[..|t.stretches|] == t.stretches
    ensures Ends(r) == Ok(s.end)
    ensures Starts(r) == (if |t.stretches| == 0 then Ok(s.start) else Starts(t))
  {
    t.(stretches := t.stretches + [s])
  }

  /** `ToString()` of a station: its name. */
  function StationName(w: World, s: StationId): string
    requires s < |w.stations|
  {
    w.stations[s].name
  }

  /** `GetDescription()`: the description when it has text, otherwise
      "<start> - <end>"; the default text is built first, so a stretch
      without track stretches throws `InvalidOperationException` even when
      it has a description. */
  function GetDescription(w: World, t: TimetableStretch): (r: Result<string>)
    requires StretchesIn(w, t.stretches)
    ensures r.Ok? <==> |t.stretches| > 0
    ensures r.Throws? ==> r.fault == InvalidOperation
    ensures r.Ok? && Text.HasText(Some(t.description)) ==> r.value == t.description
    ensures r.Ok? && !Text.HasText(Some(t.description)) ==>
      r.value == StationName(w, Starts(t).value) + " - " + StationName(w, Ends(t).value)
  {
    if |t.stretches| == 0 then Throws(InvalidOperation)
    else
      var first, last := t.stretches[0], t.stretches[|t.stretches| - 1];
      Ok(Text.TextOrDefault(Some(t.description), StationName(w, first.start) + " - " + StationName(w, last.end)))
  }

  /** `ToString()`: "<number>: <description>". */
  function ToString(w: World, t: TimetableStretch): (r: Result<string>)
    requires StretchesIn(w, t.stretches)
    ensures r.Ok? <==> GetDescription(w, t).Ok?
    ensures r.Ok? ==> r.value == t.number + ": " + GetDescription(w, t).value
  {
    match GetDescription(w, t)
    case Throws(f) => Throws(f)
    case Ok(d) => Ok(t.number + ": " + d)
  }

  function EqualsStation(w: World, s: StationId): StationId -> bool
    requires s < |w.stations|
  {
    (x: StationId) => x < |w.stations| && StationEquals(w.stations[x], w.stations[s])
  }

  /** `GetStation(station)`: the single station of the route equal to the
      given one, with a "station is not in timetable stretch" text; a route
      without stretches, or one passing an equal station twice, throws
      `InvalidOperationException`. */
  function GetStation(w: World, t: TimetableStretch, s: StationId): (r: Result<Maybes.Maybe<StationId>>)
    requires StretchesIn(w, t.stretches) && s < |w.stations|
    ensures r.Ok? <==> Stations(t).Ok? && !Seqs.TwoMatches(Stations(t).value, EqualsStation(w, s))
    ensures r.Throws? ==> r.fault == InvalidOperation
    ensures r.Ok? ==> (Maybes.HasValue(r.value) <==> exists x <- Stations(t).value :: EqualsStation(w, s)(x))
    ensures r.Ok? && Maybes.HasValue(r.value) ==>
      r.value.stored.value in Stations(t).value && StationEquals(w.stations[r.value.stored.value], w.stations[s])
  {
    match Stations(t)
    case Throws(f) => Throws(f)
    case Ok(stations) =>
      var message := "Station " + StationName(w, s) + " is not in timetable stretch " + ToString(w, t).value + ".";
      match Seqs.SingleOrDefault(stations, EqualsStation(w, s))
      case Throws(f) => Throws(f)
      case Ok(found) => Ok(Maybes.FromValueAndMessage(found, message))
  }

  /** `Sum(s => s.Distance)`. */
  function SumDistances(ss: seq<TrackStretch>): real {
    if |ss| == 0 then 0.0 else SumDistances(ss[..|ss| - 1]) + ss[|ss| - 1].distance
  }

  /** `DistanceToStation(station)` AS WRITTEN: null when the station is not
      on the route, 0 when it is the start, and otherwise the distances of
      every stretch that does not start at the station added up, which
      counts the stretches after the station too. */
  function DistanceToStationAsWritten(w: World, t: TimetableStretch, s: StationId): (r: Result<Option<real>>)
    requires StretchesIn(w, t.stretches) && s < |w.stations|
    ensures r.Throws? <==> GetStation(w, t, s).Throws?
    ensures r.Ok? ==> (r.value.None? <==> Maybes.IsNone(GetStation(w, t, s).value))
  {
    match GetStation(w, t, s)
    case Throws(f) => Throws(f)
    case Ok(to) =>
      if Maybes.IsNone(to) then Ok(None)
      else
        var x := to.stored.value;
        if StationEquals(w.stations[x], w.stations[t.stretches[0].start]) then Ok(Some(0.0))
        else
          Ok(Some(SumDistances(Seqs.Filter(t.stretches, NotStartingAt(w, x)))))
  }

  /** The stretch does not start at a station equal to `x`. */
  function NotStartingAt(w: World, x: StationId): TrackStretch -> bool
    requires x < |w.stations|
  {
    (ts: TrackStretch) => !(ts.start < |w.stations| && StationEquals(w.stations[ts.start], w.stations[x]))
  }

  /** `DistanceToStation(station)` as evidently intended: the distances of
      the stretches before the station's place on the route added up. */
  function DistanceToStation(w: World, t: TimetableStretch, s: StationId): (r: Result<Option<real>>)
    requires StretchesIn(w, t.stretches) && s < |w.stations|
    ensures r.Throws? <==> GetStation(w, t, s).Throws?
    ensures r.Ok? ==> (r.value.None? <==> Maybes.IsNone(GetStation(w, t, s).value))
    ensures r.Ok? && r.value.Some? ==>
      exists k :: 0 <= k <= |t.stretches| && EqualsStation(w, s)(Stations(t).value[k])
                  && r.value.value == SumDistances(t.stretches[..k])
  {
    match GetStation(w, t, s)
    case Throws(f) => Throws(f)
    case Ok(to) =>
      if Maybes.IsNone(to) then Ok(None)
      else
        var stations := Stations(t).value;
        var k := Seqs.IndexOfFirst(stations, EqualsStation(w, s));
        Ok(Some(SumDistances(t.stretches[..k])))
  }

  /** The route's stations follow on: every stretch starts where the
      previous one ends, and no station is passed twice. */
  predicate Route(w: World, t: TimetableStretch)
    requires StretchesIn(w, t.stretches)
  {
    var ss := t.stretches;
    && |ss| > 0
    && (forall i :: 0 <= i < |ss| - 1 ==> Joined(ss, i))
    && (forall i, j :: 0 <= i < j <= |ss| ==> PlacesDiffer(w, Stations(t).value, i, j))
  }

  /** The stretch at `i` ends where the next one starts. */
  predicate Joined(ss: seq<TrackStretch>, i: int)
    requires 0 <= i < |ss| - 1
  {
    ss[i].end == ss[i + 1].start
  }

  /** The stations at places `i` and `j` are not equal. */
  predicate PlacesDiffer(w: World, st: seq<StationId>, i: int, j: int)
    requires 0 <= i < |st| && 0 <= j < |st| && st[i] < |w.stations| && st[j] < |w.stations|
  {
    !StationEquals(w.stations[st[i]], w.stations[st[j]])
  }

  /** On a route, the station at place `k` is found, at place `k`. */
  lemma {:induction false} FindsStationOnRoute(w: World, t: TimetableStretch, k: nat)
    requires StretchesIn(w, t.stretches) && Route(w, t) && k <= |t.stretches|
    ensures Stations(t).value[k] < |w.stations|
    ensures var s := Stations(t).value[k];
            && GetStation(w, t, s).Ok? && GetStation(w, t, s).value.stored == Some(s)
            && Seqs.IndexOfFirst(Stations(t).value, EqualsStation(w, s)) == k
  {
    var st := Stations(t).value;
    var n := |t.stretches|;
    assert st[k] < |w.stations| by {
      if k < n { assert StretchIn(w, t.stretches[k]); } else { assert StretchIn(w, t.stretches[n - 1]); }
    }
    var s := st[k];
    var p := EqualsStation(w, s);
    assert forall i :: 0 <= i <= n ==> st[i] < |w.stations| by {
      forall i | 0 <= i <= n ensures st[i] < |w.stations| {
        if i < n { assert StretchIn(w, t.stretches[i]); } else { assert StretchIn(w, t.stretches[n - 1]); }
      }
    }
    assert p(s);
    forall i | 0 <= i <= n && i != k ensures !p(st[i]) {
      if i < k { assert PlacesDiffer(w, st, i, k); }
      else { assert PlacesDiffer(w, st, k, i); }
    }
    assert !Seqs.TwoPositionsMatch<StationId>(st, p);
    Seqs.FilterHasTwo<StationId>(st, p);
    var j := Seqs.IndexOfFirst<StationId>(st, p);
    assert st[k] in st;
  }

  /** On a route, the intended distance to the station at place `k` is the
      length of the first `k` stretches. */
  lemma {:induction false} DistanceAtPlace(w: World, t: TimetableStretch, k: nat)
    requires StretchesIn(w, t.stretches) && Route(w, t) && k <= |t.stretches|
    ensures Stations(t).value[k] < |w.stations|
    ensures DistanceToStation(w, t, Stations(t).value[k]) == Ok(Some(SumDistances(t.stretches[..k])))
  {
    FindsStationOnRoute(w, t, k);
    var s := Stations(t).value[k];
    var g := GetStation(w, t, s);
    assert g.Ok? && Maybes.HasValue(g.value);
  }

  /** The intended distance on a route grows stretch by stretch: the
      station after a stretch lies that stretch's distance further than the
      station before it. */
  lemma {:induction false} DistanceAlongRoute(w: World, t: TimetableStretch, k: nat)
    requires StretchesIn(w, t.stretches) && Route(w, t) && k < |t.stretches|
    ensures Stations(t).value[k + 1] < |w.stations|
    ensures DistanceToStation(w, t, Stations(t).value[k + 1]) == Ok(Some(SumDistances(t.stretches[..k + 1])))
    ensures SumDistances(t.stretches[..k + 1]) == SumDistances(t.stretches[..k]) + t.stretches[k].distance
  {
    SumDistancesOfPrefix(t.stretches, k);
    DistanceAtPlace(w, t, k + 1);
  }

  /** The start of a route lies at distance 0 and its end at the whole
      length. */
  lemma {:induction false} DistanceAtEnds(w: World, t: TimetableStretch)
    requires StretchesIn(w, t.stretches) && Route(w, t)
    ensures Stations(t).value[0] < |w.stations| && DistanceToStation(w, t, Stations(t).value[0]) == Ok(Some(0.0))
    ensures Stations(t).value[|t.stretches|] < |w.stations|
    ensures DistanceToStation(w, t, Stations(t).value[|t.stretches|]) == Ok(Some(SumDistances(t.stretches)))
  {
    assert t.stretches[..0] == [];
    DistanceAtPlace(w, t, 0);
    assert t.stretches[..|t.stretches|] == t.stretches;
    DistanceAtPlace(w, t, |t.stretches|);
  }

  /** Each stretch adds its distance to the sum of those before it. */
  lemma {:induction false} SumDistancesOfPrefix(ss: seq<TrackStretch>, k: nat)
    requires k < |ss|
    ensures SumDistances(ss[..k + 1]) == SumDistances(ss[..k]) + ss[k].distance
  {
    assert ss[..k + 1][..k] == ss[..k];
  }

  /** The signatures A, B, C and D differ from each other. */
  lemma {:induction false} ThreeStretchStations(w: World)
    requires w == ThreeStretchWorld()
    ensures forall i, j :: 0 <= i < 4 && 0 <= j < 4 ==> (StationEquals(w.stations[i], w.stations[j]) <==> i == j)
  {
    forall i, j | 0 <= i < 4 && 0 <= j < 4
      ensures StationEquals(w.stations[i], w.stations[j]) <==> i == j
    {
      var a, b := Text.Fold(w.stations[i].signature), Text.Fold(w.stations[j].signature);
      assert |a| == 1 && |b| == 1;
      assert a[0] == Text.FoldChar(w.stations[i].signature[0]);
      assert b[0] == Text.FoldChar(w.stations[j].signature[0]);
      if i != j { assert a[0] != b[0]; }
    }
  }

  /** A-B-C-D is a route. */
  lemma {:induction false} ThreeStretchIsRoute(w: World, t: TimetableStretch)
    requires w == ThreeStretchWorld() && t == ThreeStretchRoute()
    ensures StretchesIn(w, t.stretches) && Route(w, t) && Stations(t).value == [0, 1, 2, 3]
  {
    ThreeStretchStations(w);
    var st := Stations(t).value;
    assert st == [0, 1, 2, 3];
    assert forall i, j :: 0 <= i < j <= 3 ==> PlacesDiffer(w, st, i, j);
  }

  /** A route A-B-C-D of three stretches of length 1: the station B lies 1
      from the start, but the written sum also counts the stretch C-D and
      gives 2. */
  lemma {:induction false} DistanceToStationAsWrittenCountsLaterStretches()
    ensures var w := ThreeStretchWorld();
            var t := ThreeStretchRoute();
            && StretchesIn(w, t.stretches)
            && DistanceToStationAsWritten(w, t, 1) == Ok(Some(2.0))
            && DistanceToStation(w, t, 1) == Ok(Some(1.0))
  {
    var w := ThreeStretchWorld();
    var t := ThreeStretchRoute();
    ThreeStretchIsRoute(w, t);
    AsWrittenOnThreeStretches(w, t);
    IntendedOnThreeStretches(w, t);
  }

  lemma {:induction false} AsWrittenOnThreeStretches(w: World, t: TimetableStretch)
    requires w == ThreeStretchWorld() && t == ThreeStretchRoute()
    ensures StretchesIn(w, t.stretches) && DistanceToStationAsWritten(w, t, 1) == Ok(Some(2.0))
  {
    ThreeStretchIsRoute(w, t);
    FindsStationOnRoute(w, t, 1);
    AsWrittenSumOnThreeStretches(w, t);
    ThreeStretchStations(w);
    assert !StationEquals(w.stations[1], w.stations[t.stretches[0].start]);
  }

  lemma {:induction false} IntendedOnThreeStretches(w: World, t: TimetableStretch)
    requires w == ThreeStretchWorld() && t == ThreeStretchRoute()
    ensures StretchesIn(w, t.stretches) && DistanceToStation(w, t, 1) == Ok(Some(1.0))
  {
    ThreeStretchIsRoute(w, t);
    SumDistancesOfPrefix(t.stretches, 0);
    assert t.stretches[..0] == [];
    DistanceAtPlace(w, t, 1);
  }

  /** The stretches of A-B-C-D not starting at B are A-B and C-D. */
  lemma {:induction false} AsWrittenSumOnThreeStretches(w: World, t: TimetableStretch)
    requires w == ThreeStretchWorld() && t == ThreeStretchRoute()
    ensures SumDistances(Seqs.Filter(t.stretches, NotStartingAt(w, 1))) == 2.0
  {
    ThreeStretchStations(w);
    var q := NotStartingAt(w, 1);
    var ss := t.stretches;
    assert q(ss[0]) && !q(ss[1]) && q(ss[2]);
    assert ss[1..][1..][1..] == [];
    assert Seqs.Filter(ss, q) == [ss[0], ss[2]];
    assert [ss[0], ss[2]][..1] == [ss[0]];
    assert SumDistances([ss[0]]) == 1.0 by { assert [ss[0]][..0] == []; }
  }

  /** Four stations A, B, C and D of one layout. */
  function ThreeStretchWorld(): (w: World)
    ensures |w.stations| == 4 && |w.layouts| == 1
  {
    var l := Layout("L", [0, 1, 2, 3], [], []);
    World([l], [Station("A", "A", [], Some(0)), Station("B", "B", [], Some(0)),
                Station("C", "C", [], Some(0)), Station("D", "D", [], Some(0))], [], [], [])
  }

  /** The route A-B-C-D, each stretch of length 1. */
  function ThreeStretchRoute(): (t: TimetableStretch)
    ensures |t.stretches| == 3
  {
    TimetableStretch("1", "", [TrackStretch(0, 1, 1.0, 1, 100, 1, 0), TrackStretch(1, 2, 1.0, 1, 100, 1, 0),
                               TrackStretch(2, 3, 1.0, 1, 100, 1, 0)])
  }
}

=== FILE: timetables.dfy ===
/** `Timetable`: a named set of trains on a layout, the lookup of a train by
    its external id, and the first and last hour the timetable covers. */
module Timetables {
  import opened Results
  import Seqs
  import Text
  import Times
  import Maybes
  import opened Graph

  datatype Timetable = Timetable(name: string, layout: LayoutId, trains: seq<TrainId>)

  /** Every train of the timetable, and its layout, is in the world. */
  predicate TimetableIn(w: World, tt: Timetable) {
    tt.layout < |w.layouts| && forall i :: 0 <= i < |tt.trains| ==> tt.trains[i] < |w.trains|
  }

  /** `new Timetable(name, layout)`: no trains yet. */
  function NewTimetable(name: string, layout: LayoutId): Timetable {
    Timetable(name, layout, [])
  }

  /** `Timetable.ToString()`. */
  function ToString(tt: Timetable): string {
    tt.name
  }

  /** `timetable.Stations()`: the layout's stations; none for a null
      timetable. */
  function Stations(w: World, tt: Option<Timetable>): seq<StationId>
    requires tt.Some? ==> TimetableIn(w, tt.value)
  {
    if tt.None? then [] else w.layouts[tt.value.layout].stations
  }

  /** A new timetable prints as its name, holds no train, so no external id
      is found in it, and lists its layout's stations. */
  lemma NewTimetableFacts(w: World, name: string, l: LayoutId, externalId: string)
    requires l < |w.layouts|
    ensures TimetableIn(w, NewTimetable(name, l)) && ToString(NewTimetable(name, l)) == name
    ensures Maybes.IsNone(TrainByExternalId(w, Some(NewTimetable(name, l)), externalId))
    ensures Stations(w, Some(NewTimetable(name, l))) == w.layouts[l].stations
  {
  }

  /** A null timetable has no stations, and adding a train does not change
      a timetable's stations. */
  lemma StationsOfTimetable(w: World, tt: Timetable, t: TrainId)
    requires TimetableIn(w, tt) && t < |w.trains|
    ensures Stations(w, None) == []
    ensures Stations(w, Some(Add(w, tt, t))) == Stations(w, Some(tt)) == w.layouts[tt.layout].stations
  {
  }

  // ---------------------------------------------------------------------
  // Adding trains and finding them
  // ---------------------------------------------------------------------

  /** The timetable holds a train equal to `t` under `Train.Equals`. */
  predicate HasTrain(w: World, tt: Timetable, t: TrainId)
    requires TimetableIn(w, tt) && t < |w.trains|
  {
    exists i :: 0 <= i < |tt.trains| && TrainEquals(w.trains[tt.trains[i]], w.trains[t])
  }

  /** `timetable.Add(train)`: the train is appended unless an equal train is
      already there. */
  function Add(w: World, tt: Timetable, t: TrainId): (r: Timetable)
    requires TimetableIn(w, tt) && t < |w.trains|
    ensures TimetableIn(w, r) && r.name == tt.name && r.layout == tt.layout
    ensures HasTrain(w, tt, t) ==> r == tt
    ensures !HasTrain(w, tt, t) ==> r.trains == tt.trains + [t]
    ensures HasTrain(w, r, t)
  {
    if HasTrain(w, tt, t) then tt
    else
      var r := tt.(trains := tt.trains + [t]);
      assert TrainEquals(w.trains[r.trains[|tt.trains|]], w.trains[t]) by {
        Text.EqIgnoreCaseIsEquivalence(w.trains[t].number, w.trains[t].number, w.trains[t].number);
        Text.EqIgnoreCaseIsEquivalence(w.trains[t].externalId, w.trains[t].externalId, w.trains[t].externalId);
      }
      r
  }

  /** Adding a train twice is adding it once, and adding a train equal to
      one already there changes nothing. */
  lemma AddIsIdempotent(w: World, tt: Timetable, t: TrainId)
    requires TimetableIn(w, tt) && t < |w.trains|
    ensures Add(w, Add(w, tt, t), t) == Add(w, tt, t)
  {
  }

  function HasExternalId(w: World, externalId: string): TrainId -> bool {
    (t: TrainId) => t < |w.trains| && w.trains[t].externalId == externalId
  }

  /** `timetable.Train(externalId)`: the first train whose external id is
      exactly `externalId` (case-sensitive), or no train with the message
      "Train with external id '<id>' not found."; a null timetable has no
      trains. */
  function TrainByExternalId(w: World, tt: Option<Timetable>, externalId: string): (r: Maybes.Maybe<TrainId>)
    requires tt.Some? ==> TimetableIn(w, tt.value)
    ensures Maybes.HasValue(r) <==>
      tt.Some? && exists i :: 0 <= i < |tt.value.trains| && w.trains[tt.value.trains[i]].externalId == externalId
    ensures Maybes.HasValue(r) ==>
      exists i :: 0 <= i < |tt.value.trains| && tt.value.trains[i] == r.stored.value
               && w.trains[r.stored.value].externalId == externalId
               && forall k :: 0 <= k < i ==> w.trains[tt.value.trains[k]].externalId != externalId
    ensures Maybes.IsNone(r) ==> r.message == "Train with external id '" + externalId + "' not found."
  {
    var message := "Train with external id '" + externalId + "' not found.";
    if tt.None? then Maybes.FromValues(None, message)
    else
      var ts := tt.value.trains;
      var found := Seqs.Filter(ts, HasExternalId(w, externalId));
      FilterFindsFirst(ts, HasExternalId(w, externalId));
      assert forall i :: 0 <= i < |ts| ==> ts[i] in ts;
      Maybes.FromValues(Some(found), message)
  }

  /** The first element a filter keeps is the first element accepted. */
  lemma {:induction false} FilterFindsFirst<T>(xs: seq<T>, p: T -> bool)
    ensures var r := Seqs.Filter(xs, p);
      |r| > 0 ==> exists i :: 0 <= i < |xs| && xs[i] == r[0] && p(xs[i]) && forall k :: 0 <= k < i ==> !p(xs[k])
  {
    if |xs| > 0 && !p(xs[0]) {
      FilterFindsFirst(xs[1..], p);
      var r := Seqs.Filter(xs, p);
      if |r| > 0 {
        var i :| 0 <= i < |xs[1..]| && xs[1..][i] == r[0] && p(xs[1..][i]) && forall k :: 0 <= k < i ==> !p(xs[1..][k]);
        assert xs[i + 1] == r[0];
      }
    }
  }

  // ---------------------------------------------------------------------
  // StartHour and EndHour
  // ---------------------------------------------------------------------

  /** The arrivals of a train's calls, in call order. */
  function Arrivals(w: World, t: TrainId): (r: seq<Times.Time>)
    requires Valid(w) && t < |w.trains|
    ensures |r| == |w.trains[t].calls|
    ensures forall i :: 0 <= i < |r| ==> r[i] == w.calls[w.trains[t].calls[i]].arrival
  {
    var cs := w.trains[t].calls;
    seq(|cs|, i requires 0 <= i < |cs| => w.calls[cs[i]].arrival)
  }

  /** `Enumerable.Min`/`Max` over times AS WRITTEN. `Time` is a struct that
      implements `IComparable<Time?>` (comparable with a NULLABLE time) but
      neither `IComparable<Time>` nor `IComparable`, so the default comparer
      of `Time` falls back to the non-generic comparison of boxed objects,
      which throws `ArgumentException` on the first comparison. No elements
      throws `InvalidOperationException`; one element is returned without
      comparing. */
  function ExtremeAsWritten(ts: seq<Times.Time>): (r: Result<Times.Time>)
    ensures r.Ok? <==> |ts| == 1
    ensures r.Ok? ==> r.value == ts[0]
    ensures |ts| == 0 ==> r == Throws(InvalidOperation)
    ensures |ts| >= 2 ==> r == Throws(Argument)
  {
    if |ts| == 0 then Throws(InvalidOperation)
    else if |ts| == 1 then Ok(ts[0])
    else Throws(Argument)
  }

  /** The outer `Min`/`Max` over the per-train extremes AS WRITTEN: the
      selector runs lazily, so the first train's extreme is computed, then
      the second's, and only then the comparison throws. */
  function TrainsExtremeAsWritten(w: World, trains: seq<TrainId>): (r: Result<Times.Time>)
    requires Valid(w) && forall i :: 0 <= i < |trains| ==> trains[i] < |w.trains|
  {
    if |trains| == 0 then Throws(InvalidOperation)
    else
      var first := ExtremeAsWritten(Arrivals(w, trains[0]));
      if first.Throws? || |trains| == 1 then first
      else
        var second := ExtremeAsWritten(Arrivals(w, trains[1]));
        if second.Throws? then second else Throws(Argument)
  }

  /** `timetable.StartHour()` AS WRITTEN: 0 for a null timetable. */
  function StartHourAsWritten(w: World, tt: Option<Timetable>): (r: Result<int>)
    requires Valid(w) && (tt.Some? ==> TimetableIn(w, tt.value))
  {
    if tt.None? then Ok(0)
    else
      match TrainsExtremeAsWritten(w, tt.value.trains)
      case Ok(t) => Ok(Times.Hours(t))
      case Throws(f) => Throws(f)
  }

  /** `timetable.EndHour()` AS WRITTEN: 24 for a null timetable. */
  function EndHourAsWritten(w: World, tt: Option<Timetable>): (r: Result<int>)
    requires Valid(w) && (tt.Some? ==> TimetableIn(w, tt.value))
  {
    if tt.None? then Ok(24)
    else
      match TrainsExtremeAsWritten(w, tt.value.trains)
      case Ok(t) => Ok(Times.Hours(t) + 1)
      case Throws(f) => Throws(f)
  }

  /** As written, the hours are computed only for a null timetable or a
      timetable of exactly one train with exactly one call; any larger
      timetable throws `ArgumentException` once its first two trains have
      calls, or the first train has two. */
  lemma HoursAsWrittenNeedOneCall(w: World, tt: Option<Timetable>)
    requires Valid(w) && (tt.Some? ==> TimetableIn(w, tt.value))
    ensures StartHourAsWritten(w, tt).Ok? <==>
      tt.None? || (|tt.value.trains| == 1 && |w.trains[tt.value.trains[0]].calls| == 1)
    ensures EndHourAsWritten(w, tt).Ok? <==> StartHourAsWritten(w, tt).Ok?
    ensures tt.Some? && |tt.value.trains| >= 2
            && |w.trains[tt.value.trains[0]].calls| == 1 && |w.trains[tt.value.trains[1]].calls| == 1
            ==> StartHourAsWritten(w, tt) == Throws(Argument) && EndHourAsWritten(w, tt) == Throws(Argument)
    ensures tt.Some? && |tt.value.trains| >= 1 && |w.trains[tt.value.trains[0]].calls| >= 2
            ==> StartHourAsWritten(w, tt) == Throws(Argument)
  {
  }

  /** The earliest of some times under `Time.CompareTo`, which orders times
      by their minutes. */
  function Earliest(ts: seq<Times.Time>): (r: Times.Time)
    requires |ts| > 0
    ensures r in ts && forall t <- ts :: r.minutes <= t.minutes
  {
    if |ts| == 1 then ts[0]
    else
      var rest := Earliest(ts[1..]);
      assert forall t <- ts[1..] :: t in ts;
      if ts[0].minutes <= rest.minutes then ts[0] else rest
  }

  /** The latest of some times under `Time.CompareTo`. */
  function Latest(ts: seq<Times.Time>): (r: Times.Time)
    requires |ts| > 0
    ensures r in ts && forall t <- ts :: r.minutes >= t.minutes
  {
    if |ts| == 1 then ts[0]
    else
      var rest := Latest(ts[1..]);
      assert forall t <- ts[1..] :: t in ts;
      if ts[0].minutes >= rest.minutes then ts[0] else rest
  }

  /** Every train of the list has at least one call. */
  predicate AllHaveCalls(w: World, trains: seq<TrainId>)
    requires forall i :: 0 <= i < |trains| ==> trains[i] < |w.trains|
  {
    forall i :: 0 <= i < |trains| ==> |w.trains[trains[i]].calls| > 0
  }

  /** An arrival of some call of some of the trains. */
  predicate IsArrivalOf(w: World, trains: seq<TrainId>, t: Times.Time)
    requires Valid(w) && forall i :: 0 <= i < |trains| ==> trains[i] < |w.trains|
  {
    exists i, j :: 0 <= i < |trains| && 0 <= j < |w.trains[trains[i]].calls|
                && w.calls[w.trains[trains[i]].calls[j]].arrival == t
  }

  /** No call of the trains arrives before `t`. */
  predicate IsEarliestArrival(w: World, trains: seq<TrainId>, t: Times.Time)
    requires Valid(w) && forall i :: 0 <= i < |trains| ==> trains[i] < |w.trains|
  {
    forall i, j :: 0 <= i < |trains| && 0 <= j < |w.trains[trains[i]].calls| ==>
      t.minutes <= w.calls[w.trains[trains[i]].calls[j]].arrival.minutes
  }

  /** No call of the trains arrives after `t`. */
  predicate IsLatestArrival(w: World, trains: seq<TrainId>, t: Times.Time)
    requires Valid(w) && forall i :: 0 <= i < |trains| ==> trains[i] < |w.trains|
  {
    forall i, j :: 0 <= i < |trains| && 0 <= j < |w.trains[trains[i]].calls| ==>
      t.minutes >= w.calls[w.trains[trains[i]].calls[j]].arrival.minutes
  }

  /** The per-train earliest (`earliest`) or latest arrival of each train. */
  function TrainExtremes(w: World, trains: seq<TrainId>, earliest: bool): (r: seq<Times.Time>)
    requires Valid(w) && forall i :: 0 <= i < |trains| ==> trains[i] < |w.trains|
    requires AllHaveCalls(w, trains)
    ensures |r| == |trains|
    ensures forall i :: 0 <= i < |r| ==>
      var a := Arrivals(w, trains[i]);
      r[i] in a && forall t <- a :: (if earliest then r[i].minutes <= t.minutes else r[i].minutes >= t.minutes)
  {
    seq(|trains|, i requires 0 <= i < |trains| =>
      if earliest then Earliest(Arrivals(w, trains[i])) else Latest(Arrivals(w, trains[i])))
  }

  /** The earliest arrival of all the trains' calls as evidently intended:
      `InvalidOperationException` when there are no trains or a train has
      no calls, otherwise an arrival no later than every other. */
  function EarliestArrival(w: World, trains: seq<TrainId>): (r: Result<Times.Time>)
    requires Valid(w) && forall i :: 0 <= i < |trains| ==> trains[i] < |w.trains|
    ensures r.Ok? <==> |trains| > 0 && AllHaveCalls(w, trains)
    ensures r.Throws? ==> r.fault == InvalidOperation
    ensures r.Ok? ==> IsArrivalOf(w, trains, r.value)
    ensures r.Ok? ==> IsEarliestArrival(w, trains, r.value)
  {
    if |trains| == 0 || !AllHaveCalls(w, trains) then Throws(InvalidOperation)
    else
      var extremes := TrainExtremes(w, trains, true);
      var e := Earliest(extremes);
      ExtremeIsArrival(w, trains, extremes, e);
      forall i, j | 0 <= i < |trains| && 0 <= j < |w.trains[trains[i]].calls|
        ensures e.minutes <= w.calls[w.trains[trains[i]].calls[j]].arrival.minutes
      {
        assert extremes[i] in extremes;
        assert Arrivals(w, trains[i])[j] in Arrivals(w, trains[i]);
      }
      Ok(e)
  }

  /** The latest arrival of all the trains' calls as evidently intended. */
  function LatestArrival(w: World, trains: seq<TrainId>): (r: Result<Times.Time>)
    requires Valid(w) && forall i :: 0 <= i < |trains| ==> trains[i] < |w.trains|
    ensures r.Ok? <==> |trains| > 0 && AllHaveCalls(w, trains)
    ensures r.Throws? ==> r.fault == InvalidOperation
    ensures r.Ok? ==> IsArrivalOf(w, trains, r.value)
    ensures r.Ok? ==> IsLatestArrival(w, trains, r.value)
  {
    if |trains| == 0 || !AllHaveCalls(w, trains) then Throws(InvalidOperation)
    else
      var extremes := TrainExtremes(w, trains, false);
      var e := Latest(extremes);
      ExtremeIsArrival(w, trains, extremes, e);
      forall i, j | 0 <= i < |trains| && 0 <= j < |w.trains[trains[i]].calls|
        ensures e.minutes >= w.calls[w.trains[trains[i]].calls[j]].arrival.minutes
      {
        assert extremes[i] in extremes;
        assert Arrivals(w, trains[i])[j] in Arrivals(w, trains[i]);
      }
      Ok(e)
  }

  lemma ExtremeIsArrival(w: World, trains: seq<TrainId>, extremes: seq<Times.Time>, e: Times.Time)
    requires Valid(w) && forall i :: 0 <= i < |trains| ==> trains[i] < |w.trains|
    requires |extremes| == |trains| && forall i :: 0 <= i < |trains| ==> extremes[i] in Arrivals(w, trains[i])
    requires e in extremes
    ensures IsArrivalOf(w, trains, e)
  {
    var i :| 0 <= i < |extremes| && extremes[i] == e;
    var a := Arrivals(w, trains[i]);
    var j :| 0 <= j < |a| && a[j] == e;
    assert w.calls[w.trains[trains[i]].calls[j]].arrival == e;
  }

  /** `timetable.StartHour()` as evidently intended: the hours of the
      earliest arrival of any call; 0 for a null timetable. */
  function StartHour(w: World, tt: Option<Timetable>): (r: Result<int>)
    requires Valid(w) && (tt.Some? ==> TimetableIn(w, tt.value))
    ensures tt.None? ==> r == Ok(0)
    ensures tt.Some? ==> (r.Ok? <==> |tt.value.trains| > 0 && AllHaveCalls(w, tt.value.trains))
    ensures tt.Some? && r.Ok? ==> exists t ::
      && IsArrivalOf(w, tt.value.trains, t) && r.value == Times.Hours(t)
      && IsEarliestArrival(w, tt.value.trains, t)
  {
    if tt.None? then Ok(0)
    else
      match EarliestArrival(w, tt.value.trains)
      case Ok(t) => Ok(Times.Hours(t))
      case Throws(f) => Throws(f)
  }

  /** `timetable.EndHour()` as evidently intended: one more than the hours
      of the latest arrival of any call; 24 for a null timetable. */
  function EndHour(w: World, tt: Option<Timetable>): (r: Result<int>)
    requires Valid(w) && (tt.Some? ==> TimetableIn(w, tt.value))
    ensures tt.None? ==> r == Ok(24)
    ensures tt.Some? ==> (r.Ok? <==> |tt.value.trains| > 0 && AllHaveCalls(w, tt.value.trains))
    ensures tt.Some? && r.Ok? ==> exists t ::
      && IsArrivalOf(w, tt.value.trains, t) && r.value == Times.Hours(t) + 1
      && IsLatestArrival(w, tt.value.trains, t)
  {
    if tt.None? then Ok(24)
    else
      match LatestArrival(w, tt.value.trains)
      case Ok(t) => Ok(Times.Hours(t) + 1)
      case Throws(f) => Throws(f)
  }

  /** Where the code as written gives an hour at all, it is the intended
      one; for two trains of one call each it throws `ArgumentException`
      where the intended hours exist. */
  lemma HoursAsWrittenVersusIntended(w: World, tt: Option<Timetable>)
    requires Valid(w) && (tt.Some? ==> TimetableIn(w, tt.value))
    ensures StartHourAsWritten(w, tt).Ok? ==> StartHourAsWritten(w, tt) == StartHour(w, tt)
    ensures EndHourAsWritten(w, tt).Ok? ==> EndHourAsWritten(w, tt) == EndHour(w, tt)
    ensures tt.Some? && |tt.value.trains| == 2 && AllHaveCalls(w, tt.value.trains) ==>
      StartHourAsWritten(w, tt) == Throws(Argument) && StartHour(w, tt).Ok?
      && EndHourAsWritten(w, tt) == Throws(Argument) && EndHour(w, tt).Ok?
  {
    if tt.Some? && StartHourAsWritten(w, tt).Ok? {
      var t := tt.value.trains[0];
      assert Arrivals(w, t) == [w.calls[w.trains[t].calls[0]].arrival];
      assert TrainExtremes(w, tt.value.trains, true) == [w.calls[w.trains[t].calls[0]].arrival];
      assert TrainExtremes(w, tt.value.trains, false) == [w.calls[w.trains[t].calls[0]].arrival];
    }
  }
}

=== FILE: track_lookup.dfy ===
/** The spreadsheet importer's track lookup on a layout: the station by
    signature or name, then its track by number, both ignoring case. */
module TrackLookup {
  import opened Results
  import Text
  import Seqs
  import Maybes
  import opened Graph
  import Layouts
  import Stations

  /** The track's number equals `number` ignoring case. */
  predicate NumberedIgnoringCase(w: World, t: TrackId, number: string) {
    t < |w.tracks| && Text.EqIgnoreCase(w.tracks[t].number, number)
  }

  function NumberLike(w: World, number: string): TrackId -> bool {
    (t: TrackId) => NumberedIgnoringCase(w, t, number)
  }

  /** The station lookup found a station. */
  predicate StationFound(w: World, l: LayoutId, signature: string)
    requires Valid(w) && l < |w.layouts|
  {
    var s := Layouts.StationNamed(w, l, signature);
    s.Ok? && Maybes.HasValue(s.value)
  }

  /** The station the lookup found. */
  function FoundStation(w: World, l: LayoutId, signature: string): (s: StationId)
    requires Valid(w) && l < |w.layouts| && StationFound(w, l, signature)
    ensures s < |w.stations| && s in w.layouts[l].stations
  {
    assert LayoutIn(w, w.layouts[l]);
    Layouts.StationNamed(w, l, signature).value.stored.value
  }

  /** `layout.Track(stationSignature, trackNumber)`: no value when no
      station matches; otherwise the single track of that station whose
      number matches ignoring case, or no value when none does. Both empty
      results carry the generic no-value text. Several matching stations,
      or several matching tracks of the station, throw
      `InvalidOperationException`. */
  function Track(w: World, l: LayoutId, signature: string, number: string): (r: Result<Maybes.Maybe<TrackId>>)
    requires Valid(w) && l < |w.layouts|
    ensures r.Throws? <==>
      || Layouts.StationNamed(w, l, signature).Throws?
      || (StationFound(w, l, signature)
          && Seqs.TwoMatches(w.stations[FoundStation(w, l, signature)].tracks, NumberLike(w, number)))
    ensures r.Throws? ==> r.fault == InvalidOperation
    ensures r.Ok? ==> (Maybes.HasValue(r.value) <==>
      StationFound(w, l, signature)
      && exists t <- w.stations[FoundStation(w, l, signature)].tracks :: NumberedIgnoringCase(w, t, number))
    ensures r.Ok? && Maybes.HasValue(r.value) ==>
      && r.value.stored.value in w.stations[FoundStation(w, l, signature)].tracks
      && NumberedIgnoringCase(w, r.value.stored.value, number)
      && r.value.message == ""
    ensures r.Ok? && Maybes.IsNone(r.value) ==> r.value.message == Maybes.NoValueText
  {
    match Layouts.StationNamed(w, l, signature)
    case Throws(f) => Throws(f)
    case Ok(station) =>
      if Maybes.IsNone(station) then Ok(Maybes.NoValue())
      else
        var s := FoundStation(w, l, signature);
        match Seqs.SingleOrDefault(w.stations[s].tracks, NumberLike(w, number))
        case Throws(f) => Throws(f)
        case Ok(None) => Ok(Maybes.NoValue())
        case Ok(Some(t)) => Ok(Maybes.FromValue(Some(t)))
  }

  /** The track the station's own exact lookup finds is the one found here
      whenever this lookup does not throw: an exact number match is a match
      ignoring case, and the case-insensitive match is single. */
  lemma ExactTrackIsFound(w: World, l: LayoutId, signature: string, number: string)
    requires Valid(w) && l < |w.layouts|
    requires StationFound(w, l, signature)
    requires Track(w, l, signature, number).Ok?
    ensures var s := FoundStation(w, l, signature);
      var exact := Stations.TrackOf(w, s, number);
      exact.Ok? && Maybes.HasValue(exact.value) ==>
        Track(w, l, signature, number).value.stored == exact.value.stored
  {
    var s := FoundStation(w, l, signature);
    var exact := Stations.TrackOf(w, s, number);
    if exact.Ok? && Maybes.HasValue(exact.value) {
      var t := exact.value.stored.value;
      assert Ok(t) == Stations.Indexer(w, s, number);
      Text.EqIgnoreCaseIsEquivalence(number, number, number);
      assert NumberedIgnoringCase(w, t, number);
    }
  }

  /** A track number that differs only in case gives the same result. */
  lemma CaseOfNumberDoesNotMatter(w: World, l: LayoutId, signature: string, number: string, other: string)
    requires Valid(w) && l < |w.layouts|
    requires Text.EqIgnoreCase(number, other)
    ensures Track(w, l, signature, number) == Track(w, l, signature, other)
  {
    forall t: TrackId ensures NumberLike(w, number)(t) == NumberLike(w, other)(t) {
      if t < |w.tracks| {
        Text.EqIgnoreCaseIsEquivalence(w.tracks[t].number, number, other);
        Text.EqIgnoreCaseIsEquivalence(w.tracks[t].number, other, number);
        Text.EqIgnoreCaseIsEquivalence(number, other, number);
      }
    }
    if StationFound(w, l, signature) {
      Seqs.FilterOfEquivalent(w.stations[FoundStation(w, l, signature)].tracks, NumberLike(w, number), NumberLike(w, other));
    }
  }
}

=== FILE: trains.dfy ===
/** `Train` and its extension methods: construction, adding calls, the
    derived track list and layout, and the two repairs the importers apply
    to a train's first, last and single calls. */
module Trains {
  import opened Results
  import Text
  import Seqs
  import Times
  import opened Graph
  import Calls

  /** `new Train(number)` and `new Train(number, externalId)`: a number, and
      a given external id, must not be null or white space
      (`ArgumentNullException`, the number checked first); without an
      external id it is empty. The category starts empty. */
  function NewTrain(w: World, number: Text.NString, externalId: Option<Text.NString>): (r: Result<(World, TrainId)>)
    requires Valid(w)
    ensures r.Ok? <==> Text.HasText(number) && (externalId.Some? ==> Text.HasText(externalId.value))
    ensures r.Throws? ==> r.fault == ArgumentNull
    ensures r.Ok? ==>
      var (w', t) := r.value;
      && Valid(w') && t == |w.trains| && |w'.trains| == t + 1 && w'.trains[..t] == w.trains
      && w' == w.(trains := w'.trains)
      && w'.trains[t] == Train(number.value, if externalId.Some? then externalId.value.value else "", "", [])
  {
    if Text.IsNullOrWhiteSpace(number) then Throws(ArgumentNull)
    else if externalId.Some? && Text.IsNullOrWhiteSpace(externalId.value) then Throws(ArgumentNull)
    else
      var tr := Train(number.value, if externalId.Some? then externalId.value.value else "", "", []);
      Ok((w.(trains := w.trains + [tr]), |w.trains|))
  }

  /** `Train.ToString()`: the category, a space and the number. */
  function ToString(w: World, t: TrainId): string
    requires t < |w.trains|
  {
    w.trains[t].category + " " + w.trains[t].number
  }

  /** When neither the category nor the number holds a space, splitting the
      train's text at the space gives both back. */
  lemma TrainTextSplits(w: World, t: TrainId)
    requires t < |w.trains| && ' ' !in w.trains[t].category && ' ' !in w.trains[t].number
    ensures Text.Split(ToString(w, t), ' ') == [w.trains[t].category, w.trains[t].number]
  {
    var tr := w.trains[t];
    Text.SplitAtFirst(tr.category, ' ', tr.number);
    Text.SplitAtFirst(tr.number, ' ', "");
    assert ToString(w, t) == tr.category + [' '] + tr.number;
  }

  /** `train[index]`: `ArgumentOutOfRangeException` outside the calls. */
  function CallAt(w: World, t: TrainId, index: int): (r: Result<CallId>)
    requires t < |w.trains|
    ensures r.Ok? <==> 0 <= index < |w.trains[t].calls|
    ensures r.Ok? ==> r.value == w.trains[t].calls[index]
    ensures r.Throws? ==> r.fault == ArgumentOutOfRange
  {
    if 0 <= index < |w.trains[t].calls| then Ok(w.trains[t].calls[index]) else Throws(ArgumentOutOfRange)
  }

  /** The train's calls include one equal to the call. */
  predicate HasCall(w: World, t: TrainId, c: CallId)
    requires Placed(w) && t < |w.trains| && c < |w.calls|
  {
    var cs := w.trains[t].calls;
    exists i :: 0 <= i < |cs| && CallEquals(w, cs[i], c)
  }

  /** `train.Add(call)`: unless an equal call is already there, the call's
      train becomes this train and the call is appended. */
  function AddCall(w: World, t: TrainId, c: CallId): (w': World)
    requires Placed(w) && t < |w.trains| && c < |w.calls|
    ensures Placed(w') && |w'.trains| == |w.trains| && |w'.calls| == |w.calls|
    ensures HasCall(w, t, c) ==> w' == w
    ensures !HasCall(w, t, c) ==>
      && w'.trains == w.trains[t := w.trains[t].(calls := w.trains[t].calls + [c])]
      && w'.calls == w.calls[c := w.calls[c].(train := Some(t))]
      && w'.layouts == w.layouts && w'.stations == w.stations && w'.tracks == w.tracks
  {
    if HasCall(w, t, c) then w
    else
      var tr := w.trains[t];
      w.(trains := w.trains[t := tr.(calls := tr.calls + [c])],
         calls := w.calls[c := w.calls[c].(train := Some(t))])
  }

  /** A call not yet added to any train is always appended: nothing equals
      it. Once added, the train has it and adding it again changes nothing. */
  lemma AddCallAppendsNewCall(w: World, t: TrainId, c: CallId)
    requires Placed(w) && t < |w.trains| && c < |w.calls| && w.calls[c].train.None?
    ensures !HasCall(w, t, c)
    ensures var w' := AddCall(w, t, c);
            && w'.trains[t].calls == w.trains[t].calls + [c] && w'.calls[c].train == Some(t)
            && HasCall(w', t, c) && AddCall(w', t, c) == w'
  {
    var cs := w.trains[t].calls;
    forall i | 0 <= i < |cs| ensures !CallEquals(w, cs[i], c) {
      CallEqualsNeedsTrain(w, c, cs[i]);
    }
    var w' := AddCall(w, t, c);
    CallEqualsNeedsTrain(w', c, c);
    assert w'.trains[t].calls[|cs|] == c;
  }

  /** `train.Layout`: the layout of the first call's station;
      `ArgumentOutOfRangeException` for a train without calls. */
  function TrainLayout(w: World, t: TrainId): (r: Result<Option<LayoutId>>)
    requires Placed(w) && t < |w.trains|
    ensures r.Ok? <==> |w.trains[t].calls| > 0
    ensures r.Throws? ==> r.fault == ArgumentOutOfRange
    ensures r.Ok? ==> r.value == w.stations[StationOf(w, w.trains[t].calls[0])].layout
  {
    if |w.trains[t].calls| == 0 then Throws(ArgumentOutOfRange)
    else Ok(w.stations[StationOf(w, w.trains[t].calls[0])].layout)
  }

  /** The calls' arrival in minutes, the key `Tracks` orders by. */
  function ArrivalKey(w: World): CallId -> int {
    (c: CallId) => if c < |w.calls| then w.calls[c].arrival.minutes else 0
  }

  function TracksOfCalls(w: World, cs: seq<CallId>): (r: seq<TrackId>)
    requires Valid(w) && CallsIn(w, cs)
    ensures |r| == |cs| && forall i :: 0 <= i < |cs| ==> r[i] == w.calls[cs[i]].track
    ensures TracksIn(w, r)
  {
    if |cs| == 0 then [] else [w.calls[cs[0]].track] + TracksOfCalls(w, cs[1..])
  }

  function TrackEqualsIn(w: World): (TrackId, TrackId) -> bool
    requires Placed(w)
  {
    (a: TrackId, b: TrackId) => a < |w.tracks| && b < |w.tracks| && TrackEquals(w, a, b)
  }

  /** `train.Tracks`: the tracks of the calls ordered by arrival, without
      tracks equal to an earlier one: every call's track is listed or equal
      to a listed one, every listed track is a call's track, and no two
      listed tracks are equal. */
  function TrainTracks(w: World, t: TrainId): (r: seq<TrackId>)
    requires Placed(w) && t < |w.trains|
    ensures TracksIn(w, r)
    ensures forall x <- r :: exists c <- w.trains[t].calls :: w.calls[c].track == x
    ensures forall c <- w.trains[t].calls :: w.calls[c].track in r
              || exists i :: 0 <= i < |r| && TrackEqualsIn(w)(r[i], w.calls[c].track)
    ensures Seqs.Unrelated(r, TrackEqualsIn(w))
    ensures Seqs.FirstOccurrences(r, TracksOfCalls(w, ByArrival(w, w.trains[t].calls)), TrackEqualsIn(w))
  {
    var cs := w.trains[t].calls;
    var sorted := ByArrival(w, cs);
    var ts := TracksOfCalls(w, sorted);
    var r := Seqs.Distinct<TrackId>(ts, TrackEqualsIn(w));
    TrackEqualsReflexive(w, ts);
    Seqs.DistinctKeepsFirstOccurrences(ts, TrackEqualsIn(w));
    TracksOfSameCalls(w, cs, sorted);
    assert TracksIn(w, r) by {
      forall i | 0 <= i < |r| ensures r[i] < |w.tracks| {
        assert r[i] in ts;
      }
    }
    r
  }

  /** The tracks of a reordering of the calls are the calls' tracks. */
  lemma TracksOfSameCalls(w: World, cs: seq<CallId>, sorted: seq<CallId>)
    requires Valid(w) && CallsIn(w, cs) && CallsIn(w, sorted) && forall c :: c in sorted <==> c in cs
    ensures forall x <- TracksOfCalls(w, sorted) :: exists c <- cs :: w.calls[c].track == x
    ensures forall c <- cs :: w.calls[c].track in TracksOfCalls(w, sorted)
  {
    var ts := TracksOfCalls(w, sorted);
    forall x | x in ts ensures exists c <- cs :: w.calls[c].track == x {
      var i :| 0 <= i < |ts| && ts[i] == x;
      assert sorted[i] in cs;
    }
    forall c | c in cs ensures w.calls[c].track in ts {
      var i :| 0 <= i < |sorted| && sorted[i] == c;
      assert ts[i] == w.calls[c].track;
    }
  }

  /** Every track of the world equals itself. */
  lemma TrackEqualsReflexive(w: World, ts: seq<TrackId>)
    requires Placed(w) && TracksIn(w, ts)
    ensures Seqs.ReflexiveOn(ts, TrackEqualsIn(w))
  {
    forall i | 0 <= i < |ts| ensures TrackEqualsIn(w)(ts[i], ts[i]) {
      assert Text.EqIgnoreCase(w.tracks[ts[i]].number, w.tracks[ts[i]].number);
      assert StationEquals(w.stations[w.tracks[ts[i]].station.value], w.stations[w.tracks[ts[i]].station.value]);
    }
  }

  /** `calls.OrderBy(c => c.Arrival)`: the same calls, as often as given,
      in order of arrival. */
  function ByArrival(w: World, cs: seq<CallId>): (r: seq<CallId>)
    requires Valid(w) && CallsIn(w, cs)
    ensures CallsIn(w, r)
    ensures forall c :: c in r <==> c in cs
    ensures multiset(r) == multiset(cs)
    ensures Seqs.SortedBy(r, ArrivalKey(w))
  {
    var sorted := Seqs.SortBy<CallId>(cs, ArrivalKey(w));
    assert forall c :: c in sorted <==> c in cs by {
      forall c ensures c in sorted <==> c in cs {
        assert c in sorted <==> c in multiset(sorted);
        assert c in cs <==> c in multiset(cs);
      }
    }
    assert CallsIn(w, sorted) by {
      forall i | 0 <= i < |sorted| ensures sorted[i] < |w.calls| {
        assert sorted[i] in cs;
      }
    }
    sorted
  }

  /** `WithFixedFirstAndLastCall`: the first call is no arrival and the last
      is no departure (for a single call, both); nothing else changes.
      `First()` throws `InvalidOperationException` for a train without
      calls. */
  function WithFixedFirstAndLastCall(w: World, t: TrainId): (r: Result<World>)
    requires Valid(w) && t < |w.trains|
    ensures r.Ok? <==> |w.trains[t].calls| > 0
    ensures r.Throws? ==> r.fault == InvalidOperation
    ensures r.Ok? ==>
      var cs := w.trains[t].calls;
      var (first, last) := (cs[0], cs[|cs| - 1]);
      && Valid(r.value) && r.value == r.value.(calls := r.value.calls) && |r.value.calls| == |w.calls|
      && r.value.layouts == w.layouts && r.value.stations == w.stations
      && r.value.tracks == w.tracks && r.value.trains == w.trains
      && !r.value.calls[first].isArrival && !r.value.calls[last].isDeparture
      && (first != last ==> r.value.calls[last].isArrival == w.calls[last].isArrival
                            && r.value.calls[first].isDeparture == w.calls[first].isDeparture)
      && (forall i :: 0 <= i < |w.calls| && i != first && i != last ==> r.value.calls[i] == w.calls[i])
      && (forall i :: 0 <= i < |w.calls| ==> Calls.IsStop(r.value.calls[i]) ==> Calls.IsStop(w.calls[i]))
  {
    var cs := w.trains[t].calls;
    if |cs| == 0 then Throws(InvalidOperation)
    else
      var first, last := cs[0], cs[|cs| - 1];
      var w1 := w.(calls := w.calls[first := w.calls[first].(isArrival := false)]);
      Ok(w1.(calls := w1.calls[last := w1.calls[last].(isDeparture := false)]))
  }

  /** `List.Remove` with an element matched by `p`: the first accepted
      element is removed and the rest keep their order; nothing is removed
      when none is accepted. */
  function RemoveFirst<T>(xs: seq<T>, p: T -> bool): (r: seq<T>)
    ensures (forall x <- xs :: !p(x)) ==> r == xs
    ensures (exists x <- xs :: p(x)) ==>
      exists i :: 0 <= i < |xs| && p(xs[i]) && (forall k :: 0 <= k < i ==> !p(xs[k])) && r == xs[..i] + xs[i + 1..]
    ensures |r| <= |xs| && forall k :: 0 <= k < |r| ==> r[k] in xs
  {
    var i := Seqs.IndexOfFirst(xs, p);
    if i < 0 then xs
    else
      var r := xs[..i] + xs[i + 1..];
      assert forall k :: 0 <= k < |r| ==> r[k] == if k < i then xs[k] else xs[k + 1];
      r
  }

  function EqualsCall(w: World, c: CallId): CallId -> bool
    requires Placed(w) && c < |w.calls|
  {
    (d: CallId) => d < |w.calls| && CallEquals(w, d, c)
  }

  /** `WithFixedSingleCallTrain`: a train with exactly one call gets two
      calls on that track instead, the first with both times the old
      arrival and the second with both times the old departure, neither
      marked as arrival or departure. The first call on the track equal to
      the old call is removed from the track; the two new calls are appended
      to the track (a new call has no train, so nothing equals it) and then
      to the train, which they now belong to. A train with any other number
      of calls is left as it is. */
  function WithFixedSingleCallTrain(w: World, t: TrainId): (w': World)
    requires Placed(w) && t < |w.trains|
    ensures Placed(w')
    ensures |w.trains[t].calls| != 1 ==> w' == w
    ensures |w.trains[t].calls| == 1 ==>
      var prev := w.calls[w.trains[t].calls[0]];
      var (a, d) := (|w.calls|, |w.calls| + 1);
      && |w'.calls| == |w.calls| + 2 && w'.calls[..|w.calls|] == w.calls
      && w'.calls[a] == Call(prev.track, prev.arrival, prev.arrival, false, false, Some(t))
      && w'.calls[d] == Call(prev.track, prev.departure, prev.departure, false, false, Some(t))
      && w'.trains == w.trains[t := w.trains[t].(calls := [a, d])]
      && w'.tracks == w.tracks[prev.track := w.tracks[prev.track].(calls :=
           RemoveFirst(w.tracks[prev.track].calls, EqualsCall(w, w.trains[t].calls[0])) + [a, d])]
      && w'.layouts == w.layouts && w'.stations == w.stations
  {
    var cs := w.trains[t].calls;
    if |cs| != 1 then w
    else
      var single := w.calls[cs[0]];
      var track := single.track;
      var (a, d) := (|w.calls|, |w.calls| + 1);
      var kept := RemoveFirst(w.tracks[track].calls, EqualsCall(w, cs[0]));
      var w' := World(
        w.layouts, w.stations,
        w.tracks[track := w.tracks[track].(calls := kept + [a, d])],
        w.calls + [Call(track, single.arrival, single.arrival, false, false, Some(t)),
                   Call(track, single.departure, single.departure, false, false, Some(t))],
        w.trains[t := w.trains[t].(calls := [a, d])]);
      SingleCallRepairIsPlaced(w, t, w');
      w'
  }

  lemma SingleCallRepairIsPlaced(w: World, t: TrainId, w': World)
    requires Placed(w) && t < |w.trains| && |w.trains[t].calls| == 1
    requires var track := w.calls[w.trains[t].calls[0]].track;
      && w'.layouts == w.layouts && w'.stations == w.stations
      && |w'.calls| == |w.calls| + 2 && w'.calls[..|w.calls|] == w.calls
      && w'.calls[|w.calls|].track == track && w'.calls[|w.calls| + 1].track == track
      && w'.calls[|w.calls|].train == Some(t) && w'.calls[|w.calls| + 1].train == Some(t)
      && w'.trains == w.trains[t := w.trains[t].(calls := [|w.calls|, |w.calls| + 1])]
      && |w'.tracks| == |w.tracks|
      && (forall i :: 0 <= i < |w.tracks| && i != track ==> w'.tracks[i] == w.tracks[i])
      && w'.tracks[track].station == w.tracks[track].station
      && forall x <- w'.tracks[track].calls :: x < |w.calls| + 2
    ensures Placed(w')
  {
    forall i | 0 <= i < |w'.calls| ensures CallIn(w', w'.calls[i]) {
      if i < |w.calls| { assert w'.calls[i] == w.calls[i]; }
    }
    forall i | 0 <= i < |w'.tracks| ensures TrackIn(w', w'.tracks[i]) {
      var cs := w'.tracks[i].calls;
      forall k | 0 <= k < |cs| ensures cs[k] < |w'.calls| {
        assert cs[k] in cs;
      }
    }
  }

  /** After the repair the train has two calls, so repairing it again
      changes nothing. */
  lemma WithFixedSingleCallTrainIsIdempotent(w: World, t: TrainId)
    requires Placed(w) && t < |w.trains|
    ensures var w' := WithFixedSingleCallTrain(w, t);
            t < |w'.trains| && WithFixedSingleCallTrain(w', t) == w'
  {
  }
}

=== FILE: validation.dfy ===
/** The validation engine: `GetValidationErrors` on a schedule, on a
    timetable and on a train, and the options that switch its checks on and
    off. Every message it produces is an information message. */
module Validation {
  import opened Results
  import Seqs
  import Messages
  import opened Graph
  import Layouts
  import Parts
  import Timetables
  import Occupancy
  import Checks
  import StretchChecks
  import SpeedChecks
  import opened Findings

  type Msg = Messages.Message<Finding>

  /** `ValidationOptions`. Only the station calls, station tracks,
      stretches, train speed and loco schedule switches and the two speed
      bounds are read by the engine. */
  datatype Options = Options(
    validateStationCalls: bool, validateStationTracks: bool, validateStretches: bool,
    validateTrainSpeed: bool, validateTrainNumbers: bool, validateLocoSchedules: bool,
    validateTrainsetSchedules: bool, validateDriverDuties: bool,
    minTrainSpeed: real, maxTrainSpeed: real, minMinutesBetweenTrackUsage: int)

  /** `new ValidationOptions()`: every check on, speeds from 0.3 to 10
      meters per clock minute, no minimum gap between track usages. */
  const Defaults: Options := Options(true, true, true, true, true, true, true, true, 0.3, 10.0, 0)

  /** The inputs the engine dereferences are in the world: the timetable's
      layout and trains, and every part of the schedule's loco schedules. */
  predicate Ready(w: World, p: Parts.Plan, tt: Timetables.Timetable, locos: seq<Parts.VehicleId>) {
    Built(w) && Timetables.TimetableIn(w, tt) && Occupancy.LocosIn(w, p, locos)
  }

  // ---------------------------------------------------------------------
  // The pieces of the timetable overload
  // ---------------------------------------------------------------------

  /** The two checks no option switches off: track references and the
      time sequence of every train. */
  function Ungated(w: World, tt: Timetables.Timetable): seq<Finding>
    requires Built(w) && Timetables.TimetableIn(w, tt)
  {
    Checks.EnsureStationHasTrack(w, tt.layout, tt.trains) + Checks.TimeSequences(w, tt.trains)
  }

  /** `stations.SelectMany(s => s.Tracks).SelectMany(t => t.GetValidationErrors(locos))`. */
  function TracksFindings(w: World, p: Parts.Plan, locos: seq<Parts.VehicleId>, ts: seq<TrackId>): (r: seq<Finding>)
    requires Built(w) && Occupancy.LocosIn(w, p, locos) && TracksIn(w, ts)
    ensures Seqs.Concatenation(r, EachTrackFindings(w, p, locos, ts))
  {
    if |ts| == 0 then
      assert EachTrackFindings(w, p, locos, ts) == [];
      []
    else
      var here := Occupancy.TrackFindings(w, p, locos, ts[0]);
      var rest := TracksFindings(w, p, locos, ts[1..]);
      Seqs.ConcatenationCons(here, rest, EachTrackFindings(w, p, locos, ts[1..]));
      here + rest
  }

  /** The messages of each track, one sequence per track. */
  function EachTrackFindings(w: World, p: Parts.Plan, locos: seq<Parts.VehicleId>, ts: seq<TrackId>): (r: seq<seq<Finding>>)
    requires Built(w) && Occupancy.LocosIn(w, p, locos) && TracksIn(w, ts)
    ensures |r| == |ts|
  {
    if |ts| == 0 then [] else [Occupancy.TrackFindings(w, p, locos, ts[0])] + EachTrackFindings(w, p, locos, ts[1..])
  }

  /** The station track and station call checks as the options
      select them. */
  function Gated(w: World, p: Parts.Plan, tt: Timetables.Timetable, locos: seq<Parts.VehicleId>, o: Options): seq<Finding>
    requires Ready(w, p, tt, locos)
  {
    var stations := w.layouts[tt.layout].stations;
    (if o.validateStationTracks then TracksFindings(w, p, locos, Layouts.StationTracks(w, tt.layout)) else [])
    + (if o.validateStationCalls then Checks.CallFindings(w, Checks.StationCalls(w, stations)) else [])
  }

  /** A stretch of the layout has a negative track count that the 32-bit
      loop bound does not wrap round. */
  predicate NegativeTracks(w: World, tt: Timetables.Timetable)
    requires Built(w) && Timetables.TimetableIn(w, tt)
  {
    exists st <- w.layouts[tt.layout].trackStretches :: StretchChecks.StretchThrows(w, st)
  }

  /** The distinct stretch messages when stretches are validated: they
      throw exactly for such a track count. */
  function Stretches(w: World, tt: Timetables.Timetable, o: Options): (r: Result<seq<Msg>>)
    requires Built(w) && Timetables.TimetableIn(w, tt)
    ensures r.Throws? <==> o.validateStretches && NegativeTracks(w, tt)
    ensures r.Throws? ==> r.fault == IndexOutOfRange
    ensures r.Ok? ==> forall m <- r.value :: m.severity == Messages.Severity.Information
  {
    if o.validateStretches then StretchChecks.DistinctStretchMessages(w, w.layouts[tt.layout].trackStretches) else Ok([])
  }

  /** Two stretches of the layout join the stations of a checked leg of a
      train. */
  predicate AmbiguousLeg(w: World, tt: Timetables.Timetable)
    requires Placed(w) && Timetables.TimetableIn(w, tt)
  {
    exists k, j :: 0 <= k < |tt.trains| && 0 <= j < |w.trains[tt.trains[k]].calls| - 2
                   && SpeedChecks.LegStretch(w, tt.trains[k], j).Throws?
  }

  /** The train speed messages when train speed is validated: they throw
      exactly when a checked leg has two stretches. */
  function Speeds(w: World, tt: Timetables.Timetable, o: Options): (r: Result<seq<Finding>>)
    requires Placed(w) && Timetables.TimetableIn(w, tt)
    ensures r.Throws? <==> o.validateTrainSpeed && AmbiguousLeg(w, tt)
    ensures r.Throws? ==> r.fault == InvalidOperation
  {
    if o.validateTrainSpeed then
      var r := SpeedChecks.TimetableSpeedFindings(w, o.minTrainSpeed, o.maxTrainSpeed, tt.trains);
      SpeedThrowsOnAmbiguousLeg(w, tt, o.minTrainSpeed, o.maxTrainSpeed);
      r
    else Ok([])
  }

  lemma {:induction false} SpeedThrowsOnAmbiguousLeg(w: World, tt: Timetables.Timetable, min: real, max: real)
    requires Placed(w) && Timetables.TimetableIn(w, tt)
    ensures var r := SpeedChecks.TimetableSpeedFindings(w, min, max, tt.trains);
      r.Throws? ==> AmbiguousLeg(w, tt) && r.fault == InvalidOperation
    ensures AmbiguousLeg(w, tt) ==> SpeedChecks.TimetableSpeedFindings(w, min, max, tt.trains).Throws?
  {
    SpeedThrowsOnlyOnAmbiguousLeg(w, tt, min, max);
    if AmbiguousLeg(w, tt) {
      var k, j :| 0 <= k < |tt.trains| && 0 <= j < |w.trains[tt.trains[k]].calls| - 2
                  && SpeedChecks.LegStretch(w, tt.trains[k], j).Throws?;
      SpeedChecks.TimetableSpeedThrows(w, min, max, tt.trains);
      SpeedChecks.AmbiguousLegThrows(w, min, max, tt.trains[k], j);
    }
  }

  lemma {:induction false} SpeedThrowsOnlyOnAmbiguousLeg(w: World, tt: Timetables.Timetable, min: real, max: real)
    requires Placed(w) && Timetables.TimetableIn(w, tt)
    ensures var r := SpeedChecks.TimetableSpeedFindings(w, min, max, tt.trains);
      r.Throws? ==> AmbiguousLeg(w, tt) && r.fault == InvalidOperation
  {
    var r := SpeedChecks.TimetableSpeedFindings(w, min, max, tt.trains);
    SpeedChecks.TimetableSpeedThrows(w, min, max, tt.trains);
    if r.Throws? {
      var k :| 0 <= k < |tt.trains| && SpeedChecks.TrainSpeedFindings(w, min, max, tt.trains[k]) == r;
      SpeedChecks.TrainSpeedThrowsOnAmbiguousLeg(w, min, max, tt.trains[k]);
      var j :| 0 <= j < |w.trains[tt.trains[k]].calls| - 2 && SpeedChecks.LegStretch(w, tt.trains[k], j).Throws?;
    }
  }

  /** The messages in the order they are added: the unconditional and
      option-selected ones, then the stretch messages, then the speed
      messages. Evaluation is eager, so a throwing stretch check wins over
      a throwing speed check. */
  function Combine(first: seq<Msg>, stretches: Result<seq<Msg>>, speeds: Result<seq<Finding>>): (r: Result<seq<Msg>>)
    ensures r.Throws? <==> stretches.Throws? || speeds.Throws?
    ensures r.Throws? ==> r.fault == (if stretches.Throws? then stretches.fault else speeds.fault)
    ensures r.Ok? ==> first <= r.value
    ensures r.Ok? ==> r.value == first + stretches.value + Info(speeds.value)
  {
    match stretches
    case Throws(f) => Throws(f)
    case Ok(ss) =>
      match speeds
      case Throws(f) => Throws(f)
      case Ok(vs) => Ok(first + ss + Info(vs))
  }

  /** `timetable.GetValidationErrors(schedule, options)`: track references
      and time sequences always; then station tracks, station calls,
      distinct stretch messages and train speeds as the options select
      them, in that order. A stretch with a negative track count throws
      `IndexOutOfRangeException` unless its 32-bit loop bound wraps round; when stretches pass, two stretches
      between the stations of a checked leg throw
      `InvalidOperationException`. Every message is an information
      message. */
  function TimetableFindings(w: World, p: Parts.Plan, tt: Timetables.Timetable, locos: seq<Parts.VehicleId>, o: Options)
    : (r: Result<seq<Msg>>)
    requires Ready(w, p, tt, locos)
    ensures r.Throws? <==> (o.validateStretches && NegativeTracks(w, tt)) || (o.validateTrainSpeed && AmbiguousLeg(w, tt))
    ensures r.Throws? ==> r.fault == (if o.validateStretches && NegativeTracks(w, tt) then IndexOutOfRange else InvalidOperation)
    ensures r.Ok? ==> forall m <- r.value :: m.severity == Messages.Severity.Information
    ensures r.Ok? ==> Info(Ungated(w, tt) + Gated(w, p, tt, locos, o)) <= r.value
  {
    var first := Info(Ungated(w, tt) + Gated(w, p, tt, locos, o));
    var r := Combine(first, Stretches(w, tt, o), Speeds(w, tt, o));
    AllInformation(first, Stretches(w, tt, o), Speeds(w, tt, o));
    r
  }

  /** Information messages combined with information messages are
      information messages. */
  lemma {:induction false} AllInformation(first: seq<Msg>, stretches: Result<seq<Msg>>, speeds: Result<seq<Finding>>)
    requires forall m <- first :: m.severity == Messages.Severity.Information
    requires stretches.Ok? ==> forall m <- stretches.value :: m.severity == Messages.Severity.Information
    ensures Combine(first, stretches, speeds).Ok? ==>
      forall m <- Combine(first, stretches, speeds).value :: m.severity == Messages.Severity.Information
  {
  }

  /** Every message of the engine is an information message, so its output
      never holds a stopping error. */
  lemma {:induction false} NoStoppingErrors(w: World, p: Parts.Plan, tt: Timetables.Timetable, locos: seq<Parts.VehicleId>, o: Options)
    requires Ready(w, p, tt, locos) && TimetableFindings(w, p, tt, locos, o).Ok?
    ensures !Messages.HasStoppingErrors(TimetableFindings(w, p, tt, locos, o).value)
  {
    InformationOnly(TimetableFindings(w, p, tt, locos, o).value);
  }

  lemma {:induction false} InformationOnly(ms: seq<Msg>)
    requires forall m <- ms :: m.severity == Messages.Severity.Information
    ensures !Messages.HasStoppingErrors(ms)
  {
    forall i | 0 <= i < |ms| ensures Messages.Ord(ms[i].severity) < Messages.Ord(Messages.Severity.Error) {
      assert ms[i] in ms;
    }
  }

  /** With every switch off, only track references and time sequences are
      checked, and nothing throws. */
  lemma {:induction false} AllOffLeavesUngated(w: World, p: Parts.Plan, tt: Timetables.Timetable, locos: seq<Parts.VehicleId>, o: Options)
    requires Ready(w, p, tt, locos)
    requires !o.validateStationTracks && !o.validateStationCalls && !o.validateStretches && !o.validateTrainSpeed
    ensures TimetableFindings(w, p, tt, locos, o) == Ok(Info(Ungated(w, tt)))
  {
    GatedOff(w, p, tt, locos, o);
    StretchesAndSpeedsOff(w, tt, o);
    CombineNothing(Ungated(w, tt), Gated(w, p, tt, locos, o), Stretches(w, tt, o), Speeds(w, tt, o));
  }

  lemma {:induction false} GatedOff(w: World, p: Parts.Plan, tt: Timetables.Timetable, locos: seq<Parts.VehicleId>, o: Options)
    requires Ready(w, p, tt, locos)
    requires !o.validateStationTracks && !o.validateStationCalls && !o.validateStretches && !o.validateTrainSpeed
    ensures Gated(w, p, tt, locos, o) == []
  {
  }

  lemma StretchesAndSpeedsOff(w: World, tt: Timetables.Timetable, o: Options)
    requires Built(w) && Timetables.TimetableIn(w, tt)
    requires !o.validateStretches && !o.validateTrainSpeed
    ensures Stretches(w, tt, o) == Ok([]) && Speeds(w, tt, o) == Ok([])
  {
  }

  lemma {:induction false} CombineNothing(ungated: seq<Finding>, gated: seq<Finding>, stretches: Result<seq<Msg>>, speeds: Result<seq<Finding>>)
    requires gated == [] && stretches == Ok([]) && speeds == Ok([])
    ensures Combine(Info(ungated + gated), stretches, speeds) == Ok(Info(ungated))
  {
    assert Info([]) == [];
    assert ungated + gated == ungated;
    assert Info(ungated) + [] + [] == Info(ungated);
  }

  /** The train numbers, trainset schedules, driver duties and minimum gap
      options are never read: changing them changes nothing. */
  lemma {:induction false} UnreadOptionsHaveNoEffect(w: World, p: Parts.Plan, tt: Timetables.Timetable, locos: seq<Parts.VehicleId>,
                                  o: Options, numbers: bool, trainsets: bool, duties: bool, gap: int)
    requires Ready(w, p, tt, locos)
    ensures var o' := o.(validateTrainNumbers := numbers, validateTrainsetSchedules := trainsets,
                         validateDriverDuties := duties, minMinutesBetweenTrackUsage := gap);
      TimetableFindings(w, p, tt, locos, o') == TimetableFindings(w, p, tt, locos, o)
  {
  }

  // ---------------------------------------------------------------------
  // The schedule overload
  // ---------------------------------------------------------------------

  /** `schedule.LocoSchedules.SelectMany(l => l.ValidateOverlappingParts())`. */
  function LocoFindings(w: World, p: Parts.Plan, locos: seq<Parts.VehicleId>): (r: seq<Finding>)
    requires Built(w) && Occupancy.LocosIn(w, p, locos)
    ensures Seqs.Concatenation(r, EachLocoFindings(w, p, locos))
  {
    if |locos| == 0 then
      assert EachLocoFindings(w, p, locos) == [];
      []
    else
      var here := Checks.OverlappingPartsFindings(w, p.vehicles[locos[0]]);
      var rest := LocoFindings(w, p, locos[1..]);
      Seqs.ConcatenationCons(here, rest, EachLocoFindings(w, p, locos[1..]));
      here + rest
  }

  /** The overlapping parts messages of each loco schedule, one sequence
      per schedule. */
  function EachLocoFindings(w: World, p: Parts.Plan, locos: seq<Parts.VehicleId>): (r: seq<seq<Finding>>)
    requires Built(w) && Occupancy.LocosIn(w, p, locos)
    ensures |r| == |locos| && forall k :: 0 <= k < |locos| ==> r[k] == Checks.OverlappingPartsFindings(w, p.vehicles[locos[k]])
  {
    if |locos| == 0 then [] else [Checks.OverlappingPartsFindings(w, p.vehicles[locos[0]])] + EachLocoFindings(w, p, locos[1..])
  }

  /** The schedule's inputs are in the world. */
  predicate ScheduleReady(w: World, p: Parts.Plan, s: Parts.Schedule) {
    Ready(w, p, s.timetable, s.locos)
  }

  /** `schedule.GetValidationErrors(options)`: the timetable's messages for
      this schedule, then the loco schedules' overlapping parts when loco
      schedules are validated; it throws exactly when the timetable's
      validation does. */
  function ScheduleFindings(w: World, p: Parts.Plan, s: Parts.Schedule, o: Options): (r: Result<seq<Msg>>)
    requires ScheduleReady(w, p, s)
    ensures var t := TimetableFindings(w, p, s.timetable, s.locos, o);
      && (r.Throws? <==> t.Throws?)
      && (r.Throws? ==> r.fault == t.fault)
      && (r.Ok? ==> t.value <= r.value)
      && (r.Ok? && !o.validateLocoSchedules ==> r == t)
      && (r.Ok? ==> forall m <- r.value :: m.severity == Messages.Severity.Information)
  {
    var t := TimetableFindings(w, p, s.timetable, s.locos, o);
    Then(t, if o.validateLocoSchedules then Info(LocoFindings(w, p, s.locos)) else [])
  }

  /** Further information messages after an outcome. */
  function Then(t: Result<seq<Msg>>, more: seq<Msg>): (r: Result<seq<Msg>>)
    requires t.Ok? ==> forall m <- t.value :: m.severity == Messages.Severity.Information
    requires forall m <- more :: m.severity == Messages.Severity.Information
    ensures r.Throws? <==> t.Throws?
    ensures r.Throws? ==> r.fault == t.fault
    ensures r.Ok? ==> t.value <= r.value && |r.value| == |t.value| + |more|
    ensures r.Ok? && more == [] ==> r == t
    ensures r.Ok? ==> forall m <- r.value :: m.severity == Messages.Severity.Information
  {
    match t
    case Throws(f) => Throws(f)
    case Ok(ms) =>
      assert ms + [] == ms;
      Ok(ms + more)
  }

  /** The schedule overload adds only information messages too. */
  lemma {:induction false} ScheduleHasNoStoppingErrors(w: World, p: Parts.Plan, s: Parts.Schedule, o: Options)
    requires ScheduleReady(w, p, s) && ScheduleFindings(w, p, s, o).Ok?
    ensures !Messages.HasStoppingErrors(ScheduleFindings(w, p, s, o).value)
  {
    InformationOnly(ScheduleFindings(w, p, s, o).value);
  }

  // ---------------------------------------------------------------------
  // The train overload
  // ---------------------------------------------------------------------

  /** `train.GetValidationErrors(options)`: the train's speed messages with
      the options' bounds, whatever the speed switch says, then its time
      sequence messages; it throws exactly when the speed check does. */
  function TrainFindings(w: World, t: TrainId, o: Options): (r: Result<seq<Msg>>)
    requires Placed(w) && t < |w.trains|
    ensures r.Throws? <==> SpeedChecks.TrainSpeedFindings(w, o.minTrainSpeed, o.maxTrainSpeed, t).Throws?
    ensures r.Throws? ==> r.fault == InvalidOperation
    ensures r.Ok? ==> var ts := Info(Checks.TimeSequenceFindings(w, t));
      |ts| <= |r.value| && r.value[|r.value| - |ts|..] == ts
    ensures r.Ok? ==> forall m <- r.value :: m.severity == Messages.Severity.Information
  {
    var speeds := SpeedChecks.TrainSpeedFindings(w, o.minTrainSpeed, o.maxTrainSpeed, t);
    match speeds
    case Throws(f) =>
      SpeedChecks.TrainSpeedThrowsOnAmbiguousLeg(w, o.minTrainSpeed, o.maxTrainSpeed, t);
      Throws(f)
    case Ok(vs) => Ok(InfoBefore(vs, Checks.TimeSequenceFindings(w, t)))
  }

  /** The train's messages are its speed messages, then its time sequence
      messages. */
  lemma TrainFindingsContent(w: World, t: TrainId, o: Options)
    requires Placed(w) && t < |w.trains| && TrainFindings(w, t, o).Ok?
    ensures SpeedChecks.TrainSpeedFindings(w, o.minTrainSpeed, o.maxTrainSpeed, t).Ok?
    ensures TrainFindings(w, t, o).value ==
      Info(SpeedChecks.TrainSpeedFindings(w, o.minTrainSpeed, o.maxTrainSpeed, t).value) + Info(Checks.TimeSequenceFindings(w, t))
  {
  }

  /** The information messages of `first`, then those of `last`. */
  function InfoBefore(first: seq<Finding>, last: seq<Finding>): (r: seq<Msg>)
    ensures |Info(last)| <= |r| && r[|r| - |Info(last)|..] == Info(last)
    ensures r == Info(first) + Info(last)
    ensures forall m <- r :: m.severity == Messages.Severity.Information
  {
    var r := Info(first) + Info(last);
    assert r[|r| - |Info(last)|..] == Info(last);
    assert forall i :: 0 <= i < |r| ==> r[i].severity == Messages.Severity.Information;
    r
  }
}

=== FILE: worksheet_config.dfy ===
/** The data set configuration of the spreadsheet importer: the worksheets
    to read, each with its number of columns, kept without duplicate names
    ignoring case. */
module WorksheetConfig {
  import opened Results
  import Text
  import Seqs

  /** `WorksheetConfiguration(Name, Colums)`. */
  datatype WorksheetConfiguration = WorksheetConfiguration(name: string, columns: int)

  /** `DataSetConfiguration`: its list of worksheet configurations, in the
      order they were added. */
  type Configuration = seq<WorksheetConfiguration>

  predicate NameIs(c: WorksheetConfiguration, name: string) {
    Text.EqIgnoreCase(c.name, name)
  }

  function NameLike(name: string): WorksheetConfiguration -> bool {
    (c: WorksheetConfiguration) => NameIs(c, name)
  }

  /** The names that are not empty are pairwise distinct ignoring case. An
      empty name is never found, so it can be stored more than once. */
  predicate Distinct(cfg: Configuration) {
    forall i, j :: 0 <= i < j < |cfg| && cfg[i].name != "" ==> !NameIs(cfg[j], cfg[i].name)
  }

  /** `ContainsWorksheet(name)`: false for null or empty; otherwise some
      stored name equals it ignoring case. */
  predicate ContainsWorksheet(cfg: Configuration, name: Text.NString) {
    !Text.IsNullOrEmpty(name) && exists c <- cfg :: NameIs(c, name.value)
  }

  /** `Add(configuration)`: appended unless its name is already there. */
  function Add(cfg: Configuration, c: WorksheetConfiguration): (r: Configuration)
    ensures |cfg| <= |r| <= |cfg| + 1 && r[..|cfg|] == cfg
    ensures |r| == |cfg| + 1 ==> r[|cfg|] == c
    ensures c.name != "" ==> ContainsWorksheet(r, Some(c.name))
    ensures |r| == |cfg| <==> ContainsWorksheet(cfg, Some(c.name))
  {
    Text.EqIgnoreCaseIsEquivalence(c.name, c.name, c.name);
    if ContainsWorksheet(cfg, Some(c.name)) then cfg
    else
      assert (cfg + [c])[..|cfg|] == cfg;
      assert (cfg + [c])[|cfg|] == c && c in cfg + [c];
      cfg + [c]
  }

  /** `Worksheets`: the stored names, in order. */
  function Worksheets(cfg: Configuration): (r: seq<string>)
    ensures |r| == |cfg| && forall i :: 0 <= i < |r| ==> r[i] == cfg[i].name
  {
    seq(|cfg|, i requires 0 <= i < |cfg| => cfg[i].name)
  }

  /** `WorksheetConfiguration(name)`: null for null or empty; otherwise
      `SingleOrDefault` on the name ignoring case, which throws
      `InvalidOperationException` when two stored names match. */
  function Lookup(cfg: Configuration, name: Text.NString): (r: Result<Option<WorksheetConfiguration>>)
    ensures r.Throws? <==> !Text.IsNullOrEmpty(name) && Seqs.TwoMatches(cfg, NameLike(name.value))
    ensures r.Throws? ==> r.fault == InvalidOperation
    ensures r.Ok? ==> (r.value.Some? <==> ContainsWorksheet(cfg, name))
    ensures r.Ok? && r.value.Some? ==> r.value.value in cfg && NameIs(r.value.value, name.value)
  {
    if Text.IsNullOrEmpty(name) then Ok(None)
    else Seqs.SingleOrDefault(cfg, NameLike(name.value))
  }

  /** Adding keeps the non-empty names distinct. */
  lemma AddKeepsDistinct(cfg: Configuration, c: WorksheetConfiguration)
    requires Distinct(cfg)
    ensures Distinct(Add(cfg, c))
  {
    var r := Add(cfg, c);
    if |r| == |cfg| + 1 {
      forall i | 0 <= i < |cfg| && cfg[i].name != ""
        ensures !NameIs(c, cfg[i].name)
      {
        Text.EqIgnoreCaseIsEquivalence(c.name, cfg[i].name, c.name);
        if c.name != "" {
          assert cfg[i] in cfg;
        }
      }
      assert forall i :: 0 <= i < |cfg| ==> r[i] == cfg[i];
    }
  }

  /** Adding a configuration whose name is not empty a second time changes
      nothing. */
  lemma AddIsIdempotent(cfg: Configuration, c: WorksheetConfiguration)
    requires c.name != ""
    ensures Add(Add(cfg, c), c) == Add(cfg, c)
  {
  }

  /** A configuration with an empty name is stored again on each `Add`, so
      the stored names are not distinct when empty names are allowed. */
  lemma EmptyNameIsAddedTwice(cfg: Configuration, c: WorksheetConfiguration)
    requires c.name == ""
    ensures Add(Add(cfg, c), c) == cfg + [c, c]
  {
  }

  /** `Worksheets` grows by the name exactly when `Add` stores it. */
  lemma WorksheetsAfterAdd(cfg: Configuration, c: WorksheetConfiguration)
    ensures Worksheets(Add(cfg, c)) ==
      if ContainsWorksheet(cfg, Some(c.name)) then Worksheets(cfg) else Worksheets(cfg) + [c.name]
  {
  }

  /** With distinct names the lookup never throws. */
  lemma LookupOfDistinctIsOk(cfg: Configuration, name: Text.NString)
    requires Distinct(cfg)
    ensures Lookup(cfg, name).Ok?
  {
    if !Text.IsNullOrEmpty(name) {
      Seqs.FilterHasTwo(cfg, NameLike(name.value));
    }
  }

  /** After adding a configuration with a non-empty name to distinct
      configurations, the lookup by that name finds it, or the entry that
      already had the name. */
  lemma LookupAfterAdd(cfg: Configuration, c: WorksheetConfiguration)
    requires Distinct(cfg) && c.name != ""
    ensures var r := Lookup(Add(cfg, c), Some(c.name));
      && r.Ok? && r.value.Some? && NameIs(r.value.value, c.name)
      && (!ContainsWorksheet(cfg, Some(c.name)) ==> r.value.value == c)
      && (ContainsWorksheet(cfg, Some(c.name)) ==> r.value.value in cfg)
  {
    AddKeepsDistinct(cfg, c);
    LookupOfDistinctIsOk(Add(cfg, c), Some(c.name));
  }
}
